=== FILE: README.md ===
# KBox protocol and firmware core in Dafny

KBox is a marine-instrument board: a Teensy main board and an ESP8266 Wi-Fi module. They gather NMEA 0183, NMEA 2000 and sensor data and publish it as SignalK. A host tool (`tools/kbox.py`) talks to the board over a serial link. It uses SLIP-framed commands: each frame starts with a two-byte little-endian identifier, and the device pushes log and Wi-Fi status frames unprompted.

This project models the core of that system and proves properties of the model.

Host side:
- SLIP framing and resynchronisation;
- the command/reply dispatcher;
- the chunked file transfer with its id checks and retries;
- the log, Wi-Fi status and Wi-Fi configuration payloads;
- screen capture.

Firmware side:
- the SLIP stream;
- the two frame builders and the frame reader;
- the Wi-Fi configuration and log handlers;
- SKTime calendar arithmetic and its NMEA and RFC 3339 text forms;
- the wrap-safe wall clock;
- the linked list;
- the embedded SignalK key/value store, with its path order and validator;
- SKPath, SKSource and SKUpdateStatic;
- the NMEA 0183 sentence reader;
- CRC-32 (IEEE 802.3 clause 3.2.9, reflected polynomial 0xEDB88320);
- the `$PCDIN` serialiser;
- the task run statistics and event counters;
- the EEPROM storage;
- the JSON configuration parser.

Each component is one module:
- Pure code is modelled with datatypes, functions and lemmas.
- Objects the source updates in place are classes: the SLIP reader and stream, the frame builders and reader, the linked list, the SignalK context, SKUpdateStatic, the wall clock, RunStat, the metrics and the EEPROM. Their fields are arrays or sequences, and their methods are proved against specification functions.
- Fixed-width integers are subset types of `int`. Where the source wraps or truncates (32-bit time, `size_t` arithmetic, the SLIP decoder's 32-bit error counter, 64-bit counters), the model does so explicitly.

## Model

| member | source | states |
|---|---|---|
| Slip.ReplaceChainIsEscape | tools/kbox.py:125-127 | replacing ESC by ESC ESC_ESC and then END by ESC ESC_END, in that order, equals escaping the packet byte by byte |
| Slip.EscapeHasNoEnd | tools/kbox.py:125-127 | the escaped body of a frame contains no END byte, so END only opens and closes a frame |
| Slip.BodyThenEnd | tools/kbox.py:55-69 | inside a packet, an escaped body followed by END yields the accumulated bytes plus the body, and leaves the reader idle |
| Slip.WriteThenRead | tools/kbox.py:43-69 | an idle reader, connected or not, decodes the output of `write` back into exactly the packet and is left idle and connected |
| Slip.WriteAllThenRead | tools/kbox.py:43-69 | frames of several packets sent back to back are yielded one by one, in order, with no error, by either reader |
| Slip.NoiseBeforeFirstFrame | tools/kbox.py:44-53 | before the first END, bytes are dropped silently, so a frame after such noise is still decoded |
| Slip.StrayByteFails | tools/kbox.py:44-53 | once connected (the strict reader always), a byte other than END between packets raises and ends the generator |
| Slip.InvalidEscapeFails | tools/kbox.py:55-62 | ESC followed by anything but ESC_END or ESC_ESC raises "Invalid SLIP escape" |
| Slip.TimeoutKeepsPartial | tools/kbox.py:35-41 | an empty read yields None and keeps the partial packet; the strict reader raises and its generator is finished instead |
| Slip.SlipReader.constructor | tools/kbox.py:28-30 | a new generator waits for a header, not in escape, not connected (the strict reader behaves as connected) |
| Slip.SlipReader.Read | tools/kbox.py:32-69 | one pass of the generator loop gives the events and the generator state that the byte-step specification gives for the chunk |
| SlipStream.FrameIsHostWrite | lib/KBox/src/util/SlipStream.cpp:96-113 | writeFrame puts on the wire exactly the bytes that the host tools' `write` produces for the same packet |
| SlipStream.BodyCompletes | lib/KBox/src/util/SlipStream.cpp:35-70 | inside a frame, an escaped body then END completes the frame with the body appended, while the body fits below the MTU |
| SlipStream.FrameRoundTrip | lib/KBox/src/util/SlipStream.cpp:34-84 | a ready decoder reports the length of a non-empty frame shorter than the MTU, holds exactly its bytes, and leaves the input after it unread, even while it was discarding an invalid frame |
| SlipStream.RepeatedEnds | lib/KBox/src/util/SlipStream.cpp:54-61 | repeated END bytes never complete a frame and never count an error |
| SlipStream.CountError | src/common/comms/SlipStream.h:39 | one more dropped frame on the uint32_t counter: the count plus one, modulo 2^32 |
| SlipStream.InvalidEscape | lib/KBox/src/util/SlipStream.cpp:45-51 | ESC followed by a byte other than 0xDC or 0xDD empties the buffer, counts one error (the 32-bit counter wrapping to 0 after 2^32 - 1) and marks the frame invalid |
| SlipStream.OversizedFrameRejected | lib/KBox/src/util/SlipStream.cpp:72-77 | a frame of at least `mtu` plain bytes is never delivered: available reports 0 and counts one error, modulo 2^32 |
| SlipStream.CompleteConsumesNothing | lib/KBox/src/util/SlipStream.cpp:35 | once a frame is complete, available reads nothing more and keeps reporting the frame's length |
| SlipStream.SplitInput | lib/KBox/src/util/SlipStream.cpp:35-70 | input split across two calls of available decodes as if it had come at once, when the first call neither completes a frame nor fills the buffer |
| SlipStream.BackToBack | lib/KBox/src/util/SlipStream.cpp:34-94 | two frames sent back to back are delivered one after the other, with readFrame in between |
| SlipStream.SlipStream.constructor | lib/KBox/src/util/SlipStream.cpp:29-32 | a buffer of `mtu` bytes, index 0, no frame pending |
| SlipStream.SlipStream.Available | lib/KBox/src/util/SlipStream.cpp:34-84 | the decoder state and the unread input afterwards are those of the byte-step specification, and the result is the frame length when complete, else 0 |
| SlipStream.SlipStream.InvalidFrameErrors | src/common/comms/SlipStream.h:80-82 | reports the count of dropped frames kept in the decoder state, a 32-bit counter that wraps to 0 |
| SlipStream.SlipStream.ReadFrame | lib/KBox/src/util/SlipStream.cpp:86-94 | copies min(len, index) bytes of the frame into the caller's buffer, leaves the rest of it alone, and empties the decoder buffer |
| SlipStream.SlipStream.WriteFrame | lib/KBox/src/util/SlipStream.cpp:96-113 | appends to the stream END, each byte escaped, END, and returns `len` |
| SlipStream.SlipStream.Step | lib/KBox/src/util/SlipStream.cpp:36-69 | one byte taken by the loop of available moves the decoder exactly as the byte step of the decoding does, touching neither the input nor the output |
| SlipStream.SlipStream.PutEscaped | lib/KBox/src/util/SlipStream.cpp:99-109 | END goes out as ESC 0xDC, ESC as ESC 0xDD, any other byte as it is |
| Kommand.Put | src/common/comms/Kommand.h:149-172 | an appender either adds all its bytes or, when they would pass `bufferSize`, nothing; the frame never grows beyond `bufferSize` |
| Kommand.PutString | src/common/comms/Kommand.h:178-196 | the string appender keeps the frame within `bufferSize` and only ever appends |
| Kommand.PutStringCases | src/common/comms/Kommand.h:178-196 | nullptr appends only the NUL (when there is room); a non-empty string is truncated to the room left minus one and terminated; an empty string, or a frame with at most one byte free, appends nothing |
| Kommand.FixedSizeKommand.constructor | src/common/comms/Kommand.h:145-147 | a new frame holds the identifier, little-endian |
| Kommand.FixedSizeKommand.Append32 | src/common/comms/Kommand.h:149-157 | appends the word little-endian, or nothing when four bytes do not fit |
| Kommand.FixedSizeKommand.Append16 | src/common/comms/Kommand.h:159-165 | appends the half-word little-endian, or nothing when two bytes do not fit |
| Kommand.FixedSizeKommand.Append8 | src/common/comms/Kommand.h:167-172 | appends the byte, or nothing when the frame is full |
| Kommand.FixedSizeKommand.AppendNullTerminatedString | src/common/comms/Kommand.h:178-196 | the frame afterwards is the string appender's result on the frame before |
| Kommand.FixedSizeKommand.Write | src/common/comms/Kommand.h:198-204 | Print::write appends the byte and returns 1, or returns 0 with the frame unchanged when it is full |
| Kommand.FixedSizeKommand.GetSize | src/common/comms/Kommand.h:215-217 | the number of bytes in the frame, identifier included, never above `bufferSize` |
| LegacyKommand.StringOverflowsBuffer | lib/KBox/src/util/Kommand.h:84-92 | with maxDataSize 4, after the identifier and one 16-bit value a three-byte string is still copied in full, to 7 bytes, past the 6-byte buffer |
| LegacyKommand.PutStringBoundedKeepsBound | lib/KBox/src/util/Kommand.h:80-96 | the corrected appender keeps the frame within maxDataSize bytes and terminates every string it copies part of |
| LegacyKommand.AgreeBelowBound | lib/KBox/src/util/Kommand.h:80-96 | while the frame is not full, the written and the corrected appenders agree |
| LegacyKommand.LegacyKommand.constructor | lib/KBox/src/util/Kommand.h:51-53 | a new frame holds the identifier, when it fits in maxDataSize |
| LegacyKommand.LegacyKommand.Append32 | lib/KBox/src/util/Kommand.h:55-63 | appends the word, or nothing when it would pass maxDataSize (not 2 + maxDataSize) |
| LegacyKommand.LegacyKommand.Append16 | lib/KBox/src/util/Kommand.h:65-71 | appends the half-word, or nothing when it would pass maxDataSize |
| LegacyKommand.LegacyKommand.Append8 | lib/KBox/src/util/Kommand.h:73-78 | appends the byte, or nothing when it would pass maxDataSize |
| LegacyKommand.LegacyKommand.AppendNullTerminatedString | lib/KBox/src/util/Kommand.h:80-96 | the frame afterwards is the as-written string appender's result |
| LegacyKommand.LegacyKommand.GetSize | lib/KBox/src/util/Kommand.h:107-109 | the number of bytes written so far |
| KommandReader.Data | src/common/comms/KommandReader.h:45-49 | the data is the frame after its two identifier bytes, and empty for a frame shorter than two bytes |
| KommandReader.ReadString | src/common/comms/KommandReader.h:73-79 | a string read ends the index just past its NUL inside the data; a missing NUL gives null and no move |
| KommandReader.ReadStringMeaning | src/common/comms/KommandReader.h:73-79 | a string read is the NUL-free run up to the next NUL; null is returned exactly when no NUL follows the index |
| KommandReader.ReadStringAt | src/common/comms/KommandReader.h:73-79 | conversely, a NUL-free run followed by NUL at the index is what is read |
| KommandReader.KommandReader.constructor | src/common/comms/KommandReader.h:36-51 | a reader over the frame, at the first data byte |
| KommandReader.KommandReader.Read8 | src/common/comms/KommandReader.h:58-61 | the next byte, and the index advanced by 1 (0 and no move past the end) |
| KommandReader.KommandReader.Read16 | src/common/comms/KommandReader.h:63-66 | the next two bytes little-endian, and the index advanced by 2 (0 and no move past the end) |
| KommandReader.KommandReader.Read32 | src/common/comms/KommandReader.h:68-71 | the next four bytes little-endian, and the index advanced by 4 (0 and no move past the end) |
| KommandReader.KommandReader.ReadNullTerminatedString | src/common/comms/KommandReader.h:73-79 | the string read from the index and the index after it |
| KommandReader.KommandReader.Reset | src/common/comms/KommandReader.h:91-95 | the index goes back to the first data byte |
| KommandReader.ReadU8After | src/common/comms/KommandReader.h:58-61 | a byte appended by a builder is read back, and reading continues after it |
| KommandReader.ReadU16After | src/common/comms/KommandReader.h:63-66 | a 16-bit value appended little-endian is read back, and reading continues after it |
| KommandReader.ReadU32After | src/common/comms/KommandReader.h:68-71 | a 32-bit value appended little-endian is read back, and reading continues after it |
| KommandReader.ReadStringAfter | src/common/comms/KommandReader.h:73-79 | a NUL-terminated string appended by a builder is read back exactly, and reading continues after its NUL |
| KommandReader.ReadStringWithin | src/common/comms/KommandReader.h:73-79 | the same for a terminated string inside a prefix of the data |
| KommandReader.IdentifierOf | src/common/comms/KommandReader.h:53-56 | the identifier of a built frame is the one its builder started with, and its data is what was appended |
| WiFiConfigHandler.HandleKommand | src/esp/comms/KommandHandlerWiFiConfiguration.cpp:34-55 | a frame is handled exactly when its identifier is WiFiConfiguration; then the callback gets, once, the seven fields read in order from the data; any other frame is refused with nothing read |
| WiFiConfigHandler.AppendNetwork | src/host/services/WiFiService.cpp:204-210 | appending one network's flag, ssid and password keeps the frame within its capacity and only appends |
| WiFiConfigHandler.DefaultConfigIsMisread | src/common/comms/Kommand.h:186-188 | with the default settings (empty access-point password, client ssid and password) the module reads the first URN byte as the client flag and gets no URN |
| WiFiConfigHandler.DefaultConfigFrame | src/host/services/WiFiService.cpp:201-215 | the frame built from the default settings, byte by byte: the empty strings get no NUL |
| WiFiConfigHandler.DefaultConfigReads | src/esp/comms/KommandHandlerWiFiConfiguration.cpp:42-50 | what the seven reads of the handler give on that frame's data |
| WiFiConfigHandler.PutTerminated | src/common/comms/Kommand.h:178-196 | the corrected string appender stays within capacity and, when the string and its NUL fit, appends both |
| WiFiConfigHandler.AppendNetworkTerminated | src/host/services/WiFiService.cpp:204-210 | appending one network with the corrected appender stays within capacity |
| WiFiConfigHandler.NetworkStep | src/host/services/WiFiService.cpp:204-206 | when it fits, one network appends its flag, its ssid and NUL, its password and NUL |
| WiFiConfigHandler.TerminatedLayout | src/host/services/WiFiService.cpp:201-215 | with the corrected appender a configuration that fits gives the identifier followed by the full layout |
| WiFiConfigHandler.NetworkRead | src/esp/comms/KommandHandlerWiFiConfiguration.cpp:42-44 | a network laid out in the data reads back as its flag, ssid and password, and reading continues after it |
| WiFiConfigHandler.AccessPointRead | src/esp/comms/KommandHandlerWiFiConfiguration.cpp:42-44 | the access-point fields read back from the start of the layout |
| WiFiConfigHandler.ClientRead | src/esp/comms/KommandHandlerWiFiConfiguration.cpp:46-48 | the client fields read back after the access point |
| WiFiConfigHandler.URNRead | src/esp/comms/KommandHandlerWiFiConfiguration.cpp:50 | the vessel URN reads back after both networks |
| WiFiConfigHandler.DecodeLayout | src/esp/comms/KommandHandlerWiFiConfiguration.cpp:40-52 | decoding the layout of a configuration gives every field back |
| WiFiConfigHandler.ConfigRoundTrip | src/host/services/WiFiService.cpp:201-215 | with the corrected appender, every configuration that fits is received with the right identifier and exactly as sent, empty strings included |
| WiFiConfigHandler.ConfigRoundTripNonEmpty | src/host/services/WiFiService.cpp:201-215 | with the appender as written, the trip is exact whenever no string is empty |
| WiFiLogHandler.ESPLevel | src/host/comms/KommandHandlerWiFiLog.cpp:54-69 | the level becomes an ESP level: 1 exactly gives ESPInfo, 2 exactly gives ESPError, anything else ESPDebug |
| WiFiLogHandler.HandleKommand | src/host/comms/KommandHandlerWiFiLog.cpp:28-75 | a frame is handled exactly when it is a Log frame with at least 6 data bytes and both strings are terminated; then one entry is logged with the decoded fields |
| WiFiLogHandler.LogFrameDecodes | src/host/comms/KommandHandlerWiFiLog.cpp:37-72 | the data laid out by the main board's own sender logs once, with its file name, line and message, at the ESP counterpart of its level |
| WiFiLogHandler.TruncatedLogRejected | src/host/comms/KommandHandlerWiFiLog.cpp:47-51 | data cut before the message's NUL is refused |
| KBoxHost.LevelOf | tools/kbox.py:182 | a level has a name exactly when it is 0..5; any other level is a KeyError |
| KBoxHost.ParseLogSplitsData | tools/kbox.py:181-187 | parsing succeeds exactly on at least 6 bytes with a known level, and then the file name and the message together are all the bytes after the header, the name no longer than `fnamelen` |
| KBoxHost.ParseLogPayload | tools/kbox.py:181-187 | a log frame as the main board lays it out parses back to its level, file name and line, with the message framed by the name's NUL and its own NUL |
| KBoxHost.BaseName | tools/kbox.py:192-194 | printLog's name is the part after the last '/': a suffix of the name with no '/', preceded by '/' when shorter |
| KBoxHost.ParseWiFiStatus | tools/kbox.py:198-205 | fails exactly on fewer than 12 bytes; the address is four bytes |
| KBoxHost.WiFiStatusRoundTrip | tools/kbox.py:198-205 | a status payload parses back into its four counters and the address bytes in the order they were sent |
| KBoxHost.ReadCommandReturns | tools/kbox.py:130-179 | readCommand returns `data` exactly when some turn before the deadline brings a frame with the requested id and that data, and every earlier turn only timed out, failed to read or printed a frame |
| KBoxHost.ReadCommandRaises | tools/kbox.py:153-171 | a frame shorter than 2 bytes, an error frame or a file error frame arriving before the reply raises; the error is a KBoxError exactly when the frame is not a file error with data other than 8 bytes, and that one raises TypeError |
| KBoxHost.MisSizedFileErrorRaisesTypeError | tools/kbox.py:163-166 | a file error frame with no data, while another command is awaited, raises TypeError |
| KBoxHost.DispatchIntended | tools/kbox.py:163-166 | with the intended call, a file error of the wrong size raises the KBoxError "Invalid KommandFileError size"; every other frame is handled as written |
| KBoxHost.FileErrorsRaiseKBoxError | tools/kbox.py:163-171 | with the intended call, every file error frame raises a KBoxError, so write_file_block retries after it |
| KBoxHost.TimeoutOnlyPastDeadline | tools/kbox.py:138-139 | "timed out" is only raised after a clock reading past the deadline |
| KBoxHost.ReadCommand | tools/kbox.py:130-179 | the loop's reply and printed notices are those of the turn-by-turn specification, which follows the code as written, including the TypeError of a file error of the wrong size |
| KBoxHost.PongValue | tools/kbox.py:220-224 | a pong whose data is not exactly four bytes raises |
| KBoxHost.PongEchoesPing | tools/kbox.py:213-226 | a pong that echoes the ping's four bytes gives back the ping id |
| KBoxHost.RebootRequest | tools/kbox.py:234-236 | the reboot frame is 11 bytes: the Reboot id, the eight characters of "H0LDFA57" in order, and a NUL |
| KBoxHost.NoAccessPointRaises | tools/kbox.py:372 | as written, send_wifi_config without an access point raises struct.error and sends nothing |
| KBoxHost.NetworkRequestLayout | tools/kbox.py:368-380 | the corrected request lays out each network as the firmware's configuration frame does: flag, ssid, NUL, password, NUL |
| KBoxHost.WiFiConfigReachesModule | tools/kbox.py:367-384 | with the format fixed, every request the tool sends carries the WiFiConfiguration id and is decoded by the Wi-Fi module into exactly the settings given |
| KBoxFiles.FileRequest | tools/kbox.py:289-294 | the file request is built exactly when the position and the size fit in 32 bits, and is then the id, position and size as little-endian words followed by the NUL-terminated name, in a command frame |
| KBoxFiles.ReadBlockRequest | tools/kbox.py:287-294 | the read request for a block asks for 32 MiB at the given offset, and can be built exactly when the offset fits in 32 bits |
| KBoxFiles.ReadFileBlock | tools/kbox.py:296-315 | a failure of readCommand (timeout, KBoxError) is passed on unchanged |
| KBoxFiles.ReadFileBlockAccepts | tools/kbox.py:298-315 | a reply is accepted, returning a given block, exactly when it is the reply to this read id carrying that block with its size |
| KBoxFiles.ReadFileBlockRefusesOtherId | tools/kbox.py:300-304 | a well-formed reply carrying another read id raises the "read reply for another read" error |
| KBoxFiles.ReadFileSpec | tools/kbox.py:273-278 | a request is made exactly when the length read so far fits in 32 bits; the first one asks for that length and every offset requested fits in 32 bits |
| KBoxFiles.ReadFile | tools/kbox.py:268-285 | the loop asks for and returns exactly what the transfer specification describes, starting from an empty file |
| KBoxFiles.ReadFileGetsServedFile | tools/kbox.py:268-285 | against a device that serves the file a block at a time, read_file returns the whole file after one request per block plus the final empty one, each at the length read so far |
| KBoxFiles.WriteBlockSpec | tools/kbox.py:345-365 | a block write never sends more requests than it has tries |
| KBoxFiles.WriteFileBlock | tools/kbox.py:338-365 | the request exists exactly when the file request can be packed and is that request followed by the data; a packing failure sends nothing; otherwise the outcome is the retry loop's |
| KBoxFiles.AcknowledgedWrite | tools/kbox.py:355-363 | an acknowledgement to the first try ends the write after one request: success exactly when the error code is 0, a write error carrying the code otherwise |
| KBoxFiles.RetriesRunOut | tools/kbox.py:345-365 | with the default three tries, replies that are all KBoxErrors mean three requests and the "retries exceeded" failure |
| KBoxFiles.RetriesFromKBoxErrors | tools/kbox.py:345-365 | for any number of tries, KBoxError replies use up every try and end in "retries exceeded" |
| KBoxFiles.ChunksCoverData | tools/kbox.py:321-329 | the blocks write_file cuts are non-empty, at most block_size long, the first at offset 0 and each where the previous ended, and together they are the data |
| KBoxFiles.WriteFile | tools/kbox.py:317-336 | the blocks written are a prefix of the planned blocks; the write succeeds exactly when every block write succeeds and then all blocks are written; a failure is the result of the last block attempted, after which nothing more is sent |
| KBoxScreen.ConvertToRgb | tools/kbox.py:386-391 | the three bytes have their low 3, 2 and 3 bits clear, and packing them back to RGB565 gives the original pixel: no information is lost |
| KBoxScreen.Words | tools/kbox.py:249-250 | decoding succeeds exactly on an even number of bytes, giving one little-endian 16-bit word per byte pair, in order |
| KBoxScreen.Converted | tools/kbox.py:249-250 | one colour per pixel |
| KBoxScreen.RowsSplitPixels | tools/kbox.py:251 | the rows flatten back to the pixels, every row holds 1 to 320 pixels, all but the last exactly 320, and there are ceil(n / 320) of them |
| KBoxScreen.CaptureScreen | tools/kbox.py:238-253 | a reply is decoded exactly when it holds at least two bytes and an even number of them, and the line returned is its first little-endian word |
| KBoxScreen.WordsOfRaw | tools/kbox.py:249-250 | the words the KBox sends decode back to themselves |
| KBoxScreen.CaptureScreenDecodes | tools/kbox.py:238-253 | a band sent by the KBox comes back as its first line and its pixels, converted, in rows of one screen line |
| KBoxScreen.TakeScreenshot | tools/kbox.py:255-266 | the loop does what the screenshot specification says; on success at least 240 lines were captured, and it asks for at most one band more than it got answers |
| KBoxScreen.FullBandsComplete | tools/kbox.py:259-262 | a KBox that always answers with the same non-empty band delivers the whole screen once enough bands reach 240 lines; an empty band is the case where the source loops forever (see Left out) |
| RemoteDisplay.Color565 | tools/remote-display.py:155-161 | only the three colour bytes of 0xRRGGBB matter, and the result is their RGB565 packing |
| RemoteDisplay.ColorRoundTrip | tools/remote-display.py:155-161 | a screenshot colour from the KBox tool goes back to the same RGB565 pixel through the display tool |
| RemoteDisplay.CommandPacket | tools/remote-display.py:85-87 | a packet is built exactly when the data is shorter than 64 KiB, and is the command and the data length as little-endian words followed by the data |
| RemoteDisplay.CommandResponse | tools/remote-display.py:89-97 | the answer raises exactly when it is a packet whose length is not 4; a decoded header is the packet's two little-endian words |
| RemoteDisplay.DrawPixels | tools/remote-display.py:102-114 | a pixel count other than width * height raises IndexError; then a position or size outside 0..65535 makes struct.pack raise; otherwise the packet is built exactly when it fits the 16-bit length field |
| RemoteDisplay.ColorsAt | tools/remote-display.py:111-114 | the payload holds pixel i's RGB565 colour, little-endian, at bytes 2i and 2i+1 |
| Bytes.LE16 | src/common/comms/Kommand.h:159-165 | the two bytes append16 writes, least significant first, decode back to the word |
| Bytes.LE32 | src/common/comms/Kommand.h:149-157 | the four bytes append32 writes, least significant first, decode back to the word |
| Bytes.LE16Of | src/common/comms/Kommand.h:163-164 | the 16-bit layout is one-to-one: any two bytes are the encoding of the word they decode to |
| Bytes.LE32Of | src/common/comms/Kommand.h:153-156 | the 32-bit layout is one-to-one: any four bytes are the encoding of the word they decode to |
| ArduinoString.DigitChar | src/common/signalk/SKTime.cpp:261-281 | the character appended for a digit is a decimal digit whose value is that digit |
| ArduinoString.DigitsValue | src/common/signalk/SKTime.cpp:177-189 | the value of n decimal digits is below 10^n |
| ArduinoString.Substring | src/common/nmea/NMEASentenceReader.cpp:33-39 | String::substring: the characters from left to right, clipped to the end; empty when left is past the end; the bounds swapped when left exceeds right |
| ArduinoString.IndexOf | src/common/nmea/NMEASentenceReader.cpp:60 | String::indexOf: -1 or a position at or after `from` holding the character, and no earlier such position |
| ArduinoString.LeadingDigits | src/common/signalk/SKTime.cpp:177-189 | toInt reads only decimal digits |
| ArduinoString.LeadingDigitsLongest | src/common/signalk/SKTime.cpp:177-189 | toInt reads the longest run of digits at the front: a prefix of the input, followed by the end of it or by a non-digit |
| ArduinoString.SkipSpace | src/common/signalk/SKTime.cpp:177-189 | skipping white space never lengthens the string |
| ArduinoString.SkipSpaceDropsSpace | src/common/signalk/SKTime.cpp:177-189 | toInt drops exactly the leading white space: what is left is a suffix of the input, everything dropped is white space, and what is left is empty or starts with a non-space |
| ArduinoString.ToIntOfDigits | src/common/signalk/SKTime.cpp:177-189 | toInt of a string made only of digits is their decimal value |
| ArduinoString.Decimal | src/common/signalk/SKTime.cpp:261-281 | appending a number writes at least one digit, with no leading zero, and the digits read back as the number |
| ArduinoString.LeadingZero | src/common/signalk/SKTime.cpp:262-270 | a "0" in front of digits keeps their value |
| ArduinoString.Pad2 | src/common/signalk/SKTime.cpp:262-271 | a number below 100 as exactly two digits that read back as the number |
| ArduinoString.Pad3 | src/common/signalk/SKTime.cpp:275-281 | a number below 1000 as exactly three digits that read back as the number |
| ArduinoString.Pad2AsWritten | src/common/signalk/SKTime.cpp:262-263 | the firmware's padding, a "0" below 10 before the number, gives exactly the two-digit form |
| ArduinoString.Pad3AsWritten | src/common/signalk/SKTime.cpp:275-281 | the milliseconds padding, a "0" below 100 and another below 10, gives exactly the three-digit form |
| ArduinoString.DecimalFour | src/common/signalk/SKTime.cpp:261 | a year from 1000 to 9999 is written with four characters |
| CStrings.StrcmpReflexive | lib/signalk-embedded/src/signalk-path.c:39 | strcmp of a string with itself is 0 |
| CStrings.StrcmpAntisymmetric | lib/signalk-embedded/src/signalk-path.c:39 | swapping the operands of strcmp negates the result |
| CStrings.StrcmpZeroIffEqual | lib/signalk-embedded/src/signalk-path.c:39-43 | two C strings compare 0 exactly when they are the same string |
| CStrings.StrcmpTransitive | lib/signalk-embedded/src/signalk-path.c:63 | strcmp's order is transitive |
| SignalKPaths.PathForKey | lib/signalk-embedded/src/signalk.h:156-157 | a path for a key is on this vessel (null vessel), with that key and no instance |
| SignalKPaths.CompareOptionalZeroIffEqual | lib/signalk-embedded/src/signalk-path.c:56-64 | two nullable C strings compare 0 exactly when both are null or both hold the same string |
| SignalKPaths.PathCmpReflexive | lib/signalk-embedded/src/signalk-path.c:28-67 | every path compares equal to itself |
| SignalKPaths.PathCmpAntisymmetric | lib/signalk-embedded/src/signalk-path.c:28-67 | swapping the paths negates the comparison |
| SignalKPaths.PathCmpZeroIffEqual | lib/signalk-embedded/src/signalk-path.c:28-67 | two paths with C strings compare 0 exactly when vessel, key and instance are all equal |
| SignalKPaths.PathCmpTransitive | lib/signalk-embedded/src/signalk-path.c:28-67 | the comparison is transitive, so it is a total order the key-value store can keep its entries sorted by |
| SignalKPaths.ThisVesselFirst | lib/signalk-embedded/src/signalk-path.c:30-37 | a path on this vessel comes before any path naming a vessel |
| SignalKPaths.SameVesselByKey | lib/signalk-embedded/src/signalk-path.c:47-52 | on the same vessel, a smaller key comes first |
| SignalKPaths.SameKeyByInstance | lib/signalk-embedded/src/signalk-path.c:56-59 | with the same vessel and key, a path without an instance comes first |
| NMEASentences.TalkerId | src/common/nmea/NMEASentenceReader.cpp:33-35 | the talker is the two characters after the start character, empty for a sentence of at most one character |
| NMEASentences.SentenceCode | src/common/nmea/NMEASentenceReader.cpp:37-39 | the code runs from position 3 to the first comma, or to the end when there is none (indexOf's -1 read as the largest unsigned int); a comma before position 3 swaps the bounds as substring does |
| NMEASentences.CountFields | src/common/nmea/NMEASentenceReader.cpp:41-53 | the count is the number of commas of a NUL-free sentence, and never more than the commas of the whole string |
| NMEASentences.NthComma | src/common/nmea/NMEASentenceReader.cpp:59-65 | the walk ends at -1 or at a position inside the sentence not before the start |
| NMEASentences.GetFieldAsString | src/common/nmea/NMEASentenceReader.cpp:55-82 | the loop returns exactly the field the field-walk specification describes, "" when the field or its terminator is missing |
| NMEASentences.GetFieldAsChar | src/common/nmea/NMEASentenceReader.cpp:84-92 | the character of a one-character field, '\0' for any other field |
| NMEASentences.TailCommas | src/common/nmea/NMEASentenceReader.cpp:41-53 | the fields after the address contribute one comma each |
| NMEASentences.SentenceCommas | src/common/nmea/NMEASentenceReader.cpp:41-53 | countFields of a sentence is its number of fields |
| NMEASentences.FieldsFrom | src/common/nmea/NMEASentenceReader.cpp:59-80 | from the comma before the first field, the walk finds each field in turn and "" past the last |
| NMEASentences.SentenceFields | src/common/nmea/NMEASentenceReader.cpp:55-82 | reading field 0 (or a negative field) gives the address without its start character, field i the i-th field, and any field past the last gives "" |
| NMEASentences.SentenceAddress | src/common/nmea/NMEASentenceReader.cpp:33-39 | the talker and the code of a sentence are the two parts of its address |
| SignalKStore.Lookup | lib/signalk-embedded/src/skkv.c:40-61 | the reference lookup: a hit is an entry of the list carrying the path |
| SignalKStore.LookupAppend | lib/signalk-embedded/src/skkv.c:45-59 | looking up in a list made of two parts finds the first part's entry when there is one, the second part's otherwise |
| SignalKStore.LookupAbsent | lib/signalk-embedded/src/skkv.c:45-60 | a list without the path gives a miss |
| SignalKStore.Find | lib/signalk-embedded/src/skkv.c:40-61 | every entry walked past compares above the path; a hit is the entry just after `previous` with an equal path; a miss stops at the end or at the first entry the path compares above |
| SignalKStore.FindIsLookup | lib/signalk-embedded/src/skkv.c:50-55 | on an ordered list, stopping early is sound: the walk finds the path exactly when the list holds it, at the entry the reference lookup gives |
| SignalKStore.InsertOrdered | lib/signalk-embedded/src/skkv.c:72-84 | linking a new entry where the walk stopped keeps the list ordered |
| SignalKStore.ReplaceOrdered | lib/signalk-embedded/src/skkv.c:85-103 | replacing an entry by one with the same path keeps the list ordered |
| SignalKStore.Set | lib/signalk-embedded/src/skkv.c:63-105 | afterwards the path holds the new source and value and every other path looks up as before; an ordered list stays ordered and grows by one exactly when the path was absent |
| SignalKStore.InsertLookup | lib/signalk-embedded/src/skkv.c:72-84 | a new entry linked ahead of every other entry with its path is found, and all other lookups are unchanged |
| SignalKStore.ReplaceLookup | lib/signalk-embedded/src/skkv.c:85-103 | an entry replaced in place is found, and all other lookups are unchanged |
| SignalKStore.Get | lib/signalk-embedded/src/skkv.c:107-121 | a miss is SKErrorUndefinedValue; a hit returns the source and value of an entry whose path compares equal, and on an ordered list the result is that of the reference lookup |
| SignalKStore.Count | lib/signalk-embedded/src/skkv.c:123-129 | the count is the number of entries |
| SignalKStore.SetThenGet | lib/signalk-embedded/src/skkv.c:63-121 | a get after a set of the same path returns what was set |
| SignalKContexts.PathIsValid | lib/signalk-embedded/src/signalk.c:106-121 | a path is valid exactly when it has an instance if and only if its key is past the marker, its key is below the count and it is not the marker |
| SignalKContexts.Get | lib/signalk-embedded/src/signalk.c:63-72 | a null context gives SKErrorInvalidArg, then an invalid path SKErrorInvalidPath; otherwise the result of the store's lookup |
| SignalKContexts.Set | lib/signalk-embedded/src/signalk.c:74-84 | a null context gives SKErrorInvalidArg and an invalid path SKErrorInvalidPath with nothing changed; otherwise SKErrorOK, the path holds the new entry and every other path is unchanged |
| SignalKContexts.Alloc | lib/signalk-embedded/src/signalk.c:37-53 | no context exactly when neither vessel name nor MMSI is given; otherwise a new context holding each one given as a string from the KBox source, and nothing for one not given |
| SignalKContexts.AllocThenGet | lib/signalk-embedded/src/signalk.c:37-72 | the vessel name and MMSI read back from a new context are the strings it was created with, and a miss for one not given |
| LinkedLists.Node.constructor | lib/List/src/List.h:49 | a node holds the value and no successor |
| LinkedLists.LinkedList.constructor | lib/List/src/List.h:63 | a new list is empty |
| LinkedLists.LinkedList.Add | lib/List/src/List.h:83-94 | the value is appended at the tail, the earlier values kept in order, and only the new node is allocated |
| LinkedLists.LinkedList.Clear | lib/List/src/List.h:96-104 | the list is empty afterwards |
| LinkedLists.LinkedList.RemoveFirst | lib/List/src/List.h:106-112 | the first value is dropped and the rest kept in order; an empty list stays empty |
| LinkedLists.LinkedList.Size | lib/List/src/List.h:138-146 | the count is the number of values in the list |
| LinkedLists.LinkedList.Copy | lib/List/src/List.h:65-69 | the copy holds the other list's values in the same order, in nodes of its own |
| LinkedLists.LinkedList.Assign | lib/List/src/List.h:75-81 | assigning another list copies its values in order into fresh nodes; assigning a list to itself empties it |
| LinkedLists.LinkedList.AssignChecked | lib/List/src/List.h:75-81 | with the self-assignment check, the list always ends up holding the assigned list's values |
| LinkedLists.EqualComparesIdentity | lib/List/src/List.h:148-150 | two empty lists compare equal, and two lists with nodes of their own compare unequal whatever their values |
| LinkedLists.CircularVisitsInOrder | lib/List/src/List.h:238-246 | the circular iterator steps from each node to the next and from the last back to the head |
| LinkedLists.SelfAssignmentEmpties | lib/List/src/List.h:75-81 | a one-element list assigned to itself has size 0 afterwards |
| WallClocks.Delta | src/common/time/WallClock.cpp:63-71 | the elapsed milliseconds are the difference of the two counter readings modulo 2^32, on both branches |
| WallClocks.DeltaMeasuresElapsed | src/common/time/WallClock.cpp:66-71 | any elapsed time below 2^32 ms is measured exactly, even when the counter wraps around in between |
| WallClocks.WallClock.constructor | src/common/time/WallClock.cpp:35-37 | no time set, no provider, counter reading 0 and the epoch as the last known time |
| WallClocks.WallClock.CurrentMilliseconds | src/common/time/WallClock.cpp:39-46 | the provider's reading when there is one, 0 without |
| WallClocks.WallClock.SetMillisecondsProvider | src/common/time/WallClock.cpp:48-54 | the clock forgets the time it was set to: back to the epoch, not set, with the new provider's current reading |
| WallClocks.WallClock.SetTime | src/common/time/WallClock.cpp:56-60 | the time is set, remembered with the counter reading it goes with, and the provider kept |
| WallClocks.WallClock.Now | src/common/time/WallClock.cpp:62-76 | the result has milliseconds and is the last known time plus the wrap-safe elapsed milliseconds, in total milliseconds modulo the 32-bit seconds range |
| WallClocks.WallClock.IsTimeSet | src/common/time/WallClock.cpp:78-80 | whether a time was set since the provider was last changed |
| WallClocks.SetThenNow | src/common/time/WallClock.cpp:56-76 | reading the clock `elapsed` ms after setting a time gives that time plus `elapsed`, whatever the counter read at the set |
| SignalKTime.GetMilliseconds | src/common/signalk/SKTime.h:100-107 | 0 when the milliseconds are unknown, the stored value otherwise, and always below 1000 for a constructed time |
| SignalKTime.Default | src/common/signalk/SKTime.h:51 | the default time is the epoch with known milliseconds 0 |
| SignalKTime.FromTime | src/common/signalk/SKTime.h:52 | the time-only constructor stores the timestamp and marks the milliseconds unknown |
| SignalKTime.FromTimeAndMs | src/common/signalk/SKTime.h:53-57 | the milliseconds are known exactly when below 1000, and are then the value given |
| SignalKTime.Equal | src/common/signalk/SKTime.cpp:222-224 | equal exactly when the timestamps and the raw millisecond fields are equal |
| SignalKTime.NotEqual | src/common/signalk/SKTime.cpp:226-228 | the exact negation of equality |
| SignalKTime.TotalMilliseconds | src/common/signalk/SKTime.cpp:230-246 | the milliseconds a time stands for lie within the 32-bit seconds range |
| SignalKTime.AddMilliseconds | src/common/signalk/SKTime.cpp:230-246 | afterwards the milliseconds are known and below 1000, and the total milliseconds grew by the amount added, modulo 2^32 seconds |
| SignalKTime.WrapSeconds | src/common/signalk/SKTime.cpp:235-243 | the timestamp wrapping at 2^32 keeps the total modulo 2^32 seconds |
| SignalKTime.FieldOfDigits | src/common/signalk/SKTime.cpp:177-189 | two digits are read by substring and toInt as their value, below 100 |
| SignalKTime.YearFieldOfDigits | src/common/signalk/SKTime.cpp:180-186 | a year below 70 is stored as yy + 30, otherwise as yy - 70 |
| SignalKTime.TimeFromNMEAStrings | src/common/signalk/SKTime.cpp:174-211 | a time is produced exactly when the month read is at most 13, and it is makeTime of the fields read with the fraction's milliseconds |
| SignalKTime.NMEAYear | src/common/signalk/SKTime.cpp:179-186 | the year is 20yy for yy below 70 and 19yy otherwise |
| SignalKTime.NMEAMillisecondsDigits | src/common/signalk/SKTime.cpp:194-208 | without a fraction the milliseconds are unknown; otherwise up to three fraction digits are read, one digit counting hundreds and two tens, always below 1000 |
| SignalKTime.NMEADate | src/common/signalk/SKTime.cpp:177-180 | the ddmmyy string of a date is six digits |
| SignalKTime.NMEATime | src/common/signalk/SKTime.cpp:187-189 | the hhmmss string of a time is six digits |
| SignalKTime.NMEATmOfDigits | src/common/signalk/SKTime.cpp:177-189 | date and time strings of digits are read field by field as the values of their digit pairs |
| SignalKTime.NMEAFields | src/common/signalk/SKTime.cpp:177-189 | the fields of NMEA strings read back as the broken-down time they were written from |
| SignalKTime.NMEARoundTrip | src/common/signalk/SKTime.cpp:174-191 | a timestamp up to 2069, written as NMEA date and time strings, is read back as the same timestamp |
| SignalKTime.ToStringFields | src/common/signalk/SKTime.cpp:248-285 | toString is 20 characters, or 24 with milliseconds, with '-', 'T', ':', '.' and 'Z' at fixed places and the civil year, month, day, hour, minute, second and milliseconds in decimal, zero-padded, in between |
| SignalKTime.ToStringRoundTrip | src/common/signalk/SKTime.cpp:248-285 | the digit fields of toString, read back through makeTime, give the timestamp again |
| Calendar.YearLength | src/common/signalk/SKTime.cpp:71 | a year has 365 or 366 days |
| Calendar.MonthLength | src/common/signalk/SKTime.cpp:122-131 | a month has 28 to 31 days, and every month but February has its monthDays length |
| Calendar.MonthsMakeYear | src/common/signalk/SKTime.cpp:88 | the twelve month lengths add up to the year's length, February following the leap rule |
| Calendar.DaysBeforeYearGrows | src/common/signalk/SKTime.cpp:109-113 | y years hold between 365y and 366y days |
| Calendar.YearOf | src/common/signalk/SKTime.cpp:109-117 | the year found and the day within it name the same day, and that day lies inside the year |
| Calendar.MonthOf | src/common/signalk/SKTime.cpp:119-138 | the month found is one of the twelve, the day lies inside it, and both name the same day of the year |
| Calendar.CivilDate | src/common/signalk/SKTime.cpp:109-140 | the civil date of a day number has a month in 1..12 and a day within that month's length, and names that day number |
| Calendar.Civil | src/common/signalk/SKTime.cpp:90-141 | breakTime yields a valid civil date and time, with year at most 136, naming the timestamp's day and its seconds into that day |
| Calendar.MakeTimeOfCivil | src/common/signalk/SKTime.cpp:90-172 | makeTime undoes breakTime for every 32-bit timestamp |
| Calendar.MakeTimeOfParts | src/common/signalk/SKTime.cpp:143-172 | makeTime of any broken-down time naming a timestamp's day and seconds into the day gives that timestamp |
| Calendar.TimeOfDay | src/common/signalk/SKTime.cpp:101-105 | the hours, minutes and seconds breakTime takes by division make up the seconds into the day |
| Calendar.DivisionSteps | src/common/signalk/SKTime.cpp:101-106 | dividing by 60, 60 and 24 in turn gives the hours and the days |
| Calendar.BreakTime | src/common/signalk/SKTime.cpp:90-141 | the loops of breakTime compute the civil date and time |
| Calendar.CountYears | src/common/signalk/SKTime.cpp:109-117 | the year loop finds the year of the day number and the day within it |
| Calendar.CountMonths | src/common/signalk/SKTime.cpp:119-138 | the month loop finds the month of the day of the year and the day within it |
| Calendar.MakeTime | src/common/signalk/SKTime.cpp:143-172 | the loops of makeTime compute the seconds of the date and time in a 32-bit accumulator |
| Calendar.YearSeconds | src/common/signalk/SKTime.cpp:151-157 | the year loop gives the seconds up to 1 January of the year, modulo 2^32 |
| Calendar.AddMonthSeconds | src/common/signalk/SKTime.cpp:159-166 | the month loop adds the seconds of the months before the month, February from the leap rule, modulo 2^32 |
| TaskStats.MaxOfIsMaximum | src/common/os/TaskManager.h:78-80 | the kept maximum is at least every run and, after a run, is one of the runs |
| TaskStats.MinOfIsMinimum | src/common/os/TaskManager.h:75-77 | the minimum under the intended guard is at most every run and, after a run, is one of the runs |
| TaskStats.MinAsWrittenWithoutZeros | src/common/os/TaskManager.h:75-77 | as long as no run lasts 0 µs, the guard as written keeps the true minimum |
| TaskStats.ZeroRunLosesMinimum | src/common/os/TaskManager.h:75-77 | runs of 0 then 5 µs leave the minimum as written at 5, above the average of 2, while the true minimum is 0 |
| TaskStats.SumBetween | src/common/os/TaskManager.h:72-81 | the total of the runs lies between the run count times the minimum and times the maximum |
| TaskStats.AverageBetween | src/common/os/TaskManager.h:96-101 | with at least one run, minimum <= total / count <= maximum |
| TaskStats.OneMoreRun | src/common/os/TaskManager.h:72-81 | one more run adds its time to the total and takes the minimum and maximum of the old value and the new run |
| TaskStats.AddWraps | src/common/os/TaskManager.h:73-74 | adding to a wrapped 32-bit register is the wrapped sum |
| TaskStats.RunStat.constructor | src/common/os/TaskManager.h:70 | no runs: count 0, total 0, minimum ULONG_MAX, maximum 0 |
| TaskStats.RunStat.RecordRun | src/common/os/TaskManager.h:72-81 | one more run is recorded and the fields stay the count and total modulo 2^32, the minimum and the maximum of the runs (with the intended minimum guard, see Findings) |
| TaskStats.RunStat.Count | src/common/os/TaskManager.h:83 | the number of runs, modulo 2^32 |
| TaskStats.RunStat.TotalTime | src/common/os/TaskManager.h:84 | the sum of the run times, modulo 2^32 |
| TaskStats.RunStat.MaxTime | src/common/os/TaskManager.h:85 | at least every run, and one of them once there is a run |
| TaskStats.RunStat.MinTime | src/common/os/TaskManager.h:87-94 | 0 while the count is 0, otherwise one of the runs and at most every run |
| TaskStats.RunStat.AvgTime | src/common/os/TaskManager.h:96-101 | 0 while the count is 0, otherwise the wrapped total divided by the wrapped count |
| TaskStats.RunStatBounds | src/common/os/TaskManager.h:87-101 | while neither the count nor the total has wrapped, minTime <= avgTime <= maxTime once there is a run |
| Metrics.Zeros | src/common/stats/KBoxMetrics.cpp:35-37 | every event counter is 0 |
| Metrics.Incremented | src/common/stats/KBoxMetrics.cpp:48-50 | counter e goes up by one modulo 2^64 and the others stay |
| Metrics.ReplayCounts | src/common/stats/KBoxMetrics.cpp:34-50 | from zeroed counters, counter e holds how many of the recorded events were e, modulo 2^64 |
| Metrics.TruncateCount | src/common/stats/KBoxMetrics.cpp:52-54 | reading a 64-bit counter as uint32_t gives the count modulo 2^32 |
| Metrics.KBoxMetrics.constructor | src/common/stats/KBoxMetrics.cpp:30-32 | new metrics start with every event counter at 0 |
| Metrics.KBoxMetrics.Reset | src/common/stats/KBoxMetrics.cpp:34-37 | every event counter goes back to 0 |
| Metrics.KBoxMetrics.Event | src/common/stats/KBoxMetrics.cpp:48-50 | counter e goes up by one and the others stay |
| Metrics.KBoxMetrics.CountEvent | src/common/stats/KBoxMetrics.cpp:52-54 | the counter truncated to 32 bits |
| Metrics.RecordEvents | src/common/stats/KBoxMetrics.cpp:48-50 | recording events one after the other leaves the counters as the reference replay says |
| Metrics.CountAfter | src/common/stats/KBoxMetrics.cpp:30-54 | on fresh metrics, countEvent(e) after a series of events is the number of times e occurred, modulo 2^32 |
| Crc.RegisterAppend | src/common/algo/crc.c:64-67 | the update loop over a then b leaves the register that the loop over b leaves when started from where a left it |
| Crc.RegisterFirst | src/common/algo/crc.c:64-67 | one pass of the loop takes the first byte off the buffer |
| Crc.TableStep | src/common/algo/crc.c:66 | reading the table entry selected by the low byte and the octet completes one update |
| Crc.IndexIsLowByte | src/common/algo/crc.c:66 | the index the loop reads is the low byte of the register XOR the octet |
| Crc.ComplementTwice | src/common/algo/crc.c:62-68 | complementing twice gives the register back |
| Crc.Crc32Continues | src/common/algo/crc.c:62-68 | because the output is complemented back, a CRC can be continued: the CRC of b started from the CRC of a is the CRC of a then b |
| Crc.Crc32Empty | src/common/algo/crc.c:62-68 | an empty buffer leaves the CRC unchanged |
| Crc.TableEntries | src/common/algo/crc.c:48-58 | entries 0, 1, 128 and 255 of the table are those of the reflected polynomial 0xEDB88320 |
| Crc.Crc32CheckValue | src/common/algo/crc.c:36-69 | the CRC of "123456789" from 0 is 0xCBF43926, the check value of the standard CRC-32 |
| Crc.Divide | src/common/algo/crc.c:49-56 | the inner loop computes the table entry of the byte: eight division steps |
| Crc.Crc32Table.constructor | src/common/algo/crc.c:38-39 | the static table starts not computed |
| Crc.Crc32Table.FillTable | src/common/algo/crc.c:46-60 | afterwards every entry i holds the remainder of i and the table is marked computed |
| Crc.Crc32Table.UpdateStep | src/common/algo/crc.c:65-66 | one pass of the update loop is the reference update |
| Crc.Crc32Table.Compute | src/common/algo/crc.c:36-69 | rc_crc32 returns the reference CRC of the buffer from the given start value, and leaves the table computed |
| Pcdin.HexByte | src/common/nmea/nmea2000.cpp:33-37 | appendByte writes two characters |
| Pcdin.Hex16 | src/common/nmea/nmea2000.cpp:39-43 | append2Bytes writes four characters |
| Pcdin.Hex32 | src/common/nmea/nmea2000.cpp:45-49 | appendWord writes eight characters |
| Pcdin.HexData | src/common/nmea/nmea2000.cpp:68-70 | the data loop writes two characters per byte |
| Pcdin.DigitRoundTrip | src/common/nmea/nmea2000.cpp:31 | each character of the digit table reads back as its index |
| Pcdin.HexByteRoundTrip | src/common/nmea/nmea2000.cpp:33-37 | the two digits of appendByte read back as the byte, high nibble first |
| Pcdin.Hex16RoundTrip | src/common/nmea/nmea2000.cpp:39-43 | the four digits of append2Bytes read back as the 16-bit value, big-endian |
| Pcdin.Hex32RoundTrip | src/common/nmea/nmea2000.cpp:45-49 | the eight digits of appendWord read back as the 32-bit value, big-endian |
| Pcdin.HexDataAt | src/common/nmea/nmea2000.cpp:68-70 | data byte i sits at digits 2i and 2i+1 |
| Pcdin.PgnField | src/common/nmea/nmea2000.cpp:60-61 | the PGN field is six characters |
| Pcdin.Head | src/common/nmea/nmea2000.cpp:58-66 | the head up to the data is 26 characters |
| Pcdin.Body | src/common/nmea/nmea2000.cpp:58-72 | the text the checksum covers is 27 characters plus two per data byte |
| Pcdin.Sentence | src/common/nmea/nmea2000.cpp:52-77 | the sentence is 29 characters plus two per data byte |
| Pcdin.AllocationFits | src/common/nmea/nmea2000.cpp:53-54 | the allocated length is exactly the characters written plus the terminating NUL, so nothing is written past the buffer |
| Pcdin.PgnLow24 | src/common/nmea/nmea2000.cpp:60-61 | only the low 24 bits of the PGN reach the sentence |
| Pcdin.PgnFieldRoundTrip | src/common/nmea/nmea2000.cpp:60-61 | the six PGN digits read back as the PGN modulo 2^24 |
| Pcdin.HeadLayout | src/common/nmea/nmea2000.cpp:58-66 | the head is "$PCDIN,", the PGN digits, ',', the timestamp digits, ',', the source digits, ',' |
| Pcdin.SentencePieces | src/common/nmea/nmea2000.cpp:52-77 | the sentence is the head, the data digits, '*' and the two checksum digits |
| Pcdin.SentenceFields | src/common/nmea/nmea2000.cpp:58-66 | the PGN, timestamp (modulo 2^32) and source fields read back as the values written |
| Pcdin.HexDataRoundTrip | src/common/nmea/nmea2000.cpp:68-70 | each pair of data digits reads back as its byte |
| Pcdin.SentenceChecksum | src/common/nmea/nmea2000.cpp:72-73 | the two last digits read back as the checksum of the text up to and including '*' |
| Pcdin.SentenceLayout | src/common/nmea/nmea2000.cpp:52-77 | the whole layout: prefix, separators and '*' at fixed places, every field, data byte and the checksum reading back as its value |
| Pcdin.AppendByte | src/common/nmea/nmea2000.cpp:33-37 | writes the two digits at the position and returns 2, the text before it kept |
| Pcdin.Append2Bytes | src/common/nmea/nmea2000.cpp:39-43 | writes the four digits at the position and returns 4, the text before it kept |
| Pcdin.AppendWord | src/common/nmea/nmea2000.cpp:45-49 | writes the eight digits at the position and returns 8, the text before it kept |
| Pcdin.WriteHead | src/common/nmea/nmea2000.cpp:58-66 | the first 26 characters of the buffer are the head |
| Pcdin.WriteData | src/common/nmea/nmea2000.cpp:68-70 | the loop appends the data digits and advances by two per byte |
| Pcdin.PcdinSentence | src/common/nmea/nmea2000.cpp:52-77 | a fresh buffer of exactly the allocated length holding the sentence and its NUL |
| SKPaths.Default | src/common/signalk/SKPath.h:61 | the default path is the invalid path with no index |
| SKPaths.OfEnum | src/common/signalk/SKPath.h:62-66 | a path before the marker is kept, with no index; the marker or an indexed path becomes the invalid path |
| SKPaths.OfEnumIndex | src/common/signalk/SKPath.h:68-73 | a path after the marker keeps its index; any other becomes the invalid path with an empty index |
| SKPaths.GetIndex | src/common/signalk/SKPath.h:97-104 | the index of an indexed path, the invalid path's empty index otherwise |
| SKPaths.IndexedRoundTrip | src/common/signalk/SKPath.h:68-104 | an indexed path built with an index is indexed and gives back its path and its index |
| SKPaths.PlainRoundTrip | src/common/signalk/SKPath.h:62-104 | a path before the marker built without an index is not indexed and gives back its path and an empty index |
| SKPaths.GettersDetermine | src/common/signalk/SKPath.h:83-104 | two constructed paths are equal exactly when their static paths and indexes are equal |
| SKSources.UnknownSource | src/common/signalk/SKSource.cpp:38-42 | the unknown source has the unknown input, no talker and no sentence |
| SKSources.SourceForNMEA0183 | src/common/signalk/SKSource.cpp:44-55 | the input is kept only when it is one of the two NMEA 0183 ports, unknown otherwise; the talker and sentence are stored whatever the input; the NMEA 2000 fields are 0 |
| SKSources.InvalidInputKeepsTalker | src/common/signalk/SKSource.cpp:52-53 | an NMEA 2000 input with talker "xx" and sentence "xxx" gives an unknown source that still has talker "xx" and sentence "xxx" |
| SKSources.SourceForNMEA0183Checked | src/common/signalk/SKSource.cpp:44-55 | corrected: a valid port gives the source as before, any other input the unknown source itself |
| SKSources.EqualIsEquivalence | src/common/signalk/SKSource.cpp:57-73 | == is reflexive, symmetric and transitive |
| SKSources.NotEqualNegates | src/common/signalk/SKSource.cpp:75-77 | != is exactly the negation of == |
| SKSources.InvalidInputIsUnknown | src/common/signalk/SKSource.cpp:44-73 | a source built from an invalid input compares equal to the unknown source |
| SKSources.NMEA0183Equal | src/common/signalk/SKSource.cpp:57-65 | two NMEA 0183 sources compare equal exactly when they share the port, the talker and the sentence |
| SKSources.GetType | src/common/signalk/SKSource.cpp:79-89 | the type is "NMEA0183" exactly for the two NMEA 0183 ports, "NMEA2000" exactly for NMEA 2000, "unknown" exactly for the unknown input |
| SKSources.LabelNamesInput | src/common/signalk/SKSource.cpp:99-110 | two sources share a label exactly when they share an input, so equal sources have the same label and type |
| SKUpdates.FirstWithPathAbsent | src/common/signalk/SKUpdateStatic.h:85-92 | a path none of the values carries looks up as SKValueNone |
| SKUpdates.FirstWithPathAt | src/common/signalk/SKUpdateStatic.h:85-92 | the lookup gives the first value carrying the path |
| SKUpdates.SKUpdateStatic.constructor | src/common/signalk/SKUpdateStatic.h:35-44 | a new update is empty, with the unknown source and the given capacity |
| SKUpdates.SKUpdateStatic.AddValue | src/common/signalk/SKUpdateStatic.h:53-61 | adding succeeds exactly when the update is not full, and then appends the value; a full update is left as it was |
| SKUpdates.SKUpdateStatic.SetSource | src/common/signalk/SKUpdateStatic.h:66-68 | the source is replaced and the values are kept |
| SKUpdates.SKUpdateStatic.GetSize | src/common/signalk/SKUpdateStatic.h:70-72 | the number of values added, never above the capacity |
| SKUpdates.SKUpdateStatic.At | src/common/signalk/SKUpdateStatic.h:78-83 | the value at the index, SKValueNone past the last value |
| SKUpdates.SKUpdateStatic.ByPath | src/common/signalk/SKUpdateStatic.h:85-92 | the first value carrying the path, SKValueNone when none does |
| SKUpdates.AddThenRead | src/common/signalk/SKUpdateStatic.h:53-92 | after a successful add the last value is the one added, and a lookup of its path finds it unless an earlier value has the same path; after a failed add the lookup is as before |
| Storage.Encode | src/host/util/PersistentStorage.h:47-66 | the parameters occupy four bytes |
| Storage.DecodeEncode | src/host/util/PersistentStorage.h:47-66 | reading back the four bytes of a parameters struct gives the same struct |
| Storage.Written | src/host/util/PersistentStorage.cpp:75-83 | after a block write the block sits at the address and every other byte is unchanged |
| Storage.InitializedImage | src/host/util/PersistentStorage.cpp:41-49 | initialisation keeps the EEPROM's size |
| Storage.InitializeInitializes | src/host/util/PersistentStorage.cpp:41-64 | after initialize the EEPROM reads as initialised, bytes 8 to 45 are zero and the bytes past the layout are untouched |
| Storage.WriteParameters | src/host/util/PersistentStorage.cpp:100-107 | writing the parameters keeps the EEPROM's size |
| Storage.WriteThenRead | src/host/util/PersistentStorage.cpp:85-107 | whatever the EEPROM held, a write of the parameters followed by a read succeeds and gives the parameters back with version 1 |
| Storage.WriteTouchesOnlyParameters | src/host/util/PersistentStorage.cpp:100-107 | on an initialised EEPROM, writing the parameters changes bytes 8 to 11 only |
| Storage.InitializedHoldsNoParameters | src/host/util/PersistentStorage.cpp:85-98 | a freshly initialised EEPROM holds no parameters: their version byte is 0 and the read fails |
| Storage.PersistentStorage.Read | src/host/util/PersistentStorage.cpp:66-73 | the read succeeds exactly when the block ends within the 2048 bytes, and then gives the bytes at the address; otherwise the destination is untouched |
| Storage.PersistentStorage.Write | src/host/util/PersistentStorage.cpp:75-83 | the write succeeds exactly when the block ends within the 2048 bytes, and then stores it at the address; otherwise nothing changes |
| Storage.PersistentStorage.IsInitialized | src/host/util/PersistentStorage.cpp:51-64 | true exactly when bytes 0-3 hold the magic 0xB0A7F107 and bytes 4-7 the version 1, little-endian |
| Storage.PersistentStorage.Initialize | src/host/util/PersistentStorage.cpp:41-49 | the magic, the version, zeros up to byte 46, the rest of the EEPROM kept |
| Storage.PersistentStorage.ReadNMEA2000Parameters | src/host/util/PersistentStorage.cpp:85-98 | refused with the struct untouched on an uninitialised EEPROM; otherwise the struct is read from address 8 and accepted exactly when its version is 1 |
| Storage.PersistentStorage.WriteNMEA2000Parameters | src/host/util/PersistentStorage.cpp:100-107 | always succeeds; the caller's struct gets version 1, and the EEPROM is initialised if needed and then holds the struct at address 8 |
| ConfigParser.ConvertSerialMode | src/host/config/KBoxConfigParser.cpp:172-180 | the mode is NMEA exactly when the name is "nmea"; any other name, "disabled" included, disables the port |
| ConfigParser.ConvertIMUMounting | src/host/config/KBoxConfigParser.cpp:182-209 | the result is the mounting of that name, or verticalRightSideToBow when the name is none of the eight |
| ConfigParser.MountingRoundTrip | src/host/config/KBoxConfigParser.cpp:182-209 | every mounting is read back from its own name |
| ConfigParser.DefaultConfig | src/host/config/KBoxConfigParser.cpp:58-93 | the converter flags of serial 1, of the Wi-Fi and of serial 2 apart from the XDR ones are kept; the IMU and barometer frequencies lie within their ranges |
| ConfigParser.DefaultConfigIdempotent | src/host/config/KBoxConfigParser.cpp:58-93 | applying the defaults twice is applying them once |
| ConfigParser.ParseNMEAConverterConfig | src/host/config/KBoxConfigParser.cpp:152-163 | an invalid object changes nothing; each of the six flags is taken exactly when present as a boolean |
| ConfigParser.ParseSerialConfig | src/host/config/KBoxConfigParser.cpp:119-129 | an invalid object changes nothing; an integer baud rate is taken and anything else keeps it; a mode given as a string is NMEA exactly when it is "nmea", and a mode given otherwise is kept; the converter flags come from the nmeaConverter object |
| ConfigParser.ParseNMEA2000Config | src/host/config/KBoxConfigParser.cpp:131-135 | an invalid object changes nothing; rxEnabled and txEnabled are each taken exactly when present as booleans |
| ConfigParser.ParseIMUConfig | src/host/config/KBoxConfigParser.cpp:106-112 | an invalid object changes nothing; the frequency changes only to an integer of the file within 1..100, and any such integer is taken; enabled, enableHdg and enableHeelPitch are each taken exactly when present as booleans; a mounting given as a string is converted by name, and otherwise kept |
| ConfigParser.ParseBarometerConfig | src/host/config/KBoxConfigParser.cpp:114-117 | an invalid object changes nothing; the frequency changes only to an integer of the file within 1..10, and any such integer is taken; enabled is taken exactly when present as a boolean |
| ConfigParser.ParseWiFiNetworkConfig | src/host/config/KBoxConfigParser.cpp:165-170 | an invalid object changes nothing; enabled is taken exactly when present as a boolean; the ssid and the password are each taken exactly when given as strings, and kept otherwise |
| ConfigParser.ParseWiFiConfig | src/host/config/KBoxConfigParser.cpp:137-150 | an invalid object changes nothing; enabled is taken exactly when present as a boolean; an mmsi string gives the vessel URN "urn:mrn:imo:mmsi:" followed by the mmsi, and without one the URN is kept; the client, the access point and the converter flags come from their sub-objects |
| ConfigParser.ParseKBoxConfig | src/host/config/KBoxConfigParser.cpp:95-104 | whatever the file holds, the IMU frequency ends in 1..100 and the barometer frequency in 1..10; each of the six sections is its section parser applied to the matching object of the file, starting from the defaults |
| ConfigParser.NoSectionsGiveDefaults | src/host/config/KBoxConfigParser.cpp:95-104 | a file that did not parse, or an empty object, gives exactly the defaults |
| ConfigParser.ParseStartsFromDefaults | src/host/config/KBoxConfigParser.cpp:95-104 | parsing starts from the defaults: applying them beforehand changes nothing |
| ConfigParser.IMUFrequencyFromFile | src/host/config/KBoxConfigParser.cpp:106-112 | with an IMU section, the IMU frequency is the file's when it is an integer within 1..100 and the default 20 otherwise |
| ConfigParser.IMUMountingFromFile | src/host/config/KBoxConfigParser.cpp:106-112 | the IMU mounting is the one the file names (verticalRightSideToBow for an unknown name), and the default verticalRightSideToBow when the file gives no string |

## Left out

- KBoxFiles.WriteFile: requires a positive block size. With a block size of 0 or less and non-empty data, write_file never finishes, because the number of bytes sent never grows; the default of 2000 is positive.
- Serial ports, the read timeout, sockets, files on disk, images and the clock are not modelled. Their effects arrive as parameters: the frames a read returns, the millisecond reading, the random operation identifiers of the file transfer.
- Floating point is not modelled: the KBoxMetrics metrics and their averages, the minimums that start at 0, `getFieldAsDouble`, and SKTime's NMEA 2000 day/second conversion.
- Concurrency is not modelled. The CRC table is a static that is computed once and shared without a lock; the model keeps it as the array field of a `Crc.Crc32Table` object passed to each call.
- Crc: the reference CRC is defined byte by byte through the table of remainders, as the loop computes it. Its equivalence with a bit-serial division of the whole message by the polynomial is not proved; the standard check value is.
- Pcdin: `nmea_compute_checksum` is in `nmea.c`, which is not part of this model. The checksum is a parameter applied to the text written before it. A negative data length is not modelled.
- SKPaths: equality of SKPath is in `SKPath.cpp`, which is not part of this model. It is taken to compare the path and the index.
- SKSources: `sourceForNMEA2000` is not part of this model because its header is absent. The SKSource type enum is taken from the switch in `SKSource.cpp`.
- SKUpdates.SKUpdateStatic.At: a negative index, which `operator[]` reads before the array, is excluded by its requires. SKValue is reduced to its path and an opaque payload.
- Kommand.FixedSizeKommand.constructor: requires `maxDataSize + 2` to fit in 16 bits, so the wrap of the uint16_t `bufferSize` for a maxDataSize of 65534 or more is not modelled; every frame size the firmware uses is far below that.
- KBoxScreen.TakeScreenshot: when the KBox keeps answering with a band that has no pixels, the source loops forever because the captured line count never grows. The model has a finite sequence of replies, so it reports TimedOut once they run out.
- KommandReader: `KommandReader.cpp` is not part of this model. A read past the end of the frame gives 0 and does not advance; this is a chosen behaviour.
- WiFiLogHandler: `KBoxLogging.h` is not part of this model. The six log levels are inferred from their uses.
- SlipStream.SlipStream.constructor: the initial value of `_invalidFrame` is a parameter. The two versions of the header disagree on it.
- ConfigParser: the config structs' header is not part of this model. `baudRate` is an unbounded `int`, and the integer width of the JSON library is not modelled.
- ConfigParser: the JSON library is not part of this model. JSON values are a datatype, and structs passed by reference are returned as values.
- ConfigParser: the parser's own test still uses configuration fields the parser no longer has; the model follows the parser.
- Storage: the BNO055 calibration and heel/pitch offset accessors (`PersistentStorage.h:111-114`) are declared but never defined, so they are not modelled.
- SignalKStore: the release functions (`skkv_release` and the path, source and value copy/free helpers) have no counterpart. The store is a sequence of entries.
- SignalKContexts: `signalk_release` and the update callback are not modelled.
- LinkedLists: freeing nodes is not modelled. The older copy of the list, `lib/List/List.h`, is not modelled.
- KBoxHost.ReadCommand follows the file error branch as written, so a file error of the wrong size raises TypeError and the file transfer does not retry it. The intended KBoxError is `KBoxHost.DispatchIntended`; see Findings.
- TaskStats.RunStat.RecordRun follows the corrected minimum guard, without `minRunTime == 0 ||`. The guard as written is `TaskStats.MinAsWritten`; see Findings.
- Calendar: `makeTime` with a month of 14 or more reads outside its month table, which is undefined behaviour. The model requires a month of at most 13.
- The command-line front ends (argument parsing, image saving, NMEA replay, crash-log symbolisation) are not modelled.

## Findings

| source | as written | input that shows it | evidently intended | confidence | as-written member | corrected member |
|---|---|---|---|---|---|---|
| lib/KBox/src/util/Kommand.h:84-92 | the room left for a string is `maxDataSize - _index - 1` in unsigned arithmetic, which wraps when the frame is full | maxDataSize 4; identifier and one 16-bit value (4 bytes); then "abc" gives 7 bytes in a 6-byte buffer | a full frame takes no more bytes | not executed | LegacyKommand.StringOverflowsBuffer | LegacyKommand.PutStringBoundedKeepsBound |
| src/common/comms/Kommand.h:186-188 | an empty string is appended without its NUL terminator | the default Wi-Fi configuration, whose passwords and SSIDs are empty: the module reads the fields shifted | every string, empty or not, ends with a NUL | not executed | WiFiConfigHandler.DefaultConfigIsMisread | WiFiConfigHandler.ConfigRoundTrip |
| tools/kbox.py:372 | without an access point the format string is `'<?, False'`, which `struct.pack` refuses | `send_wifi_config` with no access point SSID | pack the single flag `False` with format `'<?'` | not executed | KBoxHost.NoAccessPointRaises | KBoxHost.WiFiConfigReachesModule |
| src/common/os/TaskManager.h:75-77 | `minRunTime == 0 \|\| runTime < minRunTime` replaces a zero minimum by the next run | runs 0 then 5: minTime 5 exceeds avgTime 2 | the minimum changes only for a smaller run | not executed | TaskStats.ZeroRunLosesMinimum | TaskStats.RunStatBounds |
| lib/List/src/List.h:75-81 | `operator=` clears the target before copying from the source | `l = l` on a non-empty list leaves it empty | self-assignment leaves the list unchanged | not executed | LinkedLists.SelfAssignmentEmpties | LinkedLists.LinkedList.AssignChecked |
| tools/kbox.py:165-166 | the frame is passed to `.format` rather than to `KBoxError.WithFrame`, which takes two arguments and gets one | a KommandFileError frame with no data while another command is awaited: TypeError instead of a KBoxError, so write_file_block gives up instead of retrying | raise the KBoxError "Invalid KommandFileError size" with the frame | not executed | KBoxHost.MisSizedFileErrorRaisesTypeError | KBoxHost.FileErrorsRaiseKBoxError |
| src/common/signalk/SKSource.cpp:52-53 | an input that is not an NMEA 0183 port still stores the talker and the sentence | input NMEA 2000, talker "xx", sentence "xxx"; the source's own test expects the unknown source | the unknown source, with empty talker and sentence | not executed | SKSources.InvalidInputKeepsTalker | SKSources.SourceForNMEA0183Checked |

=== FILE: arduino_string.dfy ===
/** The parts of the Arduino String class the firmware leans on:
  * substring, toInt (atol) and appending a number in decimal. Strings are
  * sequences of characters; the C long of toInt is unbounded here. */
module ArduinoString {

  predicate IsDigit(c: char)
  {
    '0' <= c <= '9'
  }

  predicate AllDigits(s: string)
  {
    forall i :: 0 <= i < |s| ==> IsDigit(s[i])
  }

  /** isspace of the C locale. */
  predicate IsSpace(c: char)
  {
    c == ' ' || c == '\t' || c == '\n' || c == '\r' || c == '\U{B}' || c == '\U{C}'
  }

  function DigitChar(d: nat): (c: char)
    requires d < 10
    ensures IsDigit(c) && c as int - '0' as int == d
  {
    ('0' as int + d) as char
  }

  function Pow10(n: nat): (p: nat)
    ensures p >= 1
  {
    if n == 0 then 1 else Pow10(n - 1) * 10
  }

  /** The value of a run of decimal digits, most significant first. */
  function DigitsValue(s: string): (v: nat)
    requires AllDigits(s)
    ensures v < Pow10(|s|)
  {
    if s == [] then 0 else DigitsValue(s[..|s| - 1]) * 10 + (s[|s| - 1] as int - '0' as int)
  }

  /** String::substring(left, right): the characters from left up to right,
    * clipped to the end of the string; empty when left is past the end. The
    * bounds are swapped when left is greater than right. */
  function Substring(s: string, left: nat, right: nat): (r: string)
    ensures left <= right && left >= |s| ==> r == []
    ensures left <= right && left < |s| ==> r == s[left..if right <= |s| then right else |s|]
    ensures left > right ==> r == Substring(s, right, left)
  {
    if left > right then Substring(s, right, left)
    else if left >= |s| then []
    else s[left..if right <= |s| then right else |s|]
  }

  /** String::indexOf(c, from): the first position at or after from that
    * holds c, or -1. */
  function IndexOf(s: string, c: char, from: nat): (r: int)
    ensures r == -1 || (from <= r < |s| && s[r] == c)
    ensures forall k :: from <= k < |s| && (r == -1 || k < r) ==> s[k] != c
    decreases |s| - from
  {
    if from >= |s| then -1 else if s[from] == c then from else IndexOf(s, c, from + 1)
  }

  /** The longest run of digits at the front of s. */
  function LeadingDigits(s: string): (r: string)
    ensures AllDigits(r)
  {
    if |s| > 0 && IsDigit(s[0]) then [s[0]] + LeadingDigits(s[1..]) else []
  }

  /** LeadingDigits is the longest prefix of digits: a prefix of s, followed
    * by the end of s or by a non-digit. */
  lemma {:induction false} LeadingDigitsLongest(s: string)
    ensures |LeadingDigits(s)| <= |s| && LeadingDigits(s) == s[..|LeadingDigits(s)|]
    ensures |LeadingDigits(s)| == |s| || !IsDigit(s[|LeadingDigits(s)|])
  {
    if |s| > 0 && IsDigit(s[0]) {
      LeadingDigitsLongest(s[1..]);
      assert s == [s[0]] + s[1..];
    }
  }

  /** s without its leading white space. */
  function SkipSpace(s: string): (r: string)
    ensures |r| <= |s|
  {
    if |s| > 0 && IsSpace(s[0]) then SkipSpace(s[1..]) else s
  }

  /** SkipSpace drops exactly the leading white space: the result is a
    * suffix of s, what it drops is all white space, and what is left is
    * empty or starts with something else. */
  lemma {:induction false} SkipSpaceDropsSpace(s: string)
    ensures SkipSpace(s) == s[|s| - |SkipSpace(s)|..]
    ensures forall i :: 0 <= i < |s| - |SkipSpace(s)| ==> IsSpace(s[i])
    ensures SkipSpace(s) == [] || !IsSpace(SkipSpace(s)[0])
  {
    if |s| > 0 && IsSpace(s[0]) {
      SkipSpaceDropsSpace(s[1..]);
      assert s[1..][|s| - 1 - |SkipSpace(s)|..] == s[|s| - |SkipSpace(s)|..];
      assert forall i :: 1 <= i < |s| - |SkipSpace(s)| ==> s[i] == s[1..][i - 1];
    }
  }

  /** String::toInt, that is atol: leading white space, an optional sign,
    * then as many digits as follow; 0 when there are none. */
  function ToInt(s: string): int
  {
    var t := SkipSpace(s);
    if |t| > 0 && t[0] == '-' then 0 - DigitsValue(LeadingDigits(t[1..]))
    else if |t| > 0 && t[0] == '+' then DigitsValue(LeadingDigits(t[1..]))
    else DigitsValue(LeadingDigits(t))
  }

  /** A string of digits reads back as its value. */
  lemma ToIntOfDigits(s: string)
    requires AllDigits(s)
    ensures ToInt(s) == DigitsValue(s)
  {
    if |s| > 0 {
      assert !IsSpace(s[0]) && s[0] != '-' && s[0] != '+';
    }
    AllDigitsLead(s);
  }

  lemma {:induction false} AllDigitsLead(s: string)
    requires AllDigits(s)
    ensures LeadingDigits(s) == s
  {
    if |s| > 0 {
      AllDigitsLead(s[1..]);
    }
  }

  /** String::concat of an unsigned number: its decimal digits, without
    * leading zeros. */
  function Decimal(n: nat): (r: string)
    ensures AllDigits(r) && |r| >= 1 && DigitsValue(r) == n
    ensures n >= 10 ==> r[0] != '0'
  {
    if n < 10 then [DigitChar(n)]
    else
      var r := Decimal(n / 10) + [DigitChar(n % 10)];
      assert r[..|r| - 1] == Decimal(n / 10);
      r
  }

  /** A 0 in front of a run of digits does not change its value. */
  lemma {:induction false} LeadingZero(s: string)
    requires AllDigits(s)
    ensures AllDigits("0" + s) && DigitsValue("0" + s) == DigitsValue(s)
  {
    if s != [] {
      assert ("0" + s)[..|"0" + s| - 1] == "0" + s[..|s| - 1];
      LeadingZero(s[..|s| - 1]);
    }
  }

  /** Two digits, tens first. */
  function Pad2(n: nat): (r: string)
    requires n < 100
    ensures |r| == 2 && AllDigits(r) && DigitsValue(r) == n
  {
    var r := [DigitChar(n / 10), DigitChar(n % 10)];
    assert r[..1] == [DigitChar(n / 10)];
    r
  }

  /** Three digits, hundreds first. */
  function Pad3(n: nat): (r: string)
    requires n < 1000
    ensures |r| == 3 && AllDigits(r) && DigitsValue(r) == n
  {
    var r := [DigitChar(n / 100), DigitChar((n / 10) % 10), DigitChar(n % 10)];
    assert r[..2] == Pad2(n / 10);
    r
  }

  /** The padding as the firmware writes it, "if (x < 10) s += "0";" before
    * the number, gives the two digits. */
  lemma Pad2AsWritten(n: nat)
    requires n < 100
    ensures (if n < 10 then "0" else "") + Decimal(n) == Pad2(n)
  {
    if n >= 10 {
      assert Decimal(n) == Decimal(n / 10) + [DigitChar(n % 10)];
    }
  }

  /** The milliseconds padding as written, a "0" below 100 and another
    * below 10, gives the three digits. */
  lemma Pad3AsWritten(n: nat)
    requires n < 1000
    ensures (if n < 100 then "0" else "") + (if n < 10 then "0" else "") + Decimal(n) == Pad3(n)
  {
    if n < 10 {
      PadOneDigit(n);
    } else if n < 100 {
      PadTwoDigits(n);
    } else {
      DecimalThree(n);
    }
  }

  lemma PadOneDigit(n: nat)
    requires n < 10
    ensures "0" + "0" + Decimal(n) == Pad3(n)
  {
    assert n / 100 == 0 && (n / 10) % 10 == 0 && n % 10 == n;
    assert "0" == [DigitChar(0)];
  }

  lemma PadTwoDigits(n: nat)
    requires 10 <= n < 100
    ensures "0" + Decimal(n) == Pad3(n)
  {
    DecimalTwo(n);
    assert n / 100 == 0 && (n / 10) % 10 == n / 10;
    assert "0" == [DigitChar(0)];
  }

  lemma DecimalTwo(n: nat)
    requires 10 <= n < 100
    ensures Decimal(n) == [DigitChar(n / 10), DigitChar(n % 10)]
  {
  }

  lemma DecimalThree(n: nat)
    requires 100 <= n < 1000
    ensures Decimal(n) == [DigitChar(n / 100), DigitChar((n / 10) % 10), DigitChar(n % 10)]
  {
    assert Decimal(n) == Decimal(n / 10) + [DigitChar(n % 10)];
    DecimalTwo(n / 10);
    assert (n / 10) / 10 == n / 100;
  }

  /** A number of four digits is written with four characters. */
  lemma DecimalFour(n: nat)
    requires 1000 <= n < 10000
    ensures |Decimal(n)| == 4
  {
    assert Decimal(n) == Decimal(n / 10) + [DigitChar(n % 10)];
    DecimalThree(n / 10);
  }
}

=== FILE: bytes.dfy ===
/** Fixed-width unsigned integers and their little-endian byte layout, as
  * used by the KBox wire protocol (Python `struct` '<B', '<H', '<L' and the
  * firmware's byte-by-byte appenders and readers). */
module Bytes {
  type uint8 = x: int | 0 <= x < 0x100
  type uint16 = x: int | 0 <= x < 0x1_0000
  type uint32 = x: int | 0 <= x < 0x1_0000_0000

  const NUL: uint8 := 0

  /** Two bytes, least significant first. */
  function LE16(v: uint16): (r: seq<uint8>)
    ensures |r| == 2 && FromLE16(r[0], r[1]) == v
  {
    [v % 0x100, v / 0x100]
  }

  /** Four bytes, least significant first. */
  function LE32(v: uint32): (r: seq<uint8>)
    ensures |r| == 4
    ensures FromLE32(r[0], r[1], r[2], r[3]) == v
  {
    var q1 := v / 0x100;
    var q2 := q1 / 0x100;
    [v % 0x100, q1 % 0x100, q2 % 0x100, q2 / 0x100]
  }

  function FromLE16(b0: uint8, b1: uint8): uint16
  {
    b0 as int + 0x100 * b1 as int
  }

  function FromLE32(b0: uint8, b1: uint8, b2: uint8, b3: uint8): uint32
  {
    b0 as int + 0x100 * b1 as int + 0x1_0000 * b2 as int + 0x100_0000 * b3 as int
  }

  /** The layouts are one-to-one: decoding then encoding gives the bytes back. */
  lemma LE16Of(b0: uint8, b1: uint8)
    ensures LE16(FromLE16(b0, b1)) == [b0, b1]
  {
    var v := FromLE16(b0, b1);
    assert v / 0x100 == b1 && v % 0x100 == b0;
  }

  lemma LE32Of(b0: uint8, b1: uint8, b2: uint8, b3: uint8)
    ensures LE32(FromLE32(b0, b1, b2, b3)) == [b0, b1, b2, b3]
  {
    var v := FromLE32(b0, b1, b2, b3);
    var q1 := b1 as int + 0x100 * b2 as int + 0x1_0000 * b3 as int;
    var q2 := b2 as int + 0x100 * b3 as int;
    assert v == b0 as int + 0x100 * q1;
    assert v / 0x100 == q1 && v % 0x100 == b0;
    assert q1 == b1 as int + 0x100 * q2;
    assert q1 / 0x100 == q2 && q1 % 0x100 == b1;
    assert q2 / 0x100 == b3 && q2 % 0x100 == b2;
  }

  /** A C string: the bytes before the terminating NUL. */
  predicate NoNul(s: seq<uint8>)
  {
    forall i :: 0 <= i < |s| ==> s[i] != NUL
  }
}

=== FILE: c_strings.dfy ===
/** The C library's strcmp on NUL-terminated strings. A C string is a
  * sequence of characters holding no NUL; the terminator is implicit. */
module CStrings {

  predicate NoNul(s: string)
  {
    forall i :: 0 <= i < |s| ==> s[i] != '\0'
  }

  /** The character at the front, the terminator (0) for the empty string. */
  function Front(s: string): int
  {
    if s == [] then 0 else s[0] as int
  }

  /** strcmp: the difference of the first characters that differ, the
    * terminator counting as 0. Only the sign of the result is specified by
    * the C standard; this is the common implementation. */
  function Strcmp(a: string, b: string): int
    decreases |a|
  {
    if a == [] || b == [] || a[0] != b[0] then Front(a) - Front(b) else Strcmp(a[1..], b[1..])
  }

  lemma {:induction false} StrcmpReflexive(a: string)
    ensures Strcmp(a, a) == 0
  {
    if a != [] {
      StrcmpReflexive(a[1..]);
    }
  }

  lemma {:induction false} StrcmpAntisymmetric(a: string, b: string)
    ensures Strcmp(a, b) == -Strcmp(b, a)
    decreases |a|
  {
    if a != [] && b != [] && a[0] == b[0] {
      StrcmpAntisymmetric(a[1..], b[1..]);
    }
  }

  /** Two C strings compare equal exactly when they are the same string. */
  lemma {:induction false} StrcmpZeroIffEqual(a: string, b: string)
    requires NoNul(a) && NoNul(b)
    ensures Strcmp(a, b) == 0 <==> a == b
    decreases |a|
  {
    if a == b {
      StrcmpReflexive(a);
    } else if a != [] && b != [] && a[0] == b[0] {
      assert a[1..] != b[1..] by {
        assert a == [a[0]] + a[1..] && b == [b[0]] + b[1..];
      }
      StrcmpZeroIffEqual(a[1..], b[1..]);
    } else if a == [] {
      assert b[0] != '\0';
    } else if b == [] {
      assert a[0] != '\0';
    }
  }

  lemma {:induction false} StrcmpTransitive(a: string, b: string, c: string)
    requires Strcmp(a, b) > 0 && Strcmp(b, c) > 0
    ensures Strcmp(a, c) > 0
    decreases |a|
  {
    if a != [] && b != [] && c != [] && a[0] == b[0] && b[0] == c[0] {
      StrcmpTransitive(a[1..], b[1..], c[1..]);
    }
  }
}

=== FILE: crc32.dfy ===
/** rc_crc32 (src/common/algo/crc.c): the CRC-32 of IEEE 802.3 clause
  * 3.2.9 in its reflected form, polynomial 0xEDB88320, driven by a table of
  * 256 remainders that is computed on the first call and kept. */
module Crc {

  const Polynomial: bv32 := 0xEDB8_8320

  /** One bit of polynomial division: shift right, and subtract (XOR) the
    * polynomial when the bit shifted out was set. */
  function Step(rem: bv32): bv32
  {
    if rem & 1 == 1 then (rem >> 1) ^ Polynomial else rem >> 1
  }

  function Steps(rem: bv32, n: nat): bv32
    decreases n
  {
    if n == 0 then rem else Steps(Step(rem), n - 1)
  }

  /** The table entry of a byte: the byte in the register, then eight
    * division steps, one byte's worth. */
  function TableEntry(b: bv8): bv32
  {
    Steps(b as bv32, 8)
  }

  /** The update step of the loop: the register shifted down one byte,
    * XOR the table entry of its low byte XOR the input octet. */
  function Update(crc: bv32, octet: bv8): bv32
  {
    (crc >> 8) ^ TableEntry(((crc & 0xFF) as bv8) ^ octet)
  }

  /** The register after feeding the bytes, without the complements. */
  function Register(crc: bv32, buf: seq<bv8>): bv32
    decreases |buf|
  {
    if buf == [] then crc else Register(Update(crc, buf[0]), buf[1..])
  }

  /** The bitwise complement of the register, ~crc. */
  function Complement(x: bv32): bv32
  {
    !x
  }

  /** rc_crc32(crc, buf, len): complement in, update per byte, complement
    * out. */
  function Crc32(crc: bv32, buf: seq<bv8>): bv32
  {
    Complement(Register(Complement(crc), buf))
  }

  /** Feeding a then b leaves the register that feeding b leaves when
    * started from where a left it. */
  lemma {:induction false} RegisterAppend(crc: bv32, a: seq<bv8>, b: seq<bv8>)
    ensures Register(crc, a + b) == Register(Register(crc, a), b)
    decreases |a|
  {
    if a != [] {
      assert (a + b)[0] == a[0] && (a + b)[1..] == a[1..] + b;
      RegisterAppend(Update(crc, a[0]), a[1..], b);
    } else {
      assert a + b == b;
    }
  }

  /** One update takes the first byte off the buffer. */
  lemma RegisterFirst(crc: bv32, buf: seq<bv8>)
    requires buf != []
    ensures Register(crc, buf) == Register(Update(crc, buf[0]), buf[1..])
  {
  }

  /** A table entry read for the low byte completes one update. */
  lemma TableStep(crc: bv32, octet: bv8, entry: bv32, next: bv32)
    requires entry == TableEntry(((crc & 0xFF) as bv8) ^ octet)
    requires next == (crc >> 8) ^ entry
    ensures next == Update(crc, octet)
  {
  }

  /** The table index is a byte, and converting it to an array index and
    * back loses nothing. */
  lemma IndexRange(x: bv8)
    ensures 0 <= x as int < 256 && (x as int) as bv8 == x
  {
  }

  /** The index the loop reads, the low byte of the register XOR the octet,
    * is the low byte of the register XOR the octet taken as a whole. */
  lemma IndexIsLowByte(crc: bv32, octet: bv8)
    ensures ((crc & 0xFF) as bv8) ^ octet == ((crc ^ (octet as bv32)) & 0xFF) as bv8
  {
  }

  /** Complementing twice gives the register back. */
  lemma ComplementTwice(v: bv32)
    ensures Complement(Complement(v)) == v
  {
  }

  /** Because the output is complemented back, a CRC can be continued: the
    * CRC of a then b is the CRC of b started from the CRC of a. */
  lemma Crc32Continues(crc: bv32, a: seq<bv8>, b: seq<bv8>)
    ensures Crc32(Crc32(crc, a), b) == Crc32(crc, a + b)
  {
    ComplementTwice(Register(Complement(crc), a));
    RegisterAppend(Complement(crc), a, b);
  }

  /** An empty buffer leaves the CRC as it was. */
  lemma Crc32Empty(crc: bv32)
    ensures Crc32(crc, []) == crc
  {
    ComplementTwice(crc);
  }

  /** Known entries of the table of the standard polynomial. */
  lemma TableEntries()
    ensures TableEntry(0) == 0 && TableEntry(1) == 0x7707_3096
    ensures TableEntry(128) == 0xEDB8_8320 && TableEntry(255) == 0x2D02_EF8D
  {
  }

  /** The check value of the standard: the CRC of "123456789" is
    * 0xCBF43926. */
  lemma Crc32CheckValue()
    ensures Crc32(0, [0x31, 0x32, 0x33, 0x34, 0x35, 0x36, 0x37, 0x38, 0x39]) == 0xCBF4_3926
  {
    assert Update(0xFFFF_FFFF, 0x31) == 0x7C23_1048;
    assert Update(0x7C23_1048, 0x32) == 0xB0AC_BB32;
    assert Update(0xB0AC_BB32, 0x33) == 0x77B7_9C2D;
    assert Update(0x77B7_9C2D, 0x34) == 0x641C_1F5C;
    assert Update(0x641C_1F5C, 0x35) == 0x340A_C5E3;
    assert Update(0x340A_C5E3, 0x36) == 0xF68D_2C9E;
    assert Update(0xF68D_2C9E, 0x37) == 0xAFFC_9660;
    assert Update(0xAFFC_9660, 0x38) == 0x651F_2550;
    assert Update(0x651F_2550, 0x39) == 0x340B_C6D9;
  }

  /** The inner loop of the table computation: eight division steps on
    * the remainder. */
  method Divide(b: bv8) returns (rem: bv32)
    ensures rem == TableEntry(b)
  {
    rem := b as bv32;
    var j := 0;
    while j < 8
      invariant 0 <= j <= 8 && Steps(b as bv32, 8) == Steps(rem, 8 - j)
    {
      if rem & 1 == 1 {
        rem := rem >> 1;
        rem := rem ^ Polynomial;
      } else {
        rem := rem >> 1;
      }
      j := j + 1;
    }
  }

  /** The static table and the flag that says it has been computed. */
  class Crc32Table {
    var table: array<bv32>
    var haveTable: bool

    ghost predicate Valid()
      reads this, table
    {
      table.Length == 256 && (haveTable ==> forall i :: 0 <= i < 256 ==> table[i] == TableEntry(i as bv8))
    }

    /** Static storage starts zeroed. */
    constructor()
      ensures Valid() && !haveTable && fresh(table)
    {
      table := new bv32[256](_ => 0);
      haveTable := false;
    }

    /** The table of remainders: entry i is i after eight division steps. */
    method FillTable()
      requires Valid()
      modifies this, table
      ensures Valid() && haveTable && table == old(table)
    {
      var i := 0;
      while i < 256
        invariant 0 <= i <= 256 && table == old(table) && table.Length == 256
        invariant forall k :: 0 <= k < i ==> table[k] == TableEntry(k as bv8)
      {
        var rem := Divide(i as bv8);
        table[i] := rem;
        i := i + 1;
      }
      haveTable := true;
    }

    /** One pass of the update loop: the register shifted down a byte, XOR
      * the table entry its low byte and the octet select. */
    method UpdateStep(c: bv32, octet: bv8) returns (next: bv32)
      requires Valid() && haveTable
      ensures next == Update(c, octet)
    {
      var index := ((c & 0xFF) as bv8) ^ octet;
      IndexRange(index);
      next := (c >> 8) ^ table[index as int];
      TableStep(c, octet, table[index as int], next);
    }

    /** rc_crc32: fills the table on the first call, then runs the update
      * loop over the buffer between the two complements. */
    method Compute(crc: bv32, buf: seq<bv8>) returns (r: bv32)
      requires Valid()
      modifies this, table
      ensures Valid() && haveTable && table == old(table)
      ensures r == Crc32(crc, buf)
    {
      if !haveTable {
        FillTable();
      }
      var c := !crc;
      var p := 0;
      while p < |buf|
        invariant 0 <= p <= |buf|
        invariant Register(Complement(crc), buf) == Register(c, buf[p..])
        modifies {}
      {
        var next := UpdateStep(c, buf[p]);
        RegisterFirst(c, buf[p..]);
        assert buf[p..][0] == buf[p] && buf[p..][1..] == buf[p + 1..];
        c := next;
        p := p + 1;
      }
      r := !c;
      assert r == Complement(c);
    }
  }
}

=== FILE: kbox_config.dfy ===
/** KBoxConfigParser (src/host/config/KBoxConfigParser.cpp): reads the JSON
  * configuration file into the KBox configuration. Each parse function
  * takes the JSON object and the configuration struct it fills in; the
  * struct, passed by reference in the source, is a value here and the
  * function returns it updated. The JSON library is not part of this
  * model: a JSON value is a datatype, and an object that is not one (a
  * missing member, a member of another type, a file that did not parse)
  * is JsonObject::invalid(), `None` here. */
module ConfigParser {
  import opened Wrappers

  datatype Json =
    | JUndefined
    | JBool(b: bool)
    | JInt(i: int)
    | JString(s: string)
    | JObject(members: map<string, Json>)
      /** Floats, arrays and null: the parser reads none of them. */
    | JOther

  type JsonObject = Option<map<string, Json>>

  /** json["name"]: undefined on an invalid object or for a missing key. */
  function Member(json: JsonObject, name: string): Json
  {
    if json.Some? && name in json.value then json.value[name] else JUndefined
  }

  /** The conversion of json["name"] to a JsonObject&: invalid unless the
    * member is an object. */
  function SubObject(json: JsonObject, name: string): JsonObject
  {
    match Member(json, name)
    case JObject(members) => Some(members)
    case _ => None
  }

  datatype SerialMode = SerialModeDisabled | SerialModeNMEA

  datatype IMUMounting =
    | VerticalRightSideToBow
    | VerticalLeftSideToBow
    | VerticalTopToBow
    | VerticalBottomToBow
    | HorizontalTopToBow
    | HorizontalLeftSideToBow
    | HorizontalBottomToBow
    | HorizontalRightSideToBow

  datatype SKNMEAConverterConfig = SKNMEAConverterConfig(
    xdrPressure: bool, xdrAttitude: bool, xdrBattery: bool, hdm: bool, rsa: bool, mwv: bool)

  datatype SerialConfig = SerialConfig(
    baudRate: int, inputMode: SerialMode, outputMode: SerialMode, nmeaConverter: SKNMEAConverterConfig)

  datatype NMEA2000Config = NMEA2000Config(rxEnabled: bool, txEnabled: bool)

  datatype IMUConfig = IMUConfig(
    enabled: bool, frequency: int, enableHdg: bool, enableHeelPitch: bool, mounting: IMUMounting)

  datatype BarometerConfig = BarometerConfig(enabled: bool, frequency: int)

  datatype WiFiNetworkConfig = WiFiNetworkConfig(enabled: bool, ssid: string, password: string)

  datatype WiFiConfig = WiFiConfig(
    enabled: bool, accessPoint: WiFiNetworkConfig, client: WiFiNetworkConfig,
    vesselURN: string, nmeaConverter: SKNMEAConverterConfig)

  datatype KBoxConfig = KBoxConfig(
    serial1Config: SerialConfig, serial2Config: SerialConfig, nmea2000Config: NMEA2000Config,
    imuConfig: IMUConfig, barometerConfig: BarometerConfig, wifiConfig: WiFiConfig)

  const IMUFrequencyMin := 1
  const IMUFrequencyMax := 100
  const BarometerFrequencyMin := 1
  const BarometerFrequencyMax := 10
  const MmsiURNPrefix := "urn:mrn:imo:mmsi:"

  /** READ_BOOL_VALUE: the member if it is a boolean, else the current value. */
  function ReadBool(json: JsonObject, name: string, current: bool): bool
  {
    match Member(json, name)
    case JBool(b) => b
    case _ => current
  }

  /** What READ_BOOL_VALUE promises: a boolean member replaces the value,
    * anything else leaves it. */
  predicate BoolTaken(json: JsonObject, name: string, before: bool, after: bool)
  {
    if Member(json, name).JBool? then after == Member(json, name).b else after == before
  }

  /** What READ_INT_VALUE promises: an integer member replaces the value,
    * anything else leaves it. */
  predicate IntTaken(json: JsonObject, name: string, before: int, after: int)
  {
    if Member(json, name).JInt? then after == Member(json, name).i else after == before
  }

  /** What READ_STRING_VALUE promises, for a string member. */
  predicate StringTaken(json: JsonObject, name: string, before: string, after: string)
  {
    if Member(json, name).JString? then after == Member(json, name).s else after == before
  }

  /** READ_INT_VALUE. */
  function ReadInt(json: JsonObject, name: string, current: int): int
  {
    match Member(json, name)
    case JInt(i) => i
    case _ => current
  }

  /** READ_INT_VALUE_WRANGE: an integer member within [min, max] only. */
  function ReadIntInRange(json: JsonObject, name: string, min: int, max: int, current: int): int
  {
    match Member(json, name)
    case JInt(i) => if min <= i <= max then i else current
    case _ => current
  }

  /** READ_STRING_VALUE. */
  function ReadString(json: JsonObject, name: string, current: string): string
  {
    match Member(json, name)
    case JString(s) => s
    case _ => current
  }

  /** convertSerialMode: "nmea" is NMEA, anything else, "disabled" included,
    * is disabled. */
  function ConvertSerialMode(s: string): (m: SerialMode)
    ensures m == SerialModeNMEA <==> s == "nmea"
  {
    if s == "disabled" then SerialModeDisabled
    else if s == "nmea" then SerialModeNMEA
    else SerialModeDisabled
  }

  /** The configuration file's name for each mounting. */
  function MountingName(m: IMUMounting): string
  {
    match m
    case VerticalRightSideToBow => "verticalRightSideToBow"
    case VerticalLeftSideToBow => "verticalLeftSideToBow"
    case VerticalTopToBow => "verticalTopToBow"
    case VerticalBottomToBow => "verticalBottomToBow"
    case HorizontalTopToBow => "horizontalTopToBow"
    case HorizontalLeftSideToBow => "horizontalLeftSideToBow"
    case HorizontalBottomToBow => "horizontalBottomToBow"
    case HorizontalRightSideToBow => "horizontalRightSideToBow"
  }

  /** convertIMUMounting: the mounting of that name; a name that is none of
    * the eight gives verticalRightSideToBow. */
  function ConvertIMUMounting(s: string): (m: IMUMounting)
    ensures MountingName(m) == s || (m == VerticalRightSideToBow && forall k :: MountingName(k) != s)
  {
    if s == "verticalRightSideToBow" then VerticalRightSideToBow
    else if s == "verticalLeftSideToBow" then VerticalLeftSideToBow
    else if s == "verticalTopToBow" then VerticalTopToBow
    else if s == "verticalBottomToBow" then VerticalBottomToBow
    else if s == "horizontalTopToBow" then HorizontalTopToBow
    else if s == "horizontalLeftSideToBow" then HorizontalLeftSideToBow
    else if s == "horizontalBottomToBow" then HorizontalBottomToBow
    else if s == "horizontalRightSideToBow" then HorizontalRightSideToBow
    else VerticalRightSideToBow
  }

  /** Every mounting is read back from its own name. */
  lemma MountingRoundTrip(m: IMUMounting)
    ensures ConvertIMUMounting(MountingName(m)) == m
  {
  }

  /** What READ_ENUM_VALUE with convertSerialMode promises: a string member
    * sets NMEA exactly when it is "nmea", anything else leaves the mode. */
  predicate SerialModeTaken(json: JsonObject, name: string, before: SerialMode, after: SerialMode)
  {
    if Member(json, name).JString? then (after == SerialModeNMEA <==> Member(json, name).s == "nmea")
    else after == before
  }

  /** What READ_ENUM_VALUE with convertIMUMounting promises: a string member
    * sets the mounting of that name, anything else leaves it. */
  predicate MountingTaken(json: JsonObject, name: string, before: IMUMounting, after: IMUMounting)
  {
    if Member(json, name).JString? then after == ConvertIMUMounting(Member(json, name).s)
    else after == before
  }

  /** READ_ENUM_VALUE with convertSerialMode. */
  function ReadSerialMode(json: JsonObject, name: string, current: SerialMode): SerialMode
  {
    match Member(json, name)
    case JString(s) => ConvertSerialMode(s)
    case _ => current
  }

  /** READ_ENUM_VALUE with convertIMUMounting. */
  function ReadMounting(json: JsonObject, name: string, current: IMUMounting): IMUMounting
  {
    match Member(json, name)
    case JString(s) => ConvertIMUMounting(s)
    case _ => current
  }

  /** defaultConfig: the values it sets; the converter flags of the second
    * serial port other than XDR, those of the first serial port and those
    * of the Wi-Fi are not touched. The default vessel URN is a parameter. */
  function DefaultConfig(config: KBoxConfig, defaultVesselURN: string): (r: KBoxConfig)
    ensures r.serial1Config.nmeaConverter == config.serial1Config.nmeaConverter
    ensures r.serial2Config.nmeaConverter.(xdrAttitude := false, xdrBattery := false, xdrPressure := false)
         == config.serial2Config.nmeaConverter.(xdrAttitude := false, xdrBattery := false, xdrPressure := false)
    ensures r.wifiConfig.nmeaConverter == config.wifiConfig.nmeaConverter
    ensures IMUFrequencyMin <= r.imuConfig.frequency <= IMUFrequencyMax
    ensures BarometerFrequencyMin <= r.barometerConfig.frequency <= BarometerFrequencyMax
  {
    var s1 := config.serial1Config.(baudRate := 38400, inputMode := SerialModeNMEA, outputMode := SerialModeNMEA);
    var s2 := config.serial2Config.(baudRate := 4800, inputMode := SerialModeNMEA, outputMode := SerialModeNMEA,
      nmeaConverter := config.serial2Config.nmeaConverter.(xdrAttitude := false, xdrBattery := false, xdrPressure := false));
    var imu := IMUConfig(true, 20, true, true, VerticalRightSideToBow);
    var wifi := config.wifiConfig.(enabled := true, vesselURN := defaultVesselURN,
      accessPoint := WiFiNetworkConfig(true, "KBox", ""), client := WiFiNetworkConfig(false, "", ""));
    KBoxConfig(s1, s2, NMEA2000Config(true, true), imu, BarometerConfig(true, 1), wifi)
  }

  /** Applying the defaults twice is applying them once. */
  lemma DefaultConfigIdempotent(config: KBoxConfig, defaultVesselURN: string)
    ensures DefaultConfig(DefaultConfig(config, defaultVesselURN), defaultVesselURN) == DefaultConfig(config, defaultVesselURN)
  {
  }

  /** parseNMEAConverterConfig: nothing on an invalid object, else the six
    * boolean flags that are present. */
  function ParseNMEAConverterConfig(json: JsonObject, config: SKNMEAConverterConfig): (r: SKNMEAConverterConfig)
    ensures json.None? ==> r == config
    ensures BoolTaken(json, "xdrPressure", config.xdrPressure, r.xdrPressure)
    ensures BoolTaken(json, "xdrAttitude", config.xdrAttitude, r.xdrAttitude)
    ensures BoolTaken(json, "xdrBattery", config.xdrBattery, r.xdrBattery)
    ensures BoolTaken(json, "hdm", config.hdm, r.hdm)
    ensures BoolTaken(json, "rsa", config.rsa, r.rsa)
    ensures BoolTaken(json, "mwv", config.mwv, r.mwv)
  {
    if json.None? then config
    else SKNMEAConverterConfig(
      ReadBool(json, "xdrPressure", config.xdrPressure),
      ReadBool(json, "xdrAttitude", config.xdrAttitude),
      ReadBool(json, "xdrBattery", config.xdrBattery),
      ReadBool(json, "hdm", config.hdm),
      ReadBool(json, "rsa", config.rsa),
      ReadBool(json, "mwv", config.mwv))
  }

  /** parseSerialConfig: nothing on an invalid object; else the baud rate,
    * the two modes through convertSerialMode and the converter object. */
  function ParseSerialConfig(json: JsonObject, config: SerialConfig): (r: SerialConfig)
    ensures json.None? ==> r == config
    ensures IntTaken(json, "baudRate", config.baudRate, r.baudRate)
    ensures SerialModeTaken(json, "inputMode", config.inputMode, r.inputMode)
    ensures SerialModeTaken(json, "outputMode", config.outputMode, r.outputMode)
    ensures r.nmeaConverter == ParseNMEAConverterConfig(SubObject(json, "nmeaConverter"), config.nmeaConverter)
  {
    if json.None? then config
    else SerialConfig(
      ReadInt(json, "baudRate", config.baudRate),
      ReadSerialMode(json, "inputMode", config.inputMode),
      ReadSerialMode(json, "outputMode", config.outputMode),
      ParseNMEAConverterConfig(SubObject(json, "nmeaConverter"), config.nmeaConverter))
  }

  /** parseNMEA2000Config: the two flags that are present as booleans. */
  function ParseNMEA2000Config(json: JsonObject, config: NMEA2000Config): (r: NMEA2000Config)
    ensures json.None? ==> r == config
    ensures BoolTaken(json, "rxEnabled", config.rxEnabled, r.rxEnabled)
    ensures BoolTaken(json, "txEnabled", config.txEnabled, r.txEnabled)
  {
    NMEA2000Config(ReadBool(json, "rxEnabled", config.rxEnabled), ReadBool(json, "txEnabled", config.txEnabled))
  }

  /** parseIMUConfig: the frequency is taken only when it is an integer in
    * 1..100, so a frequency in range stays in range. */
  function ParseIMUConfig(json: JsonObject, config: IMUConfig): (r: IMUConfig)
    ensures json.None? ==> r == config
    ensures r.frequency != config.frequency ==>
              Member(json, "frequency") == JInt(r.frequency) && IMUFrequencyMin <= r.frequency <= IMUFrequencyMax
    ensures var f := Member(json, "frequency");
            f.JInt? && IMUFrequencyMin <= f.i <= IMUFrequencyMax ==> r.frequency == f.i
    ensures IMUFrequencyMin <= config.frequency <= IMUFrequencyMax ==> IMUFrequencyMin <= r.frequency <= IMUFrequencyMax
    ensures BoolTaken(json, "enabled", config.enabled, r.enabled)
    ensures BoolTaken(json, "enableHdg", config.enableHdg, r.enableHdg)
    ensures BoolTaken(json, "enableHeelPitch", config.enableHeelPitch, r.enableHeelPitch)
    ensures MountingTaken(json, "mounting", config.mounting, r.mounting)
  {
    IMUConfig(
      ReadBool(json, "enabled", config.enabled),
      ReadIntInRange(json, "frequency", IMUFrequencyMin, IMUFrequencyMax, config.frequency),
      ReadBool(json, "enableHdg", config.enableHdg),
      ReadBool(json, "enableHeelPitch", config.enableHeelPitch),
      ReadMounting(json, "mounting", config.mounting))
  }

  /** parseBarometerConfig: the frequency is taken only in 1..10. */
  function ParseBarometerConfig(json: JsonObject, config: BarometerConfig): (r: BarometerConfig)
    ensures json.None? ==> r == config
    ensures r.frequency != config.frequency ==>
              Member(json, "frequency") == JInt(r.frequency) && BarometerFrequencyMin <= r.frequency <= BarometerFrequencyMax
    ensures var f := Member(json, "frequency");
            f.JInt? && BarometerFrequencyMin <= f.i <= BarometerFrequencyMax ==> r.frequency == f.i
    ensures var (lo, hi) := (BarometerFrequencyMin, BarometerFrequencyMax);
            lo <= config.frequency <= hi ==> lo <= r.frequency <= hi
    ensures BoolTaken(json, "enabled", config.enabled, r.enabled)
  {
    BarometerConfig(
      ReadBool(json, "enabled", config.enabled),
      ReadIntInRange(json, "frequency", BarometerFrequencyMin, BarometerFrequencyMax, config.frequency))
  }

  /** parseWiFiNetworkConfig. */
  function ParseWiFiNetworkConfig(json: JsonObject, config: WiFiNetworkConfig): (r: WiFiNetworkConfig)
    ensures json.None? ==> r == config
    ensures BoolTaken(json, "enabled", config.enabled, r.enabled)
    ensures StringTaken(json, "ssid", config.ssid, r.ssid)
    ensures StringTaken(json, "password", config.password, r.password)
  {
    WiFiNetworkConfig(
      ReadBool(json, "enabled", config.enabled),
      ReadString(json, "ssid", config.ssid),
      ReadString(json, "password", config.password))
  }

  /** parseWiFiConfig: nothing on an invalid object; an mmsi string gives the
    * vessel URN "urn:mrn:imo:mmsi:" followed by the mmsi. */
  function ParseWiFiConfig(json: JsonObject, config: WiFiConfig): (r: WiFiConfig)
    ensures json.None? ==> r == config
    ensures Member(json, "mmsi").JString? ==>
              |r.vesselURN| == |MmsiURNPrefix| + |Member(json, "mmsi").s|
              && r.vesselURN[..|MmsiURNPrefix|] == MmsiURNPrefix
              && r.vesselURN[|MmsiURNPrefix|..] == Member(json, "mmsi").s
    ensures !Member(json, "mmsi").JString? ==> r.vesselURN == config.vesselURN
    ensures BoolTaken(json, "enabled", config.enabled, r.enabled)
    ensures r.client == ParseWiFiNetworkConfig(SubObject(json, "client"), config.client)
    ensures r.accessPoint == ParseWiFiNetworkConfig(SubObject(json, "accessPoint"), config.accessPoint)
    ensures r.nmeaConverter == ParseNMEAConverterConfig(SubObject(json, "nmeaConverter"), config.nmeaConverter)
  {
    if json.None? then config
    else
      var urn := match Member(json, "mmsi")
        case JString(mmsi) => MmsiURNPrefix + mmsi
        case _ => config.vesselURN;
      WiFiConfig(
        ReadBool(json, "enabled", config.enabled),
        ParseWiFiNetworkConfig(SubObject(json, "accessPoint"), config.accessPoint),
        ParseWiFiNetworkConfig(SubObject(json, "client"), config.client),
        urn,
        ParseNMEAConverterConfig(SubObject(json, "nmeaConverter"), config.nmeaConverter))
  }

  /** parseKBoxConfig: the defaults first, then each section of the file. */
  function ParseKBoxConfig(json: JsonObject, config: KBoxConfig, defaultVesselURN: string): (r: KBoxConfig)
    ensures IMUFrequencyMin <= r.imuConfig.frequency <= IMUFrequencyMax
    ensures BarometerFrequencyMin <= r.barometerConfig.frequency <= BarometerFrequencyMax
    ensures var d := DefaultConfig(config, defaultVesselURN);
            && r.serial1Config == ParseSerialConfig(SubObject(json, "serial1"), d.serial1Config)
            && r.serial2Config == ParseSerialConfig(SubObject(json, "serial2"), d.serial2Config)
            && r.nmea2000Config == ParseNMEA2000Config(SubObject(json, "nmea2000"), d.nmea2000Config)
            && r.imuConfig == ParseIMUConfig(SubObject(json, "imu"), d.imuConfig)
            && r.barometerConfig == ParseBarometerConfig(SubObject(json, "barometer"), d.barometerConfig)
            && r.wifiConfig == ParseWiFiConfig(SubObject(json, "wifi"), d.wifiConfig)
  {
    var d := DefaultConfig(config, defaultVesselURN);
    KBoxConfig(
      ParseSerialConfig(SubObject(json, "serial1"), d.serial1Config),
      ParseSerialConfig(SubObject(json, "serial2"), d.serial2Config),
      ParseNMEA2000Config(SubObject(json, "nmea2000"), d.nmea2000Config),
      ParseIMUConfig(SubObject(json, "imu"), d.imuConfig),
      ParseBarometerConfig(SubObject(json, "barometer"), d.barometerConfig),
      ParseWiFiConfig(SubObject(json, "wifi"), d.wifiConfig))
  }

  /** A file that did not parse, or an object with none of the sections,
    * gives the defaults. */
  lemma NoSectionsGiveDefaults(json: JsonObject, config: KBoxConfig, defaultVesselURN: string)
    requires json.None? || json.value == map[]
    ensures ParseKBoxConfig(json, config, defaultVesselURN) == DefaultConfig(config, defaultVesselURN)
  {
  }

  /** The configuration passed in matters only where defaultConfig leaves
    * it alone: parsing from it or from its defaults gives the same. */
  lemma ParseStartsFromDefaults(json: JsonObject, config: KBoxConfig, defaultVesselURN: string)
    ensures ParseKBoxConfig(json, DefaultConfig(config, defaultVesselURN), defaultVesselURN)
         == ParseKBoxConfig(json, config, defaultVesselURN)
  {
    DefaultConfigIdempotent(config, defaultVesselURN);
  }

  /** An IMU section whose frequency is out of range keeps the default of 20
    * hertz; one in range sets it. */
  lemma IMUFrequencyFromFile(json: JsonObject, config: KBoxConfig, defaultVesselURN: string)
    requires SubObject(json, "imu").Some?
    ensures var f := Member(SubObject(json, "imu"), "frequency");
            ParseKBoxConfig(json, config, defaultVesselURN).imuConfig.frequency
            == if f.JInt? && IMUFrequencyMin <= f.i <= IMUFrequencyMax then f.i else 20
  {
  }

  /** The IMU mounting is the one the file names, verticalRightSideToBow
    * for an unknown name, and the default verticalRightSideToBow when the
    * file gives no string. */
  lemma IMUMountingFromFile(json: JsonObject, config: KBoxConfig, defaultVesselURN: string)
    ensures var m := Member(SubObject(json, "imu"), "mounting");
            var r := ParseKBoxConfig(json, config, defaultVesselURN).imuConfig.mounting;
            && (m.JString? ==> MountingName(r) == m.s || (r == VerticalRightSideToBow && forall k :: MountingName(k) != m.s))
            && (!m.JString? ==> r == VerticalRightSideToBow)
  {
  }
}

=== FILE: kbox_files.dfy ===
/** The file transfer protocol of tools/kbox.py: a file is read block by
  * block at increasing offsets until an empty block comes back, and written
  * in fixed-size blocks, each retried when no acknowledgement arrives. The
  * random operation identifiers are parameters; the reply to each request is
  * what readCommand gave for it (module KBoxHost). */
module KBoxFiles {
  import opened Bytes
  import opened Wrappers
  import Ids = KommandIds
  import opened KBoxHost

  const SizeT: nat := 0x1_0000_0000

  /** Default block size asked for by read_file_block: 32 MiB. */
  const ReadBlockSize: nat := 32 * 1024 * 1024

  /** `struct.pack('<LLL', id, position, size)`, then the name and its NUL;
    * a position past 32 bits makes struct.pack raise. */
  function FileRequest(command: uint16, opId: uint32, position: nat, size: nat, filename: seq<uint8>)
    : (r: Result<seq<uint8>, Failure>)
    ensures r.Ok? <==> position < SizeT && size < SizeT
    ensures r.Ok? ==> r.value == CommandFrame(command, LE32(opId) + LE32(position) + LE32(size) + filename + [NUL])
  {
    if position >= SizeT || size >= SizeT then Err(StructError)
    else Ok(CommandFrame(command, LE32(opId) + LE32(position) + LE32(size) + filename + [NUL]))
  }

  // ---------------------------------------------------------------------
  // read_file_block / read_file
  // ---------------------------------------------------------------------

  /** The request read_file_block sends for the block at `position`, with
    * its default size; only the position can overflow the `<L` field. */
  function ReadBlockRequest(readId: uint32, position: nat, filename: seq<uint8>): (r: Result<seq<uint8>, Failure>)
    ensures r.Ok? <==> position < SizeT
    ensures r.Ok? ==> r.value == CommandFrame(Ids.FileRead, LE32(readId) + LE32(position) + LE32(ReadBlockSize) + filename + [NUL])
  {
    FileRequest(Ids.FileRead, readId, position, ReadBlockSize, filename)
  }

  /** The checks read_file_block makes on the reply to its request: the
    * `<LL` header must carry the request's id and a size that matches the
    * data that follows it. */
  function ReadFileBlock(readId: uint32, reply: Result<seq<uint8>, Failure>): (r: Result<seq<uint8>, Failure>)
    ensures reply.Err? ==> r == reply
  {
    match reply
    case Err(e) => Err(e)
    case Ok(data) =>
      if |data| < 8 then Err(StructError)
      else if FromLE32(data[0], data[1], data[2], data[3]) != readId then Err(KBoxError(ReadReplyForAnotherRead))
      else if |data| != FromLE32(data[4], data[5], data[6], data[7]) + 8 then Err(KBoxError(InvalidReplyLength))
      else Ok(data[8..])
  }

  /** KommandFileReadReply's data: the operation id, the size, the bytes read. */
  function FileReadReply(readId: uint32, block: seq<uint8>): seq<uint8>
    requires |block| < SizeT
  {
    LE32(readId) + LE32(|block|) + block
  }

  /** A reply is accepted exactly when it is the reply to this read, and then
    * its bytes are returned. */
  lemma ReadFileBlockAccepts(readId: uint32, data: seq<uint8>, block: seq<uint8>)
    requires |block| < SizeT
    ensures ReadFileBlock(readId, Ok(data)) == Ok(block) <==> data == FileReadReply(readId, block)
  {
    var reply := FileReadReply(readId, block);
    assert reply[..4] == LE32(readId) && reply[4..8] == LE32(|block|) && reply[8..] == block;
    if ReadFileBlock(readId, Ok(data)) == Ok(block) {
      LE32Of(data[0], data[1], data[2], data[3]);
      LE32Of(data[4], data[5], data[6], data[7]);
      assert data[..4] == LE32(readId);
      assert data[4..8] == LE32(|block|);
      assert data == data[..4] + data[4..8] + data[8..];
    }
  }

  /** The reply to another read is refused. */
  lemma ReadFileBlockRefusesOtherId(readId: uint32, otherId: uint32, block: seq<uint8>)
    requires |block| < SizeT && otherId != readId
    ensures ReadFileBlock(readId, Ok(FileReadReply(otherId, block))) == Err(KBoxError(ReadReplyForAnotherRead))
  {
    var reply := FileReadReply(otherId, block);
    assert reply[..4] == LE32(otherId);
  }

  /** What read_file asks for and gets: the offsets it requested, and the
    * file or the failure that ended it. */
  datatype Transfer = Transfer(result: Result<seq<uint8>, Failure>, offsets: seq<nat>)

  /** read_file from `data` read so far; `blocks` are what read_file_block
    * returned for each request; a request left unanswered times out. */
  function ReadFileSpec(blocks: seq<Result<seq<uint8>, Failure>>, data: seq<uint8>): (t: Transfer)
    ensures |data| < SizeT <==> |t.offsets| >= 1
    ensures |data| < SizeT ==> t.offsets[0] == |data|
    ensures forall i :: 0 <= i < |t.offsets| ==> t.offsets[i] < SizeT
    decreases |blocks|
  {
    if |data| >= SizeT then Transfer(Err(StructError), [])
    else if blocks == [] then Transfer(Err(KBoxError(TimedOut)), [|data|])
    else
      match blocks[0]
      case Err(e) => Transfer(Err(e), [|data|])
      case Ok(b) =>
        if |b| == 0 then Transfer(Ok(data), [|data|])
        else
          var t := ReadFileSpec(blocks[1..], data + b);
          Transfer(t.result, [|data|] + t.offsets)
  }

  /** One request of read_file, the k-th, as ReadFileSpec takes it. */
  lemma ReadFileSpecStep(blocks: seq<Result<seq<uint8>, Failure>>, k: nat, data: seq<uint8>)
    requires k < |blocks| && |data| < SizeT
    ensures blocks[k].Err? ==> ReadFileSpec(blocks[k..], data) == Transfer(Err(blocks[k].error), [|data|])
    ensures blocks[k].Ok? && |blocks[k].value| == 0 ==> ReadFileSpec(blocks[k..], data) == Transfer(Ok(data), [|data|])
    ensures blocks[k].Ok? && |blocks[k].value| > 0 ==>
      var t := ReadFileSpec(blocks[k + 1..], data + blocks[k].value);
      ReadFileSpec(blocks[k..], data) == Transfer(t.result, [|data|] + t.offsets)
  {
    assert blocks[k..][0] == blocks[k] && blocks[k..][1..] == blocks[k + 1..];
  }

  /** A transfer with the offsets requested before it put in front. */
  function Prefixed(offsets: seq<nat>, t: Transfer): Transfer
  {
    Transfer(t.result, offsets + t.offsets)
  }

  /** Moving one offset from the transfer to the prefix. */
  lemma PrefixedShift(offsets: seq<nat>, x: nat, t: Transfer)
    ensures Prefixed(offsets, Transfer(t.result, [x] + t.offsets)) == Prefixed(offsets + [x], t)
  {
    assert offsets + ([x] + t.offsets) == (offsets + [x]) + t.offsets;
  }

  /** read_file: asks for the block at the length read so far until a block
    * comes back empty. */
  method ReadFile(blocks: seq<Result<seq<uint8>, Failure>>) returns (t: Transfer)
    ensures t == ReadFileSpec(blocks, [])
  {
    var data: seq<uint8> := [];
    var offsets: seq<nat> := [];
    var k := 0;
    while true
      invariant 0 <= k <= |blocks|
      invariant ReadFileSpec(blocks, []) == Prefixed(offsets, ReadFileSpec(blocks[k..], data))
      decreases |blocks| - k
    {
      if |data| >= SizeT {
        assert offsets + [] == offsets;
        return Transfer(Err(StructError), offsets);
      }
      if k == |blocks| {
        return Transfer(Err(KBoxError(TimedOut)), offsets + [|data|]);
      }
      var block := blocks[k];
      ReadFileSpecStep(blocks, k, data);
      if block.Err? {
        return Transfer(Err(block.error), offsets + [|data|]);
      }
      if |block.value| == 0 {
        return Transfer(Ok(data), offsets + [|data|]);
      }
      PrefixedShift(offsets, |data|, ReadFileSpec(blocks[k + 1..], data + block.value));
      offsets := offsets + [|data|];
      data := data + block.value;
      k := k + 1;
    }
  }

  /** The blocks a device serving `file` returns, `blockSize` bytes at a
    * time from each requested offset, ending with an empty block. */
  function Served(file: seq<uint8>, blockSize: nat): seq<Result<seq<uint8>, Failure>>
    requires blockSize > 0
    decreases |file|
  {
    if file == [] then [Ok([])]
    else
      var n := if |file| < blockSize then |file| else blockSize;
      [Ok(file[..n])] + Served(file[n..], blockSize)
  }

  /** Offsets 0, n, 2n, ... up to and including the length of the file. */
  function Offsets(start: nat, length: nat, blockSize: nat): seq<nat>
    requires blockSize > 0
    decreases length
  {
    if length == 0 then [start]
    else if length <= blockSize then [start, start + length]
    else [start] + Offsets(start + blockSize, length - blockSize, blockSize)
  }

  /** read_file gets the whole file back, one request per block plus the
    * final empty one, each at the length read so far. */
  lemma {:induction false} ReadFileGetsServedFile(read: seq<uint8>, file: seq<uint8>, blockSize: nat)
    requires blockSize > 0 && |read| + |file| < SizeT
    ensures ReadFileSpec(Served(file, blockSize), read) == Transfer(Ok(read + file), Offsets(|read|, |file|, blockSize))
    decreases |file|
  {
    if file == [] {
      assert read + file == read;
    } else {
      var n := if |file| < blockSize then |file| else blockSize;
      var blocks := Served(file, blockSize);
      assert blocks[0] == Ok(file[..n]) && blocks[1..] == Served(file[n..], blockSize);
      ReadFileGetsServedFile(read + file[..n], file[n..], blockSize);
      assert read + file[..n] + file[n..] == read + file;
      if |file| <= blockSize {
        assert file[n..] == [];
      }
    }
  }

  // ---------------------------------------------------------------------
  // write_file_block / write_file
  // ---------------------------------------------------------------------

  /** The number of tries write_file_block makes by default. */
  const Retries: nat := 3

  /** KommandFileError's data: the operation id and an error code, 0 for
    * success. */
  function FileErrorReply(opId: uint32, errno: uint32): seq<uint8>
  {
    LE32(opId) + LE32(errno)
  }

  /** What write_file_block does with the reply to one try: None means
    * "try again" (a KBoxError, counted against the retries). */
  function WriteTry(writeId: uint32, reply: Result<seq<uint8>, Failure>): Option<Result<(), Failure>>
  {
    match reply
    case Err(e) => if e.KBoxError? then None else Some(Err(e))
    case Ok(data) =>
      if |data| < 8 then Some(Err(StructError))
      // the message of this error names a variable that does not exist
      else if FromLE32(data[0], data[1], data[2], data[3]) != writeId then Some(Err(NameError))
      else
        var errno := FromLE32(data[4], data[5], data[6], data[7]);
        if errno != 0 then Some(Err(KBoxError(WriteError(errno)))) else Some(Ok(()))
  }

  datatype BlockWrite = BlockWrite(result: Result<(), Failure>, sent: nat)

  /** write_file_block's loop with `retries` tries left; an unanswered try
    * times out. */
  function WriteBlockSpec(writeId: uint32, replies: seq<Result<seq<uint8>, Failure>>, retries: nat): (w: BlockWrite)
    ensures w.sent <= retries
    decreases retries
  {
    if retries == 0 then BlockWrite(Err(KBoxError(RetriesExceeded)), 0)
    else
      var reply := if replies == [] then Err(KBoxError(TimedOut)) else replies[0];
      match WriteTry(writeId, reply)
      case Some(r) => BlockWrite(r, 1)
      case None =>
        var w := WriteBlockSpec(writeId, if replies == [] then [] else replies[1..], retries - 1);
        BlockWrite(w.result, w.sent + 1)
  }

  /** write_file_block: sends the request until an acknowledgement or a
    * fatal error arrives, at most `retries` times. */
  method WriteFileBlock(filename: seq<uint8>, data: seq<uint8>, position: nat, writeId: uint32,
                        replies: seq<Result<seq<uint8>, Failure>>)
    returns (w: BlockWrite, request: Result<seq<uint8>, Failure>)
    ensures request.Ok? <==> FileRequest(Ids.FileWrite, writeId, position, |data|, filename).Ok?
    ensures request.Ok? ==> request.value == FileRequest(Ids.FileWrite, writeId, position, |data|, filename).value + data
    ensures request.Err? ==> w == BlockWrite(Err(request.error), 0)
    ensures request.Ok? ==> w == WriteBlockSpec(writeId, replies, Retries)
  {
    var header := FileRequest(Ids.FileWrite, writeId, position, |data|, filename);
    if header.Err? {
      return BlockWrite(Err(header.error), 0), header;
    }
    request := Ok(header.value + data);
    var retries: nat := Retries;
    var k := 0;
    var sent := 0;
    while retries > 0
      invariant k + retries == Retries && sent == k
      invariant var rest := WriteBlockSpec(writeId, if k < |replies| then replies[k..] else [], retries);
        WriteBlockSpec(writeId, replies, Retries) == BlockWrite(rest.result, rest.sent + sent)
    {
      var reply := if k < |replies| then replies[k] else Err(KBoxError(TimedOut));
      assert k + 1 < |replies| ==> replies[k..][1..] == replies[k + 1..];
      sent := sent + 1;
      var outcome := WriteTry(writeId, reply);
      if outcome.Some? {
        return BlockWrite(outcome.value, sent), request;
      }
      retries := retries - 1;
      k := k + 1;
    }
    w := BlockWrite(Err(KBoxError(RetriesExceeded)), sent);
  }

  /** An acknowledgement with error code 0 to the first try is a success
    * after one request; a non-zero code is raised as a write error. */
  lemma AcknowledgedWrite(writeId: uint32, errno: uint32, rest: seq<Result<seq<uint8>, Failure>>)
    ensures var w := WriteBlockSpec(writeId, [Ok(FileErrorReply(writeId, errno))] + rest, Retries);
      w.sent == 1 && (w.result.Ok? <==> errno == 0)
      && (errno != 0 ==> w.result == Err(KBoxError(WriteError(errno))))
  {
    var d := FileErrorReply(writeId, errno);
    assert d[..4] == LE32(writeId) && d[4..] == LE32(errno);
    assert d[0] == LE32(writeId)[0] && d[1] == LE32(writeId)[1] && d[2] == LE32(writeId)[2] && d[3] == LE32(writeId)[3];
    assert d[4] == LE32(errno)[0] && d[5] == LE32(errno)[1] && d[6] == LE32(errno)[2] && d[7] == LE32(errno)[3];
  }

  /** Three tries that each end in a KBoxError use up the retries: three
    * requests are sent and the block write fails. */
  lemma {:induction false} RetriesRunOut(writeId: uint32, replies: seq<Result<seq<uint8>, Failure>>)
    requires forall k :: 0 <= k < |replies| ==> replies[k].Err? && replies[k].error.KBoxError?
    ensures WriteBlockSpec(writeId, replies, Retries) == BlockWrite(Err(KBoxError(RetriesExceeded)), 3)
  {
    RetriesFromKBoxErrors(writeId, replies, Retries);
  }

  lemma {:induction false} RetriesFromKBoxErrors(writeId: uint32, replies: seq<Result<seq<uint8>, Failure>>, retries: nat)
    requires forall k :: 0 <= k < |replies| ==> replies[k].Err? && replies[k].error.KBoxError?
    ensures WriteBlockSpec(writeId, replies, retries) == BlockWrite(Err(KBoxError(RetriesExceeded)), retries)
    decreases retries
  {
    if retries > 0 {
      var tail := if replies == [] then [] else replies[1..];
      assert forall k :: 0 <= k < |tail| ==> tail[k] == replies[k + 1];
      RetriesFromKBoxErrors(writeId, tail, retries - 1);
    }
  }

  /** The blocks write_file cuts `data` into: (offset, bytes), `blockSize`
    * bytes each but the last. */
  function Chunks(data: seq<uint8>, offset: nat, blockSize: nat): seq<(nat, seq<uint8>)>
    requires blockSize > 0
    decreases |data|
  {
    if data == [] then []
    else
      var n := if |data| < blockSize then |data| else blockSize;
      [(offset, data[..n])] + Chunks(data[n..], offset + n, blockSize)
  }

  function Joined(chunks: seq<(nat, seq<uint8>)>): seq<uint8>
  {
    if chunks == [] then [] else chunks[0].1 + Joined(chunks[1..])
  }

  /** The blocks are non-empty, at most blockSize long, each at the offset
    * where the previous one ended, and together they are the data. */
  lemma {:induction false} ChunksCoverData(data: seq<uint8>, offset: nat, blockSize: nat)
    requires blockSize > 0
    ensures var cs := Chunks(data, offset, blockSize);
      Joined(cs) == data
      && (forall i :: 0 <= i < |cs| ==> 0 < |cs[i].1| <= blockSize)
      && (|cs| > 0 ==> cs[0].0 == offset)
      && (forall i :: 0 <= i < |cs| - 1 ==> cs[i + 1].0 == cs[i].0 + |cs[i].1|)
    decreases |data|
  {
    if data != [] {
      var n := if |data| < blockSize then |data| else blockSize;
      ChunksCoverData(data[n..], offset + n, blockSize);
      var cs := Chunks(data, offset, blockSize);
      assert cs[1..] == Chunks(data[n..], offset + n, blockSize);
      assert data[..n] + data[n..] == data;
      forall i | 0 <= i < |cs| - 1
        ensures cs[i + 1].0 == cs[i].0 + |cs[i].1|
      {
        if i > 0 {
          assert cs[i + 1] == cs[1..][i] && cs[i] == cs[1..][i - 1];
        }
      }
    }
  }

  /** write_file: the blocks it wrote, and the failure that stopped it.
    * `results` are what write_file_block gave for each block; a block left
    * unanswered fails like an unacknowledged one. */
  method WriteFile(data: seq<uint8>, blockSize: nat, results: seq<Result<(), Failure>>)
    returns (written: seq<(nat, seq<uint8>)>, result: Result<(), Failure>)
    requires blockSize > 0
    ensures written <= Chunks(data, 0, blockSize)
    ensures result.Ok? ==> written == Chunks(data, 0, blockSize)
    ensures result.Ok? <==> forall i :: 0 <= i < |Chunks(data, 0, blockSize)| ==> WriteResult(results, i).Ok?
    ensures result.Err? ==> |written| > 0 && result == WriteResult(results, |written| - 1)
    ensures forall i :: 0 <= i < |written| - 1 ==> WriteResult(results, i).Ok?
  {
    ghost var plan := Chunks(data, 0, blockSize);
    var sentBytes := 0;
    written := [];
    while sentBytes < |data|
      invariant sentBytes <= |data| && |written| <= |plan|
      invariant written == plan[..|written|]
      invariant Chunks(data[sentBytes..], sentBytes, blockSize) == plan[|written|..]
      invariant forall i :: 0 <= i < |written| ==> WriteResult(results, i).Ok?
      decreases |data| - sentBytes
    {
      var remaining := |data| - sentBytes;
      if remaining > blockSize {
        remaining := blockSize;
      }
      var block := data[sentBytes..sentBytes + remaining];
      ChunksStep(data, sentBytes, blockSize);
      NextPlanned(plan, |written|, (sentBytes, block), Chunks(data[sentBytes + remaining..], sentBytes + remaining, blockSize));
      var r := WriteResult(results, |written|);
      written := written + [(sentBytes, block)];
      if r.Err? {
        return written, r;
      }
      sentBytes := sentBytes + remaining;
    }
    assert data[sentBytes..] == [];
    result := Ok(());
  }

  lemma NextPlanned<T>(plan: seq<T>, k: nat, c: T, rest: seq<T>)
    requires k <= |plan| && plan[k..] == [c] + rest
    ensures k < |plan| && plan[..k + 1] == plan[..k] + [c] && plan[k + 1..] == rest
  {
    assert plan[k..][0] == c;
    assert plan[k..][1..] == plan[k + 1..];
  }

  /** The first block cut from `data` at offset `s`, and what is left. */
  lemma ChunksStep(data: seq<uint8>, s: nat, blockSize: nat)
    requires blockSize > 0 && s < |data|
    ensures var n := if |data| - s > blockSize then blockSize else |data| - s;
      Chunks(data[s..], s, blockSize) == [(s, data[s..s + n])] + Chunks(data[s + n..], s + n, blockSize)
  {
    var n := if |data| - s > blockSize then blockSize else |data| - s;
    assert data[s..][..n] == data[s..s + n];
    assert data[s..][n..] == data[s + n..];
  }

  function WriteResult(results: seq<Result<(), Failure>>, i: nat): Result<(), Failure>
  {
    if i < |results| then results[i] else Err(KBoxError(RetriesExceeded))
  }
}

=== FILE: kbox_host.dfy ===
/** The command/reply side of the host tool tools/kbox.py: the exceptions it
  * raises, readCommand's dispatch loop, the log and Wi-Fi status payload
  * parsers and the Wi-Fi configuration request. Frames arrive already
  * unescaped (module Slip models how). */
module KBoxHost {
  import opened Bytes
  import opened Wrappers
  import Ids = KommandIds
  import WiFiConfigHandler
  import WiFiLogHandler
  import KommandReader

  /** Why a KBoxError was raised. */
  datatype Reason =
    | TimedOut
    | FrameTooShort
    | RespondedWithError
    | InvalidFileErrorSize
    | FileError(fileId: uint32, errno: uint32)
    | ReadReplyForAnotherRead
    | InvalidReplyLength
    | WriteError(errno: uint32)
    | RetriesExceeded
    | WrongPongSize

  /** What a call can raise: a KBoxError, or one of the Python errors that
    * the tool does not catch (struct.error on a payload of the wrong size or
    * a value out of range, KeyError on an unknown log level, TypeError when a
    * missing string is concatenated, NameError on an undefined name,
    * IndexError raised by the display tool on a wrong pixel count). */
  datatype Failure =
    | KBoxError(reason: Reason)
    | StructError
    | KeyError
    | TypeError
    | NameError
    | IndexError

  // ---------------------------------------------------------------------
  // Payload parsers
  // ---------------------------------------------------------------------

  type Level = WiFiLogHandler.Level

  /** The level table of parseLogCommand: 0..5 are the main board's and
    * the Wi-Fi module's debug, info and error levels. */
  function LevelOf(level: uint16): (r: Option<Level>)
    ensures r.Some? <==> level <= 5
  {
    if level == 0 then Some(WiFiLogHandler.Debug)
    else if level == 1 then Some(WiFiLogHandler.Info)
    else if level == 2 then Some(WiFiLogHandler.Error)
    else if level == 3 then Some(WiFiLogHandler.ESPDebug)
    else if level == 4 then Some(WiFiLogHandler.ESPInfo)
    else if level == 5 then Some(WiFiLogHandler.ESPError)
    else None
  }

  datatype LogRecord = LogRecord(level: Level, fname: seq<uint8>, lineno: uint16, log: seq<uint8>)

  /** parseLogCommand: a `<HHH` header, then `data[6:6+fnamelen]` as the file
    * name and everything after it as the message (Python slices stop at the
    * end of the data). */
  function ParseLogCommand(data: seq<uint8>): Result<LogRecord, Failure>
  {
    if |data| < 6 then Err(StructError)
    else
      var level := FromLE16(data[0], data[1]);
      var lineno := FromLE16(data[2], data[3]);
      var fnamelen := FromLE16(data[4], data[5]);
      var split := if 6 + fnamelen < |data| then 6 + fnamelen else |data|;
      match LevelOf(level)
      case None => Err(KeyError)
      case Some(l) => Ok(LogRecord(l, data[6..split], lineno, data[split..]))
  }

  /** Name and message always split the bytes after the header between them. */
  lemma ParseLogSplitsData(data: seq<uint8>)
    ensures ParseLogCommand(data).Ok? <==> |data| >= 6 && FromLE16(data[0], data[1]) <= 5
    ensures ParseLogCommand(data).Ok? ==>
      var r := ParseLogCommand(data).value;
      r.fname + r.log == data[6..] && |r.fname| <= FromLE16(data[4], data[5])
  {
    if |data| >= 6 {
      var fnamelen := FromLE16(data[4], data[5]);
      var split := if 6 + fnamelen < |data| then 6 + fnamelen else |data|;
      assert data[6..split] + data[split..] == data[6..];
    }
  }

  /** A log frame laid out by the main board's sender is parsed back into its
    * level, file name and line number; the message comes back with the NUL
    * that ends the file name in front and its own NUL behind. */
  lemma ParseLogPayload(level: uint16, lineno: uint16, fname: seq<uint8>, message: seq<uint8>)
    requires |fname| < 0x1_0000 && level <= 5
    ensures ParseLogCommand(WiFiLogHandler.LogPayload(level, lineno, fname, message))
            == Ok(LogRecord(LevelOf(level).value, fname, lineno, [NUL] + message + [NUL]))
  {
    var head := LE16(level) + LE16(lineno) + LE16(|fname|);
    var tail := [NUL] + message + [NUL];
    LogPayloadPieces(level, lineno, fname, message);
    ParsePieces(head, fname, tail, level, lineno);
  }

  /** The log payload is its header, the file name and the NUL-framed
    * message. */
  lemma LogPayloadPieces(level: uint16, lineno: uint16, fname: seq<uint8>, message: seq<uint8>)
    requires |fname| < 0x1_0000
    ensures WiFiLogHandler.LogPayload(level, lineno, fname, message)
            == (LE16(level) + LE16(lineno) + LE16(|fname|)) + fname + ([NUL] + message + [NUL])
  {
  }

  /** A header, a file name of the length it gives and any rest parse into
    * the header's level and line, the name and the rest. */
  lemma ParsePieces(head: seq<uint8>, fname: seq<uint8>, tail: seq<uint8>, level: uint16, lineno: uint16)
    requires |fname| < 0x1_0000 && level <= 5
    requires head == LE16(level) + LE16(lineno) + LE16(|fname|)
    ensures ParseLogCommand(head + fname + tail) == Ok(LogRecord(LevelOf(level).value, fname, lineno, tail))
  {
    var data := head + fname + tail;
    HeaderFields(head, level, lineno, |fname|);
    LogParts(data, head, fname, tail);
    ParseLogOfHeader(data, level, lineno, |fname|);
  }

  /** A payload whose header names a known level and a file name that fits
    * is split at the end of that name. */
  lemma ParseLogOfHeader(data: seq<uint8>, level: uint16, lineno: uint16, fnamelen: uint16)
    requires 6 + fnamelen <= |data| && level <= 5
    requires FromLE16(data[0], data[1]) == level && FromLE16(data[2], data[3]) == lineno
    requires FromLE16(data[4], data[5]) == fnamelen
    ensures ParseLogCommand(data) == Ok(LogRecord(LevelOf(level).value, data[6..6 + fnamelen], lineno, data[6 + fnamelen..]))
  {
  }

  /** The three `<H` fields of a log header. */
  lemma HeaderFields(head: seq<uint8>, level: uint16, lineno: uint16, fnamelen: uint16)
    requires head == LE16(level) + LE16(lineno) + LE16(fnamelen)
    ensures |head| == 6 && FromLE16(head[0], head[1]) == level
    ensures FromLE16(head[2], head[3]) == lineno && FromLE16(head[4], head[5]) == fnamelen
  {
    assert head[0] == LE16(level)[0] && head[1] == LE16(level)[1];
    assert head[2] == LE16(lineno)[0] && head[3] == LE16(lineno)[1];
    assert head[4] == LE16(fnamelen)[0] && head[5] == LE16(fnamelen)[1];
  }

  /** Where the header, the file name and the rest sit in a log payload. */
  lemma LogParts(data: seq<uint8>, head: seq<uint8>, fname: seq<uint8>, tail: seq<uint8>)
    requires |head| == 6 && data == head + fname + tail
    ensures |data| == 6 + |fname| + |tail|
    ensures data[0] == head[0] && data[1] == head[1] && data[2] == head[2]
    ensures data[3] == head[3] && data[4] == head[4] && data[5] == head[5]
    ensures data[6..6 + |fname|] == fname && data[6 + |fname|..] == tail
  {
  }

  const Slash: uint8 := 0x2F

  /** printLog shows `fname.split("/")[-1]`: the part after the last '/'. */
  function BaseName(fname: seq<uint8>): (r: seq<uint8>)
    ensures Slash !in r
    ensures |r| <= |fname| && r == fname[|fname| - |r|..]
    ensures |r| < |fname| ==> fname[|fname| - |r| - 1] == Slash
    decreases |fname|
  {
    if fname == [] then []
    else if fname[|fname| - 1] == Slash then []
    else
      var r := BaseName(fname[..|fname| - 1]);
      BaseNameGrows(fname, r);
      r + [fname[|fname| - 1]]
  }

  /** The base name of all but the last character, extended by a last
    * character that is not '/', is the base name of the whole. */
  lemma BaseNameGrows(fname: seq<uint8>, r: seq<uint8>)
    requires fname != [] && fname[|fname| - 1] != Slash
    requires Slash !in r && |r| <= |fname| - 1 && r == fname[..|fname| - 1][|fname| - 1 - |r|..]
    requires |r| < |fname| - 1 ==> fname[..|fname| - 1][|fname| - 1 - |r| - 1] == Slash
    ensures var grown := r + [fname[|fname| - 1]];
            Slash !in grown && |grown| <= |fname| && grown == fname[|fname| - |grown|..]
            && (|grown| < |fname| ==> fname[|fname| - |grown| - 1] == Slash)
  {
    var n := |fname|;
    assert fname[..n - 1][n - 1 - |r|..] == fname[n - 1 - |r|..n - 1];
    assert fname[n - 1 - |r|..] == fname[n - 1 - |r|..n - 1] + [fname[n - 1]];
  }

  /** parseWiFiStatus: four `<H` counters and an address whose four bytes
    * are shown in order as a dotted quad. */
  datatype WiFiStatus = WiFiStatus(state: uint16, dhcpClients: uint16, tcpClients: uint16,
                                   signalKClients: uint16, ipAddress: seq<uint8>)

  function ParseWiFiStatus(data: seq<uint8>): (r: Result<WiFiStatus, Failure>)
    ensures r.Err? <==> |data| < 12
    ensures r.Ok? ==> |r.value.ipAddress| == 4
  {
    if |data| < 12 then Err(StructError)
    else Ok(WiFiStatus(FromLE16(data[0], data[1]), FromLE16(data[2], data[3]), FromLE16(data[4], data[5]),
                       FromLE16(data[6], data[7]), data[8..12]))
  }

  /** The Wi-Fi module's status frame data: four 16-bit counters and the
    * 32-bit address, least significant byte first. */
  function WiFiStatusPayload(state: uint16, dhcp: uint16, tcp: uint16, signalK: uint16, ip: uint32): seq<uint8>
  {
    LE16(state) + LE16(dhcp) + LE16(tcp) + LE16(signalK) + LE32(ip)
  }

  /** Parsing a status payload gives back the counters, and the address
    * bytes in the order the firmware's IPAddress shows them. */
  lemma WiFiStatusRoundTrip(state: uint16, dhcp: uint16, tcp: uint16, signalK: uint16, ip: uint32)
    ensures ParseWiFiStatus(WiFiStatusPayload(state, dhcp, tcp, signalK, ip))
            == Ok(WiFiStatus(state, dhcp, tcp, signalK, LE32(ip)))
  {
    var d := WiFiStatusPayload(state, dhcp, tcp, signalK, ip);
    assert d[0] == LE16(state)[0] && d[1] == LE16(state)[1];
    assert d[2] == LE16(dhcp)[0] && d[3] == LE16(dhcp)[1];
    assert d[4] == LE16(tcp)[0] && d[5] == LE16(tcp)[1];
    assert d[6] == LE16(signalK)[0] && d[7] == LE16(signalK)[1];
    assert d[8..12] == LE32(ip);
  }

  // ---------------------------------------------------------------------
  // readCommand
  // ---------------------------------------------------------------------

  /** What one call of read() gave: a frame, None (the serial read timed
    * out), or a KBoxError from the SLIP reader (logged and skipped). */
  datatype ReadOutcome = Frame(bytes: seq<uint8>) | NoFrame | ReadFailed

  /** One turn of readCommand's loop: the clock reading taken at its top,
    * and what read() gave afterwards. */
  datatype Attempt = Attempt(now: int, outcome: ReadOutcome)

  /** What readCommand prints while it waits. */
  datatype Notice = LogLine(record: LogRecord) | StatusLine(status: WiFiStatus) | UnexpectedFrame(id: uint16)

  datatype Dispatched = Return(data: seq<uint8>) | Raise(failure: Failure) | Note(notice: Notice)

  /** What readCommand does with one frame while waiting for `command`. A
    * file error whose data is not 8 bytes raises TypeError: the frame is
    * passed to `.format` instead of to KBoxError.WithFrame, which then gets
    * one argument where it takes two. */
  function Dispatch(command: uint16, frame: seq<uint8>): Dispatched
  {
    if |frame| < 2 then Raise(KBoxError(FrameTooShort))
    else
      var id := FromLE16(frame[0], frame[1]);
      var data := frame[2..];
      if id == command then Return(data)
      else if id == Ids.Err then Raise(KBoxError(RespondedWithError))
      else if id == Ids.FileError then
        if |data| != 8 then Raise(TypeError)
        else Raise(KBoxError(FileError(FromLE32(data[0], data[1], data[2], data[3]),
                                       FromLE32(data[4], data[5], data[6], data[7]))))
      else if id == Ids.Log then
        match ParseLogCommand(data)
        case Ok(r) => Note(LogLine(r))
        case Err(e) => Raise(e)
      else if id == Ids.WiFiStatus then
        match ParseWiFiStatus(data)
        case Ok(s) => Note(StatusLine(s))
        case Err(e) => Raise(e)
      else Note(UnexpectedFrame(id))
  }

  datatype Reply = Reply(result: Result<seq<uint8>, Failure>, notices: seq<Notice>)

  /** The clock readings end past the deadline: the loop's clock advances. */
  predicate EndsPast(deadline: int, attempts: seq<Attempt>)
  {
    |attempts| > 0 && attempts[|attempts| - 1].now > deadline
  }

  /** readCommand over the turns of its loop. */
  function ReadCommandSpec(command: uint16, deadline: int, attempts: seq<Attempt>): Reply
    requires EndsPast(deadline, attempts)
    decreases |attempts|
  {
    if attempts[0].now > deadline then Reply(Err(KBoxError(TimedOut)), [])
    else
      match attempts[0].outcome
      case Frame(f) =>
        (match Dispatch(command, f)
         case Return(d) => Reply(Ok(d), [])
         case Raise(e) => Reply(Err(e), [])
         case Note(n) =>
           var r := ReadCommandSpec(command, deadline, attempts[1..]);
           Reply(r.result, [n] + r.notices))
      case _ => ReadCommandSpec(command, deadline, attempts[1..])
  }

  /** A turn after which the loop goes on: before the deadline, with no
    * frame, a failed read or a frame that is only printed. */
  predicate Passes(command: uint16, deadline: int, a: Attempt)
  {
    a.now <= deadline && (!a.outcome.Frame? || Dispatch(command, a.outcome.bytes).Note?)
  }

  /** A turn that returns the reply: before the deadline, a frame whose
    * identifier is the one asked for. */
  predicate Answers(command: uint16, deadline: int, a: Attempt, data: seq<uint8>)
  {
    a.now <= deadline && a.outcome.Frame? && |a.outcome.bytes| >= 2
    && FromLE16(a.outcome.bytes[0], a.outcome.bytes[1]) == command && a.outcome.bytes[2..] == data
  }

  /** readCommand returns `data` exactly when some turn answers with it and
    * every turn before it merely passes. */
  lemma {:induction false} ReadCommandReturns(command: uint16, deadline: int, attempts: seq<Attempt>, data: seq<uint8>)
    requires EndsPast(deadline, attempts)
    ensures ReadCommandSpec(command, deadline, attempts).result == Ok(data) <==>
      exists i :: 0 <= i < |attempts| && Answers(command, deadline, attempts[i], data)
                  && forall j :: 0 <= j < i ==> Passes(command, deadline, attempts[j])
    decreases |attempts|
  {
    var a := attempts[0];
    if a.now > deadline {
      assert !Answers(command, deadline, attempts[0], data);
      assert !Passes(command, deadline, attempts[0]);
    } else if a.outcome.Frame? && !Dispatch(command, a.outcome.bytes).Note? {
      if ReadCommandSpec(command, deadline, attempts).result == Ok(data) {
        assert Answers(command, deadline, attempts[0], data);
      }
      assert !Passes(command, deadline, attempts[0]);
    } else {
      ReadCommandReturns(command, deadline, attempts[1..], data);
      assert !Answers(command, deadline, attempts[0], data);
      if ReadCommandSpec(command, deadline, attempts).result == Ok(data) {
        var i :| 0 <= i < |attempts[1..]| && Answers(command, deadline, attempts[1..][i], data)
                 && forall j :: 0 <= j < i ==> Passes(command, deadline, attempts[1..][j]);
        assert Answers(command, deadline, attempts[i + 1], data);
        assert forall j :: 0 <= j < i + 1 ==> Passes(command, deadline, attempts[j]) by {
          forall j | 0 <= j < i + 1
            ensures Passes(command, deadline, attempts[j])
          {
            if j > 0 {
              assert attempts[j] == attempts[1..][j - 1];
            }
          }
        }
      }
      if exists i :: 0 <= i < |attempts| && Answers(command, deadline, attempts[i], data)
                     && forall j :: 0 <= j < i ==> Passes(command, deadline, attempts[j]) {
        var i :| 0 <= i < |attempts| && Answers(command, deadline, attempts[i], data)
                 && forall j :: 0 <= j < i ==> Passes(command, deadline, attempts[j]);
        assert i > 0;
        assert Answers(command, deadline, attempts[1..][i - 1], data);
        assert forall j :: 0 <= j < i - 1 ==> Passes(command, deadline, attempts[1..][j]) by {
          forall j | 0 <= j < i - 1
            ensures Passes(command, deadline, attempts[1..][j])
          {
            assert attempts[1..][j] == attempts[j + 1];
          }
        }
      }
    }
  }

  /** A file error frame, not the one asked for, whose data is not the
    * 8 bytes of `<LL`. */
  predicate MisSizedFileError(command: uint16, frame: seq<uint8>)
  {
    |frame| >= 2 && FromLE16(frame[0], frame[1]) == Ids.FileError != command && |frame| != 10
  }

  /** The frames readCommand raises on, when they arrive before the reply:
    * a frame shorter than two bytes, an error frame, a file error frame.
    * Each raises a KBoxError, except a file error of the wrong size, which
    * raises TypeError. */
  lemma ReadCommandRaises(command: uint16, deadline: int, now: int, frame: seq<uint8>, rest: seq<Attempt>)
    requires now <= deadline && EndsPast(deadline, rest)
    requires |frame| < 2 || (FromLE16(frame[0], frame[1]) != command
                             && FromLE16(frame[0], frame[1]) in {Ids.Err, Ids.FileError})
    ensures ReadCommandSpec(command, deadline, [Attempt(now, Frame(frame))] + rest).result.Err?
    ensures ReadCommandSpec(command, deadline, [Attempt(now, Frame(frame))] + rest).result.error.KBoxError?
            <==> !MisSizedFileError(command, frame)
    ensures MisSizedFileError(command, frame) ==>
              ReadCommandSpec(command, deadline, [Attempt(now, Frame(frame))] + rest).result.error == TypeError
  {
    var attempts := [Attempt(now, Frame(frame))] + rest;
    assert attempts[0] == Attempt(now, Frame(frame));
  }

  /** The file error branch as written: a file error frame with no data
    * raises TypeError, which write_file_block does not retry. */
  lemma MisSizedFileErrorRaisesTypeError(command: uint16)
    requires command != Ids.FileError
    ensures Dispatch(command, LE16(Ids.FileError)) == Raise(TypeError)
  {
    LE16Of(LE16(Ids.FileError)[0], LE16(Ids.FileError)[1]);
  }

  /** readCommand's frame handling as evidently intended: a file error of
    * the wrong size raises the KBoxError "Invalid KommandFileError size",
    * and every other frame is handled as written. */
  function DispatchIntended(command: uint16, frame: seq<uint8>): (d: Dispatched)
    ensures MisSizedFileError(command, frame) ==> d == Raise(KBoxError(InvalidFileErrorSize))
    ensures !MisSizedFileError(command, frame) ==> d == Dispatch(command, frame)
  {
    if MisSizedFileError(command, frame) then Raise(KBoxError(InvalidFileErrorSize))
    else Dispatch(command, frame)
  }

  /** With the intended handling, every file error frame raises a
    * KBoxError, so write_file_block retries after any of them. */
  lemma FileErrorsRaiseKBoxError(command: uint16, frame: seq<uint8>)
    requires |frame| >= 2 && FromLE16(frame[0], frame[1]) == Ids.FileError != command
    ensures DispatchIntended(command, frame).Raise?
    ensures DispatchIntended(command, frame).failure.KBoxError?
  {
  }

  /** A timeout is only ever raised past the deadline. */
  lemma {:induction false} TimeoutOnlyPastDeadline(command: uint16, deadline: int, attempts: seq<Attempt>)
    requires EndsPast(deadline, attempts)
    ensures ReadCommandSpec(command, deadline, attempts).result == Err(KBoxError(TimedOut)) ==>
      exists i :: 0 <= i < |attempts| && attempts[i].now > deadline
    decreases |attempts|
  {
    if attempts[0].now <= deadline && (!attempts[0].outcome.Frame? || Dispatch(command, attempts[0].outcome.bytes).Note?) {
      TimeoutOnlyPastDeadline(command, deadline, attempts[1..]);
      if ReadCommandSpec(command, deadline, attempts).result == Err(KBoxError(TimedOut)) {
        var i :| 0 <= i < |attempts[1..]| && attempts[1..][i].now > deadline;
        assert attempts[i + 1].now > deadline;
      }
    }
  }

  /** readCommand: reads frames until one carries `command`, printing log
    * and status frames on the way. */
  method ReadCommand(command: uint16, start: int, timeout: int, attempts: seq<Attempt>) returns (reply: Reply)
    requires EndsPast(start + timeout, attempts)
    ensures reply == ReadCommandSpec(command, start + timeout, attempts)
  {
    var deadline := start + timeout;
    var i := 0;
    var notices: seq<Notice> := [];
    while true
      invariant 0 <= i < |attempts|
      invariant EndsPast(deadline, attempts[i..])
      invariant var r := ReadCommandSpec(command, deadline, attempts[i..]);
        ReadCommandSpec(command, deadline, attempts) == Reply(r.result, notices + r.notices)
      decreases |attempts| - i
    {
      var a := attempts[i];
      assert attempts[i..][0] == a && attempts[i..][1..] == attempts[i + 1..];
      if a.now > deadline {
        return Reply(Err(KBoxError(TimedOut)), notices);
      }
      match a.outcome {
        case Frame(f) =>
          match Dispatch(command, f) {
            case Return(d) => return Reply(Ok(d), notices);
            case Raise(e) => return Reply(Err(e), notices);
            case Note(n) =>
              assert notices + ([n] + ReadCommandSpec(command, deadline, attempts[i + 1..]).notices)
                  == (notices + [n]) + ReadCommandSpec(command, deadline, attempts[i + 1..]).notices;
              notices := notices + [n];
          }
        case _ =>
      }
      i := i + 1;
    }
  }

  /** The frame `command` sends: a `<H` identifier, then the data. */
  function CommandFrame(command: uint16, data: seq<uint8>): seq<uint8>
  {
    LE16(command) + data
  }

  /** ping's request and the check of its reply: the pong must carry exactly
    * four bytes, read as `<I`. */
  function PingRequest(pingId: uint32): seq<uint8>
  {
    CommandFrame(Ids.Ping, LE32(pingId))
  }

  function PongValue(reply: Result<seq<uint8>, Failure>): (r: Result<uint32, Failure>)
    ensures reply.Ok? && |reply.value| != 4 ==> r.Err? && r.error.KBoxError?
  {
    match reply
    case Err(e) => Err(e)
    case Ok(d) =>
      if |d| != 4 then Err(KBoxError(WrongPongSize))
      else Ok(FromLE32(d[0], d[1], d[2], d[3]))
  }

  /** A pong that echoes the ping's four bytes gives back the ping's id. */
  lemma PongEchoesPing(pingId: uint32)
    ensures PongValue(Ok(PingRequest(pingId)[2..])) == Ok(pingId)
  {
    assert PingRequest(pingId)[2..] == LE32(pingId);
  }

  /** The word the firmware waits for before it reboots. */
  const RebootUnlock := "H0LDFA57"

  /** reboot's request: the unlock word "H0LDFA57" and its NUL. */
  function RebootRequest(): (r: seq<uint8>)
    ensures |r| == 11 && r[..2] == LE16(Ids.Reboot) && r[|r| - 1] == NUL
    ensures forall i :: 0 <= i < |RebootUnlock| ==> r[2 + i] as int == RebootUnlock[i] as int
  {
    CommandFrame(Ids.Reboot, [0x48, 0x30, 0x4C, 0x44, 0x46, 0x41, 0x35, 0x37, NUL])
  }

  // ---------------------------------------------------------------------
  // send_wifi_config
  // ---------------------------------------------------------------------

  /** One network's part of the request as written: a missing access-point
    * name makes `struct.pack('<?, False')` raise (the closing quote is
    * misplaced), and a missing password next to a given name is a None
    * concatenated to a string. */
  function NetworkRequest(ssid: Option<seq<uint8>>, password: Option<seq<uint8>>, isAccessPoint: bool)
    : Result<seq<uint8>, Failure>
  {
    match ssid
    case Some(s) =>
      if password.None? then Err(TypeError) else Ok([1] + s + [NUL] + password.value + [NUL])
    case None =>
      if isAccessPoint then Err(StructError) else Ok([0] + [NUL, NUL])
  }

  /** send_wifi_config as written: the frame it sends, or what it raises. */
  function SendWiFiConfig(apSSID: Option<seq<uint8>>, apPassword: Option<seq<uint8>>,
                          clientSSID: Option<seq<uint8>>, clientPassword: Option<seq<uint8>>,
                          vesselURN: seq<uint8>): Result<seq<uint8>, Failure>
  {
    match NetworkRequest(apSSID, apPassword, true)
    case Err(e) => Err(e)
    case Ok(ap) =>
      match NetworkRequest(clientSSID, clientPassword, false)
      case Err(e) => Err(e)
      case Ok(client) => Ok(CommandFrame(Ids.WiFiConfiguration, ap + client + vesselURN + [NUL]))
  }

  /** As written, leaving out the access point never sends anything. */
  lemma NoAccessPointRaises(clientSSID: Option<seq<uint8>>, clientPassword: Option<seq<uint8>>, urn: seq<uint8>)
    ensures SendWiFiConfig(None, None, clientSSID, clientPassword, urn) == Err(StructError)
  {
  }

  /** The evidently intended request: a disabled network is a false flag and
    * two empty strings, for the access point as for the client. */
  function NetworkRequestFixed(ssid: Option<seq<uint8>>, password: Option<seq<uint8>>): Result<seq<uint8>, Failure>
  {
    match ssid
    case Some(s) =>
      if password.None? then Err(TypeError) else Ok([1] + s + [NUL] + password.value + [NUL])
    case None => Ok([0] + [NUL, NUL])
  }

  function SendWiFiConfigFixed(apSSID: Option<seq<uint8>>, apPassword: Option<seq<uint8>>,
                               clientSSID: Option<seq<uint8>>, clientPassword: Option<seq<uint8>>,
                               vesselURN: seq<uint8>): Result<seq<uint8>, Failure>
  {
    match NetworkRequestFixed(apSSID, apPassword)
    case Err(e) => Err(e)
    case Ok(ap) =>
      match NetworkRequestFixed(clientSSID, clientPassword)
      case Err(e) => Err(e)
      case Ok(client) => Ok(CommandFrame(Ids.WiFiConfiguration, ap + client + vesselURN + [NUL]))
  }

  /** The network the request describes, in the main board's terms. */
  function NetworkOf(ssid: Option<seq<uint8>>, password: Option<seq<uint8>>): WiFiConfigHandler.WiFiNetworkConfig
  {
    match ssid
    case Some(s) => WiFiConfigHandler.WiFiNetworkConfig(true, s, if password.Some? then password.value else [])
    case None => WiFiConfigHandler.WiFiNetworkConfig(false, [], [])
  }

  lemma NetworkRequestLayout(ssid: Option<seq<uint8>>, password: Option<seq<uint8>>)
    requires NetworkRequestFixed(ssid, password).Ok?
    ensures NetworkRequestFixed(ssid, password).value == WiFiConfigHandler.NetworkLayout(NetworkOf(ssid, password))
  {
  }

  /** With the format fixed, every request the tool sends is decoded by the
    * Wi-Fi module's handler into exactly the settings given. */
  lemma {:induction false} WiFiConfigReachesModule(apSSID: Option<seq<uint8>>, apPassword: Option<seq<uint8>>,
                                                   clientSSID: Option<seq<uint8>>, clientPassword: Option<seq<uint8>>,
                                                   urn: seq<uint8>)
    requires SendWiFiConfigFixed(apSSID, apPassword, clientSSID, clientPassword, urn).Ok?
    requires (apSSID.Some? ==> NoNul(apSSID.value) && NoNul(apPassword.value))
    requires (clientSSID.Some? ==> NoNul(clientSSID.value) && NoNul(clientPassword.value))
    requires NoNul(urn)
    ensures var frame := SendWiFiConfigFixed(apSSID, apPassword, clientSSID, clientPassword, urn).value;
      var c := WiFiConfigHandler.WiFiConfig(NetworkOf(apSSID, apPassword), NetworkOf(clientSSID, clientPassword), urn);
      KommandReader.Identifier(frame) == Ids.WiFiConfiguration
      && WiFiConfigHandler.DecodeFrom(frame[2..], 0) == WiFiConfigHandler.Expected(c)
  {
    var c := WiFiConfigHandler.WiFiConfig(NetworkOf(apSSID, apPassword), NetworkOf(clientSSID, clientPassword), urn);
    var frame := SendWiFiConfigFixed(apSSID, apPassword, clientSSID, clientPassword, urn).value;
    FixedFrameLayout(apSSID, apPassword, clientSSID, clientPassword, urn);
    assert frame[2..] == WiFiConfigHandler.Layout(c);
    assert frame[0] == LE16(Ids.WiFiConfiguration)[0] && frame[1] == LE16(Ids.WiFiConfiguration)[1];
    assert WiFiConfigHandler.NulFree(c);
    WiFiConfigHandler.DecodeLayout(c);
  }

  /** The fixed request is the identifier, then the layout the Wi-Fi module
    * reads. */
  lemma FixedFrameLayout(apSSID: Option<seq<uint8>>, apPassword: Option<seq<uint8>>,
                         clientSSID: Option<seq<uint8>>, clientPassword: Option<seq<uint8>>,
                         urn: seq<uint8>)
    requires SendWiFiConfigFixed(apSSID, apPassword, clientSSID, clientPassword, urn).Ok?
    ensures var c := WiFiConfigHandler.WiFiConfig(NetworkOf(apSSID, apPassword), NetworkOf(clientSSID, clientPassword), urn);
      SendWiFiConfigFixed(apSSID, apPassword, clientSSID, clientPassword, urn).value
      == LE16(Ids.WiFiConfiguration) + WiFiConfigHandler.Layout(c)
  {
    NetworkRequestLayout(apSSID, apPassword);
    NetworkRequestLayout(clientSSID, clientPassword);
  }
}

=== FILE: kbox_metrics.dfy ===
/** The event counters of KBoxMetricsClass (src/common/stats/KBoxMetrics.cpp):
  * one 64-bit counter per KBoxEvent, read back truncated to 32 bits. The
  * floating-point metrics of the same class are not part of this model. */
module Metrics {
  import opened Bytes

  /** KBoxEventCountDistinctEvents: the number of KBoxEvent values. */
  const EventCount := 23

  type KBoxEvent = e: int | 0 <= e < EventCount

  type uint64 = x: int | 0 <= x < 0x1_0000_0000_0000_0000

  /** All counters at zero, as reset leaves them. */
  function Zeros(): (r: seq<uint64>)
    ensures |r| == EventCount && forall i :: 0 <= i < EventCount ==> r[i] == 0
  {
    seq(EventCount, _ => 0)
  }

  /** eventOccurences[e]++ on a uint64_t counter. */
  function Incremented(counts: seq<uint64>, e: KBoxEvent): (r: seq<uint64>)
    requires |counts| == EventCount
    ensures |r| == EventCount
    ensures r[e] == (counts[e] as int + 1) % 0x1_0000_0000_0000_0000
    ensures forall i :: 0 <= i < EventCount && i != e ==> r[i] == counts[i]
  {
    counts[e := (counts[e] as int + 1) % 0x1_0000_0000_0000_0000]
  }

  /** The counters after recording the events in order. */
  function Replay(counts: seq<uint64>, events: seq<KBoxEvent>): (r: seq<uint64>)
    requires |counts| == EventCount
    ensures |r| == EventCount
  {
    if events == [] then counts else Incremented(Replay(counts, events[..|events| - 1]), events[|events| - 1])
  }

  /** How many of the events are e: the reference count. */
  function Occurrences(events: seq<KBoxEvent>, e: KBoxEvent): nat
  {
    if events == [] then 0
    else Occurrences(events[..|events| - 1], e) + (if events[|events| - 1] == e then 1 else 0)
  }

  /** From zeroed counters, counter e holds the number of times e was
    * recorded, modulo 2^64. */
  lemma {:induction false} ReplayCounts(events: seq<KBoxEvent>, e: KBoxEvent)
    ensures Replay(Zeros(), events)[e] == Occurrences(events, e) % 0x1_0000_0000_0000_0000
  {
    if events != [] {
      var front := events[..|events| - 1];
      ReplayCounts(front, e);
      if events[|events| - 1] == e {
        CountUp(Occurrences(front, e));
      }
    }
  }

  /** A counter one up from n modulo 2^64 holds n + 1 modulo 2^64. */
  lemma CountUp(n: nat)
    ensures (n % 0x1_0000_0000_0000_0000 + 1) % 0x1_0000_0000_0000_0000 == (n + 1) % 0x1_0000_0000_0000_0000
  {
    var q := n / 0x1_0000_0000_0000_0000;
    assert n + 1 == q * 0x1_0000_0000_0000_0000 + (n % 0x1_0000_0000_0000_0000 + 1);
  }

  /** Truncating a 64-bit counter to 32 bits keeps the count modulo 2^32. */
  lemma TruncateCount(n: nat)
    ensures n % 0x1_0000_0000_0000_0000 % 0x1_0000_0000 == n % 0x1_0000_0000
  {
    var q, r := n / 0x1_0000_0000_0000_0000, n % 0x1_0000_0000_0000_0000;
    assert n == (q * 0x1_0000_0000) * 0x1_0000_0000 + r;
  }

  class KBoxMetrics {
    var eventOccurrences: array<uint64>

    ghost predicate Valid()
      reads this
    {
      eventOccurrences.Length == EventCount
    }

    /** The singleton is built by reset. */
    constructor()
      ensures Valid() && fresh(eventOccurrences) && eventOccurrences[..] == Zeros()
    {
      eventOccurrences := new uint64[EventCount];
      new;
      Reset();
    }

    /** reset: every event counter back to zero. */
    method Reset()
      requires Valid()
      modifies eventOccurrences
      ensures eventOccurrences[..] == Zeros()
    {
      var i := 0;
      while i < EventCount
        invariant 0 <= i <= EventCount
        invariant forall k :: 0 <= k < i ==> eventOccurrences[k] == 0
      {
        eventOccurrences[i] := 0;
        i := i + 1;
      }
    }

    /** event(e): counter e goes up by one, the others stay. */
    method Event(e: KBoxEvent)
      requires Valid()
      modifies eventOccurrences
      ensures eventOccurrences[..] == Incremented(old(eventOccurrences[..]), e)
    {
      eventOccurrences[e] := (eventOccurrences[e] as int + 1) % 0x1_0000_0000_0000_0000;
    }

    /** countEvent(e): the counter, returned as uint32_t. */
    method CountEvent(e: KBoxEvent) returns (n: uint32)
      requires Valid()
      ensures n == eventOccurrences[e] % 0x1_0000_0000
    {
      n := eventOccurrences[e] % 0x1_0000_0000;
    }
  }

  /** Records the events one after the other. */
  method RecordEvents(metrics: KBoxMetrics, events: seq<KBoxEvent>)
    requires metrics.Valid()
    modifies metrics.eventOccurrences
    ensures metrics.eventOccurrences[..] == Replay(old(metrics.eventOccurrences[..]), events)
  {
    ghost var start := metrics.eventOccurrences[..];
    var i := 0;
    while i < |events|
      invariant 0 <= i <= |events|
      invariant metrics.eventOccurrences[..] == Replay(start, events[..i])
    {
      metrics.Event(events[i]);
      assert events[..i + 1][..i] == events[..i];
      i := i + 1;
    }
    assert events[..i] == events;
  }

  /** On fresh metrics, countEvent(e) after a series of events is the
    * number of times e occurred, modulo 2^32. */
  method CountAfter(events: seq<KBoxEvent>, e: KBoxEvent) returns (n: uint32)
    ensures n == Occurrences(events, e) % 0x1_0000_0000
  {
    var metrics := new KBoxMetrics();
    RecordEvents(metrics, events);
    n := metrics.CountEvent(e);
    ReplayCounts(events, e);
    TruncateCount(Occurrences(events, e));
  }
}

=== FILE: kbox_screen.dfy ===
/** Screen capture in tools/kbox.py: the KBox sends its screen as RGB565
  * pixels, a band of lines per ScreenshotData frame, and the tool turns them
  * into rows of RGB triples. */
module KBoxScreen {
  import opened Bytes
  import opened Wrappers
  import Ids = KommandIds
  import opened KBoxHost

  const Width: nat := 320
  const Height: nat := 240

  /** A colour as the three bytes the tool hands to the PNG writer. */
  datatype Rgb = Rgb(r: bv8, g: bv8, b: bv8)

  /** convertToRgb: the 5-6-5 bit fields of a pixel moved to the top of
    * three bytes; the low bits of each byte are zero, and no information
    * is lost: the colour packs back to the pixel. */
  function ConvertToRgb(pixel: bv16): (c: Rgb)
    ensures c.r & 7 == 0 && c.g & 3 == 0 && c.b & 7 == 0
    ensures Pack565(c) == pixel
  {
    Rgb(((pixel >> 8) & 0xF8) as bv8, ((pixel >> 3) & 0xFC) as bv8, ((pixel << 3) & 0xF8) as bv8)
  }

  /** The RGB565 value a colour maps back to: the top 5, 6 and 5 bits of
    * its red, green and blue bytes. */
  function Pack565(c: Rgb): bv16
  {
    ((c.r as bv16 & 0xF8) << 8) | ((c.g as bv16 & 0xFC) << 3) | (c.b as bv16 >> 3)
  }

  /** The RGB565 words of a reply, two little-endian bytes each; an odd
    * byte at the end makes struct.unpack raise. */
  function Words(data: seq<uint8>): (r: Result<seq<uint16>, Failure>)
    ensures r.Ok? <==> |data| % 2 == 0
    ensures r.Ok? ==> |r.value| == |data| / 2
    ensures r.Ok? ==> forall i :: 0 <= i < |r.value| ==> r.value[i] == FromLE16(data[2 * i], data[2 * i + 1])
    decreases |data|
  {
    if data == [] then Ok([])
    else if |data| == 1 then Err(StructError)
    else
      match Words(data[2..])
      case Err(e) => Err(e)
      case Ok(rest) => Ok([FromLE16(data[0], data[1])] + rest)
  }

  /** Each word converted by convertToRgb, in order. */
  function Converted(raw: seq<uint16>): (r: seq<Rgb>)
    ensures |r| == |raw|
  {
    if raw == [] then [] else [ConvertToRgb(raw[0] as bv16)] + Converted(raw[1..])
  }

  /** `pixels[i:i+320] for i in range(0, len(pixels), 320)`. */
  function Rows<T>(pixels: seq<T>): seq<seq<T>>
    decreases |pixels|
  {
    if pixels == [] then []
    else if |pixels| <= Width then [pixels]
    else [pixels[..Width]] + Rows(pixels[Width..])
  }

  function Flatten<T>(rows: seq<seq<T>>): seq<T>
  {
    if rows == [] then [] else rows[0] + Flatten(rows[1..])
  }

  /** The rows hold the pixels in order; every row but the last is a full
    * screen line, and none is empty. */
  lemma {:induction false} RowsSplitPixels<T>(pixels: seq<T>)
    ensures Flatten(Rows(pixels)) == pixels
    ensures forall i :: 0 <= i < |Rows(pixels)| ==> 0 < |Rows(pixels)[i]| <= Width
    ensures forall i :: 0 <= i < |Rows(pixels)| - 1 ==> |Rows(pixels)[i]| == Width
    ensures |Rows(pixels)| == (|pixels| + Width - 1) / Width
    decreases |pixels|
  {
    if |pixels| > Width {
      RowsSplitPixels(pixels[Width..]);
      var rows := Rows(pixels);
      assert rows[1..] == Rows(pixels[Width..]);
      assert pixels[..Width] + pixels[Width..] == pixels;
      forall i | 0 <= i < |rows|
        ensures 0 < |rows[i]| <= Width && (i < |rows| - 1 ==> |rows[i]| == Width)
      {
        if i > 0 {
          assert rows[i] == rows[1..][i - 1];
        }
      }
    }
  }

  /** captureScreen: the first line of the band and its rows. */
  function CaptureScreen(reply: Result<seq<uint8>, Failure>): (r: Result<(uint16, seq<seq<Rgb>>), Failure>)
    ensures reply.Ok? ==> (r.Ok? <==> |reply.value| >= 2 && |reply.value| % 2 == 0)
    ensures r.Ok? ==> reply.Ok? && r.value.0 == FromLE16(reply.value[0], reply.value[1])
  {
    match reply
    case Err(e) => Err(e)
    case Ok(data) =>
      if |data| < 2 then Err(StructError)
      else
        assert |data[2..]| % 2 == |data| % 2 by { ModTwo(|data| - 2); }
        match Words(data[2..])
        case Err(e) => Err(e)
        case Ok(words) => Ok((FromLE16(data[0], data[1]), Rows(Converted(words))))
  }

  lemma ModTwo(n: nat)
    ensures (n + 2) % 2 == n % 2
  {
  }

  /** The request for the band starting at line `startY`. */
  function ScreenshotRequest(startY: uint16): seq<uint8>
  {
    CommandFrame(Ids.Screenshot, LE16(startY))
  }

  /** The data of a ScreenshotData frame: the first line, then the RGB565
    * pixels. */
  function ScreenshotData(y: uint16, raw: seq<uint16>): seq<uint8>
  {
    LE16(y) + Raw(raw)
  }

  function Raw(raw: seq<uint16>): seq<uint8>
  {
    if raw == [] then [] else LE16(raw[0]) + Raw(raw[1..])
  }

  lemma {:induction false} WordsOfRaw(raw: seq<uint16>)
    ensures Words(Raw(raw)) == Ok(raw)
  {
    if raw != [] {
      WordsOfRaw(raw[1..]);
      var data := Raw(raw);
      assert data[2..] == Raw(raw[1..]);
      assert data[0] == LE16(raw[0])[0] && data[1] == LE16(raw[0])[1];
      assert FromLE16(data[0], data[1]) == raw[0];
      assert Words(data) == Ok([raw[0]] + raw[1..]);
      assert [raw[0]] + raw[1..] == raw;
    }
  }

  /** A band of pixels sent by the KBox comes out as its first line and its
    * pixels, converted, in rows of one screen line. */
  lemma CaptureScreenDecodes(y: uint16, raw: seq<uint16>)
    ensures CaptureScreen(Ok(ScreenshotData(y, raw))) == Ok((y, Rows(Converted(raw))))
  {
    var data := ScreenshotData(y, raw);
    assert data[..2] == LE16(y) && data[2..] == Raw(raw);
    LE16Of(data[0], data[1]);
    WordsOfRaw(raw);
  }

  /** takeScreenshot's loop from `captured` lines on; `replies` answer its
    * requests in order, a missing one is a timeout. The line number the
    * KBox puts in each reply is ignored, as in the tool. */
  function ScreenshotSpec(replies: seq<Result<seq<uint8>, Failure>>, captured: nat, rows: seq<seq<Rgb>>)
    : Result<seq<seq<Rgb>>, Failure>
    decreases |replies|
  {
    if captured >= Height then Ok(rows)
    else if replies == [] then Err(KBoxError(TimedOut))
    else
      match CaptureScreen(replies[0])
      case Err(e) => Err(e)
      case Ok((_, band)) => ScreenshotSpec(replies[1..], captured + |band|, rows + band)
  }

  /** takeScreenshot: asks for bands from the number of lines captured so
    * far until 240 lines are there. */
  method TakeScreenshot(replies: seq<Result<seq<uint8>, Failure>>)
    returns (result: Result<seq<seq<Rgb>>, Failure>, requests: seq<seq<uint8>>)
    ensures result == ScreenshotSpec(replies, 0, [])
    ensures result.Ok? ==> |result.value| >= Height
    ensures |requests| <= |replies| + 1
  {
    var captured := 0;
    var pixels: seq<seq<Rgb>> := [];
    var k := 0;
    requests := [];
    while captured < Height
      invariant 0 <= k <= |replies| && |requests| == k && captured == |pixels|
      invariant ScreenshotSpec(replies[k..], captured, pixels) == ScreenshotSpec(replies, 0, [])
      decreases |replies| - k
    {
      requests := requests + [ScreenshotRequest(captured)];
      if k == |replies| {
        return Err(KBoxError(TimedOut)), requests;
      }
      assert replies[k..][0] == replies[k] && replies[k..][1..] == replies[k + 1..];
      var capture := CaptureScreen(replies[k]);
      if capture.Err? {
        return Err(capture.error), requests;
      }
      var band := capture.value.1;
      captured := captured + |band|;
      pixels := pixels + band;
      k := k + 1;
    }
    result := Ok(pixels);
  }

  /** A KBox that answers with full bands of `n` lines each delivers the
    * screen after ceil(240 / n) requests. */
  lemma {:induction false} FullBandsComplete(y: uint16, band: seq<seq<Rgb>>, replies: seq<Result<seq<uint8>, Failure>>, captured: nat, rows: seq<seq<Rgb>>)
    requires |band| > 0
    requires forall i :: 0 <= i < |replies| ==> CaptureScreen(replies[i]) == Ok((y, band))
    requires captured + |replies| * |band| >= Height
    ensures ScreenshotSpec(replies, captured, rows).Ok?
    decreases |replies|
  {
    if captured < Height {
      assert replies != [];
      assert CaptureScreen(replies[0]) == Ok((y, band));
      assert forall i :: 0 <= i < |replies[1..]| ==> replies[1..][i] == replies[i + 1];
      FullBandsComplete(y, band, replies[1..], captured + |band|, rows + band);
    }
  }
}

/** tools/remote-display.py: drives a display over a serial line with the
  * strict SLIP reader (module Slip, strict = true). */
module RemoteDisplay {
  import opened Bytes
  import opened Wrappers
  import opened KBoxHost
  import Slip
  import KBoxScreen

  const CmdReset: uint16 := 1
  const CmdDrawPixels: uint16 := 2

  /** color565 on a 0xRRGGBB colour: only the three colour bytes matter,
    * and the result is their RGB565 packing, which fits in 16 bits. */
  function Color565(rgb: bv32): (p: bv16)
    ensures p == KBoxScreen.Pack565(KBoxScreen.Rgb(((rgb >> 16) & 0xff) as bv8, ((rgb >> 8) & 0xff) as bv8, (rgb & 0xff) as bv8))
  {
    var r := (rgb & 0xff0000) >> 16;
    var g := (rgb & 0xff00) >> 8;
    var b := rgb & 0xff;
    (((r & 0xF8) << 8) | ((g & 0xFC) << 3) | (b >> 3)) as bv16
  }

  /** The screenshot colours of the KBox tool travel unchanged through the
    * display tool's encoding. */
  lemma ColorRoundTrip(pixel: bv16)
    ensures var c := KBoxScreen.ConvertToRgb(pixel);
      Color565((c.r as bv32 << 16) | (c.g as bv32 << 8) | c.b as bv32) == pixel
  {
  }

  /** `struct.pack('<HH', command, len(data)) + data`: a payload of 64 KiB
    * or more does not fit the length field and struct.pack raises. */
  function CommandPacket(command: uint16, data: seq<uint8>): (r: Result<seq<uint8>, Failure>)
    ensures r.Ok? <==> |data| < 0x1_0000
    ensures r.Ok? ==> |r.value| == 4 + |data| && r.value[4..] == data
    ensures r.Ok? ==> FromLE16(r.value[0], r.value[1]) == command && FromLE16(r.value[2], r.value[3]) == |data|
  {
    if |data| >= 0x1_0000 then Err(StructError)
    else Ok(LE16(command) + LE16(|data|) + data)
  }

  /** What `command` makes of the display's answer: the `<HH` header of a
    * packet of exactly four bytes; a timeout or a SLIP error is swallowed
    * (None), any other packet length makes struct.unpack raise. */
  function CommandResponse(response: Slip.Event): (r: Result<Option<(uint16, uint16)>, Failure>)
    requires !response.NoPacket?   // the strict reader never yields None
    ensures r.Err? <==> response.Packet? && |response.packet| != 4
    ensures r.Ok? && r.value.Some? ==> response.Packet? && LE16(r.value.value.0) + LE16(r.value.value.1) == response.packet
  {
    match response
    case Packet(p) =>
      if |p| != 4 then Err(StructError)
      else
        LE16Of(p[0], p[1]);
        LE16Of(p[2], p[3]);
        Ok(Some((FromLE16(p[0], p[1]), FromLE16(p[2], p[3]))))
    case Failed(_) => Ok(None)
    case Stopped => Ok(None)
  }

  /** Fits a `<H` field of struct.pack. */
  predicate Fits16(n: int)
  {
    0 <= n < 0x1_0000
  }

  /** draw_pixels: the pixel count must be width * height; the packet is
    * x, y, width, height as `<HHHH`, then each colour as `<H`. Python's
    * integers are unbounded, so a negative or too large coordinate reaches
    * struct.pack, which raises. */
  function DrawPixels(x: int, y: int, width: int, height: int, pixels: seq<bv32>): (r: Result<seq<uint8>, Failure>)
    ensures |pixels| != width * height ==> r == Err(IndexError)
    ensures |pixels| == width * height && !(Fits16(x) && Fits16(y) && Fits16(width) && Fits16(height)) ==>
      r == Err(StructError)
    ensures |pixels| == width * height && Fits16(x) && Fits16(y) && Fits16(width) && Fits16(height) ==>
      (r.Ok? <==> 8 + 2 * |pixels| < 0x1_0000)
  {
    if |pixels| != width * height then Err(IndexError)
    else if !(Fits16(x) && Fits16(y) && Fits16(width) && Fits16(height)) then Err(StructError)
    else CommandPacket(CmdDrawPixels, LE16(x) + LE16(y) + LE16(width) + LE16(height) + Colors(pixels))
  }

  /** The RGB565 words of the pixels, in order. */
  function Words565(pixels: seq<bv32>): (w: seq<uint16>)
    ensures |w| == |pixels|
  {
    seq(|pixels|, k requires 0 <= k < |pixels| => Color565(pixels[k]) as int)
  }

  /** Each word as `<H`, one after the other. */
  function Pairs(words: seq<uint16>): (r: seq<uint8>)
    ensures |r| == 2 * |words|
  {
    if words == [] then [] else LE16(words[0]) + Pairs(words[1..])
  }

  function Colors(pixels: seq<bv32>): (r: seq<uint8>)
    ensures |r| == 2 * |pixels|
  {
    Pairs(Words565(pixels))
  }

  /** Word i sits at bytes 2i and 2i + 1. */
  lemma {:induction false} PairsAt(words: seq<uint16>, i: nat)
    requires i < |words|
    ensures Pairs(words)[2 * i..2 * i + 2] == LE16(words[i])
  {
    if i > 0 {
      PairsAt(words[1..], i - 1);
      PairAfter(LE16(words[0]), Pairs(words[1..]), 2 * (i - 1));
    }
  }

  /** Two bytes at offset j of the tail sit at offset 2 + j after a
    * two-byte head. */
  lemma PairAfter(head: seq<uint8>, tail: seq<uint8>, j: nat)
    requires |head| == 2 && j + 2 <= |tail|
    ensures (head + tail)[2 + j..2 + j + 2] == tail[j..j + 2]
  {
  }

  /** The payload of a draw command carries each colour, in order, at its
    * own offset. */
  lemma ColorsAt(pixels: seq<bv32>, i: nat)
    requires i < |pixels|
    ensures Colors(pixels)[2 * i..2 * i + 2] == LE16(Color565(pixels[i]) as int)
  {
    PairsAt(Words565(pixels), i);
  }
}

=== FILE: kbox_signalk.dfy ===
/** SKPath (src/common/signalk/SKPath.h): a path enum, with an index string
  * for the paths declared after the SKPathEnumIndexedPaths marker. The
  * constructors normalise what they are given; equality (SKPath.cpp) is not
  * part of this model and is taken to compare both fields. */
module SKPaths {

  /** SKPathEnum, numbered in declaration order. */
  type SKPathEnum = p: int | 0 <= p < 9

  const InvalidPath: SKPathEnum := 0
  const EnvironmentOutsidePressure: SKPathEnum := 1
  const NavigationAttitude: SKPathEnum := 2
  const NavigationCourseOverGroundTrue: SKPathEnum := 3
  const NavigationHeadingMagnetic: SKPathEnum := 4
  const NavigationPosition: SKPathEnum := 5
  const NavigationSpeedOverGround: SKPathEnum := 6
  /** Marker: every path after it requires an index. */
  const EnumIndexedPaths: SKPathEnum := 7
  const ElectricalBatteriesVoltage: SKPathEnum := 8

  datatype SKPath = SKPath(p: SKPathEnum, index: string)

  /** What every constructor leaves: the marker is never a path, and a path
    * up to the marker carries no index. */
  predicate Normal(path: SKPath)
  {
    path.p != EnumIndexedPaths && (path.p < EnumIndexedPaths ==> path.index == "")
  }

  /** SKPath(): the invalid path, also the SKPathInvalid constant. */
  function Default(): (r: SKPath)
    ensures Normal(r) && r.p == InvalidPath && r.index == ""
  {
    SKPath(InvalidPath, "")
  }

  /** SKPath(p): an indexed enum (or the marker) given without an index
    * becomes the invalid path. */
  function OfEnum(p: SKPathEnum): (r: SKPath)
    ensures Normal(r) && r.index == ""
    ensures p < EnumIndexedPaths ==> r.p == p
    ensures p >= EnumIndexedPaths ==> r == Default()
  {
    SKPath(if p >= EnumIndexedPaths then InvalidPath else p, "")
  }

  /** SKPath(p, index): an enum up to the marker given with an index
    * becomes the invalid path, its index dropped. */
  function OfEnumIndex(p: SKPathEnum, index: string): (r: SKPath)
    ensures Normal(r)
    ensures p > EnumIndexedPaths ==> r.p == p && r.index == index
    ensures p <= EnumIndexedPaths ==> r == Default()
  {
    if p <= EnumIndexedPaths then SKPath(InvalidPath, "") else SKPath(p, index)
  }

  /** getStaticPath. */
  function GetStaticPath(path: SKPath): SKPathEnum
  {
    path.p
  }

  /** isIndexed: the enum comes after the marker. */
  predicate IsIndexed(path: SKPath)
  {
    path.p > EnumIndexedPaths
  }

  /** getIndex: the index of an indexed path, SKPathInvalid's (empty) index
    * otherwise. */
  function GetIndex(path: SKPath): (r: string)
    ensures IsIndexed(path) ==> r == path.index
    ensures !IsIndexed(path) ==> r == Default().index
  {
    if IsIndexed(path) then path.index else Default().index
  }

  /** The getters give back what an indexed path was built from. */
  lemma IndexedRoundTrip(p: SKPathEnum, index: string)
    requires p > EnumIndexedPaths
    ensures IsIndexed(OfEnumIndex(p, index))
    ensures GetStaticPath(OfEnumIndex(p, index)) == p && GetIndex(OfEnumIndex(p, index)) == index
  {
  }

  /** The getters give back what a plain path was built from. */
  lemma PlainRoundTrip(p: SKPathEnum)
    requires p < EnumIndexedPaths
    ensures !IsIndexed(OfEnum(p))
    ensures GetStaticPath(OfEnum(p)) == p && GetIndex(OfEnum(p)) == ""
  {
  }

  /** Among the paths the constructors build, two are the same exactly when
    * their static paths and their indices agree. */
  lemma GettersDetermine(a: SKPath, b: SKPath)
    requires Normal(a) && Normal(b)
    ensures a == b <==> GetStaticPath(a) == GetStaticPath(b) && GetIndex(a) == GetIndex(b)
  {
  }
}

/** SKSource (src/common/signalk/SKSource.cpp): where a value came from. The
  * declaration (SKSource.h) is not part of this model; its fields and their
  * zero defaults follow the constructors and SKSourceTest.cpp. */
module SKSources {
  import opened Bytes

  datatype SKSourceInput = InputUnknown | InputNMEA0183_1 | InputNMEA0183_2 | InputNMEA2000

  datatype SKSource = SKSource(input: SKSourceInput, talker: string, sentence: string,
                               pgn: uint32, priority: uint8, sourceAddress: uint8)

  /** unknownSource, also the SKSourceUnknown constant. */
  function UnknownSource(): (s: SKSource)
    ensures s.input == InputUnknown && s.talker == "" && s.sentence == ""
  {
    SKSource(InputUnknown, "", "", 0, 0, 0)
  }

  predicate IsNMEA0183(input: SKSourceInput)
  {
    input == InputNMEA0183_1 || input == InputNMEA0183_2
  }

  /** sourceForNMEA0183 as written: an input other than the two NMEA 0183
    * ports becomes unknown, but the talker and sentence are stored
    * whatever the input. */
  function SourceForNMEA0183(input: SKSourceInput, talker: string, sentence: string): (s: SKSource)
    ensures s.input == (if IsNMEA0183(input) then input else InputUnknown)
    ensures s.talker == talker && s.sentence == sentence
    ensures s.pgn == 0 && s.priority == 0 && s.sourceAddress == 0
  {
    SKSource(if IsNMEA0183(input) then input else InputUnknown, talker, sentence, 0, 0, 0)
  }

  /** An NMEA 2000 input with talker "xx" and sentence "xxx" gives a source
    * whose talker and sentence are not empty. */
  lemma InvalidInputKeepsTalker()
    ensures SourceForNMEA0183(InputNMEA2000, "xx", "xxx").input == InputUnknown
    ensures SourceForNMEA0183(InputNMEA2000, "xx", "xxx").talker == "xx"
    ensures SourceForNMEA0183(InputNMEA2000, "xx", "xxx").sentence == "xxx"
  {
  }

  /** sourceForNMEA0183 corrected: an invalid input gives the unknown source
    * itself, with no talker and no sentence. */
  function SourceForNMEA0183Checked(input: SKSourceInput, talker: string, sentence: string): (s: SKSource)
    ensures IsNMEA0183(input) ==> s == SourceForNMEA0183(input, talker, sentence)
    ensures !IsNMEA0183(input) ==> s == UnknownSource()
  {
    if IsNMEA0183(input) then SKSource(input, talker, sentence, 0, 0, 0) else UnknownSource()
  }

  /** operator==: sources of different inputs differ; NMEA 0183 sources
    * compare talker and sentence, NMEA 2000 sources the PGN, and unknown
    * sources are all equal. */
  predicate Equal(a: SKSource, b: SKSource)
  {
    if a.input != b.input then false
    else match a.input
      case InputNMEA0183_1 => a.talker == b.talker && a.sentence == b.sentence
      case InputNMEA0183_2 => a.talker == b.talker && a.sentence == b.sentence
      case InputNMEA2000 => a.pgn == b.pgn
      case InputUnknown => true
  }

  /** operator!=. */
  predicate NotEqual(a: SKSource, b: SKSource)
  {
    !Equal(a, b)
  }

  /** The comparison is an equivalence. */
  lemma EqualIsEquivalence(a: SKSource, b: SKSource, c: SKSource)
    ensures Equal(a, a)
    ensures Equal(a, b) ==> Equal(b, a)
    ensures Equal(a, b) && Equal(b, c) ==> Equal(a, c)
  {
  }

  /** != is exactly the negation of ==. */
  lemma NotEqualNegates(a: SKSource, b: SKSource)
    ensures NotEqual(a, b) <==> !Equal(a, b)
    ensures NotEqual(a, b) || Equal(a, b)
  {
  }

  /** As written, every source with an invalid input compares equal to the
    * unknown source, whatever talker and sentence it stored. */
  lemma InvalidInputIsUnknown(input: SKSourceInput, talker: string, sentence: string)
    requires !IsNMEA0183(input)
    ensures Equal(SourceForNMEA0183(input, talker, sentence), UnknownSource())
  {
  }

  /** Two NMEA 0183 sources compare equal exactly when they come from the
    * same port with the same talker and sentence. */
  lemma NMEA0183Equal(input: SKSourceInput, talker: string, sentence: string,
                      input': SKSourceInput, talker': string, sentence': string)
    requires IsNMEA0183(input) && IsNMEA0183(input')
    ensures Equal(SourceForNMEA0183(input, talker, sentence), SourceForNMEA0183(input', talker', sentence'))
            <==> input == input' && talker == talker' && sentence == sentence'
  {
  }

  /** getType. */
  function GetType(s: SKSource): (r: string)
    ensures r == "NMEA0183" <==> IsNMEA0183(s.input)
    ensures r == "NMEA2000" <==> s.input == InputNMEA2000
    ensures r == "unknown" <==> s.input == InputUnknown
  {
    match s.input
    case InputNMEA0183_1 => "NMEA0183"
    case InputNMEA0183_2 => "NMEA0183"
    case InputNMEA2000 => "NMEA2000"
    case InputUnknown => "unknown"
  }

  /** getLabel. */
  function GetLabel(s: SKSource): string
  {
    match s.input
    case InputNMEA0183_1 => "kbox.nmea0183.1"
    case InputNMEA0183_2 => "kbox.nmea0183.2"
    case InputNMEA2000 => "kbox.nmea2000"
    case InputUnknown => "kbox.unknown"
  }

  /** The label names the input: two sources share a label exactly when
    * they share an input, so equal sources have the same label and type. */
  lemma LabelNamesInput(a: SKSource, b: SKSource)
    ensures GetLabel(a) == GetLabel(b) <==> a.input == b.input
    ensures Equal(a, b) ==> GetLabel(a) == GetLabel(b) && GetType(a) == GetType(b)
  {
    var labels := ["kbox.nmea0183.1", "kbox.nmea0183.2", "kbox.nmea2000", "kbox.unknown"];
    assert labels[0] != labels[1] && labels[0] != labels[2] && labels[0] != labels[3];
    assert labels[1] != labels[2] && labels[1] != labels[3] && labels[2] != labels[3];
  }
}

/** SKUpdateStatic<capacity> (src/common/signalk/SKUpdateStatic.h): a
  * fixed-capacity array of values and a source. The SKValue this header
  * works with carries a path; that version of SKValue.h is not part of
  * this model, so a value here is a path and a payload, and SKValueNone is
  * the invalid path with no payload. */
module SKUpdates {
  import opened SKPaths
  import opened SKSources

  datatype Payload =
    | NoPayload
    | Number(number: real)
    | Position(latitude: real, longitude: real, altitude: real)
    | Attitude(roll: real, pitch: real, yaw: real)

  datatype SKValue = SKValue(path: SKPath, payload: Payload)

  const SKValueNone := SKValue(Default(), NoPayload)

  /** The first value with the path, SKValueNone when there is none. */
  function FirstWithPath(values: seq<SKValue>, path: SKPath): SKValue
  {
    if values == [] then SKValueNone
    else if values[0].path == path then values[0]
    else FirstWithPath(values[1..], path)
  }

  /** With no value of the path, FirstWithPath is SKValueNone. */
  lemma {:induction false} FirstWithPathAbsent(values: seq<SKValue>, path: SKPath)
    requires forall i :: 0 <= i < |values| ==> values[i].path != path
    ensures FirstWithPath(values, path) == SKValueNone
  {
    if values != [] {
      FirstWithPathAbsent(values[1..], path);
    }
  }

  /** FirstWithPath finds the earliest value with the path. */
  lemma {:induction false} FirstWithPathAt(values: seq<SKValue>, path: SKPath, i: nat)
    requires i < |values| && values[i].path == path
    requires forall j :: 0 <= j < i ==> values[j].path != path
    ensures FirstWithPath(values, path) == values[i]
  {
    if i > 0 {
      assert values[1..][i - 1] == values[i];
      FirstWithPathAt(values[1..], path, i - 1);
    }
  }

  class SKUpdateStatic {
    const capacity: nat
    var values: array<SKValue>
    var size: int
    var source: SKSource

    ghost predicate Valid()
      reads this
    {
      values.Length == capacity && 0 <= size <= capacity
    }

    /** The values added so far, in order. */
    ghost function Contents(): seq<SKValue>
      requires Valid()
      reads this, values
    {
      values[..size]
    }

    /** An empty update with the unknown source. */
    constructor(capacity: nat)
      ensures Valid() && this.capacity == capacity && fresh(values)
      ensures Contents() == [] && source == UnknownSource()
    {
      this.capacity := capacity;
      values := new SKValue[capacity](_ => SKValueNone);
      size := 0;
      source := UnknownSource();
    }

    /** addValue: stores the value and returns true while there is room;
      * returns false and changes nothing once full. */
    method AddValue(v: SKValue) returns (ok: bool)
      requires Valid()
      modifies this, values
      ensures Valid() && values == old(values) && source == old(source)
      ensures ok <==> old(size) < capacity
      ensures ok ==> Contents() == old(Contents()) + [v]
      ensures !ok ==> size == old(size) && values[..] == old(values[..])
    {
      if size < capacity {
        values[size] := v;
        size := size + 1;
        ok := true;
      } else {
        ok := false;
      }
    }

    method SetSource(s: SKSource)
      requires Valid()
      modifies this
      ensures Valid() && source == s && values == old(values) && size == old(size)
    {
      source := s;
    }

    function GetSize(): (n: int)
      requires Valid()
      reads this, values
      ensures n == |Contents()| && 0 <= n <= capacity
    {
      size
    }

    function GetSource(): SKSource
      reads this
    {
      source
    }

    /** operator[](index): the value at the index, SKValueNone past the
      * values added. */
    method At(index: int) returns (v: SKValue)
      requires Valid() && 0 <= index
      ensures v == if index < |Contents()| then Contents()[index] else SKValueNone
    {
      if index >= size {
        return SKValueNone;
      }
      v := values[index];
    }

    /** operator[](path): the first value added with the path, SKValueNone
      * when there is none. */
    method ByPath(path: SKPath) returns (v: SKValue)
      requires Valid()
      ensures v == FirstWithPath(Contents(), path)
    {
      ghost var contents := Contents();
      var i := 0;
      while i < size
        invariant 0 <= i <= size
        invariant forall j :: 0 <= j < i ==> contents[j].path != path
      {
        if values[i].path == path {
          FirstWithPathAt(contents, path, i);
          return values[i];
        }
        i := i + 1;
      }
      FirstWithPathAbsent(contents, path);
      v := SKValueNone;
    }
  }

  /** Adding to an update with room and reading back: the value added is
    * the last one, and a lookup of its path finds it unless an earlier
    * value has the same path. */
  method AddThenRead(u: SKUpdateStatic, v: SKValue) returns (ok: bool, last: SKValue, found: SKValue)
    requires u.Valid()
    modifies u, u.values
    ensures ok <==> old(u.size) < u.capacity
    ensures ok ==> last == v
    ensures ok && (forall j :: 0 <= j < old(u.size) ==> old(u.values[j]).path != v.path) ==> found == v
    ensures !ok ==> found == FirstWithPath(old(u.Contents()), v.path)
  {
    ok := u.AddValue(v);
    last := SKValueNone;
    if ok {
      last := u.At(u.size - 1);
    }
    found := u.ByPath(v.path);
    if ok && forall j :: 0 <= j < u.size - 1 ==> u.values[j].path != v.path {
      FirstWithPathAt(u.Contents(), v.path, u.size - 1);
    }
  }
}

=== FILE: kommand.dfy ===
/** Frame identifiers of the KBox protocol (src/common/comms/Kommand.h and
  * the constants of tools/kbox.py). */
module KommandIds {
  import opened Bytes

  const Ping: uint16 := 0x00
  const Pong: uint16 := 0x01
  const Err: uint16 := 0x0F
  const Log: uint16 := 0x10
  const FileRead: uint16 := 0x20
  const FileWrite: uint16 := 0x21
  const FileReadReply: uint16 := 0x22
  const FileError: uint16 := 0x2F
  const Screenshot: uint16 := 0x30
  const ScreenshotData: uint16 := 0x31
  const Reboot: uint16 := 0x33
  const NMEASentence: uint16 := 0x40
  const SKData: uint16 := 0x42
  const WiFiStatus: uint16 := 0x50
  const WiFiConfiguration: uint16 := 0x51
}

/** The frame builder FixedSizeKommand<maxDataSize> of
  * src/common/comms/Kommand.h: a two-byte little-endian identifier followed
  * by at most maxDataSize bytes of data. Every appender silently does
  * nothing when its bytes would not fit. */
module Kommand {
  import opened Bytes
  import opened Wrappers

  /** The rule shared by all appenders: `if (_index + n > bufferSize) return;`. */
  function Put(k: seq<uint8>, capacity: nat, bs: seq<uint8>): (r: seq<uint8>)
    ensures |k| <= capacity ==> |r| <= capacity
    ensures k <= r && (r == k || |r| == |k| + |bs|)
  {
    if |k| + |bs| > capacity then k else k + bs
  }

  /** appendNullTerminatedString as written: a string longer than the room
    * left (one byte is kept for the NUL) is truncated; a null pointer appends
    * only the NUL; when no content byte can be copied, including for an empty
    * string, nothing is appended at all. */
  function PutString(k: seq<uint8>, capacity: nat, s: Option<seq<uint8>>): (r: seq<uint8>)
    requires |k| <= capacity
    ensures |r| <= capacity && k <= r
  {
    match s
    case None => Put(k, capacity, [NUL])
    case Some(str) =>
      // (int)(bufferSize - _index - 1) is -1 when the buffer is full
      var room := capacity - |k| - 1;
      var len := if |str| > room then room else |str|;
      if len <= 0 then k else Put(k + str[..len], capacity, [NUL])
  }

  /** What PutString does, case by case. */
  lemma PutStringCases(k: seq<uint8>, capacity: nat, s: Option<seq<uint8>>)
    requires |k| <= capacity
    ensures s.None? ==> PutString(k, capacity, s) == (if |k| < capacity then k + [NUL] else k)
    ensures s.Some? && |s.value| > 0 && |k| + 1 < capacity ==>
      var len := if |s.value| < capacity - |k| - 1 then |s.value| else capacity - |k| - 1;
      PutString(k, capacity, s) == k + s.value[..len] + [NUL]
    ensures s == Some([]) ==> PutString(k, capacity, s) == k
    ensures s.Some? && |k| + 1 >= capacity ==> PutString(k, capacity, s) == k
  {
  }

  /** A FixedSizeKommand: `_bytes` and `_index`. */
  class FixedSizeKommand {
    const maxDataSize: nat
    const bytes: array<uint8>
    var index: nat

    ghost predicate Valid()
      reads this
    {
      bytes.Length == maxDataSize + 2 && index <= bytes.Length
    }

    /** `bufferSize`: two bytes for the identifier plus the data. */
    function BufferSize(): nat
    {
      maxDataSize + 2
    }

    /** The bytes appended so far, identifier included. */
    function Contents(): seq<uint8>
      reads this, bytes
      requires Valid()
    {
      bytes[..index]
    }

    constructor(maxDataSize: nat, id: uint16)
      requires maxDataSize + 2 < 0x1_0000
      ensures Valid() && fresh(bytes) && this.maxDataSize == maxDataSize
      ensures Contents() == LE16(id)
    {
      this.maxDataSize := maxDataSize;
      bytes := new uint8[maxDataSize + 2];
      index := 0;
      new;
      Append16(id);
    }

    method Append32(w: uint32)
      requires Valid()
      modifies this`index, bytes
      ensures Valid() && Contents() == Put(old(Contents()), BufferSize(), LE32(w))
    {
      if index + 4 > bytes.Length {
        return;
      }
      var le := LE32(w);
      bytes[index] := le[0];
      bytes[index + 1] := le[1];
      bytes[index + 2] := le[2];
      bytes[index + 3] := le[3];
      index := index + 4;
      assert bytes[..index] == old(bytes[..index]) + LE32(w);
    }

    method Append16(w: uint16)
      requires Valid()
      modifies this`index, bytes
      ensures Valid() && Contents() == Put(old(Contents()), BufferSize(), LE16(w))
    {
      if index + 2 > bytes.Length {
        return;
      }
      bytes[index] := w % 0x100;
      bytes[index + 1] := w / 0x100;
      index := index + 2;
      assert bytes[..index] == old(bytes[..index]) + LE16(w);
    }

    method Append8(b: uint8)
      requires Valid()
      modifies this`index, bytes
      ensures Valid() && Contents() == Put(old(Contents()), BufferSize(), [b])
    {
      if index + 1 > bytes.Length {
        return;
      }
      bytes[index] := b;
      index := index + 1;
      assert bytes[..index] == old(bytes[..index]) + [b];
    }

    /** `s` is the C string's content (None for nullptr). */
    method AppendNullTerminatedString(s: Option<seq<uint8>>)
      requires Valid()
      modifies this`index, bytes
      ensures Valid() && Contents() == PutString(old(Contents()), BufferSize(), s)
    {
      if s.Some? {
        var len: int := |s.value|;
        if len > bytes.Length - index - 1 {
          len := bytes.Length - index - 1;
        }
        if len <= 0 {
          return;
        }
        // strncpy
        var i := 0;
        while i < len
          modifies bytes
          invariant 0 <= i <= len && index + len < bytes.Length
          invariant bytes[..index + i] == old(bytes[..index]) + s.value[..i]
        {
          bytes[index + i] := s.value[i];
          i := i + 1;
          assert s.value[..i] == s.value[..i - 1] + [s.value[i - 1]];
        }
        index := index + len;
      }
      Append8(NUL);
    }

    /** Print::write: 0 when the buffer is full, else the byte is appended. */
    method Write(c: uint8) returns (n: nat)
      requires Valid()
      modifies this`index, bytes
      ensures Valid() && Contents() == Put(old(Contents()), BufferSize(), [c])
      ensures n == if |old(Contents())| < BufferSize() then 1 else 0
    {
      if index + 1 > bytes.Length {
        return 0;
      }
      Append8(c);
      return 1;
    }

    method GetSize() returns (n: nat)
      requires Valid()
      ensures n == |Contents()| && n <= BufferSize()
    {
      return index;
    }
  }
}

/** The older builder Kommand<maxDataSize> of lib/KBox/src/util/Kommand.h.
  * Its buffer has room for 2 + maxDataSize bytes but every bound check
  * compares against maxDataSize, so a frame, identifier included, holds at
  * most maxDataSize bytes. Its string appender computes the room left with
  * unsigned (32-bit size_t) arithmetic. */
module LegacyKommand {
  import opened Bytes
  import Kommand

  const SizeT: int := 0x1_0000_0000

  /** appendNullTerminatedString as written. When the frame is already full,
    * `maxDataSize - _index - 1` wraps around to a huge value, the string is
    * not truncated, and it is copied past the end of the frame. */
  function PutString(k: seq<uint8>, maxDataSize: nat, s: seq<uint8>): seq<uint8>
  {
    var room := (maxDataSize - |k| - 1) % SizeT;
    var len := if |s| > room then room else |s|;
    if len <= 0 then k else Kommand.Put(k + s[..len], maxDataSize, [NUL])
  }

  /** The bound the other appenders keep does not survive the string
    * appender: with maxDataSize 4, an identifier and one 16-bit value fill the
    * frame, and a three-byte string is then copied in full, one byte past the
    * six-byte buffer. */
  lemma StringOverflowsBuffer()
    ensures var k := Kommand.Put(Kommand.Put([], 4, LE16(0x10)), 4, LE16(7));
      |k| == 4 && |PutString(k, 4, [0x61, 0x62, 0x63])| == 7 > 2 + 4
  {
    var k := Kommand.Put(Kommand.Put([], 4, LE16(0x10)), 4, LE16(7));
    assert |k| == 4;
    assert (4 - |k| - 1) % SizeT == SizeT - 1;
  }

  /** The evidently intended appender: the room left is computed with signed
    * arithmetic, so a full frame takes no more bytes. */
  function PutStringBounded(k: seq<uint8>, maxDataSize: nat, s: seq<uint8>): seq<uint8>
  {
    var room := maxDataSize - |k| - 1;
    var len := if |s| > room then room else |s|;
    if len <= 0 then k else Kommand.Put(k + s[..len], maxDataSize, [NUL])
  }

  /** The corrected appender keeps the frame within maxDataSize bytes, and
    * whenever it copies some of the string it also terminates it. */
  lemma PutStringBoundedKeepsBound(k: seq<uint8>, maxDataSize: nat, s: seq<uint8>)
    requires |k| <= maxDataSize
    ensures |PutStringBounded(k, maxDataSize, s)| <= maxDataSize
    ensures var r := PutStringBounded(k, maxDataSize, s);
      r == k || (|r| > |k| + 1 && r[..|r| - 1] == k + s[..|r| - |k| - 1] && r[|r| - 1] == NUL)
  {
    var r := PutStringBounded(k, maxDataSize, s);
    if r != k {
      var len := if |s| > maxDataSize - |k| - 1 then maxDataSize - |k| - 1 else |s|;
      assert r == k + s[..len] + [NUL];
      assert r[..|r| - 1] == k + s[..len];
    }
  }

  /** While the frame is not full, the corrected and the written appenders
    * agree: the bug only shows once all maxDataSize bytes are used. */
  lemma AgreeBelowBound(k: seq<uint8>, maxDataSize: nat, s: seq<uint8>)
    requires |k| < maxDataSize < 0x1_0000
    ensures PutString(k, maxDataSize, s) == PutStringBounded(k, maxDataSize, s)
  {
    assert (maxDataSize - |k| - 1) % SizeT == maxDataSize - |k| - 1;
  }

  /** Kommand<maxDataSize>: `_bytes[0.._index)` as a sequence, since the
    * string appender can write past the end of the array. */
  class LegacyKommand {
    const maxDataSize: nat
    var bytes: seq<uint8>

    constructor(maxDataSize: nat, id: uint16)
      ensures this.maxDataSize == maxDataSize
      ensures bytes == Kommand.Put([], maxDataSize, LE16(id))
    {
      this.maxDataSize := maxDataSize;
      bytes := [];
      new;
      Append16(id);
    }

    method Append32(w: uint32)
      modifies this`bytes
      ensures bytes == Kommand.Put(old(bytes), maxDataSize, LE32(w))
    {
      if |bytes| + 4 > maxDataSize {
        return;
      }
      bytes := bytes + LE32(w);
    }

    method Append16(w: uint16)
      modifies this`bytes
      ensures bytes == Kommand.Put(old(bytes), maxDataSize, LE16(w))
    {
      if |bytes| + 2 > maxDataSize {
        return;
      }
      bytes := bytes + [w % 0x100, w / 0x100];
    }

    method Append8(b: uint8)
      modifies this`bytes
      ensures bytes == Kommand.Put(old(bytes), maxDataSize, [b])
    {
      if |bytes| + 1 > maxDataSize {
        return;
      }
      bytes := bytes + [b];
    }

    method AppendNullTerminatedString(s: seq<uint8>)
      modifies this`bytes
      ensures bytes == PutString(old(bytes), maxDataSize, s)
    {
      var len: int := |s|;
      var room := (maxDataSize - |bytes| - 1) % SizeT;
      if len > room {
        len := room;
      }
      if len <= 0 {
        return;
      }
      bytes := bytes + s[..len];
      Append8(NUL);
    }

    method GetSize() returns (n: nat)
      ensures n == |bytes|
    {
      return |bytes|;
    }
  }
}

/** The frame reader of src/common/comms/KommandReader.h. Reads start after
  * the two identifier bytes; `dataIndex` counts from there. The
  * implementation file is not part of this model: a read that does not fit
  * in the remaining data returns 0 (or null for a string) and does not
  * advance, which is what the header promises for frames shorter than two
  * bytes. */
module KommandReader {
  import opened Bytes
  import opened Wrappers

  /** A value read, and the data index after it. */
  datatype Read<T> = Read(value: T, next: nat)

  function Data(frame: seq<uint8>): (d: seq<uint8>)
    ensures |frame| >= 2 ==> |d| == |frame| - 2
    ensures |frame| < 2 ==> d == []
  {
    if |frame| < 2 then [] else frame[2..]
  }

  function Identifier(frame: seq<uint8>): uint16
  {
    if |frame| < 2 then 0 else FromLE16(frame[0], frame[1])
  }

  function ReadU8(data: seq<uint8>, i: nat): Read<uint8>
  {
    if i + 1 <= |data| then Read(data[i], i + 1) else Read(0, i)
  }

  function ReadU16(data: seq<uint8>, i: nat): Read<uint16>
  {
    if i + 2 <= |data| then Read(FromLE16(data[i], data[i + 1]), i + 2) else Read(0, i)
  }

  function ReadU32(data: seq<uint8>, i: nat): Read<uint32>
  {
    if i + 4 <= |data| then Read(FromLE32(data[i], data[i + 1], data[i + 2], data[i + 3]), i + 4)
    else Read(0, i)
  }

  /** readNullTerminatedString: the bytes up to the next NUL, and the index
    * just past that NUL; null, and no move, when no NUL remains. */
  function ReadString(data: seq<uint8>, i: nat): (r: Read<Option<seq<uint8>>>)
    ensures r.value.Some? ==> r.next == i + |r.value.value| + 1 <= |data|
    ensures r.value.None? ==> r.next == i
    decreases |data| - i
  {
    if i >= |data| then Read(None, i)
    else if data[i] == NUL then Read(Some([]), i + 1)
    else
      var rest := ReadString(data, i + 1);
      if rest.value.None? then Read(None, i)
      else Read(Some([data[i]] + rest.value.value), rest.next)
  }

  /** What ReadString finds: a string is the NUL-free run of bytes from `i`
    * up to a NUL; there is none exactly when no NUL follows `i`. */
  lemma {:induction false} ReadStringMeaning(data: seq<uint8>, i: nat)
    ensures var r := ReadString(data, i);
      r.value.Some? ==>
        var s := r.value.value;
        i + |s| < |data| && data[i..i + |s|] == s && data[i + |s|] == NUL && NoNul(s)
    ensures ReadString(data, i).value.None? <==> forall j :: i <= j < |data| ==> data[j] != NUL
    decreases |data| - i
  {
    if i < |data| && data[i] != NUL {
      ReadStringMeaning(data, i + 1);
      var rest := ReadString(data, i + 1);
      if rest.value.Some? {
        var t := rest.value.value;
        assert data[i..i + 1 + |t|] == [data[i]] + t;
      }
    }
  }

  /** Conversely, a NUL-free run followed by a NUL is what ReadString finds. */
  lemma ReadStringAt(data: seq<uint8>, i: nat, s: seq<uint8>)
    requires i + |s| < |data| && data[i..i + |s|] == s && data[i + |s|] == NUL && NoNul(s)
    ensures ReadString(data, i) == Read(Some(s), i + |s| + 1)
  {
    ReadStringMeaning(data, i);
  }

  /** A reader over a received frame. */
  class KommandReader {
    const frame: seq<uint8>
    var index: nat

    ghost predicate Valid()
      reads this
    {
      index <= |Data(frame)|
    }

    constructor(frame: seq<uint8>)
      ensures this.frame == frame && index == 0 && Valid()
    {
      this.frame := frame;
      index := 0;
    }

    function GetKommandIdentifier(): uint16
    {
      Identifier(frame)
    }

    function DataSize(): nat
    {
      |Data(frame)|
    }

    function DataIndex(): nat
      reads this
    {
      index
    }

    method Read8() returns (v: uint8)
      requires Valid()
      modifies this`index
      ensures Valid() && Read(v, index) == ReadU8(Data(frame), old(index))
    {
      var d := Data(frame);
      if index + 1 > |d| {
        return 0;
      }
      v := d[index];
      index := index + 1;
    }

    method Read16() returns (v: uint16)
      requires Valid()
      modifies this`index
      ensures Valid() && Read(v, index) == ReadU16(Data(frame), old(index))
    {
      var d := Data(frame);
      if index + 2 > |d| {
        return 0;
      }
      v := d[index] as int + 0x100 * d[index + 1] as int;
      index := index + 2;
    }

    method Read32() returns (v: uint32)
      requires Valid()
      modifies this`index
      ensures Valid() && Read(v, index) == ReadU32(Data(frame), old(index))
    {
      var d := Data(frame);
      if index + 4 > |d| {
        return 0;
      }
      v := FromLE32(d[index], d[index + 1], d[index + 2], d[index + 3]);
      index := index + 4;
    }

    method ReadNullTerminatedString() returns (s: Option<seq<uint8>>)
      requires Valid()
      modifies this`index
      ensures Valid() && Read(s, index) == ReadString(Data(frame), old(index))
    {
      var d := Data(frame);
      var j := index;
      ReadStringStart(d, index);
      while j < |d| && d[j] != NUL
        invariant index == old(index) <= j <= |d|
        invariant ReadString(d, index) == ReadStringFrom(d, index, j)
      {
        ReadStringStep(d, index, j);
        j := j + 1;
      }
      if j == |d| {
        return None;
      }
      assert ReadString(d, j) == Read(Some([]), j + 1);
      assert d[index..j] + [] == d[index..j];
      s := Some(d[index..j]);
      index := j + 1;
    }

    method Reset()
      modifies this`index
      ensures index == 0 && Valid()
    {
      index := 0;
    }
  }

  /** ReadString from `i`, knowing that data[i..j) holds no NUL. */
  function ReadStringFrom(data: seq<uint8>, i: nat, j: nat): Read<Option<seq<uint8>>>
    requires i <= j <= |data|
  {
    var r := ReadString(data, j);
    if r.value.None? then Read(None, i) else Read(Some(data[i..j] + r.value.value), r.next)
  }

  lemma ReadStringStart(data: seq<uint8>, i: nat)
    requires i <= |data|
    ensures ReadString(data, i) == ReadStringFrom(data, i, i)
  {
    assert data[i..i] == [];
    var r := ReadString(data, i);
    if r.value.Some? {
      assert [] + r.value.value == r.value.value;
    }
  }

  lemma ReadStringStep(data: seq<uint8>, i: nat, j: nat)
    requires i <= j < |data| && data[j] != NUL
    ensures ReadStringFrom(data, i, j) == ReadStringFrom(data, i, j + 1)
  {
    assert data[i..j + 1] == data[i..j] + [data[j]];
    var r := ReadString(data, j + 1);
    if r.value.Some? {
      assert data[i..j] + ([data[j]] + r.value.value) == data[i..j + 1] + r.value.value;
    }
  }

  // ---------------------------------------------------------------------
  // Reading back what a builder wrote
  // ---------------------------------------------------------------------

  lemma ReadU8After(k: seq<uint8>, v: uint8, rest: seq<uint8>)
    ensures ReadU8(k + [v] + rest, |k|) == Read(v, |k| + 1)
  {
  }

  lemma ReadU16After(k: seq<uint8>, v: uint16, rest: seq<uint8>)
    ensures ReadU16(k + LE16(v) + rest, |k|) == Read(v, |k| + 2)
  {
    var d := k + LE16(v) + rest;
    assert d[|k|] == LE16(v)[0] && d[|k| + 1] == LE16(v)[1];
  }

  lemma ReadU32After(k: seq<uint8>, v: uint32, rest: seq<uint8>)
    ensures ReadU32(k + LE32(v) + rest, |k|) == Read(v, |k| + 4)
  {
    var d := k + LE32(v) + rest;
    assert d[|k|] == LE32(v)[0] && d[|k| + 1] == LE32(v)[1];
    assert d[|k| + 2] == LE32(v)[2] && d[|k| + 3] == LE32(v)[3];
  }

  /** A NUL-terminated string is read back exactly, and reading continues
    * after its terminator. */
  lemma {:induction false} ReadStringAfter(k: seq<uint8>, s: seq<uint8>, rest: seq<uint8>)
    requires NoNul(s)
    ensures ReadString(k + s + [NUL] + rest, |k|) == Read(Some(s), |k| + |s| + 1)
    decreases |s|
  {
    var d := k + s + [NUL] + rest;
    if s == [] {
      assert d[|k|] == NUL;
    } else {
      assert d == (k + [s[0]]) + s[1..] + [NUL] + rest;
      ReadStringAfter(k + [s[0]], s[1..], rest);
      assert d[|k|] == s[0];
      assert [s[0]] + s[1..] == s;
    }
  }

  /** The same, for a terminated string inside a prefix of the data. */
  lemma ReadStringWithin(p: seq<uint8>, s: seq<uint8>, data: seq<uint8>)
    requires p + s + [NUL] <= data && NoNul(s)
    ensures ReadString(data, |p|) == Read(Some(s), |p| + |s| + 1)
  {
    var q := p + s + [NUL];
    assert data[|p|..|p| + |s|] == q[|p|..|p| + |s|] == s;
    assert data[|p| + |s|] == q[|p| + |s|];
    ReadStringAt(data, |p|, s);
  }

  /** The identifier of a built frame is the one its builder started with. */
  lemma IdentifierOf(id: uint16, data: seq<uint8>)
    ensures Identifier(LE16(id) + data) == id && Data(LE16(id) + data) == data
  {
    assert (LE16(id) + data)[2..] == data;
  }
}

=== FILE: linked_list.dfy ===
/** LinkedList (lib/List/src/List.h): a singly linked list of nodes from a
  * head pointer, with appending at the tail, clearing, removing the first
  * element, counting, copying and a circular iterator. Freeing nodes has
  * no counterpart here. */
module LinkedLists {

  class Node<T> {
    var value: T
    var next: Node?<T>

    constructor(v: T)
      ensures value == v && next == null
    {
      value := v;
      next := null;
    }
  }

  class LinkedList<T> {
    var head: Node?<T>
    /** The nodes from the head, in order, and the values they hold. */
    ghost var nodes: seq<Node<T>>
    ghost var contents: seq<T>
    ghost var Repr: set<Node<T>>

    ghost predicate Valid()
      reads this, Repr
    {
      |nodes| == |contents|
      && head == (if nodes == [] then null else nodes[0])
      && (forall i :: 0 <= i < |nodes| ==> nodes[i] in Repr)
      && (forall i :: 0 <= i < |nodes| ==> nodes[i].value == contents[i])
      && (forall i :: 0 <= i < |nodes| - 1 ==> nodes[i].next == nodes[i + 1])
      && (nodes != [] ==> nodes[|nodes| - 1].next == null)
      && (forall i, j :: 0 <= i < j < |nodes| ==> nodes[i] != nodes[j])
    }

    constructor()
      ensures Valid() && contents == [] && Repr == {}
    {
      head := null;
      nodes, contents, Repr := [], [], {};
    }

    /** add: walks to the last node and links a new node after it. */
    method Add(v: T)
      requires Valid()
      modifies this, Repr
      ensures Valid() && contents == old(contents) + [v]
      ensures fresh(Repr - old(Repr))
    {
      var node := new Node(v);
      if head == null {
        head := node;
      } else {
        var n := head;
        ghost var k := 0;
        while n.next != null
          invariant Valid()
          invariant 0 <= k < |nodes| && n == nodes[k]
          decreases |nodes| - k
        {
          assert n.next == nodes[k + 1];
          n := n.next;
          k := k + 1;
        }
        n.next := node;
      }
      nodes, contents, Repr := nodes + [node], contents + [v], Repr + {node};
      assert forall i :: 0 <= i < |nodes| - 2 ==> nodes[i].next == nodes[i + 1];
    }

    /** clear: the list becomes empty. */
    method Clear()
      modifies this
      ensures Valid() && contents == [] && Repr == {}
    {
      head := null;
      nodes, contents, Repr := [], [], {};
    }

    /** removeFirst: drops the head; an empty list stays empty. */
    method RemoveFirst()
      requires Valid()
      modifies this
      ensures Valid()
      ensures contents == if old(contents) == [] then [] else old(contents)[1..]
      ensures Repr <= old(Repr)
    {
      if head != null {
        head := head.next;
        nodes, contents := nodes[1..], contents[1..];
        assert forall i :: 0 <= i < |nodes| ==> nodes[i] == old(nodes)[i + 1];
      }
    }

    /** size: the number of nodes reachable from the head. */
    method Size() returns (sz: int)
      requires Valid()
      ensures sz == |contents|
    {
      var n := head;
      sz := 0;
      while n != null
        invariant 0 <= sz <= |nodes| && n == (if sz < |nodes| then nodes[sz] else null)
        decreases |nodes| - sz
      {
        n := n.next;
        sz := sz + 1;
      }
    }

    /** The copy constructor: adds the other list's values one by one. */
    constructor Copy(l: LinkedList<T>)
      requires l.Valid()
      ensures Valid() && contents == l.contents && fresh(Repr)
    {
      head := null;
      nodes, contents, Repr := [], [], {};
      new;
      var it := l.head;
      ghost var k := 0;
      while it != null
        invariant l.Valid() && Valid() && fresh(Repr)
        invariant 0 <= k <= |l.nodes| && it == (if k < |l.nodes| then l.nodes[k] else null)
        invariant contents == l.contents[..k]
        decreases |l.nodes| - k
      {
        Add(it.value);
        it := it.next;
        k := k + 1;
      }
    }

    /** operator=: clears this list, then adds the other list's values.
      * Assigning a list to itself clears it first and so empties it. */
    method Assign(l: LinkedList<T>)
      requires Valid() && l.Valid()
      modifies this, Repr
      ensures Valid() && fresh(Repr)
      ensures l == this ==> contents == []
      ensures l != this ==> contents == old(l.contents)
    {
      Clear();
      var it := l.head;
      if l == this {
        return;
      }
      ghost var k := 0;
      while it != null
        invariant Valid() && fresh(Repr)
        invariant l.Valid() && l.contents == old(l.contents)
        invariant 0 <= k <= |l.nodes| && it == (if k < |l.nodes| then l.nodes[k] else null)
        invariant contents == l.contents[..k]
        decreases |l.nodes| - k
      {
        Add(it.value);
        it := it.next;
        k := k + 1;
      }
    }

    /** operator= with the self-assignment check it lacks. */
    method AssignChecked(l: LinkedList<T>)
      requires Valid() && l.Valid()
      modifies this, Repr
      ensures Valid() && contents == old(l.contents)
    {
      if l != this {
        Assign(l);
      }
    }

    /** operator== compares the head pointers, not the values. */
    predicate Equal(l: LinkedList<T>)
      reads this, l
    {
      head == l.head
    }

    /** The circular iterator's step: the next node, or the head again after
      * the last one. */
    function CircularNext(n: Node<T>): Node?<T>
      reads this, n
    {
      if n.next != null then n.next else head
    }
  }

  /** Two empty lists are equal; two lists with nodes of their own are not,
    * whatever values they hold. */
  lemma EqualComparesIdentity<T>(a: LinkedList<T>, b: LinkedList<T>)
    requires a.Valid() && b.Valid()
    ensures a.contents == [] && b.contents == [] ==> a.Equal(b)
    ensures a.contents != [] && a.Repr !! b.Repr ==> !a.Equal(b)
  {
    if a.contents != [] && a.Repr !! b.Repr {
      assert a.head == a.nodes[0] && a.nodes[0] in a.Repr;
      if b.head != null {
        assert b.head == b.nodes[0] && b.nodes[0] in b.Repr;
      }
    }
  }

  /** The circular iterator visits the nodes in order and returns to the
    * head after the last. */
  lemma CircularVisitsInOrder<T>(l: LinkedList<T>, i: nat)
    requires l.Valid() && i < |l.nodes|
    ensures l.CircularNext(l.nodes[i]) == l.nodes[(i + 1) % |l.nodes|]
  {
    if i + 1 == |l.nodes| {
      assert (i + 1) % |l.nodes| == 0;
    } else {
      assert (i + 1) % |l.nodes| == i + 1;
    }
  }

  /** Assigning a one-element list to itself leaves it empty. */
  method SelfAssignmentEmpties() returns (before: int, after: int)
    ensures before == 1 && after == 0
  {
    var l := new LinkedList<int>();
    l.Add(42);
    before := l.Size();
    l.Assign(l);
    after := l.Size();
  }
}

=== FILE: nmea2000.dfy ===
/** The $PCDIN sentence of src/common/nmea/nmea2000.cpp: an NMEA 2000
  * message written as hexadecimal text into a buffer of exactly the
  * allocated size. The checksum routine (nmea_compute_checksum in nmea.c)
  * is not part of this model: it is a parameter, applied to the text
  * written before it. */
module Pcdin {
  import opened Bytes

  /** The digit table of the serialiser. */
  const HexDigits: string := "0123456789ABCDEF"

  /** The value of an uppercase hexadecimal digit, -1 for any other
    * character: the reference that reads the text back. */
  function DigitValue(c: char): int
  {
    if '0' <= c <= '9' then c as int - '0' as int
    else if 'A' <= c <= 'F' then c as int - 'A' as int + 10
    else -1
  }

  /** The value of a string of hexadecimal digits, most significant first. */
  function HexValue(s: string): int
  {
    if s == [] then 0 else HexValue(s[..|s| - 1]) * 16 + DigitValue(s[|s| - 1])
  }

  function Pow16(n: nat): nat
  {
    if n == 0 then 1 else 16 * Pow16(n - 1)
  }

  /** appendByte: two digits, high nibble first. */
  function HexByte(b: uint8): (s: string)
    ensures |s| == 2
  {
    [HexDigits[b / 16], HexDigits[b % 16]]
  }

  /** append2Bytes: the high byte, then the low byte. */
  function Hex16(v: uint16): (s: string)
    ensures |s| == 4
  {
    HexByte(v / 0x100) + HexByte(v % 0x100)
  }

  /** appendWord: the high half, then the low half. */
  function Hex32(v: uint32): (s: string)
    ensures |s| == 8
  {
    Hex16(v / 0x1_0000) + Hex16(v % 0x1_0000)
  }

  /** The data bytes, each as appendByte writes it, in order. */
  function HexData(data: seq<uint8>): (s: string)
    ensures |s| == 2 * |data|
  {
    if data == [] then [] else HexData(data[..|data| - 1]) + HexByte(data[|data| - 1])
  }

  lemma DigitRoundTrip(v: int)
    requires 0 <= v < 16
    ensures DigitValue(HexDigits[v]) == v
  {
  }

  lemma {:induction false} HexValueAppend(a: string, b: string)
    ensures HexValue(a + b) == HexValue(a) * Pow16(|b|) + HexValue(b)
    decreases |b|
  {
    if b == [] {
      assert a + b == a;
    } else {
      var b' := b[..|b| - 1];
      var d := DigitValue(b[|b| - 1]);
      assert (a + b)[..|a + b| - 1] == a + b' && (a + b)[|a + b| - 1] == b[|b| - 1];
      assert HexValue(a + b) == HexValue(a + b') * 16 + d;
      assert HexValue(b) == HexValue(b') * 16 + d;
      HexValueAppend(a, b');
      ShiftDigit(HexValue(a), Pow16(|b'|), HexValue(b'));
    }
  }

  /** One more digit multiplies the value of the digits before it by 16. */
  lemma ShiftDigit(x: int, p: int, y: int)
    ensures (x * p + y) * 16 == x * (16 * p) + y * 16
  {
  }

  lemma HexValueAppendByte(a: string, b: string)
    requires |b| == 2
    ensures HexValue(a + b) == HexValue(a) * 0x100 + HexValue(b)
  {
    HexValueAppend(a, b);
    assert Pow16(2) == 0x100;
  }

  lemma HexValueAppendHalf(a: string, b: string)
    requires |b| == 4
    ensures HexValue(a + b) == HexValue(a) * 0x1_0000 + HexValue(b)
  {
    HexValueAppend(a, b);
    assert Pow16(4) == 0x1_0000;
  }

  /** The two digits of a byte read back as the byte. */
  lemma HexByteRoundTrip(b: uint8)
    ensures HexValue(HexByte(b)) == b
  {
    DigitRoundTrip(b / 16);
    DigitRoundTrip(b % 16);
    var s := HexByte(b);
    assert s[..1][..0] == [];
    assert HexValue(s[..1]) == DigitValue(s[0]);
  }

  /** Four digits read back as the 16-bit value: big-endian. */
  lemma Hex16RoundTrip(v: uint16)
    ensures HexValue(Hex16(v)) == v
  {
    var high, low := v / 0x100, v % 0x100;
    HexValueAppendByte(HexByte(high), HexByte(low));
    HexByteRoundTrip(high);
    HexByteRoundTrip(low);
  }

  /** Eight digits read back as the 32-bit value: big-endian. */
  lemma Hex32RoundTrip(v: uint32)
    ensures HexValue(Hex32(v)) == v
  {
    var high, low := v / 0x1_0000, v % 0x1_0000;
    HexValueAppendHalf(Hex16(high), Hex16(low));
    Hex16RoundTrip(high);
    Hex16RoundTrip(low);
  }

  /** Byte i of the data sits at digits 2i and 2i + 1. */
  lemma {:induction false} HexDataAt(data: seq<uint8>, i: nat)
    requires i < |data|
    ensures HexData(data)[2 * i..2 * i + 2] == HexByte(data[i])
    decreases |data|
  {
    var front := data[..|data| - 1];
    if i < |data| - 1 {
      HexDataAt(front, i);
      assert front[i] == data[i];
    }
  }

  lemma HexDataExtend(data: seq<uint8>, i: nat)
    requires i < |data|
    ensures HexData(data[..i + 1]) == HexData(data[..i]) + HexByte(data[i])
  {
    assert data[..i + 1][..i] == data[..i];
  }

  /** One more byte written after the digits of the bytes before it. */
  lemma HexDataStep(head: string, data: seq<uint8>, i: nat)
    requires i < |data|
    ensures (head + HexData(data[..i])) + HexByte(data[i]) == head + HexData(data[..i + 1])
  {
    HexDataExtend(data, i);
  }

  /** tN2kMsg: the parameter group number (unsigned long), the source
    * address and the data bytes (DataLen of them). */
  datatype N2kMsg = N2kMsg(pgn: nat, source: uint8, data: seq<uint8>)

  /** pcdin_sentence_length: what nmea_pcdin_sentence_for_n2kmsg allocates. */
  function AllocatedLength(dataLen: nat): nat
  {
    6 + 1 + 6 + 1 + 8 + 1 + 2 + 1 + dataLen * 2 + 1 + 2 + 1
  }

  /** The PGN field: the byte PGN >> 16 (cast to uint8 by appendByte), then
    * the low 16 bits. */
  function PgnField(pgn: nat): (s: string)
    ensures |s| == 6
  {
    HexByte((pgn / 0x1_0000) % 0x100) + Hex16(pgn % 0x1_0000)
  }

  /** The fixed-width head: "$PCDIN,", the PGN, ',', the timestamp through
    * appendWord's uint32_t parameter, ',', the source, ','. */
  function Head(msg: N2kMsg, timestamp: nat): (s: string)
    ensures |s| == 26
  {
    "$PCDIN," + PgnField(msg.pgn) + "," + Hex32(timestamp % 0x1_0000_0000) + "," + HexByte(msg.source) + ","
  }

  /** The sentence up to and including '*': what the checksum is computed
    * over. */
  function Body(msg: N2kMsg, timestamp: nat): (s: string)
    ensures |s| == 27 + 2 * |msg.data|
  {
    Head(msg, timestamp) + HexData(msg.data) + "*"
  }

  /** The sentence: the body, then the two checksum digits. */
  function Sentence(msg: N2kMsg, timestamp: nat, checksum: string -> uint8): (s: string)
    ensures |s| == 29 + 2 * |msg.data|
  {
    var body := Body(msg, timestamp);
    body + HexByte(checksum(body))
  }

  /** The allocation is the characters written plus the terminating NUL. */
  lemma AllocationFits(msg: N2kMsg, timestamp: nat, checksum: string -> uint8)
    ensures AllocatedLength(|msg.data|) == |Sentence(msg, timestamp, checksum)| + 1
  {
  }

  /** The low 24 bits of a PGN are its byte at bit 16 and its low 16 bits. */
  lemma SplitLow24(pgn: nat)
    ensures pgn % 0x100_0000 == ((pgn / 0x1_0000) % 0x100) * 0x1_0000 + pgn % 0x1_0000
  {
    var q, r := pgn / 0x1_0000, pgn % 0x1_0000;
    var high, top := q % 0x100, q / 0x100;
    assert pgn == q * 0x1_0000 + r;
    assert q == top * 0x100 + high;
    assert pgn == top * 0x100_0000 + (high * 0x1_0000 + r);
  }

  lemma PgnFieldLow24(pgn: nat)
    ensures PgnField(pgn) == PgnField(pgn % 0x100_0000)
  {
    PgnPartsLow24(pgn);
  }

  /** The two parts PgnField writes are the same for the PGN and for its
    * low 24 bits. */
  lemma PgnPartsLow24(pgn: nat)
    ensures var low := pgn % 0x100_0000;
      (low / 0x1_0000) % 0x100 == (pgn / 0x1_0000) % 0x100 && low % 0x1_0000 == pgn % 0x1_0000
  {
    var low, high := pgn % 0x100_0000, (pgn / 0x1_0000) % 0x100;
    SplitLow24(pgn);
    Halves(low, high, pgn % 0x1_0000);
  }

  /** A number made of a high part and 16 low bits splits back into them. */
  lemma Halves(x: nat, high: nat, low: nat)
    requires low < 0x1_0000 && x == high * 0x1_0000 + low
    ensures x / 0x1_0000 == high && x % 0x1_0000 == low
  {
  }

  /** Only the low 24 bits of the PGN appear in the sentence. */
  lemma PgnLow24(msg: N2kMsg, timestamp: nat, checksum: string -> uint8)
    ensures Sentence(msg, timestamp, checksum) == Sentence(msg.(pgn := msg.pgn % 0x100_0000), timestamp, checksum)
  {
    var low := msg.(pgn := msg.pgn % 0x100_0000);
    PgnFieldLow24(msg.pgn);
    assert Head(msg, timestamp) == Head(low, timestamp);
    assert Body(msg, timestamp) == Body(low, timestamp);
  }

  /** The six PGN digits read back as the PGN modulo 2^24. */
  lemma PgnFieldRoundTrip(pgn: nat)
    ensures HexValue(PgnField(pgn)) == pgn % 0x100_0000
  {
    var high, low := (pgn / 0x1_0000) % 0x100, pgn % 0x1_0000;
    HexValueAppendHalf(HexByte(high), Hex16(low));
    HexByteRoundTrip(high);
    Hex16RoundTrip(low);
    SplitLow24(pgn);
  }

  /** Where the fields of the head land. */
  lemma HeadLayout(msg: N2kMsg, timestamp: nat)
    ensures var h := Head(msg, timestamp);
      h[..7] == "$PCDIN," && h[7..13] == PgnField(msg.pgn) && h[13] == ','
      && h[14..22] == Hex32(timestamp % 0x1_0000_0000) && h[22] == ',' && h[23..25] == HexByte(msg.source) && h[25] == ','
  {
  }

  /** Where the pieces of the sentence land. */
  lemma SentencePieces(msg: N2kMsg, timestamp: nat, checksum: string -> uint8)
    ensures var s, n := Sentence(msg, timestamp, checksum), |msg.data|;
      s[..26] == Head(msg, timestamp) && s[26..26 + 2 * n] == HexData(msg.data) && s[26 + 2 * n] == '*'
      && s[..27 + 2 * n] == Body(msg, timestamp) && s[27 + 2 * n..] == HexByte(checksum(Body(msg, timestamp)))
  {
  }

  /** The fixed fields of the sentence read back as the values written. */
  lemma SentenceFields(msg: N2kMsg, timestamp: nat, checksum: string -> uint8)
    ensures var s := Sentence(msg, timestamp, checksum);
      s[..7] == "$PCDIN," && s[13] == ',' && s[22] == ',' && s[25] == ','
      && HexValue(s[7..13]) == msg.pgn % 0x100_0000
      && HexValue(s[14..22]) == timestamp % 0x1_0000_0000
      && HexValue(s[23..25]) == msg.source
  {
    var s := Sentence(msg, timestamp, checksum);
    var h := Head(msg, timestamp);
    SentencePieces(msg, timestamp, checksum);
    HeadLayout(msg, timestamp);
    assert s[..7] == h[..7] && s[7..13] == h[7..13] && s[14..22] == h[14..22] && s[23..25] == h[23..25];
    assert s[13] == h[13] && s[22] == h[22] && s[25] == h[25];
    PgnFieldRoundTrip(msg.pgn);
    Hex32RoundTrip(timestamp % 0x1_0000_0000);
    HexByteRoundTrip(msg.source);
  }

  /** Each pair of data digits reads back as its byte. */
  lemma HexDataRoundTrip(data: seq<uint8>)
    ensures forall i :: 0 <= i < |data| ==> HexValue(HexData(data)[2 * i..2 * i + 2]) == data[i]
  {
    forall i | 0 <= i < |data|
      ensures HexValue(HexData(data)[2 * i..2 * i + 2]) == data[i]
    {
      HexDataAt(data, i);
      HexByteRoundTrip(data[i]);
    }
  }

  /** The two last digits read back as the checksum of the text before
    * them. */
  lemma SentenceChecksum(msg: N2kMsg, timestamp: nat, checksum: string -> uint8)
    ensures var s, n := Sentence(msg, timestamp, checksum), |msg.data|;
      HexValue(s[27 + 2 * n..]) == checksum(s[..27 + 2 * n])
  {
    SentencePieces(msg, timestamp, checksum);
    HexByteRoundTrip(checksum(Body(msg, timestamp)));
  }

  /** The layout of the sentence: "$PCDIN,", six PGN digits, ',', eight
    * timestamp digits, ',', two source digits, ',', two digits per data
    * byte, '*', two checksum digits; each field reads back as its value,
    * each data byte from its pair of digits, the checksum as the checksum
    * of the text before it. */
  lemma SentenceLayout(msg: N2kMsg, timestamp: nat, checksum: string -> uint8)
    ensures var s, n := Sentence(msg, timestamp, checksum), |msg.data|;
      s[..7] == "$PCDIN," && s[13] == ',' && s[22] == ',' && s[25] == ',' && s[26 + 2 * n] == '*'
      && HexValue(s[7..13]) == msg.pgn % 0x100_0000
      && HexValue(s[14..22]) == timestamp % 0x1_0000_0000
      && HexValue(s[23..25]) == msg.source
      && s[26..26 + 2 * n] == HexData(msg.data)
      && (forall i :: 0 <= i < n ==> HexValue(HexData(msg.data)[2 * i..2 * i + 2]) == msg.data[i])
      && HexValue(s[27 + 2 * n..]) == checksum(s[..27 + 2 * n])
  {
    SentenceFields(msg, timestamp, checksum);
    SentencePieces(msg, timestamp, checksum);
    HexDataRoundTrip(msg.data);
    SentenceChecksum(msg, timestamp, checksum);
  }

  /** appendByte(s, byte): writes the two digits at s and returns 2. */
  method AppendByte(buf: array<char>, at: int, b: uint8) returns (n: int)
    requires 0 <= at && at + 2 <= buf.Length
    modifies buf
    ensures n == 2 && buf[..at + 2] == old(buf[..at]) + HexByte(b)
  {
    buf[at] := HexDigits[b / 16];
    buf[at + 1] := HexDigits[b % 16];
    n := 2;
  }

  /** append2Bytes(s, i): the high byte, then the low byte; returns 4. */
  method Append2Bytes(buf: array<char>, at: int, v: uint16) returns (n: int)
    requires 0 <= at && at + 4 <= buf.Length
    modifies buf
    ensures n == 4 && buf[..at + 4] == old(buf[..at]) + Hex16(v)
  {
    var _ := AppendByte(buf, at, v / 0x100);
    var _ := AppendByte(buf, at + 2, v % 0x100);
    n := 4;
  }

  /** appendWord(s, i): the high half, then the low half; returns 8. */
  method AppendWord(buf: array<char>, at: int, v: uint32) returns (n: int)
    requires 0 <= at && at + 8 <= buf.Length
    modifies buf
    ensures n == 8 && buf[..at + 8] == old(buf[..at]) + Hex32(v)
  {
    var _ := Append2Bytes(buf, at, v / 0x1_0000);
    var _ := Append2Bytes(buf, at + 4, v % 0x1_0000);
    n := 8;
  }

  /** One character written after the text so far: *buffer++ = c. */
  method Put(buf: array<char>, at: int, c: char)
    requires 0 <= at < buf.Length
    modifies buf
    ensures buf[..at + 1] == old(buf[..at]) + [c]
  {
    buf[at] := c;
  }

  /** The head of the sentence: strcpy of "$PCDIN," (whose NUL the PGN
    * overwrites), then the fields and separators up to the data. */
  method WriteHead(buffer: array<char>, msg: N2kMsg, timestamp: nat)
    requires buffer.Length >= 26
    modifies buffer
    ensures buffer[..26] == Head(msg, timestamp)
  {
    var prefix := "$PCDIN,";
    forall k | 0 <= k < 7 {
      buffer[k] := prefix[k];
    }
    buffer[7] := '\0';
    assert buffer[..7] == prefix;
    var p := 7;
    var w := AppendByte(buffer, p, (msg.pgn / 0x1_0000) % 0x100);
    p := p + w;
    w := Append2Bytes(buffer, p, msg.pgn % 0x1_0000);
    p := p + w;
    assert buffer[..p] == prefix + PgnField(msg.pgn);
    Put(buffer, p, ',');
    p := p + 1;
    w := AppendWord(buffer, p, timestamp % 0x1_0000_0000);
    p := p + w;
    Put(buffer, p, ',');
    p := p + 1;
    w := AppendByte(buffer, p, msg.source);
    p := p + w;
    Put(buffer, p, ',');
  }

  /** The loop over the data bytes: two digits each, the pointer advancing
    * by what appendByte returns. */
  method WriteData(buffer: array<char>, at: int, data: seq<uint8>) returns (p: int)
    requires 0 <= at && at + 2 * |data| <= buffer.Length
    modifies buffer
    ensures p == at + 2 * |data| && buffer[..p] == old(buffer[..at]) + HexData(data)
  {
    ghost var head := buffer[..at];
    p := at;
    var i := 0;
    while i < |data|
      invariant 0 <= i <= |data| && p == at + 2 * i
      invariant buffer[..p] == head + HexData(data[..i])
    {
      var w := AppendByte(buffer, p, data[i]);
      HexDataStep(head, data, i);
      p := p + w;
      i := i + 1;
    }
    assert data[..i] == data;
  }

  /** nmea_pcdin_sentence_for_n2kmsg: allocates the buffer, writes the
    * head, the data, '*', the checksum of what was written and the NUL. */
  method PcdinSentence(msg: N2kMsg, timestamp: nat, checksum: string -> uint8) returns (buffer: array<char>)
    ensures fresh(buffer)
    ensures buffer.Length == AllocatedLength(|msg.data|)
    ensures buffer[..] == Sentence(msg, timestamp, checksum) + ['\0']
  {
    buffer := new char[AllocatedLength(|msg.data|)];
    WriteHead(buffer, msg, timestamp);
    var p := WriteData(buffer, 26, msg.data);
    Put(buffer, p, '*');
    p := p + 1;
    assert buffer[..p] == Body(msg, timestamp);
    var sum := checksum(buffer[..p]);
    var w := AppendByte(buffer, p, sum);
    p := p + w;
    assert buffer[..p] == Sentence(msg, timestamp, checksum);
    buffer[p] := '\0';
    assert buffer[..] == buffer[..p] + [buffer[p]];
  }
}

=== FILE: nmea_reader.dfy ===
/** NMEASentenceReader (src/common/nmea/NMEASentenceReader.cpp): the talker,
  * the sentence code and the comma-separated fields of an NMEA 0183
  * sentence such as "$GPRMC,144629.20,A,...*78". Field 0 is the address
  * after its first character; fields are numbered from 1. */
module NMEASentences {
  import opened CStrings
  import opened ArduinoString

  /** getTalkerId: the two characters after the start character. */
  function TalkerId(sentence: string): (r: string)
    ensures |sentence| >= 3 ==> r == sentence[1..3]
    ensures |sentence| <= 1 ==> r == []
  {
    Substring(sentence, 1, 3)
  }

  /** getSentenceCode: from position 3 to the first comma. Without a comma
    * indexOf gives -1, which the unsigned parameter reads as 2^32 - 1. */
  function SentenceCode(sentence: string): (r: string)
    ensures var c := IndexOf(sentence, ',', 0);
      && (c == -1 && 3 < |sentence| <= 0xFFFF_FFFF ==> r == sentence[3..])
      && (c >= 3 ==> r == sentence[3..c])
      && (0 <= c < 3 ==> r == sentence[c..if 3 <= |sentence| then 3 else |sentence|])
  {
    var c := IndexOf(sentence, ',', 0);
    Substring(sentence, 3, if c == -1 then 0xFFFF_FFFF else c)
  }

  /** The number of commas in a string. */
  function Commas(s: string): nat
  {
    multiset(s)[',']
  }

  /** countFields: walks the C string to its terminator counting commas. */
  method CountFields(sentence: string) returns (count: int)
    ensures NoNul(sentence) ==> count == Commas(sentence)
    ensures 0 <= count <= Commas(sentence)
  {
    count := 0;
    var i := 0;
    while i < |sentence| && sentence[i] != '\0'
      invariant 0 <= i <= |sentence|
      invariant count == Commas(sentence[..i])
      invariant NoNul(sentence) ==> forall k :: 0 <= k < i ==> sentence[k] != '\0'
    {
      assert sentence[..i + 1] == sentence[..i] + [sentence[i]];
      if sentence[i] == ',' {
        count := count + 1;
      }
      i := i + 1;
    }
    if NoNul(sentence) {
      assert sentence[..i] == sentence;
    }
    assert sentence == sentence[..i] + sentence[i..];
  }

  /** The position reached from pos after passing id more commas, searching
    * from the character after pos each time; -1 when they run out. */
  function NthComma(s: string, id: int, pos: nat): (p: int)
    ensures p == -1 || (pos <= p < |s| || p == pos)
    decreases if id <= 0 then 0 else id
  {
    if id <= 0 then pos
    else
      var next := IndexOf(s, ',', pos + 1);
      if next == -1 then -1 else NthComma(s, id - 1, next)
  }

  /** The text after pos up to the next ',' or, when there is none, the next
    * '*'; empty when neither follows. */
  function FieldFrom(s: string, pos: nat): string
  {
    var comma := IndexOf(s, ',', pos + 1);
    var end := if comma == -1 then IndexOf(s, '*', pos + 1) else comma;
    if end == -1 then "" else Substring(s, pos + 1, end)
  }

  function FieldAt(s: string, id: int, pos: nat): string
  {
    var p := NthComma(s, id, pos);
    if p == -1 then "" else FieldFrom(s, p)
  }

  /** getFieldAsString: skips id commas from the start, then reads to the
    * next ',' or '*'; a missing field or terminator gives "". */
  method GetFieldAsString(sentence: string, id: int) returns (r: string)
    ensures r == FieldAt(sentence, id, 0)
  {
    var pos := 0;
    var index := 0;
    while index < id
      invariant pos >= -1
      invariant 0 <= index && (id >= 0 ==> index <= id)
      invariant NthComma(sentence, id, 0) == if pos == -1 then -1 else NthComma(sentence, id - index, pos)
      decreases id - index, if pos == -1 then 0 else 1
    {
      if pos == -1 {
        break;
      }
      pos := IndexOf(sentence, ',', pos + 1);
      if pos == -1 {
        break;
      }
      index := index + 1;
    }
    if pos == -1 {
      return "";
    }
    var end := IndexOf(sentence, ',', pos + 1);
    if end == -1 {
      end := IndexOf(sentence, '*', pos + 1);
    }
    if end == -1 {
      return "";
    }
    r := Substring(sentence, pos + 1, end);
  }

  /** getFieldAsChar: the single character of a one-character field, '\0'
    * otherwise. */
  method GetFieldAsChar(sentence: string, id: int) returns (c: char)
    ensures var f := FieldAt(sentence, id, 0);
      c == if |f| == 1 then f[0] else '\0'
  {
    var f := GetFieldAsString(sentence, id);
    if |f| != 1 {
      return '\0';
    }
    c := f[0];
  }

  /** A field of a sentence holds neither separator. */
  predicate PlainField(f: string)
  {
    ',' !in f && '*' !in f
  }

  /** The fields after the address, each preceded by a comma. */
  function Tail(fields: seq<string>): string
  {
    if fields == [] then "" else "," + fields[0] + Tail(fields[1..])
  }

  /** A sentence: the address ("$GPRMC"), the fields, '*' and the checksum. */
  function Sentence(address: string, fields: seq<string>, checksum: string): string
  {
    address + Tail(fields) + "*" + checksum
  }

  predicate WellformedSentence(address: string, fields: seq<string>, checksum: string)
  {
    |address| >= 1 && PlainField(address) && (forall i :: 0 <= i < |fields| ==> PlainField(fields[i])) && ',' !in checksum
  }

  lemma {:induction false} TailCommas(fields: seq<string>)
    requires forall i :: 0 <= i < |fields| ==> PlainField(fields[i])
    ensures Commas(Tail(fields)) == |fields|
  {
    if fields != [] {
      TailCommas(fields[1..]);
      assert multiset("," + fields[0] + Tail(fields[1..])) == multiset(",") + multiset(fields[0]) + multiset(Tail(fields[1..]));
    }
  }

  /** A sentence has as many commas as fields, so countFields counts them. */
  lemma SentenceCommas(address: string, fields: seq<string>, checksum: string)
    requires WellformedSentence(address, fields, checksum)
    ensures Commas(Sentence(address, fields, checksum)) == |fields|
  {
    TailCommas(fields);
    var s := Sentence(address, fields, checksum);
    assert multiset(s) == multiset(address) + multiset(Tail(fields)) + multiset("*") + multiset(checksum);
  }

  /** Where a comma, a field and the rest sit in s. */
  lemma FieldLayout(s: string, k: nat, f: string, rest: string)
    requires k <= |s| && s[k..] == "," + f + rest
    ensures |s| == k + 1 + |f| + |rest| && s[k] == ','
    ensures s[k + 1..k + 1 + |f|] == f && s[k + 1 + |f|..] == rest
  {
    assert s[k] == s[k..][0];
    assert s[k + 1..k + 1 + |f|] == s[k..][1..1 + |f|];
    assert s[k + 1 + |f|..] == s[k..][1 + |f|..];
  }

  /** Searching from inside a field of s passes over it. */
  lemma IndexOfPastField(s: string, c: char, from: nat, f: string)
    requires from + |f| <= |s| && s[from..from + |f|] == f && c !in f
    ensures IndexOf(s, c, from) == IndexOf(s, c, from + |f|)
  {
    forall t | from <= t < from + |f|
      ensures s[t] != c
    {
      assert s[t] == f[t - from];
    }
  }

  /** No comma from the given position on. */
  lemma NoCommaAfter(s: string, from: nat, checksum: string)
    requires from < |s| && s[from..] == "*" + checksum && ',' !in checksum
    ensures IndexOf(s, ',', from) == -1 && IndexOf(s, '*', from) == from
  {
    forall t | from <= t < |s|
      ensures s[t] != ','
    {
      assert s[t] == s[from..][t - from];
      if t > from {
        assert s[t] == checksum[t - from - 1];
      }
    }
    assert s[from] == s[from..][0];
  }

  /** The fields of a sentence laid out in s from the comma at k, then '*'
    * and the checksum. */
  ghost predicate FieldsAt(s: string, k: nat, fields: seq<string>, checksum: string)
    decreases |fields|
  {
    k <= |s| &&
    if fields == [] then s[k..] == "*" + checksum
    else
      var e := k + 1 + |fields[0]|;
      e <= |s| && s[k] == ',' && s[k + 1..e] == fields[0] && FieldsAt(s, e, fields[1..], checksum)
  }

  lemma {:induction false} TailLayout(s: string, k: nat, fields: seq<string>, checksum: string)
    requires k <= |s| && s[k..] == Tail(fields) + "*" + checksum
    ensures FieldsAt(s, k, fields, checksum)
    decreases |fields|
  {
    if fields != [] {
      var rest := Tail(fields[1..]) + "*" + checksum;
      assert s[k..] == "," + fields[0] + rest;
      FieldLayout(s, k, fields[0], rest);
      TailLayout(s, k + 1 + |fields[0]|, fields[1..], checksum);
    }
  }

  /** One step of the field walk: from the comma at k the field is the
    * first one, and the next comma opens the rest. */
  lemma FieldStep(s: string, fields: seq<string>, checksum: string, k: nat)
    requires fields != [] && PlainField(fields[0]) && ',' !in checksum
    requires FieldsAt(s, k, fields, checksum)
    ensures FieldFrom(s, k) == fields[0]
    ensures IndexOf(s, ',', k + 1) == if |fields| > 1 then k + 1 + |fields[0]| else -1
  {
    var f := fields[0];
    var e := k + 1 + |f|;
    FieldsAtFirst(s, k, fields, checksum);
    IndexOfPastField(s, ',', k + 1, f);
    if |fields| == 1 {
      NoCommaAfter(s, e, checksum);
      IndexOfPastField(s, '*', k + 1, f);
    }
  }

  /** What FieldsAt says about the first field and what follows it. */
  lemma FieldsAtFirst(s: string, k: nat, fields: seq<string>, checksum: string)
    requires fields != [] && FieldsAt(s, k, fields, checksum)
    ensures var e := k + 1 + |fields[0]|;
      e <= |s| && s[k + 1..e] == fields[0]
      && (|fields| == 1 ==> e < |s| && s[e..] == "*" + checksum)
      && (|fields| > 1 ==> e < |s| && s[e] == ',')
  {
    var e := k + 1 + |fields[0]|;
    if |fields| == 1 {
      assert s[e..] == "*" + checksum;
    }
  }

  /** What FieldsAt says about the fields after the first. */
  lemma FieldsAtRest(s: string, k: nat, fields: seq<string>, checksum: string)
    requires fields != [] && FieldsAt(s, k, fields, checksum)
    ensures FieldsAt(s, k + 1 + |fields[0]|, fields[1..], checksum)
  {
  }

  /** Passing one more comma. */
  lemma FieldAtNext(s: string, j: nat, k: nat)
    requires j > 0
    ensures var e := IndexOf(s, ',', k + 1);
      FieldAt(s, j, k) == if e == -1 then "" else FieldAt(s, j - 1, e)
  {
  }

  /** From the comma before fields[0], the walk finds each field in turn
    * and nothing after the last one. */
  lemma {:induction false} FieldsFrom(s: string, fields: seq<string>, checksum: string, k: nat, j: nat)
    requires fields != [] && (forall i :: 0 <= i < |fields| ==> PlainField(fields[i])) && ',' !in checksum
    requires FieldsAt(s, k, fields, checksum)
    ensures FieldAt(s, j, k) == if j < |fields| then fields[j] else ""
    decreases j
  {
    FieldStep(s, fields, checksum, k);
    if j == 0 {
      assert NthComma(s, 0, k) == k;
    } else {
      FieldAtNext(s, j, k);
      if |fields| > 1 {
        var rest := fields[1..];
        assert forall i :: 0 <= i < |rest| ==> PlainField(rest[i]);
        FieldsAtRest(s, k, fields, checksum);
        FieldsFrom(s, rest, checksum, k + 1 + |fields[0]|, j - 1);
        if j < |fields| {
          assert rest[j - 1] == fields[j];
        }
      }
    }
  }

  /** Reading the fields of a sentence gives back the address and the fields
    * it was made of, and "" for any field past the last. */
  lemma SentenceFields(address: string, fields: seq<string>, checksum: string, id: int)
    requires WellformedSentence(address, fields, checksum)
    ensures var s := Sentence(address, fields, checksum);
      FieldAt(s, id, 0) == if id <= 0 then address[1..] else if id <= |fields| then fields[id - 1] else ""
  {
    var s := Sentence(address, fields, checksum);
    var a := |address|;
    if fields != [] {
      AddressThenFields(address, fields, checksum);
      if id > 0 {
        FieldsFrom(s, fields, checksum, a, id - 1);
        FieldAtNext(s, id, 0);
      }
    } else {
      NoFields(address, checksum);
    }
  }

  /** With fields, the address ends at the first ',' and the fields are
    * laid out from there. */
  lemma AddressThenFields(address: string, fields: seq<string>, checksum: string)
    requires WellformedSentence(address, fields, checksum) && fields != []
    ensures var s := Sentence(address, fields, checksum);
      var a := |address|;
      FieldAt(s, 0, 0) == address[1..] && IndexOf(s, ',', 1) == a && FieldsAt(s, a, fields, checksum)
  {
    var s := Sentence(address, fields, checksum);
    var a := |address|;
    AddressLayout(address, fields, checksum);
    TailLayout(s, a, fields, checksum);
    assert s[a] == ',';
    assert IndexOf(s, ',', 1) == a;
    assert s[1..a] == address[1..];
  }

  /** The address opens the sentence, with no ',' or '*' after its '$' or
    * '!', and the fields and checksum follow it. */
  lemma AddressLayout(address: string, fields: seq<string>, checksum: string)
    requires WellformedSentence(address, fields, checksum)
    ensures var s := Sentence(address, fields, checksum);
      var a := |address|;
      a <= |s| && s[a..] == Tail(fields) + "*" + checksum && s[..a] == address
      && forall t :: 1 <= t < a ==> s[t] != ',' && s[t] != '*'
  {
    var s := Sentence(address, fields, checksum);
    var a := |address|;
    assert s[a..] == Tail(fields) + "*" + checksum;
    assert s[..a] == address;
    forall t | 1 <= t < a
      ensures s[t] != ',' && s[t] != '*'
    {
      assert s[t] == address[t];
    }
  }

  /** A sentence without fields has no ',' at all: its only field is the
    * address, and every later one is empty. */
  lemma NoFields(address: string, checksum: string)
    requires WellformedSentence(address, [], checksum)
    ensures var s := Sentence(address, [], checksum);
      forall id :: FieldAt(s, id, 0) == if id <= 0 then address[1..] else ""
  {
    var s := Sentence(address, [], checksum);
    var a := |address|;
    AddressLayout(address, [], checksum);
    assert s[a..] == "*" + checksum;
    assert s[a] == '*';
    forall t | 1 <= t < |s|
      ensures s[t] != ','
    {
      if t > a {
        assert s[t] == checksum[t - a - 1] by {
          assert s[t] == s[a..][t - a];
        }
      }
    }
    assert IndexOf(s, ',', 1) == -1;
    assert IndexOf(s, '*', 1) == a;
    assert s[1..a] == address[1..];
  }

  /** The talker and code of a sentence come from its address. */
  lemma SentenceAddress(address: string, fields: seq<string>, checksum: string)
    requires WellformedSentence(address, fields, checksum) && |address| >= 3 && fields != []
    ensures TalkerId(Sentence(address, fields, checksum)) == address[1..3]
    ensures SentenceCode(Sentence(address, fields, checksum)) == address[3..]
  {
    var s := Sentence(address, fields, checksum);
    var a := |address|;
    assert s[..a] == address;
    assert s[a..] == Tail(fields) + "*" + checksum;
    assert s[a] == ',';
    forall t | 0 <= t < a
      ensures s[t] != ','
    {
      assert s[t] == address[t];
    }
    assert IndexOf(s, ',', 0) == a;
  }
}

=== FILE: persistent_storage.dfy ===
/** PersistentStorage (src/host/util/PersistentStorage.cpp): the Teensy
  * EEPROM, 2048 bytes, holding a magic number and a layout version at
  * addresses 0 and 4 (little-endian uint32_t, as the ARM core stores them)
  * and the NMEA 2000 parameters at address 8. The EEPROM is an array of
  * bytes; eeprom_read_block and eeprom_write_block copy slices of it. The
  * BNO055 and heel/pitch offset accessors are declared in the header only
  * and are not part of this model. */
module Storage {
  import opened Bytes

  const StorageMagic: uint32 := 0xB0A7_F107
  const StorageVersion: uint32 := 1
  const MagicAddress: uint16 := 0
  const VersionAddress: uint16 := 4
  const NMEA2000ParamsAddress: uint16 := 8
  /** The bytes of the layout in use. */
  const StorageUsed := 46
  /** The EEPROM of the Teensy 3.2. */
  const StorageSize := 2048
  const NMEA2000ParametersVersion: uint8 := 1

  /** struct NMEA2000Parameters: four bytes, in declaration order. */
  datatype NMEA2000Parameters = NMEA2000Parameters(version: uint8, n2kSource: uint8, deviceInstance: uint8, systemInstance: uint8)

  function Encode(p: NMEA2000Parameters): (b: seq<uint8>)
    ensures |b| == 4
  {
    [p.version, p.n2kSource, p.deviceInstance, p.systemInstance]
  }

  function Decode(b: seq<uint8>): NMEA2000Parameters
    requires |b| == 4
  {
    NMEA2000Parameters(b[0], b[1], b[2], b[3])
  }

  lemma DecodeEncode(p: NMEA2000Parameters)
    ensures Decode(Encode(p)) == p
  {
  }

  /** The EEPROM after a block of bytes is written at an address. */
  function Written(mem: seq<uint8>, address: nat, src: seq<uint8>): (r: seq<uint8>)
    requires address + |src| <= |mem|
    ensures |r| == |mem| && r[address..address + |src|] == src
    ensures forall k :: 0 <= k < |mem| && !(address <= k < address + |src|) ==> r[k] == mem[k]
  {
    mem[..address] + src + mem[address + |src|..]
  }

  /** isInitialized: the magic and the version read back as expected. */
  predicate IsInitializedImage(mem: seq<uint8>)
    requires |mem| == StorageSize
  {
    FromLE32(mem[0], mem[1], mem[2], mem[3]) == StorageMagic
    && FromLE32(mem[4], mem[5], mem[6], mem[7]) == StorageVersion
  }

  /** The EEPROM after initialize: magic, version, then zeros up to the end
    * of the layout; the bytes beyond it are left alone. */
  function InitializedImage(mem: seq<uint8>): (r: seq<uint8>)
    requires |mem| == StorageSize
    ensures |r| == StorageSize
  {
    LE32(StorageMagic) + LE32(StorageVersion) + seq(StorageUsed - 8, _ => 0) + mem[StorageUsed..]
  }

  /** initialize makes the EEPROM initialised, clears the bytes of the
    * layout and keeps the rest. */
  lemma InitializeInitializes(mem: seq<uint8>)
    requires |mem| == StorageSize
    ensures IsInitializedImage(InitializedImage(mem))
    ensures forall k :: 8 <= k < StorageUsed ==> InitializedImage(mem)[k] == 0
    ensures InitializedImage(mem)[StorageUsed..] == mem[StorageUsed..]
  {
    var r := InitializedImage(mem);
    var magic, version := LE32(StorageMagic), LE32(StorageVersion);
    assert r[0] == magic[0] && r[1] == magic[1] && r[2] == magic[2] && r[3] == magic[3];
    assert r[4] == version[0] && r[5] == version[1] && r[6] == version[2] && r[7] == version[3];
  }

  /** InitializedImage byte by byte: the magic and the version in the
    * first eight bytes, zeros up to the end of the layout, then the EEPROM
    * as it was. */
  lemma InitializedImageAt(mem: seq<uint8>)
    requires |mem| == StorageSize
    ensures var header := LE32(StorageMagic) + LE32(StorageVersion);
      forall k :: 0 <= k < StorageSize ==>
        InitializedImage(mem)[k] == if k < 8 then header[k] else if k < StorageUsed then 0 else mem[k]
  {
    var header := LE32(StorageMagic) + LE32(StorageVersion);
    ThreePartsAt(header, seq(StorageUsed - 8, _ => 0), mem, StorageUsed);
  }

  /** After the magic and the version are written, the first eight bytes
    * are those of the initialised image and the rest is as before. */
  lemma HeaderWritten(before: seq<uint8>, after: seq<uint8>)
    requires |before| == StorageSize
    requires after == Written(Written(before, MagicAddress as nat, LE32(StorageMagic)), VersionAddress as nat, LE32(StorageVersion))
    ensures forall k :: 0 <= k < StorageSize ==> after[k] == if k < 8 then InitializedImage(before)[k] else before[k]
  {
    InitializedImageAt(before);
  }

  /** A header, a run of zeros and the end of a sequence from `from` on,
    * byte by byte. */
  lemma ThreePartsAt(header: seq<uint8>, zeros: seq<uint8>, mem: seq<uint8>, from: nat)
    requires |header| + |zeros| == from <= |mem|
    requires forall k :: 0 <= k < |zeros| ==> zeros[k] == 0
    ensures forall k :: 0 <= k < |mem| ==>
      (header + zeros + mem[from..])[k] == if k < |header| then header[k] else if k < from then 0 else mem[k]
  {
    var r := header + zeros + mem[from..];
    forall k | 0 <= k < |mem|
      ensures r[k] == if k < |header| then header[k] else if k < from then 0 else mem[k]
    {
      if k < |header| {
        assert r[k] == header[k];
      } else if k < from {
        assert r[k] == zeros[k - |header|];
      } else {
        assert r[k] == mem[from..][k - from];
      }
    }
  }

  /** readNMEA2000Parameters, as a function of the EEPROM and of the
    * caller's struct: refused on an uninitialised EEPROM (the struct left
    * alone); otherwise the struct is read, and accepted only with
    * version 1. */
  function ReadParameters(mem: seq<uint8>, p: NMEA2000Parameters): (bool, NMEA2000Parameters)
    requires |mem| == StorageSize
  {
    if !IsInitializedImage(mem) then (false, p)
    else
      var q := Decode(mem[NMEA2000ParamsAddress..NMEA2000ParamsAddress + 4]);
      (q.version == NMEA2000ParametersVersion, q)
  }

  /** writeNMEA2000Parameters, as a function of the EEPROM: initialise it if
    * needed, then write the struct with its version forced to 1. */
  function WriteParameters(mem: seq<uint8>, p: NMEA2000Parameters): (r: seq<uint8>)
    requires |mem| == StorageSize
    ensures |r| == StorageSize
  {
    var base := if IsInitializedImage(mem) then mem else InitializedImage(mem);
    Written(base, NMEA2000ParamsAddress, Encode(p.(version := NMEA2000ParametersVersion)))
  }

  /** A write is followed by a successful read of the same parameters,
    * version 1, whatever the EEPROM held before and whatever struct the
    * reader passes. */
  lemma WriteThenRead(mem: seq<uint8>, p: NMEA2000Parameters, q: NMEA2000Parameters)
    requires |mem| == StorageSize
    ensures ReadParameters(WriteParameters(mem, p), q) == (true, p.(version := NMEA2000ParametersVersion))
  {
    InitializeInitializes(mem);
    var base := if IsInitializedImage(mem) then mem else InitializedImage(mem);
    var r := WriteParameters(mem, p);
    assert r[0] == base[0] && r[1] == base[1] && r[2] == base[2] && r[3] == base[3];
    assert r[4] == base[4] && r[5] == base[5] && r[6] == base[6] && r[7] == base[7];
  }

  /** On an initialised EEPROM, writing the parameters changes their four
    * bytes and nothing else. */
  lemma WriteTouchesOnlyParameters(mem: seq<uint8>, p: NMEA2000Parameters)
    requires |mem| == StorageSize && IsInitializedImage(mem)
    ensures forall k :: 0 <= k < StorageSize && !(8 <= k < 12) ==> WriteParameters(mem, p)[k] == mem[k]
  {
  }

  /** A freshly initialised EEPROM holds no parameters: their version byte
    * is 0, so the read is refused. */
  lemma InitializedHoldsNoParameters(mem: seq<uint8>, p: NMEA2000Parameters)
    requires |mem| == StorageSize
    ensures !ReadParameters(InitializedImage(mem), p).0
  {
    InitializeInitializes(mem);
  }

  class PersistentStorage {
    var eeprom: array<uint8>

    ghost predicate Valid()
      reads this
    {
      eeprom.Length == StorageSize
    }

    /** read: refused, the destination untouched, when the block would end
      * past the EEPROM; otherwise the block at the address. */
    method Read(address: uint16, size: uint16, dest: seq<uint8>) returns (ok: bool, out: seq<uint8>)
      requires Valid() && |dest| == size
      ensures ok <==> address + size <= StorageSize
      ensures ok ==> out == eeprom[address..address + size]
      ensures !ok ==> out == dest
    {
      if address + size > StorageSize {
        return false, dest;
      }
      out := eeprom[address..address + size];
      ok := true;
    }

    /** write: refused, nothing changed, when the block would end past the
      * EEPROM; otherwise the block is copied in at the address. */
    method Write(address: uint16, src: seq<uint8>) returns (ok: bool)
      requires Valid() && |src| < 0x1_0000
      modifies eeprom
      ensures ok <==> address + |src| <= StorageSize
      ensures ok ==> eeprom[..] == Written(old(eeprom[..]), address, src)
      ensures !ok ==> eeprom[..] == old(eeprom[..])
    {
      if address + |src| > StorageSize {
        return false;
      }
      var i := 0;
      while i < |src|
        invariant 0 <= i <= |src|
        invariant forall k :: 0 <= k < StorageSize ==>
                    eeprom[k] == if address <= k < address + i then src[k - address] else old(eeprom[k])
      {
        eeprom[address + i] := src[i];
        i := i + 1;
      }
      ok := true;
      assert eeprom[..] == Written(old(eeprom[..]), address, src);
    }

    /** isInitialized: reads the magic and the version and compares them. */
    method IsInitialized() returns (r: bool)
      requires Valid()
      ensures r == IsInitializedImage(eeprom[..])
    {
      var _, magic := Read(MagicAddress, 4, [0, 0, 0, 0]);
      var _, version := Read(VersionAddress, 4, [0, 0, 0, 0]);
      r := FromLE32(magic[0], magic[1], magic[2], magic[3]) == StorageMagic
           && FromLE32(version[0], version[1], version[2], version[3]) == StorageVersion;
    }

    /** initialize: the magic, the version, then byte by byte zeros up to
      * the end of the layout. */
    method Initialize()
      requires Valid()
      modifies eeprom
      ensures eeprom[..] == InitializedImage(old(eeprom[..]))
    {
      ghost var before := eeprom[..];
      ghost var target := InitializedImage(before);
      var _ := Write(MagicAddress, LE32(StorageMagic));
      var _ := Write(VersionAddress, LE32(StorageVersion));
      HeaderWritten(before, eeprom[..]);
      InitializedImageAt(before);
      var i := 8;
      while i < StorageUsed
        invariant 8 <= i <= StorageUsed
        invariant forall k :: 0 <= k < StorageSize ==> eeprom[k] == if k < i then target[k] else before[k]
      {
        eeprom[i] := 0;
        i := i + 1;
      }
      assert eeprom[..] == target;
    }

    /** readNMEA2000Parameters: the caller's struct comes back as the
      * second result, overwritten whenever the EEPROM is initialised. */
    method ReadNMEA2000Parameters(p: NMEA2000Parameters) returns (ok: bool, p': NMEA2000Parameters)
      requires Valid()
      ensures (ok, p') == ReadParameters(eeprom[..], p)
    {
      var initialized := IsInitialized();
      if !initialized {
        return false, p;
      }
      var _, bytes := Read(NMEA2000ParamsAddress, 4, Encode(p));
      p' := Decode(bytes);
      if p'.version != NMEA2000ParametersVersion {
        return false, p';
      }
      ok := true;
    }

    /** writeNMEA2000Parameters: initialises the EEPROM if needed and
      * writes the struct with its version set to 1, which the caller's
      * struct keeps. */
    method WriteNMEA2000Parameters(p: NMEA2000Parameters) returns (ok: bool, p': NMEA2000Parameters)
      requires Valid()
      modifies eeprom
      ensures ok && p' == p.(version := NMEA2000ParametersVersion)
      ensures eeprom[..] == WriteParameters(old(eeprom[..]), p)
    {
      var initialized := IsInitialized();
      if !initialized {
        Initialize();
      }
      p' := p.(version := NMEA2000ParametersVersion);
      ok := Write(NMEA2000ParamsAddress, Encode(p'));
    }
  }
}

=== FILE: signalk_context.dfy ===
/** The SignalK context of lib/signalk-embedded/src/signalk.c: the head of
  * the key/value list, with the argument and path checks done before every
  * get and set. The update callback is not part of this model. */
module SignalKContexts {
  import opened Wrappers
  import opened SignalKPaths
  import opened SignalKStore

  /** signalk_path_is_valid: 0 for a valid path, -1 otherwise. */
  function PathIsValid(path: SKPath): (r: int)
    ensures r == 0 || r == -1
    ensures r == 0 <==>
              (path.instance.Some? <==> path.key > KeyRequireInstanceMarker)
              && path.key < KeyCount && path.key != KeyRequireInstanceMarker
  {
    if path.key < KeyRequireInstanceMarker && path.instance.Some? then -1
    else if path.key > KeyRequireInstanceMarker && path.instance.None? then -1
    else if path.key >= KeyCount then -1
    else if path.key == KeyRequireInstanceMarker then -1
    else 0
  }

  class Context {
    var head: seq<Entry>

    ghost predicate Valid()
      reads this
    {
      Ordered(head)
    }

    /** The zeroed context of signalk_alloc. */
    constructor()
      ensures Valid() && head == []
    {
      head := [];
    }
  }

  /** signalk_get: a null context and an invalid path are refused, in that
    * order; otherwise skkv_get. */
  method Get(context: Context?, path: SKPath) returns (r: Result<(SKSource, SKValue), SKError>)
    requires context != null ==> context.Valid()
    ensures context == null ==> r == Err(ErrorInvalidArg)
    ensures context != null && PathIsValid(path) != 0 ==> r == Err(ErrorInvalidPath)
    ensures context != null && PathIsValid(path) == 0 && Wellformed(path) ==>
              r == match Lookup(context.head, path)
                   case Some(e) => Ok((e.source, e.value))
                   case None => Err(ErrorUndefinedValue)
  {
    if context == null {
      return Err(ErrorInvalidArg);
    }
    if PathIsValid(path) != 0 {
      return Err(ErrorInvalidPath);
    }
    r := SignalKStore.Get(context.head, path);
  }

  /** signalk_set: a null context and an invalid path are refused, in that
    * order, and nothing changes; otherwise the value is stored. */
  method Set(context: Context?, path: SKPath, source: SKSource, value: SKValue) returns (err: SKError)
    requires context != null ==> context.Valid()
    requires Wellformed(path)
    modifies context
    ensures context == null ==> err == ErrorInvalidArg
    ensures context != null ==> context.Valid()
    ensures context != null && PathIsValid(path) != 0 ==> err == ErrorInvalidPath && context.head == old(context.head)
    ensures context != null && PathIsValid(path) == 0 ==>
              err == ErrorOK
              && Lookup(context.head, path) == Some(Entry(path, source, value))
              && forall q :: q != path ==> Lookup(context.head, q) == Lookup(old(context.head), q)
  {
    if context == null {
      return ErrorInvalidArg;
    }
    if PathIsValid(path) != 0 {
      return ErrorInvalidPath;
    }
    context.head := SignalKStore.Set(context.head, path, source, value);
    err := ErrorOK;
  }

  /** signalk_alloc: no context without a vessel name or an MMSI; otherwise
    * a context holding those given, as strings from the KBox source. */
  method Alloc(vesselName: Option<string>, mmsi: Option<string>) returns (context: Context?)
    ensures context == null <==> vesselName.None? && mmsi.None?
    ensures context != null ==> fresh(context) && context.Valid()
    ensures context != null ==>
              Lookup(context.head, PathForKey(KeyVesselName))
              == if vesselName.Some? then Some(Entry(PathForKey(KeyVesselName), KBoxSource, StringValue(vesselName.value))) else None
    ensures context != null ==>
              Lookup(context.head, PathForKey(KeyVesselMMSI))
              == if mmsi.Some? then Some(Entry(PathForKey(KeyVesselMMSI), KBoxSource, StringValue(mmsi.value))) else None
  {
    if vesselName.None? && mmsi.None? {
      return null;
    }
    context := new Context();
    if vesselName.Some? {
      var _ := Set(context, PathForKey(KeyVesselName), KBoxSource, StringValue(vesselName.value));
    }
    if mmsi.Some? {
      var _ := Set(context, PathForKey(KeyVesselMMSI), KBoxSource, StringValue(mmsi.value));
    }
  }

  /** Reading the vessel name and MMSI back from a new context gives the
    * strings it was created with, and a miss for one that was not given. */
  method AllocThenGet(vesselName: Option<string>, mmsi: Option<string>)
    returns (name: Result<(SKSource, SKValue), SKError>, number: Result<(SKSource, SKValue), SKError>)
    requires vesselName.Some? || mmsi.Some?
    ensures name == if vesselName.Some? then Ok((KBoxSource, StringValue(vesselName.value))) else Err(ErrorUndefinedValue)
    ensures number == if mmsi.Some? then Ok((KBoxSource, StringValue(mmsi.value))) else Err(ErrorUndefinedValue)
  {
    var context := Alloc(vesselName, mmsi);
    name := Get(context, PathForKey(KeyVesselName));
    number := Get(context, PathForKey(KeyVesselMMSI));
  }
}

=== FILE: signalk_path.dfy ===
/** SignalK paths of the embedded SignalK library
  * (lib/signalk-embedded/src/signalk.h, signalk-path.c): an optional
  * vessel MMSI, a key and an optional instance, and their total order. */
module SignalKPaths {
  import opened Wrappers
  import opened CStrings

  /** enum SKKey. */
  const KeyVesselName: nat := 0
  const KeyVesselMMSI: nat := 1
  const KeyNavigationPosition: nat := 2
  const KeyNavigationAttitude: nat := 3
  const KeyNavigationHeadingMagnetic: nat := 4
  const KeyNavigationMagneticVariation: nat := 5
  /** Not a key: the keys after it need an instance. */
  const KeyRequireInstanceMarker: nat := 6
  const KeyElectricalBatteryInstance: nat := 7
  const KeyCount: nat := 8

  /** A null vessel is this vessel; a null instance is a key with one
    * instance. */
  datatype SKPath = SKPath(vessel: Option<string>, key: nat, instance: Option<string>)

  /** The strings of a path are C strings. */
  predicate Wellformed(p: SKPath)
  {
    (p.vessel.Some? ==> NoNul(p.vessel.value)) && (p.instance.Some? ==> NoNul(p.instance.value))
  }

  /** SKPathForKey and SKPathForKeyWithInstance. */
  function PathForKey(key: nat): (p: SKPath)
    ensures p.vessel.None? && p.key == key && p.instance.None?
  {
    SKPath(None, key, None)
  }

  /** strcmp on two nullable strings where null comes first. */
  function CompareOptional(a: Option<string>, b: Option<string>): int
  {
    match (a, b)
    case (None, None) => 0
    case (None, Some(_)) => -1
    case (Some(_), None) => 1
    case (Some(x), Some(y)) => Strcmp(x, y)
  }

  /** signalk_path_cmp: by vessel (this vessel first, then strcmp), then by
    * key, then by instance (none first, then strcmp). */
  function PathCmp(a: SKPath, b: SKPath): int
  {
    var byVessel := CompareOptional(a.vessel, b.vessel);
    if byVessel != 0 then byVessel
    else if a.key > b.key then 1
    else if a.key < b.key then -1
    else CompareOptional(a.instance, b.instance)
  }

  lemma CompareOptionalReflexive(a: Option<string>)
    ensures CompareOptional(a, a) == 0
  {
    if a.Some? {
      StrcmpReflexive(a.value);
    }
  }

  lemma CompareOptionalAntisymmetric(a: Option<string>, b: Option<string>)
    ensures CompareOptional(a, b) == -CompareOptional(b, a)
  {
    if a.Some? && b.Some? {
      StrcmpAntisymmetric(a.value, b.value);
    }
  }

  lemma CompareOptionalZeroIffEqual(a: Option<string>, b: Option<string>)
    requires a.Some? ==> NoNul(a.value)
    requires b.Some? ==> NoNul(b.value)
    ensures CompareOptional(a, b) == 0 <==> a == b
  {
    if a.Some? && b.Some? {
      StrcmpZeroIffEqual(a.value, b.value);
    }
  }

  lemma CompareOptionalTransitive(a: Option<string>, b: Option<string>, c: Option<string>)
    requires CompareOptional(a, b) > 0 && CompareOptional(b, c) > 0
    ensures CompareOptional(a, c) > 0
  {
    if a.Some? && b.Some? && c.Some? {
      StrcmpTransitive(a.value, b.value, c.value);
    }
  }

  /** Every path compares equal to itself. */
  lemma PathCmpReflexive(a: SKPath)
    ensures PathCmp(a, a) == 0
  {
    CompareOptionalReflexive(a.vessel);
    CompareOptionalReflexive(a.instance);
  }

  /** Swapping the operands negates the comparison. */
  lemma PathCmpAntisymmetric(a: SKPath, b: SKPath)
    ensures PathCmp(a, b) == -PathCmp(b, a)
  {
    CompareOptionalAntisymmetric(a.vessel, b.vessel);
    CompareOptionalAntisymmetric(a.instance, b.instance);
  }

  /** Two well-formed paths compare equal exactly when they are equal. */
  lemma PathCmpZeroIffEqual(a: SKPath, b: SKPath)
    requires Wellformed(a) && Wellformed(b)
    ensures PathCmp(a, b) == 0 <==> a == b
  {
    CompareOptionalZeroIffEqual(a.vessel, b.vessel);
    CompareOptionalZeroIffEqual(a.instance, b.instance);
    if a == b {
      PathCmpReflexive(a);
    }
  }

  lemma PathCmpTransitive(a: SKPath, b: SKPath, c: SKPath)
    requires Wellformed(a) && Wellformed(b) && Wellformed(c)
    requires PathCmp(a, b) > 0 && PathCmp(b, c) > 0
    ensures PathCmp(a, c) > 0
  {
    CompareOptionalZeroIffEqual(a.vessel, b.vessel);
    CompareOptionalZeroIffEqual(b.vessel, c.vessel);
    var ab, bc := CompareOptional(a.vessel, b.vessel), CompareOptional(b.vessel, c.vessel);
    if ab > 0 && bc > 0 {
      CompareOptionalTransitive(a.vessel, b.vessel, c.vessel);
    } else if ab == 0 && bc == 0 && a.key == b.key == c.key {
      CompareOptionalTransitive(a.instance, b.instance, c.instance);
    }
  }

  /** This vessel's paths come before any other vessel's. */
  lemma ThisVesselFirst(a: SKPath, b: SKPath)
    requires a.vessel.None? && b.vessel.Some?
    ensures PathCmp(a, b) < 0
  {
  }

  /** Paths of one vessel are ordered by key first. */
  lemma SameVesselByKey(a: SKPath, b: SKPath)
    requires a.vessel == b.vessel && a.key < b.key
    ensures PathCmp(a, b) < 0
  {
    CompareOptionalReflexive(a.vessel);
  }

  /** With the same vessel and key, no instance comes first. */
  lemma SameKeyByInstance(a: SKPath, b: SKPath)
    requires a.vessel == b.vessel && a.key == b.key && a.instance.None? && b.instance.Some?
    ensures PathCmp(a, b) < 0
  {
    CompareOptionalReflexive(a.vessel);
  }
}

=== FILE: signalk_time.dfy ===
/** SKTime (src/common/signalk/SKTime.h, SKTime.cpp): a UTC time as a
  * 32-bit Unix timestamp plus milliseconds, where the value 1042 marks
  * milliseconds as unknown. */
module SignalKTime {
  import opened Bytes
  import opened Wrappers
  import opened ArduinoString
  import Calendar

  const UnknownMilliseconds: uint16 := 1042

  /** The total milliseconds wrap with the 32-bit timestamp. */
  const MillisecondsModulus: nat := 4_294_967_296_000

  datatype SKTime = SKTime(timestamp: uint32, milliseconds: uint16)

  /** What the constructors guarantee of the milliseconds field. */
  predicate Valid(t: SKTime)
  {
    t.milliseconds < 1000 || t.milliseconds == UnknownMilliseconds
  }

  predicate HasMilliseconds(t: SKTime)
  {
    t.milliseconds != UnknownMilliseconds
  }

  /** getMilliseconds: 0 when unknown. */
  function GetMilliseconds(t: SKTime): (ms: uint16)
    ensures !HasMilliseconds(t) ==> ms == 0
    ensures HasMilliseconds(t) ==> ms == t.milliseconds
    ensures Valid(t) ==> ms < 1000
  {
    if t.milliseconds == UnknownMilliseconds then 0 else t.milliseconds
  }

  /** SKTime(): the epoch, with known milliseconds 0. */
  function Default(): (t: SKTime)
    ensures Valid(t) && t.timestamp == 0 && HasMilliseconds(t) && GetMilliseconds(t) == 0
  {
    SKTime(0, 0)
  }

  /** SKTime(time): milliseconds unknown. */
  function FromTime(time: uint32): (t: SKTime)
    ensures Valid(t) && t.timestamp == time && !HasMilliseconds(t) && GetMilliseconds(t) == 0
  {
    SKTime(time, UnknownMilliseconds)
  }

  /** SKTime(time, ms): a millisecond value of 1000 or more becomes
    * unknown. */
  function FromTimeAndMs(time: uint32, ms: uint16): (t: SKTime)
    ensures Valid(t) && t.timestamp == time
    ensures HasMilliseconds(t) <==> ms < 1000
    ensures ms < 1000 ==> GetMilliseconds(t) == ms
  {
    SKTime(time, if ms >= 1000 then UnknownMilliseconds else ms)
  }

  /** operator== compares the timestamps and the raw milliseconds fields;
    * operator!= is its negation. */
  function Equal(a: SKTime, b: SKTime): (r: bool)
    ensures r <==> a == b
  {
    a.timestamp == b.timestamp && a.milliseconds == b.milliseconds
  }

  function NotEqual(a: SKTime, b: SKTime): (r: bool)
    ensures r <==> a != b
  {
    !Equal(a, b)
  }

  /** The milliseconds since the epoch that a time stands for, unknown
    * milliseconds counting as 0. */
  function TotalMilliseconds(t: SKTime): (n: nat)
    requires Valid(t)
    ensures n < MillisecondsModulus
  {
    t.timestamp * 1000 + GetMilliseconds(t)
  }

  /** operator+=: unknown milliseconds become 0, then the seconds and the
    * milliseconds are added and the carry moved over one second at a time.
    * The total is kept modulo 2^32 seconds and the milliseconds below 1000. */
  method AddMilliseconds(t: SKTime, ms: uint32) returns (r: SKTime)
    requires Valid(t)
    ensures HasMilliseconds(r) && r.milliseconds < 1000
    ensures TotalMilliseconds(r) == (TotalMilliseconds(t) + ms) % MillisecondsModulus
  {
    var milliseconds: uint16 := t.milliseconds;
    if milliseconds == UnknownMilliseconds {
      milliseconds := 0;
    }
    ghost var total := TotalMilliseconds(t) + ms;
    SplitAdded(t.timestamp, milliseconds, ms);
    WrapSeconds(t.timestamp + ms / 1000, milliseconds + ms % 1000, total);
    var timestamp: uint32 := (t.timestamp + ms / 1000) % 0x1_0000_0000;
    milliseconds := milliseconds + ms % 1000;
    while milliseconds >= 1000
      invariant (timestamp * 1000 + milliseconds) % MillisecondsModulus == total % MillisecondsModulus
      decreases milliseconds
    {
      WrapSeconds(timestamp + 1, milliseconds - 1000, total);
      timestamp := (timestamp + 1) % 0x1_0000_0000;
      milliseconds := milliseconds - 1000;
    }
    r := SKTime(timestamp, milliseconds);
    Settled(timestamp, milliseconds, total);
  }

  /** The whole seconds of the added milliseconds go to the seconds, the
    * rest to the milliseconds. */
  lemma SplitAdded(seconds: nat, milliseconds: nat, ms: nat)
    ensures (seconds + ms / 1000) * 1000 + (milliseconds + ms % 1000) == seconds * 1000 + milliseconds + ms
  {
  }

  /** A total below the modulus is its own remainder. */
  lemma Settled(seconds: uint32, milliseconds: nat, total: nat)
    requires milliseconds < 1000
    requires (seconds * 1000 + milliseconds) % MillisecondsModulus == total % MillisecondsModulus
    ensures seconds * 1000 + milliseconds == total % MillisecondsModulus
  {
  }

  /** Wrapping the seconds modulo 2^32 keeps the milliseconds total modulo
    * 2^32 * 1000. */
  lemma WrapSeconds(seconds: nat, ms: nat, total: nat)
    requires (seconds * 1000 + ms) % MillisecondsModulus == total % MillisecondsModulus
    ensures ((seconds % 0x1_0000_0000) * 1000 + ms) % MillisecondsModulus == total % MillisecondsModulus
  {
    var q := seconds / 0x1_0000_0000;
    assert seconds * 1000 + ms == q * MillisecondsModulus + ((seconds % 0x1_0000_0000) * 1000 + ms);
  }

  /** A two-character field of an NMEA date or time, read by toInt and
    * stored in a uint8. */
  function Field(s: string, at: nat): uint8
  {
    ToInt(Substring(s, at, at + 2)) % 0x100
  }

  /** The year field: yy below 70 is taken as 20yy, otherwise as 19yy, as
    * an offset from 1970 stored in a uint8. */
  function YearField(date: string): uint8
  {
    var yy := ToInt(Substring(date, 4, 6));
    (if yy < 70 then yy + 30 else yy - 70) % 0x100
  }

  /** The broken-down time that timeFromNMEAStrings reads from an NMEA date
    * (ddmmyy) and time (hhmmss.sss); the day of the week is not set. */
  function NMEATm(date: string, time: string): (tm: Calendar.Tm)
  {
    Calendar.Tm(Field(time, 4), Field(time, 2), Field(time, 0), 0, Field(date, 0), Field(date, 2), YearField(date))
  }

  /** Two digits are read as their value. */
  lemma FieldOfDigits(s: string, at: nat)
    requires at + 2 <= |s| && IsDigit(s[at]) && IsDigit(s[at + 1])
    ensures AllDigits(s[at..at + 2]) && Field(s, at) == DigitsValue(s[at..at + 2]) < 100
  {
    assert Substring(s, at, at + 2) == s[at..at + 2];
    ToIntOfDigits(s[at..at + 2]);
    assert DigitsValue(s[at..at + 2]) < Pow10(2) == 100;
  }

  /** yy below 70 is 20yy, otherwise 19yy. */
  lemma YearFieldOfDigits(date: string)
    requires |date| >= 6 && IsDigit(date[4]) && IsDigit(date[5])
    ensures AllDigits(date[4..6])
    ensures var yy := DigitsValue(date[4..6]);
            YearField(date) == if yy < 70 then yy + 30 else yy - 70
  {
    assert Substring(date, 4, 6) == date[4..6];
    ToIntOfDigits(date[4..6]);
    assert DigitsValue(date[4..6]) < Pow10(2) == 100;
  }

  /** The milliseconds timeFromNMEAStrings takes from the characters 7 to
    * 9 of the time: one digit counts hundreds, two digits tens; a value
    * not below 1000 leaves the milliseconds unknown. The result is the
    * uint32 value, before the constructor narrows it to uint16. */
  function NMEAMilliseconds(time: string): (ms: uint32)
  {
    if |time| > 7 then
      var fraction := Substring(time, 7, 10);
      var value := ToInt(fraction);
      var millis := if |fraction| == 1 then value * 100 else if |fraction| == 2 then value * 10 else value;
      if millis < 1000 then millis % 0x1_0000_0000 else UnknownMilliseconds
    else UnknownMilliseconds
  }

  /** timeFromNMEAStrings. A month past 13 makes makeTime read outside its
    * table of month lengths, which is undefined; that gives None here. */
  method TimeFromNMEAStrings(date: string, time: string) returns (r: Option<SKTime>)
    ensures r.Some? <==> NMEATm(date, time).month <= 13
    ensures r.Some? ==> r.value == FromTimeAndMs(Calendar.MakeTimeSpec(NMEATm(date, time)), NMEAMilliseconds(time) % 0x1_0000)
  {
    var tm := NMEATm(date, time);
    if tm.month > 13 {
      return None;
    }
    var timestamp := Calendar.MakeTime(tm);
    var milliseconds := NMEAMilliseconds(time);
    return Some(FromTimeAndMs(timestamp, milliseconds % 0x1_0000));
  }

  /** In the year 1970 + the year field, yy below 70 is 20yy and otherwise
    * 19yy. */
  lemma NMEAYear(date: string, time: string)
    requires |date| >= 6 && IsDigit(date[4]) && IsDigit(date[5])
    ensures AllDigits(date[4..6])
    ensures 1970 + NMEATm(date, time).year == (if DigitsValue(date[4..6]) < 70 then 2000 else 1900) + DigitsValue(date[4..6])
  {
    YearFieldOfDigits(date);
  }

  /** Up to three fraction digits are read, one digit counting hundreds and
    * two tens; without a fraction the milliseconds are unknown. */
  lemma NMEAMillisecondsDigits(time: string)
    requires AllDigits(Substring(time, 7, 10))
    ensures var fraction := Substring(time, 7, 10);
            |fraction| <= 3
            && (|time| <= 7 ==> NMEAMilliseconds(time) == UnknownMilliseconds)
            && (|time| > 7 ==> NMEAMilliseconds(time) == DigitsValue(fraction) * Pow10(3 - |fraction|) < 1000)
  {
    var fraction := Substring(time, 7, 10);
    if |time| > 7 {
      ToIntOfDigits(fraction);
      assert DigitsValue(fraction) < Pow10(|fraction|);
      assert Pow10(1) == 10 && Pow10(2) == 100 && Pow10(3) == 1000;
    }
  }

  /** The NMEA date and time strings of a broken-down time whose year lies
    * in 1970..2069. */
  function NMEADate(tm: Calendar.Tm): (s: string)
    requires tm.day < 100 && tm.month < 100 && tm.year < 100
    ensures |s| == 6 && AllDigits(s)
  {
    Pad2(tm.day) + Pad2(tm.month) + Pad2(if tm.year < 30 then tm.year + 70 else tm.year - 30)
  }

  function NMEATime(tm: Calendar.Tm): (s: string)
    requires tm.hour < 100 && tm.minute < 100 && tm.second < 100
    ensures |s| == 6 && AllDigits(s)
  {
    Pad2(tm.hour) + Pad2(tm.minute) + Pad2(tm.second)
  }

  /** Date and time strings of digits are read field by field as the
    * values of their digit pairs. */
  lemma NMEATmOfDigits(date: string, time: string)
    requires |date| >= 6 && |time| >= 6
    requires forall i :: 0 <= i < 6 ==> IsDigit(date[i]) && IsDigit(time[i])
    ensures AllDigits(date[0..2]) && AllDigits(date[2..4]) && AllDigits(date[4..6])
    ensures AllDigits(time[0..2]) && AllDigits(time[2..4]) && AllDigits(time[4..6])
    ensures var yy := DigitsValue(date[4..6]);
            NMEATm(date, time) == Calendar.Tm(DigitsValue(time[4..6]), DigitsValue(time[2..4]), DigitsValue(time[0..2]), 0,
              DigitsValue(date[0..2]), DigitsValue(date[2..4]), if yy < 70 then yy + 30 else yy - 70)
  {
    DateOfDigits(date);
    TimeOfDigits(time);
  }

  lemma DateOfDigits(date: string)
    requires |date| >= 6 && forall i :: 0 <= i < 6 ==> IsDigit(date[i])
    ensures AllDigits(date[0..2]) && AllDigits(date[2..4]) && AllDigits(date[4..6])
    ensures Field(date, 0) == DigitsValue(date[0..2]) && Field(date, 2) == DigitsValue(date[2..4])
    ensures var yy := DigitsValue(date[4..6]);
            YearField(date) == if yy < 70 then yy + 30 else yy - 70
  {
    assert IsDigit(date[0]) && IsDigit(date[1]) && IsDigit(date[2]) && IsDigit(date[3]);
    assert IsDigit(date[4]) && IsDigit(date[5]);
    FieldOfDigits(date, 0);
    FieldOfDigits(date, 2);
    YearFieldOfDigits(date);
  }

  lemma TimeOfDigits(time: string)
    requires |time| >= 6 && forall i :: 0 <= i < 6 ==> IsDigit(time[i])
    ensures AllDigits(time[0..2]) && AllDigits(time[2..4]) && AllDigits(time[4..6])
    ensures Field(time, 0) == DigitsValue(time[0..2]) && Field(time, 2) == DigitsValue(time[2..4])
    ensures Field(time, 4) == DigitsValue(time[4..6])
  {
    assert IsDigit(time[0]) && IsDigit(time[1]) && IsDigit(time[2]) && IsDigit(time[3]);
    assert IsDigit(time[4]) && IsDigit(time[5]);
    FieldOfDigits(time, 0);
    FieldOfDigits(time, 2);
    FieldOfDigits(time, 4);
  }

  /** Three two-digit fields side by side. */
  lemma SixDigits(a: nat, b: nat, c: nat)
    requires a < 100 && b < 100 && c < 100
    ensures var s := Pad2(a) + Pad2(b) + Pad2(c);
            |s| == 6 && (forall i :: 0 <= i < 6 ==> IsDigit(s[i]))
            && s[0..2] == Pad2(a) && s[2..4] == Pad2(b) && s[4..6] == Pad2(c)
  {
  }

  /** The fields of an NMEA date and time string read back as the
    * broken-down time they were written from. */
  lemma NMEAFields(c: Calendar.Tm)
    requires c.day < 100 && c.month < 100 && c.year < 100 && c.hour < 100 && c.minute < 100 && c.second < 100
    ensures NMEATm(NMEADate(c), NMEATime(c)) == c.(wday := 0)
  {
    var yy := if c.year < 30 then c.year + 70 else c.year - 30;
    SixDigits(c.day, c.month, yy);
    SixDigits(c.hour, c.minute, c.second);
    NMEATmOfDigits(NMEADate(c), NMEATime(c));
  }

  /** A timestamp up to 2069, written as NMEA strings, is read back as the
    * same timestamp. */
  lemma NMEARoundTrip(t: uint32)
    requires Calendar.Civil(t).year < 100
    ensures var tm := NMEATm(NMEADate(Calendar.Civil(t)), NMEATime(Calendar.Civil(t)));
            tm.month <= 13 && Calendar.MakeTimeSpec(tm) == t
  {
    NMEARoundTripParts(Calendar.Civil(t), t);
  }

  lemma NMEARoundTripParts(c: Calendar.Tm, t: uint32)
    requires c.day < 100 && 1 <= c.month <= 12 && c.year < 100 && c.hour < 100 && c.minute < 100 && c.second < 100
    requires Calendar.DayNumber(c) == t / 86400 && c.hour * 3600 + c.minute * 60 + c.second == t % 86400
    ensures var tm := NMEATm(NMEADate(c), NMEATime(c));
            tm.month <= 13 && Calendar.MakeTimeSpec(tm) == t
  {
    NMEAFields(c);
    MakeTimeWithoutWday(c, t);
  }

  /** makeTime does not read the day of the week. */
  lemma MakeTimeWithoutWday(c: Calendar.Tm, t: uint32)
    requires c.month <= 13 && Calendar.DayNumber(c) == t / 86400 && c.hour * 3600 + c.minute * 60 + c.second == t % 86400
    ensures Calendar.MakeTimeSpec(c.(wday := 0)) == t
  {
    var tm := c.(wday := 0);
    assert tm.year == c.year && tm.month == c.month && tm.day == c.day;
    assert tm.hour == c.hour && tm.minute == c.minute && tm.second == c.second;
    assert Calendar.DayNumber(tm) == Calendar.DayNumber(c);
    Calendar.MakeTimeOfParts(tm, t);
  }

  /** toString: YYYY-MM-DDTHH:MM:SS, then .mmm when the milliseconds are
    * known, then Z (RFC 3339 section 5.6, in UTC). */
  function ToString(t: SKTime): (s: string)
    requires Valid(t)
  {
    Text(Calendar.Civil(t.timestamp), t)
  }

  /** The text of toString for the civil date and time tm of t. */
  function Text(tm: Calendar.Tm, t: SKTime): string
    requires Valid(t) && tm.month < 100 && tm.day < 100 && tm.hour < 100 && tm.minute < 100 && tm.second < 100
  {
    Decimal(1970 + tm.year) + "-" + Pad2(tm.month) + "-" + Pad2(tm.day) + "T"
    + Pad2(tm.hour) + ":" + Pad2(tm.minute) + ":" + Pad2(tm.second)
    + (if HasMilliseconds(t) then "." + Pad3(t.milliseconds) else "") + "Z"
  }

  /** Where the pieces of toString land. */
  lemma TextLayout(s: string, year: string, month: string, day: string, hour: string, minute: string, second: string, fraction: string)
    requires |year| == 4 && |month| == 2 && |day| == 2 && |hour| == 2 && |minute| == 2 && |second| == 2
    requires s == year + "-" + month + "-" + day + "T" + hour + ":" + minute + ":" + second + fraction + "Z"
    ensures |s| == 20 + |fraction| && s[4] == '-' && s[7] == '-' && s[10] == 'T' && s[13] == ':' && s[16] == ':'
            && s[|s| - 1] == 'Z' && s[0..4] == year && s[5..7] == month && s[8..10] == day
            && s[11..13] == hour && s[14..16] == minute && s[17..19] == second && s[19..19 + |fraction|] == fraction
  {
    var date := year + "-" + month + "-" + day;
    var stamp := date + "T" + hour + ":" + minute + ":" + second;
    DateLayout(date, year, month, day);
    StampLayout(stamp, date, hour, minute, second);
    assert s == stamp + fraction + "Z";
    forall i | 0 <= i < 19
      ensures s[i] == stamp[i]
    {
    }
    assert s[19..19 + |fraction|] == fraction;
  }

  /** Where year, month and day land in the date. */
  lemma DateLayout(date: string, year: string, month: string, day: string)
    requires |year| == 4 && |month| == 2 && |day| == 2
    requires date == year + "-" + month + "-" + day
    ensures |date| == 10 && date[4] == '-' && date[7] == '-'
            && date[0..4] == year && date[5..7] == month && date[8..10] == day
  {
  }

  /** Where the date, hours, minutes and seconds land in the timestamp
    * text. */
  lemma StampLayout(stamp: string, date: string, hour: string, minute: string, second: string)
    requires |date| == 10 && |hour| == 2 && |minute| == 2 && |second| == 2
    requires stamp == date + "T" + hour + ":" + minute + ":" + second
    ensures |stamp| == 19 && stamp[10] == 'T' && stamp[13] == ':' && stamp[16] == ':'
            && stamp[0..10] == date && stamp[11..13] == hour && stamp[14..16] == minute && stamp[17..19] == second
  {
  }

  /** The layout of toString: 20 characters, or 24 with milliseconds, the
    * separators at fixed places, and in between the civil date and time of
    * the timestamp and the stored milliseconds, written in decimal (whose
    * digits read back as the values, by Decimal, Pad2 and Pad3). */
  lemma ToStringFields(t: SKTime)
    requires Valid(t)
    ensures var s := ToString(t);
            var tm := Calendar.Civil(t.timestamp);
            |s| == (if HasMilliseconds(t) then 24 else 20)
            && s[4] == '-' && s[7] == '-' && s[10] == 'T' && s[13] == ':' && s[16] == ':'
            && s[|s| - 1] == 'Z' && (HasMilliseconds(t) ==> s[19] == '.')
            && s[0..4] == Decimal(1970 + tm.year) && s[5..7] == Pad2(tm.month) && s[8..10] == Pad2(tm.day)
            && s[11..13] == Pad2(tm.hour) && s[14..16] == Pad2(tm.minute) && s[17..19] == Pad2(tm.second)
            && (HasMilliseconds(t) ==> s[20..23] == Pad3(t.milliseconds))
  {
    TextFields(Calendar.Civil(t.timestamp), t);
  }

  lemma TextFields(tm: Calendar.Tm, t: SKTime)
    requires Valid(t) && tm.month < 100 && tm.day < 100 && tm.hour < 100 && tm.minute < 100 && tm.second < 100
    requires 1970 + tm.year < 10000
    ensures var s := Text(tm, t);
            |s| == (if HasMilliseconds(t) then 24 else 20)
            && s[4] == '-' && s[7] == '-' && s[10] == 'T' && s[13] == ':' && s[16] == ':'
            && s[|s| - 1] == 'Z' && (HasMilliseconds(t) ==> s[19] == '.')
            && s[0..4] == Decimal(1970 + tm.year) && s[5..7] == Pad2(tm.month) && s[8..10] == Pad2(tm.day)
            && s[11..13] == Pad2(tm.hour) && s[14..16] == Pad2(tm.minute) && s[17..19] == Pad2(tm.second)
            && (HasMilliseconds(t) ==> s[20..23] == Pad3(t.milliseconds))
  {
    var fraction := if HasMilliseconds(t) then "." + Pad3(t.milliseconds) else "";
    DecimalFour(1970 + tm.year);
    var s := Text(tm, t);
    TextLayout(s, Decimal(1970 + tm.year), Pad2(tm.month), Pad2(tm.day), Pad2(tm.hour), Pad2(tm.minute), Pad2(tm.second), fraction);
    if HasMilliseconds(t) {
      assert s[20..23] == fraction[1..4];
    }
  }

  /** Reading the fields of toString back through makeTime gives the
    * timestamp again. */
  lemma ToStringRoundTrip(t: SKTime)
    requires Valid(t)
    ensures var s := ToString(t);
            |s| >= 20 && AllDigits(s[0..4]) && AllDigits(s[5..7]) && AllDigits(s[8..10])
            && AllDigits(s[11..13]) && AllDigits(s[14..16]) && AllDigits(s[17..19])
            && 1970 <= DigitsValue(s[0..4]) < 1970 + 256
            && DigitsValue(s[5..7]) <= 13 && DigitsValue(s[8..10]) < 256
            && DigitsValue(s[11..13]) < 256 && DigitsValue(s[14..16]) < 256 && DigitsValue(s[17..19]) < 256
            && Calendar.MakeTimeSpec(Calendar.Tm(DigitsValue(s[17..19]), DigitsValue(s[14..16]), DigitsValue(s[11..13]), 0,
                 DigitsValue(s[8..10]), DigitsValue(s[5..7]), DigitsValue(s[0..4]) - 1970)) == t.timestamp
  {
    TextRoundTrip(Calendar.Civil(t.timestamp), t);
  }

  lemma TextRoundTrip(tm: Calendar.Tm, t: SKTime)
    requires Valid(t) && Calendar.ValidTm(tm) && tm.year <= 136
    requires Calendar.DayNumber(tm) == t.timestamp / 86400
    requires tm.hour * 3600 + tm.minute * 60 + tm.second == t.timestamp % 86400
    ensures var s := Text(tm, t);
            |s| >= 20 && AllDigits(s[0..4]) && AllDigits(s[5..7]) && AllDigits(s[8..10])
            && AllDigits(s[11..13]) && AllDigits(s[14..16]) && AllDigits(s[17..19])
            && 1970 <= DigitsValue(s[0..4]) < 1970 + 256
            && DigitsValue(s[5..7]) <= 13 && DigitsValue(s[8..10]) < 256
            && DigitsValue(s[11..13]) < 256 && DigitsValue(s[14..16]) < 256 && DigitsValue(s[17..19]) < 256
            && Calendar.MakeTimeSpec(Calendar.Tm(DigitsValue(s[17..19]), DigitsValue(s[14..16]), DigitsValue(s[11..13]), 0,
                 DigitsValue(s[8..10]), DigitsValue(s[5..7]), DigitsValue(s[0..4]) - 1970)) == t.timestamp
  {
    var s := Text(tm, t);
    TextValues(tm, t);
    assert Calendar.Tm(DigitsValue(s[17..19]), DigitsValue(s[14..16]), DigitsValue(s[11..13]), 0,
                       DigitsValue(s[8..10]), DigitsValue(s[5..7]), DigitsValue(s[0..4]) - 1970) == tm.(wday := 0);
    Calendar.MakeTimeOfParts(tm.(wday := 0), t.timestamp);
  }

  /** The digit fields of the text read back as the fields of the date. */
  lemma TextValues(tm: Calendar.Tm, t: SKTime)
    requires Valid(t) && Calendar.ValidTm(tm) && tm.year <= 136
    ensures var s := Text(tm, t);
            |s| >= 20 && AllDigits(s[0..4]) && AllDigits(s[5..7]) && AllDigits(s[8..10])
            && AllDigits(s[11..13]) && AllDigits(s[14..16]) && AllDigits(s[17..19])
            && DigitsValue(s[0..4]) == 1970 + tm.year && DigitsValue(s[5..7]) == tm.month
            && DigitsValue(s[8..10]) == tm.day && DigitsValue(s[11..13]) == tm.hour
            && DigitsValue(s[14..16]) == tm.minute && DigitsValue(s[17..19]) == tm.second
  {
    TextFields(tm, t);
  }
}

=== FILE: skkv.dfy ===
/** The in-memory SignalK model (lib/signalk-embedded/src/skkv.c): a list
  * of path/source/value entries kept in descending path order, searched
  * from the head. The nodes and their next pointers are the sequence of
  * entries here; setting returns the new list as skkv_set returns the new
  * head. */
module SignalKStore {
  import opened Wrappers
  import opened Bytes
  import opened SignalKPaths

  /** enum SKSourceType. */
  datatype SourceType = SourceNMEA2000 | SourceNMEA0183 | SourceSignalK | SourceKBox

  /** SKSource: null pointers are None. */
  datatype SKSource = SKSource(sourceType: SourceType, pgn: uint32, sourceLabel: Option<string>, src: Option<string>,
                               sentence: Option<string>, talker: Option<string>)

  /** SKSourceMakeKBox. */
  const KBoxSource := SKSource(SourceKBox, 0, None, None, None, None)

  /** SKValue: the tagged union; doubles are reals. */
  datatype SKValue =
    | StringValue(stringValue: string)
    | NumberValue(numberValue: real)
    | PositionValue(latitude: real, longitude: real)
    | AttitudeValue(roll: real, pitch: real, yaw: real)
    | BatteryValue(voltage: real, current: real, temperature: real)

  datatype SKError = ErrorOK | ErrorInvalidArg | ErrorInvalidPath | ErrorUndefinedValue

  datatype Entry = Entry(path: SKPath, source: SKSource, value: SKValue)

  /** The list skkv_set builds: well-formed paths in strictly descending
    * signalk_path_cmp order. */
  ghost predicate Ordered(list: seq<Entry>)
  {
    (forall i :: 0 <= i < |list| ==> Wellformed(list[i].path))
    && (forall i, j :: 0 <= i < j < |list| ==> PathCmp(list[i].path, list[j].path) > 0)
  }

  /** Reference lookup, independent of the order: the first entry with the
    * path. */
  function Lookup(list: seq<Entry>, path: SKPath): (r: Option<Entry>)
    ensures r.Some? ==> r.value in list && r.value.path == path
  {
    if list == [] then None
    else if list[0].path == path then Some(list[0])
    else Lookup(list[1..], path)
  }

  lemma {:induction false} LookupAppend(a: seq<Entry>, b: seq<Entry>, q: SKPath)
    ensures Lookup(a + b, q) == if Lookup(a, q).Some? then Lookup(a, q) else Lookup(b, q)
  {
    if a != [] {
      assert (a + b)[1..] == a[1..] + b;
      LookupAppend(a[1..], b, q);
    } else {
      assert a + b == b;
    }
  }

  lemma {:induction false} LookupAbsent(list: seq<Entry>, q: SKPath)
    requires forall i :: 0 <= i < |list| ==> list[i].path != q
    ensures Lookup(list, q) == None
  {
    if list != [] {
      LookupAbsent(list[1..], q);
    }
  }

  /** skkv_find: walks from the head while the searched path compares below
    * the entry's, and stops on an equal path (found) or a smaller one.
    * previous is the last entry walked past. */
  method Find(head: seq<Entry>, path: SKPath) returns (found: Option<nat>, previous: Option<nat>)
    ensures var next := if previous.None? then 0 else previous.value + 1;
      next <= |head|
      && (forall j :: 0 <= j < next ==> PathCmp(path, head[j].path) < 0)
      && (found.Some? ==> found.value == next < |head| && PathCmp(path, head[next].path) == 0)
      && (found.None? ==> next == |head| || PathCmp(path, head[next].path) > 0)
  {
    found, previous := None, None;
    var i := 0;
    while i < |head|
      invariant 0 <= i <= |head|
      invariant previous == if i == 0 then None else Some(i - 1)
      invariant forall j :: 0 <= j < i ==> PathCmp(path, head[j].path) < 0
    {
      var cmp := PathCmp(path, head[i].path);
      if cmp == 0 {
        found := Some(i);
        return;
      }
      if cmp > 0 {
        return;
      }
      previous := Some(i);
      i := i + 1;
    }
  }

  /** On an ordered list, the walk finds a path exactly when the list holds
    * it, at the entry the reference lookup gives. */
  lemma FindIsLookup(head: seq<Entry>, path: SKPath, next: nat)
    requires Ordered(head) && Wellformed(path) && next <= |head|
    requires forall j :: 0 <= j < next ==> PathCmp(path, head[j].path) < 0
    requires next < |head| ==> PathCmp(path, head[next].path) >= 0
    ensures Lookup(head, path) == if next < |head| && PathCmp(path, head[next].path) == 0 then Some(head[next]) else None
  {
    forall j | 0 <= j < next
      ensures head[j].path != path
    {
      PathCmpReflexive(path);
    }
    LookupAbsent(head[..next], path);
    assert head == head[..next] + head[next..];
    LookupAppend(head[..next], head[next..], path);
    if next < |head| {
      PathCmpZeroIffEqual(path, head[next].path);
      if PathCmp(path, head[next].path) > 0 {
        forall j | next <= j < |head|
          ensures head[j].path != path
        {
          if j > next {
            PathCmpTransitive(path, head[next].path, head[j].path);
          }
          PathCmpReflexive(path);
        }
        LookupAbsent(head[next..], path);
      } else {
        assert head[next..][0] == head[next];
      }
    } else {
      assert head[next..] == [];
    }
  }

  /** Inserting where the walk stopped keeps the list ordered. */
  lemma InsertOrdered(head: seq<Entry>, k: nat, e: Entry)
    requires Ordered(head) && Wellformed(e.path) && k <= |head|
    requires forall j :: 0 <= j < k ==> PathCmp(e.path, head[j].path) < 0
    requires k < |head| ==> PathCmp(e.path, head[k].path) > 0
    ensures Ordered(head[..k] + [e] + head[k..])
  {
    var s := head[..k] + [e] + head[k..];
    forall i, j | 0 <= i < j < |s|
      ensures PathCmp(s[i].path, s[j].path) > 0
    {
      InsertedAt(head, k, e, i);
      InsertedAt(head, k, e, j);
      if i < k && j == k {
        PathCmpAntisymmetric(head[i].path, e.path);
      } else if i == k && j > k + 1 {
        PathCmpTransitive(e.path, head[k].path, head[j - 1].path);
      }
    }
  }

  /** Where an entry of the list lands once e is inserted at k. */
  lemma InsertedAt(head: seq<Entry>, k: nat, e: Entry, i: nat)
    requires k <= |head| && i <= |head|
    ensures (head[..k] + [e] + head[k..])[i] == if i < k then head[i] else if i == k then e else head[i - 1]
  {
  }

  /** Replacing an entry by one with the same path keeps the list ordered. */
  lemma ReplaceOrdered(head: seq<Entry>, k: nat, e: Entry)
    requires Ordered(head) && k < |head| && head[k].path == e.path
    ensures Ordered(head[k := e])
  {
  }

  /** skkv_set: replaces the entry with the path when the walk finds it,
    * otherwise links a new entry after the last one walked past (or in
    * front of the head). */
  method Set(head: seq<Entry>, path: SKPath, source: SKSource, value: SKValue) returns (newHead: seq<Entry>)
    requires forall i :: 0 <= i < |head| ==> Wellformed(head[i].path)
    requires Wellformed(path)
    ensures Lookup(newHead, path) == Some(Entry(path, source, value))
    ensures forall q :: q != path ==> Lookup(newHead, q) == Lookup(head, q)
    ensures Ordered(head) ==> Ordered(newHead)
    ensures Ordered(head) ==> |newHead| == |head| + (if Lookup(head, path).Some? then 0 else 1)
  {
    var e, previous := Find(head, path);
    var insert := Entry(path, source, value);
    var k := if previous.None? then 0 else previous.value + 1;
    forall j | 0 <= j < k
      ensures head[j].path != path
    {
      PathCmpReflexive(path);
    }
    LookupAbsent(head[..k], path);
    if e.None? {
      newHead := head[..k] + [insert] + head[k..];
      InsertLookup(head, k, insert);
      if Ordered(head) {
        InsertOrdered(head, k, insert);
        FindIsLookup(head, path, k);
      }
    } else {
      PathCmpZeroIffEqual(path, head[k].path);
      newHead := head[k := insert];
      ReplaceLookup(head, k, insert);
      if Ordered(head) {
        ReplaceOrdered(head, k, insert);
        FindIsLookup(head, path, k);
      }
    }
  }

  /** Lookups in a list with an entry inserted whose path comes nowhere
    * before it. */
  lemma InsertLookup(head: seq<Entry>, k: nat, e: Entry)
    requires k <= |head| && Lookup(head[..k], e.path) == None
    ensures Lookup(head[..k] + [e] + head[k..], e.path) == Some(e)
    ensures forall q :: q != e.path ==> Lookup(head[..k] + [e] + head[k..], q) == Lookup(head, q)
  {
    var before, after := head[..k], head[k..];
    InsertSplit(head, k);
    LookupFinds(before, e, after);
    forall q | q != e.path
      ensures Lookup(before + [e] + after, q) == Lookup(head, q)
    {
      LookupSkips(before, e, after, q);
    }
  }

  lemma InsertSplit(head: seq<Entry>, k: nat)
    requires k <= |head|
    ensures head == head[..k] + head[k..]
  {
  }

  /** An entry whose path comes nowhere before it is found. */
  lemma LookupFinds(before: seq<Entry>, e: Entry, after: seq<Entry>)
    requires Lookup(before, e.path) == None
    ensures Lookup(before + [e] + after, e.path) == Some(e)
  {
    LookupAppend(before + [e], after, e.path);
    LookupAppend(before, [e], e.path);
  }

  /** An entry with another path does not change a lookup. */
  lemma LookupSkips(before: seq<Entry>, e: Entry, after: seq<Entry>, q: SKPath)
    requires q != e.path
    ensures Lookup(before + [e] + after, q) == Lookup(before + after, q)
  {
    LookupAppend(before + [e], after, q);
    LookupAppend(before, [e], q);
    LookupAppend(before, after, q);
  }

  /** Lookups in a list with an entry replaced by one of the same path. */
  lemma ReplaceLookup(head: seq<Entry>, k: nat, e: Entry)
    requires k < |head| && head[k].path == e.path && Lookup(head[..k], e.path) == None
    ensures Lookup(head[k := e], e.path) == Some(e)
    ensures forall q :: q != e.path ==> Lookup(head[k := e], q) == Lookup(head, q)
  {
    var before, after := head[..k], head[k + 1..];
    ReplaceSplit(head, k, e);
    LookupFinds(before, e, after);
    forall q | q != e.path
      ensures Lookup(before + [e] + after, q) == Lookup(before + [head[k]] + after, q)
    {
      LookupSwaps(before, e, head[k], after, q);
    }
  }

  /** The list around the replaced entry. */
  lemma ReplaceSplit(head: seq<Entry>, k: nat, e: Entry)
    requires k < |head|
    ensures head[k := e] == head[..k] + [e] + head[k + 1..]
    ensures head == head[..k] + [head[k]] + head[k + 1..]
  {
  }

  /** Two entries of another path are alike to a lookup. */
  lemma LookupSwaps(before: seq<Entry>, a: Entry, b: Entry, after: seq<Entry>, q: SKPath)
    requires q != a.path && q != b.path
    ensures Lookup(before + [a] + after, q) == Lookup(before + [b] + after, q)
  {
    LookupSkips(before, a, after, q);
    LookupSkips(before, b, after, q);
  }

  /** skkv_get: the source and value of the entry found, or
    * SKErrorUndefinedValue. */
  method Get(head: seq<Entry>, path: SKPath) returns (r: Result<(SKSource, SKValue), SKError>)
    ensures r.Err? ==> r.error == ErrorUndefinedValue
    ensures r.Ok? ==> exists i :: 0 <= i < |head| && PathCmp(path, head[i].path) == 0 && r.value == (head[i].source, head[i].value)
    ensures Ordered(head) && Wellformed(path) ==>
              r == match Lookup(head, path)
                   case Some(e) => Ok((e.source, e.value))
                   case None => Err(ErrorUndefinedValue)
  {
    var e, previous := Find(head, path);
    if e.None? {
      r := Err(ErrorUndefinedValue);
    } else {
      r := Ok((head[e.value].source, head[e.value].value));
    }
    if Ordered(head) && Wellformed(path) {
      FindIsLookup(head, path, if previous.None? then 0 else previous.value + 1);
    }
  }

  /** skkv_count: the number of entries, counted by walking the list. */
  method Count(head: seq<Entry>) returns (count: int)
    ensures count == |head|
  {
    count := 0;
    var rest := head;
    while rest != []
      invariant count + |rest| == |head|
    {
      count := count + 1;
      rest := rest[1..];
    }
  }

  /** A set followed by a get of the same path gives back what was set. */
  method SetThenGet(head: seq<Entry>, path: SKPath, source: SKSource, value: SKValue) returns (r: Result<(SKSource, SKValue), SKError>)
    requires Ordered(head) && Wellformed(path)
    ensures r == Ok((source, value))
  {
    var list := Set(head, path, source, value);
    r := Get(list, path);
  }
}

=== FILE: sktime.dfy ===
/** The calendar arithmetic behind SKTime (src/common/signalk/SKTime.cpp):
  * a Unix timestamp broken into civil date and time, and assembled again.
  * Years are offsets from 1970, months count from 1. */
module Calendar {
  import opened Bytes

  // SECS_PER_MIN, SECS_PER_HOUR and SECS_PER_DAY appear as the literals
  // 60, 3600 and 86400; a 32-bit unsigned value wraps modulo 2^32.
  const Modulus: nat := 0x1_0000_0000

  /** LEAP_YEAR: the Gregorian rule applied to 1970 + y. */
  predicate LeapYear(y: nat)
  {
    var year := 1970 + y;
    year % 4 == 0 && (year % 100 != 0 || year % 400 == 0)
  }

  function YearLength(y: nat): (n: nat)
    ensures n == 365 || n == 366
  {
    if LeapYear(y) then 366 else 365
  }

  /** monthDays: the month lengths of a common year, January first. */
  const MonthDays: seq<nat> := [31, 28, 31, 30, 31, 30, 31, 31, 30, 31, 30, 31]

  /** The length of month m (from 0) of year y: February from the leap
    * rule, the other months as in monthDays. */
  function MonthLength(y: nat, m: nat): (n: nat)
    requires m < 12
    ensures 28 <= n <= 31
    ensures m != 1 ==> n == MonthDays[m]
  {
    if m == 1 then (if LeapYear(y) then 29 else 28)
    else if m == 3 || m == 5 || m == 8 || m == 10 then 30
    else 31
  }

  /** Days from 1 January 1970 to 1 January of year y. */
  function DaysBeforeYear(y: nat): nat
  {
    if y == 0 then 0 else DaysBeforeYear(y - 1) + YearLength(y - 1)
  }

  /** Days from 1 January to the first day of month m (m counts from 0). */
  function DaysBeforeMonth(y: nat, m: nat): nat
    requires m <= 12
  {
    if m == 0 then 0 else DaysBeforeMonth(y, m - 1) + MonthLength(y, m - 1)
  }

  /** The twelve months make up the year. */
  lemma MonthsMakeYear(y: nat)
    ensures DaysBeforeMonth(y, 12) == YearLength(y)
  {
    assert DaysBeforeMonth(y, 0) == 0;
    assert MonthLength(y, 0) == 31;
    var d := DaysBeforeMonth(y, 1);
    assert d == 31;
    d := DaysBeforeMonth(y, 2);
    assert d == 31 + MonthLength(y, 1);
    assert DaysBeforeMonth(y, 3) == d + 31;
    assert DaysBeforeMonth(y, 4) == d + 61;
    assert DaysBeforeMonth(y, 5) == d + 92;
    assert DaysBeforeMonth(y, 6) == d + 122;
    assert DaysBeforeMonth(y, 7) == d + 153;
    assert DaysBeforeMonth(y, 8) == d + 184;
    assert DaysBeforeMonth(y, 9) == d + 214;
    assert DaysBeforeMonth(y, 10) == d + 245;
    assert DaysBeforeMonth(y, 11) == d + 275;
    assert DaysBeforeMonth(y, 12) == d + 306;
  }

  lemma {:induction false} DaysBeforeYearGrows(y: nat)
    ensures 365 * y <= DaysBeforeYear(y) <= 366 * y
  {
    if y > 0 {
      DaysBeforeYearGrows(y - 1);
    }
  }

  /** The broken-down time of breakTime / makeTime (tmElements_t). */
  datatype Tm = Tm(second: uint8, minute: uint8, hour: uint8, wday: uint8, day: uint8, month: uint8, year: uint8)

  /** The year a day falls in, counting from year y, and the day within
    * that year. */
  function YearOf(days: nat, y: nat): (r: (nat, nat))
    ensures DaysBeforeYear(y) + days == DaysBeforeYear(r.0) + r.1
    ensures r.0 >= y && r.1 < YearLength(r.0)
    decreases days
  {
    if days < YearLength(y) then (y, days) else YearOf(days - YearLength(y), y + 1)
  }

  /** The month (from 0) a day of year y falls in, counting from month m,
    * and the day within that month. */
  function MonthOf(y: nat, doy: nat, m: nat): (r: (nat, nat))
    requires m <= 12 && DaysBeforeMonth(y, m) + doy < YearLength(y)
    ensures m <= r.0 < 12 && r.1 < MonthLength(y, r.0)
    ensures DaysBeforeMonth(y, m) + doy == DaysBeforeMonth(y, r.0) + r.1
    decreases 12 - m
  {
    MonthsMakeYear(y);
    if doy < MonthLength(y, m) then (m, doy) else MonthOf(y, doy - MonthLength(y, m), m + 1)
  }

  /** A valid civil date and time. */
  predicate ValidTm(tm: Tm)
  {
    1 <= tm.month <= 12 && 1 <= tm.day <= MonthLength(tm.year, tm.month - 1)
    && tm.hour < 24 && tm.minute < 60 && tm.second < 60 && 1 <= tm.wday <= 7
  }

  /** The day number since 1970 that a broken-down time names. */
  function DayNumber(tm: Tm): int
    requires tm.month <= 13
  {
    DaysBeforeYear(tm.year) + (if tm.month == 0 then 0 else DaysBeforeMonth(tm.year, tm.month - 1)) + tm.day - 1
  }

  /** What makeTime computes: the seconds of the date and time, in a 32-bit
    * unsigned accumulator. Months beyond 13 read past monthDays. */
  function MakeTimeSpec(tm: Tm): (t: uint32)
    requires tm.month <= 13
  {
    (DayNumber(tm) * 86400 + tm.hour * 3600 + tm.minute * 60 + tm.second) % Modulus
  }

  /** The civil date (year from 1970, month and day from 1) of a day
    * number. */
  function CivilDate(days: nat): (r: (nat, nat, nat))
    ensures 1 <= r.1 <= 12 && 1 <= r.2 <= MonthLength(r.0, r.1 - 1)
    ensures DaysBeforeYear(r.0) + DaysBeforeMonth(r.0, r.1 - 1) + r.2 - 1 == days
    ensures 365 * r.0 <= days
  {
    var (y, doy) := YearOf(days, 0);
    DaysBeforeYearGrows(y);
    var (m, d) := MonthOf(y, doy, 0);
    (y, m + 1, d + 1)
  }

  /** breakTime: the civil date and time of a timestamp. */
  function Civil(time: uint32): (tm: Tm)
    ensures ValidTm(tm) && tm.year <= 136
    ensures DayNumber(tm) == time / 86400
    ensures tm.hour * 3600 + tm.minute * 60 + tm.second == time % 86400
  {
    var days := ((time / 60) / 60) / 24;
    DivisionSteps(time);
    var (y, m, d) := CivilDate(days);
    TimeOfDay(time);
    Tm(time % 60, (time / 60) % 60, ((time / 60) / 60) % 24, ((days + 4) % 7) + 1, d, m, y)
  }

  /** makeTime undoes breakTime for every 32-bit timestamp. */
  lemma MakeTimeOfCivil(time: uint32)
    ensures MakeTimeSpec(Civil(time)) == time
  {
    MakeTimeOfParts(Civil(time), time);
  }

  lemma MakeTimeOfParts(tm: Tm, time: uint32)
    requires tm.month <= 13 && DayNumber(tm) == time / 86400
    requires tm.hour * 3600 + tm.minute * 60 + tm.second == time % 86400
    ensures MakeTimeSpec(tm) == time
  {
    assert time == (time / 86400) * 86400 + time % 86400;
  }

  /** The seconds into the day are its hours, minutes and seconds. */
  lemma TimeOfDay(t: nat)
    ensures ((t / 3600) % 24) * 3600 + ((t / 60) % 60) * 60 + t % 60 == t % 86400
  {
    var q1 := t / 60;
    var q2 := q1 / 60;
    DivisionSteps(t);
    assert t == q1 * 60 + t % 60;
    assert q1 == q2 * 60 + q1 % 60;
    assert q2 == (q2 / 24) * 24 + q2 % 24;
    assert t == (t / 86400) * 86400 + t % 86400;
  }

  lemma DivisionSteps(t: nat)
    ensures (t / 60) / 60 == t / 3600 && ((t / 60) / 60) / 24 == t / 86400
  {
  }

  /** breakTime: the seconds, minutes and hours by division, then the years
    * and months counted off one at a time. */
  method BreakTime(timeInput: uint32) returns (tm: Tm)
    ensures tm == Civil(timeInput)
  {
    var time: nat := timeInput;
    var second := time % 60;
    time := time / 60;
    var minute := time % 60;
    time := time / 60;
    var hour := time % 24;
    time := time / 24;
    var wday := ((time + 4) % 7) + 1;

    var year, dayOfYear := CountYears(time);
    var month, day := CountMonths(year, dayOfYear);
    CivilOfCounts(timeInput, year, dayOfYear, month, day);
    tm := Tm(second, minute, hour, wday, day + 1, month + 1, year);
  }

  /** The year and month counts of breakTime give the civil date. */
  lemma CivilOfCounts(time: uint32, y: nat, doy: nat, m: nat, d: nat)
    requires YearOf(((time / 60) / 60) / 24, 0) == (y, doy)
    requires DaysBeforeMonth(y, 0) + doy < YearLength(y) && MonthOf(y, doy, 0) == (m, d)
    ensures Civil(time) == Tm(time % 60, (time / 60) % 60, ((time / 60) / 60) % 24, ((((time / 60) / 60) / 24 + 4) % 7) + 1, d + 1, m + 1, y)
  {
    CivilDateOf(((time / 60) / 60) / 24, y, doy, m, d);
    CivilIs(time, y, m + 1, d + 1);
  }

  /** The year loop of breakTime: whole years are counted off while the
    * running total of their days stays within the day number. */
  method CountYears(time: nat) returns (year: nat, dayOfYear: nat)
    ensures YearOf(time, 0) == (year, dayOfYear)
  {
    year := 0;
    var days: nat := 0;
    while true
      invariant days == DaysBeforeYear(year) <= time
      invariant YearOf(time, 0) == YearOf(time - days, year)
      decreases time - days
    {
      days := days + YearLength(year);
      if days > time {
        break;
      }
      year := year + 1;
    }
    days := days - YearLength(year);
    dayOfYear := time - days;
  }

  /** The month loop of breakTime: month lengths are taken off the day of
    * the year until the rest falls inside a month. */
  method CountMonths(year: nat, dayOfYear: nat) returns (month: nat, day: nat)
    requires dayOfYear < YearLength(year)
    ensures DaysBeforeMonth(year, 0) + dayOfYear < YearLength(year)
    ensures MonthOf(year, dayOfYear, 0) == (month, day)
  {
    MonthsMakeYear(year);
    var time := dayOfYear;
    month := 0;
    while month < 12
      invariant month <= 12
      invariant DaysBeforeMonth(year, month) + time == dayOfYear
      invariant MonthOf(year, time, month) == MonthOf(year, dayOfYear, 0)
      decreases 12 - month
    {
      var monthLength := MonthLength(year, month);
      if time >= monthLength {
        MonthOfNext(year, time, month);
        time := time - monthLength;
      } else {
        break;
      }
      month := month + 1;
    }
    day := time;
  }

  lemma MonthOfNext(y: nat, doy: nat, m: nat)
    requires m < 12 && DaysBeforeMonth(y, m) + doy < YearLength(y) && doy >= MonthLength(y, m)
    ensures MonthOf(y, doy, m) == MonthOf(y, doy - MonthLength(y, m), m + 1)
  {
  }

  lemma CivilIs(time: uint32, y: nat, m: nat, d: nat)
    requires CivilDate(((time / 60) / 60) / 24) == (y, m, d)
    ensures Civil(time) == Tm(time % 60, (time / 60) % 60, ((time / 60) / 60) % 24, ((((time / 60) / 60) / 24 + 4) % 7) + 1, d, m, y)
  {
  }

  lemma CivilDateOf(days: nat, y: nat, doy: nat, m: nat, d: nat)
    requires YearOf(days, 0) == (y, doy)
    requires DaysBeforeMonth(y, 0) + doy < YearLength(y) && MonthOf(y, doy, 0) == (m, d)
    ensures CivilDate(days) == (y, m + 1, d + 1)
  {
  }

  /** Adding to a 32-bit accumulator commutes with the wrap-around. */
  lemma ModAdd(a: int, b: int)
    ensures (a % Modulus + b) % Modulus == (a + b) % Modulus
  {
    var q := a / Modulus;
    assert a == q * Modulus + a % Modulus;
    assert a + b == q * Modulus + (a % Modulus + b);
  }

  lemma ModAdd4(x: int, a: int, b: int, c: int, d: int)
    ensures ((((x % Modulus + a) % Modulus + b) % Modulus + c) % Modulus + d) % Modulus == (x + a + b + c + d) % Modulus
  {
    ModAdd(x, a);
    ModAdd(x + a, b);
    ModAdd(x + a + b, c);
    ModAdd(x + a + b + c, d);
  }

  /** makeTime: the seconds of the years before, the months before, then
    * the day and time, each added to a 32-bit accumulator. */
  method MakeTime(tm: Tm) returns (seconds: uint32)
    requires tm.month <= 13   // months past 13 read outside monthDays
    ensures seconds == MakeTimeSpec(tm)
  {
    seconds := YearSeconds(tm.year);
    seconds := AddMonthSeconds(seconds, tm.year, tm.month);
    ghost var days := DaysBeforeYear(tm.year) + (if tm.month == 0 then 0 else DaysBeforeMonth(tm.year, tm.month - 1));
    DayAndTimeAdded(tm, days);
    seconds := (seconds + (tm.day - 1) * 86400) % Modulus;
    seconds := (seconds + tm.hour * 3600) % Modulus;
    seconds := (seconds + tm.minute * 60) % Modulus;
    seconds := (seconds + tm.second) % Modulus;
  }

  /** Adding the day, hour, minute and second to the seconds of the days
    * before the month, each step wrapped, gives makeTime's result. */
  lemma DayAndTimeAdded(tm: Tm, days: int)
    requires tm.month <= 13 && days == DayNumber(tm) - (tm.day - 1)
    ensures (((((days * 86400) % Modulus + (tm.day - 1) * 86400) % Modulus + tm.hour * 3600) % Modulus
              + tm.minute * 60) % Modulus + tm.second) % Modulus == MakeTimeSpec(tm)
  {
    ModAdd4(days * 86400, (tm.day - 1) * 86400, tm.hour * 3600, tm.minute * 60, tm.second);
    assert days * 86400 + (tm.day - 1) * 86400 == DayNumber(tm) * 86400;
  }

  /** The first loop of makeTime: 365 days for each year before, and one
    * more for each leap year among them. */
  method YearSeconds(year: nat) returns (seconds: uint32)
    ensures seconds == (DaysBeforeYear(year) * 86400) % Modulus
  {
    ghost var days: int := year * 365;
    seconds := (year * (86400 * 365)) % Modulus;
    var i := 0;
    while i < year
      invariant i <= year && seconds == (days * 86400) % Modulus
      invariant days == 365 * year + DaysBeforeYear(i) - 365 * i
    {
      if LeapYear(i) {
        ModAdd(days * 86400, 86400);
        seconds, days := (seconds + 86400) % Modulus, days + 1;
      }
      i := i + 1;
    }
  }

  /** The second loop of makeTime: the days of the months before month
    * (from 1) of the year, February from the leap rule. */
  method AddMonthSeconds(start: uint32, year: nat, month: nat) returns (seconds: uint32)
    requires month <= 13 && start == (DaysBeforeYear(year) * 86400) % Modulus
    ensures seconds == ((DaysBeforeYear(year) + (if month == 0 then 0 else DaysBeforeMonth(year, month - 1))) * 86400) % Modulus
  {
    seconds := start;
    ghost var days := DaysBeforeYear(year);
    var i := 1;
    while i < month
      invariant 1 <= i <= 13 && (month >= 1 ==> i <= month) && (month == 0 ==> i == 1)
      invariant seconds == (days * 86400) % Modulus
      invariant days == DaysBeforeYear(year) + DaysBeforeMonth(year, i - 1)
    {
      if i == 2 && LeapYear(year) {
        ModAdd(days * 86400, 86400 * 29);
        seconds, days := (seconds + 86400 * 29) % Modulus, days + 29;
      } else {
        var monthDays := MonthDays[i - 1];
        ModAdd(days * 86400, 86400 * monthDays);
        seconds, days := (seconds + 86400 * monthDays) % Modulus, days + monthDays;
      }
      i := i + 1;
    }
  }
}

=== FILE: slip.dfy ===
/** SLIP framing (RFC 1055) as the two host tools do it: the generator
  * `slip_reader` and `write` of tools/kbox.py, and the stricter copy of the
  * same generator in tools/remote-display.py.
  *
  * Both generators share one byte step. They differ in what happens around
  * it: the KBox tool ignores bytes until it has seen a first END, yields None
  * on a read that returns nothing, and replaces a failed generator by a fresh
  * one (KBox.read). The remote-display tool fails on any stray byte, fails on
  * an empty read, and its generator stays finished after a failure. */
module Slip {
  import opened Bytes
  import opened Wrappers

  const END: uint8 := 0xC0
  const ESC: uint8 := 0xDB
  const ESC_END: uint8 := 0xDC
  const ESC_ESC: uint8 := 0xDD

  // ---------------------------------------------------------------------
  // Encoding
  // ---------------------------------------------------------------------

  /** Python's `str.replace` with a one-byte pattern. */
  function Replace(s: seq<uint8>, pattern: uint8, replacement: seq<uint8>): seq<uint8>
  {
    if s == [] then []
    else (if s[0] == pattern then replacement else [s[0]]) + Replace(s[1..], pattern, replacement)
  }

  /** RFC 1055 escaping of one data byte. */
  function EscapeByte(b: uint8): seq<uint8>
  {
    if b == END then [ESC, ESC_END] else if b == ESC then [ESC, ESC_ESC] else [b]
  }

  /** Byte-by-byte escaping of a whole packet. */
  function Escape(p: seq<uint8>): seq<uint8>
  {
    if p == [] then [] else EscapeByte(p[0]) + Escape(p[1..])
  }

  /** `write`: ESC is replaced first, then END, and the result is framed by END. */
  function Write(packet: seq<uint8>): seq<uint8>
  {
    [END] + Replace(Replace(packet, ESC, [ESC, ESC_ESC]), END, [ESC, ESC_END]) + [END]
  }

  lemma {:induction false} ReplaceAppend(a: seq<uint8>, b: seq<uint8>, pattern: uint8, replacement: seq<uint8>)
    ensures Replace(a + b, pattern, replacement) == Replace(a, pattern, replacement) + Replace(b, pattern, replacement)
  {
    if a == [] {
      assert a + b == b;
    } else {
      assert (a + b)[0] == a[0] && (a + b)[1..] == a[1..] + b;
      ReplaceAppend(a[1..], b, pattern, replacement);
    }
  }

  /** Replacing ESC first and END second is the same as escaping byte by byte:
    * the first pass introduces no END, so the second pass only touches the
    * packet's own END bytes. */
  lemma {:induction false} ReplaceChainIsEscape(p: seq<uint8>)
    ensures Replace(Replace(p, ESC, [ESC, ESC_ESC]), END, [ESC, ESC_END]) == Escape(p)
  {
    if p != [] {
      var first := if p[0] == ESC then [ESC, ESC_ESC] else [p[0]];
      assert Replace(p, ESC, [ESC, ESC_ESC]) == first + Replace(p[1..], ESC, [ESC, ESC_ESC]);
      ReplaceAppend(first, Replace(p[1..], ESC, [ESC, ESC_ESC]), END, [ESC, ESC_END]);
      if p[0] == ESC {
        assert Replace(first, END, [ESC, ESC_END]) == [ESC] + Replace([ESC_ESC], END, [ESC, ESC_END]);
      } else {
        assert Replace(first, END, [ESC, ESC_END]) == EscapeByte(p[0]) + Replace([], END, [ESC, ESC_END]);
      }
      ReplaceChainIsEscape(p[1..]);
    }
  }

  /** The escaped body never contains END, so END only appears as the first
    * and last byte of a frame. */
  lemma {:induction false} EscapeHasNoEnd(p: seq<uint8>)
    ensures END !in Escape(p)
  {
    if p != [] {
      EscapeHasNoEnd(p[1..]);
      assert Escape(p) == EscapeByte(p[0]) + Escape(p[1..]);
    }
  }

  // ---------------------------------------------------------------------
  // Decoding
  // ---------------------------------------------------------------------

  /** The generator's local variables: `partial_packet` (None while waiting
    * for a header), `in_escape` and `connected`. */
  datatype ReaderState = ReaderState(partial: Option<seq<uint8>>, inEscape: bool, connected: bool)

  /** The state a new generator starts in. The strict reader has no
    * `connected` flag; it behaves like a reader that is connected from the
    * start. */
  function Initial(strict: bool): ReaderState
  {
    ReaderState(None, false, strict)
  }

  /** An idle reader is between packets. */
  predicate Idle(s: ReaderState)
  {
    s.partial.None? && !s.inEscape
  }

  datatype SlipError = InvalidHead(b: uint8) | InvalidEscape(b: uint8) | TimedOutWaiting

  datatype StepResult =
    | Continue(next: ReaderState)
    | Emit(next: ReaderState, packet: seq<uint8>)
    | Fail(error: SlipError)

  /** One byte of the `for b in read_bytes` loop. */
  function Step(s: ReaderState, b: uint8): StepResult
  {
    if s.partial.None? then
      if b == END then Continue(ReaderState(Some([]), false, true))
      else if s.connected then Fail(InvalidHead(b))
      else Continue(s)
    else if s.inEscape then
      if b == ESC_END then Continue(s.(partial := Some(s.partial.value + [END]), inEscape := false))
      else if b == ESC_ESC then Continue(s.(partial := Some(s.partial.value + [ESC]), inEscape := false))
      else Fail(InvalidEscape(b))
    else if b == ESC then Continue(s.(inEscape := true))
    else if b == END then Emit(s.(partial := None), s.partial.value)
    else Continue(s.(partial := Some(s.partial.value + [b])))
  }

  /** What the consumer of the generator observes. */
  datatype Event =
    | Packet(packet: seq<uint8>)   // a yielded packet
    | NoPacket                     // `yield None` after an empty read
    | Failed(error: SlipError)     // a raised KBoxError / FatalError
    | Stopped                      // next() on a finished generator

  /** The generator after a failure: KBox.read replaces it by a fresh one,
    * the remote-display tool's generator is finished. */
  function AfterFailure(strict: bool): Option<ReaderState>
  {
    if strict then None else Some(Initial(false))
  }

  datatype Decoded = Decoded(generator: Option<ReaderState>, events: seq<Event>)

  /** The bytes of one read, in order. A failure ends the generator and the
    * rest of that read is lost with it. */
  function RunBytes(s: ReaderState, bs: seq<uint8>, strict: bool): Decoded
    decreases |bs|
  {
    if bs == [] then Decoded(Some(s), [])
    else match Step(s, bs[0])
      case Continue(s1) => RunBytes(s1, bs[1..], strict)
      case Emit(s1, p) =>
        var rest := RunBytes(s1, bs[1..], strict);
        Decoded(rest.generator, [Packet(p)] + rest.events)
      case Fail(e) => Decoded(AfterFailure(strict), [Failed(e)])
  }

  /** One `port.read`: an empty read is a timeout. */
  function ReadChunk(g: Option<ReaderState>, chunk: seq<uint8>, strict: bool): Decoded
  {
    if g.None? then Decoded(None, [Stopped])
    else if chunk == [] then
      if strict then Decoded(None, [Failed(TimedOutWaiting)]) else Decoded(g, [NoPacket])
    else RunBytes(g.value, chunk, strict)
  }

  // ---------------------------------------------------------------------
  // Properties of the decoder
  // ---------------------------------------------------------------------

  /** Inside a packet, the escaped body followed by END yields exactly the
    * body, and the reader is idle and connected afterwards. */
  lemma {:induction false} BodyThenEnd(acc: seq<uint8>, p: seq<uint8>, rest: seq<uint8>, connected: bool, strict: bool)
    ensures RunBytes(ReaderState(Some(acc), false, connected), Escape(p) + [END] + rest, strict)
         == var r := RunBytes(ReaderState(None, false, connected), rest, strict);
            Decoded(r.generator, [Packet(acc + p)] + r.events)
    decreases |p|
  {
    var s := ReaderState(Some(acc), false, connected);
    if p == [] {
      assert Escape(p) + [END] + rest == [END] + rest;
      assert (Escape(p) + [END] + rest)[1..] == rest;
      assert Step(s, END) == Emit(ReaderState(None, false, connected), acc);
      assert acc + p == acc;
    } else {
      var b := p[0];
      var tail := Escape(p[1..]) + [END] + rest;
      assert Escape(p) + [END] + rest == EscapeByte(b) + tail;
      EscapedByteRun(acc, b, tail, connected, strict);
      BodyThenEnd(acc + [b], p[1..], rest, connected, strict);
      assert acc + [b] + p[1..] == acc + p;
    }
  }

  /** Inside a packet, an escaped byte is added to the packet. */
  lemma EscapedByteRun(acc: seq<uint8>, b: uint8, tail: seq<uint8>, connected: bool, strict: bool)
    ensures RunBytes(ReaderState(Some(acc), false, connected), EscapeByte(b) + tail, strict)
         == RunBytes(ReaderState(Some(acc + [b]), false, connected), tail, strict)
  {
    var s := ReaderState(Some(acc), false, connected);
    if b == END || b == ESC {
      var code := if b == END then ESC_END else ESC_ESC;
      assert (EscapeByte(b) + tail)[1..] == [code] + tail;
      assert ([code] + tail)[1..] == tail;
      var s1 := s.(inEscape := true);
      assert Step(s, ESC) == Continue(s1);
      assert Step(s1, code) == Continue(ReaderState(Some(acc + [b]), false, connected));
    } else {
      assert (EscapeByte(b) + tail)[1..] == tail;
      assert Step(s, b) == Continue(ReaderState(Some(acc + [b]), false, connected));
    }
  }

  /** Round trip: an idle reader decodes the output of `write` back into the
    * packet, whether or not it was connected before, and is left idle and
    * connected. */
  lemma {:induction false} WriteThenRead(s: ReaderState, p: seq<uint8>, rest: seq<uint8>, strict: bool)
    requires Idle(s)
    ensures RunBytes(s, Write(p) + rest, strict)
         == var r := RunBytes(ReaderState(None, false, true), rest, strict);
            Decoded(r.generator, [Packet(p)] + r.events)
  {
    ReplaceChainIsEscape(p);
    assert Write(p) + rest == [END] + (Escape(p) + [END] + rest);
    assert Step(s, END) == Continue(ReaderState(Some([]), false, true));
    BodyThenEnd([], p, rest, true, strict);
    assert [] + p == p;
  }

  /** The frames of `write` for several packets, sent back to back. */
  function WriteAll(ps: seq<seq<uint8>>): seq<uint8>
  {
    if ps == [] then [] else Write(ps[0]) + WriteAll(ps[1..])
  }

  function Packets(ps: seq<seq<uint8>>): (r: seq<Event>)
    ensures |r| == |ps| && forall i :: 0 <= i < |ps| ==> r[i] == Packet(ps[i])
  {
    if ps == [] then [] else [Packet(ps[0])] + Packets(ps[1..])
  }

  /** Back-to-back frames are delivered one by one, in order, with no error,
    * by either reader. */
  lemma {:induction false} WriteAllThenRead(s: ReaderState, ps: seq<seq<uint8>>, strict: bool)
    requires Idle(s)
    ensures RunBytes(s, WriteAll(ps), strict).events == Packets(ps)
    ensures RunBytes(s, WriteAll(ps), strict).generator.Some?
    decreases |ps|
  {
    if ps != [] {
      WriteThenRead(s, ps[0], WriteAll(ps[1..]), strict);
      WriteAllThenRead(ReaderState(None, false, true), ps[1..], strict);
    }
  }

  /** Resynchronisation (KBox tool only): bytes other than END seen before the
    * first END are dropped without an error, so a frame that follows such
    * noise is still decoded. */
  lemma {:induction false} NoiseBeforeFirstFrame(noise: seq<uint8>, p: seq<uint8>)
    requires END !in noise
    ensures RunBytes(Initial(false), noise + Write(p), false).events == [Packet(p)]
  {
    if noise == [] {
      WriteThenRead(Initial(false), p, [], false);
      assert noise + Write(p) == Write(p) + [];
    } else {
      assert (noise + Write(p))[1..] == noise[1..] + Write(p);
      assert Step(Initial(false), noise[0]) == Continue(Initial(false));
      NoiseBeforeFirstFrame(noise[1..], p);
    }
  }

  /** Once connected (and always, for the strict reader), a byte other than
    * END between packets is an error that ends the generator. */
  lemma StrayByteFails(s: ReaderState, b: uint8, rest: seq<uint8>, strict: bool)
    requires Idle(s) && s.connected && b != END
    ensures RunBytes(s, [b] + rest, strict) == Decoded(AfterFailure(strict), [Failed(InvalidHead(b))])
  {
    assert ([b] + rest)[0] == b;
  }

  /** An ESC followed by anything but ESC_END or ESC_ESC is an error. */
  lemma InvalidEscapeFails(s: ReaderState, b: uint8, rest: seq<uint8>, strict: bool)
    requires s.partial.Some? && !s.inEscape && b != ESC_END && b != ESC_ESC
    ensures RunBytes(s, [ESC, b] + rest, strict) == Decoded(AfterFailure(strict), [Failed(InvalidEscape(b))])
  {
    assert ([ESC, b] + rest)[1..] == [b] + rest;
  }

  /** An empty read of the KBox tool keeps the packet received so far. */
  lemma TimeoutKeepsPartial(s: ReaderState)
    ensures ReadChunk(Some(s), [], false) == Decoded(Some(s), [NoPacket])
    ensures ReadChunk(Some(s), [], true) == Decoded(None, [Failed(TimedOutWaiting)])
  {
  }

  // ---------------------------------------------------------------------
  // The generator as an object
  // ---------------------------------------------------------------------

  /** A running `slip_reader` generator. `live` is false once the strict
    * generator has raised. */
  class SlipReader {
    const strict: bool
    var live: bool
    var partial: seq<uint8>
    var inPacket: bool
    var inEscape: bool
    var connected: bool

    function Generator(): Option<ReaderState>
      reads this
    {
      if live then Some(ReaderState(if inPacket then Some(partial) else None, inEscape, connected)) else None
    }

    constructor(strict: bool)
      ensures this.strict == strict && Generator() == Some(Initial(strict))
    {
      this.strict := strict;
      live := true;
      partial := [];
      inPacket := false;
      inEscape := false;
      connected := strict;
    }

    method SetState(g: Option<ReaderState>)
      modifies this
      ensures Generator() == g
    {
      live := g.Some?;
      if g.Some? {
        inPacket := g.value.partial.Some?;
        partial := if inPacket then g.value.partial.value else [];
        inEscape := g.value.inEscape;
        connected := g.value.connected;
      }
    }

    /** One pass of the generator's `while True` body: read, then consume the
      * bytes one at a time. */
    method Read(chunk: seq<uint8>) returns (events: seq<Event>)
      modifies this
      ensures Decoded(Generator(), events) == ReadChunk(old(Generator()), chunk, strict)
    {
      if !live {
        return [Stopped];
      }
      if chunk == [] {
        if strict {
          live := false;
          return [Failed(TimedOutWaiting)];
        }
        return [NoPacket];
      }
      ghost var start := Generator().value;
      events := [];
      var i := 0;
      while i < |chunk|
        invariant 0 <= i <= |chunk| && live
        decreases |chunk| - i
        invariant var r := RunBytes(Generator().value, chunk[i..], strict);
          Decoded(r.generator, events + r.events) == RunBytes(start, chunk, strict)
      {
        var b := chunk[i];
        assert chunk[i..][0] == b && chunk[i..][1..] == chunk[i + 1..];
        var s := Generator().value;
        match Step(s, b) {
        case Continue(s1) =>
          SetState(Some(s1));
        case Emit(s1, p) =>
          SetState(Some(s1));
          events := events + [Packet(p)];
        case Fail(e) =>
          SetState(AfterFailure(strict));
          events := events + [Failed(e)];
          return;
        }
        i := i + 1;
      }
    }
  }
}

=== FILE: slip_stream.dfy ===
/** The firmware's SLIP decoder and encoder (lib/KBox/src/util/SlipStream.cpp).
  * The decoder collects the bytes of one frame in a buffer of `mtu` bytes and
  * consumes input only until a frame is complete. A frame with an invalid
  * escape, or one that fills the whole buffer, is dropped, counted as an
  * error, and everything up to the next END is ignored. */
module SlipStream {
  import opened Bytes
  import Slip

  const END: uint8 := 0xC0
  const ESC: uint8 := 0xDB
  const ESC_END: uint8 := 0xDC
  const ESC_ESC: uint8 := 0xDD

  /** The decoder's fields: `buffer[0..index)`, `escapeMode`,
    * `messageComplete`, `_invalidFrame` and `_invalidFrameErrors`, a
    * uint32_t that wraps. */
  datatype DecoderState = DecoderState(frame: seq<uint8>, escape: bool, complete: bool, invalid: bool, errors: uint32)

  /** `_invalidFrameErrors++` on a uint32_t. */
  function CountError(errors: uint32): (r: uint32)
    ensures r as int == (errors as int + 1) % 0x1_0000_0000
    ensures errors < 0xFFFF_FFFF ==> r == errors + 1
    ensures errors == 0xFFFF_FFFF ==> r == 0
  {
    if errors == 0xFFFF_FFFF then 0 else errors + 1
  }

  /** One pass of the body of the `available` loop. */
  function ByteStep(s: DecoderState, b: uint8): DecoderState
  {
    if s.escape then
      if b == ESC_END then s.(frame := s.frame + [END], escape := false)
      else if b == ESC_ESC then s.(frame := s.frame + [ESC], escape := false)
      else s.(frame := [], errors := CountError(s.errors), invalid := true, escape := false)
    else if b == END then
      if s.invalid then s.(invalid := false, frame := [])
      else if |s.frame| > 0 then s.(complete := true)
      else s
    else if b == ESC then s.(escape := true)
    else s.(frame := s.frame + [b])
  }

  datatype Progress = Progress(state: DecoderState, input: seq<uint8>)

  /** The `while` loop of `available`: it stops when the input is exhausted,
    * when the buffer is full or when a frame is complete. */
  function Drain(s: DecoderState, input: seq<uint8>, mtu: nat): Progress
    decreases |input|
  {
    if input == [] || |s.frame| >= mtu || s.complete then Progress(s, input)
    else Drain(ByteStep(s, input[0]), input[1..], mtu)
  }

  /** `available`: the loop, then the rejection of a frame that reached the
    * MTU without being complete. */
  function Poll(s: DecoderState, input: seq<uint8>, mtu: nat): Progress
  {
    var p := Drain(s, input, mtu);
    if !p.state.complete && |p.state.frame| >= mtu then
      Progress(p.state.(frame := [], errors := CountError(p.state.errors), invalid := true), p.input)
    else p
  }

  /** What `available` returns. */
  function Reported(s: DecoderState): nat
  {
    if s.complete then |s.frame| else 0
  }

  /** `writeFrame`: END, each byte escaped, END. */
  function Frame(p: seq<uint8>): seq<uint8>
  {
    [END] + Slip.Escape(p) + [END]
  }

  /** The firmware's writeFrame and the host tools' `write` put the same bytes
    * on the wire. */
  lemma FrameIsHostWrite(p: seq<uint8>)
    ensures Frame(p) == Slip.Write(p)
  {
    Slip.ReplaceChainIsEscape(p);
  }

  /** A decoder that is between frames, with no frame pending. */
  predicate Ready(s: DecoderState)
  {
    s.frame == [] && !s.escape && !s.complete
  }

  /** Inside a frame, an escaped body then END completes the frame with the
    * body appended, as long as the body fits below the MTU. */
  lemma {:induction false} BodyCompletes(s: DecoderState, p: seq<uint8>, rest: seq<uint8>, mtu: nat)
    requires !s.escape && !s.complete && !s.invalid
    requires 0 < |s.frame| + |p| < mtu
    ensures Drain(s, Slip.Escape(p) + [END] + rest, mtu)
         == Progress(s.(frame := s.frame + p, complete := true), rest)
    decreases |p|
  {
    if p == [] {
      assert Slip.Escape(p) + [END] + rest == [END] + rest;
      assert ([END] + rest)[1..] == rest;
      assert s.frame + p == s.frame;
    } else {
      var b := p[0];
      var tail := Slip.Escape(p[1..]) + [END] + rest;
      assert Slip.Escape(p) + [END] + rest == Slip.EscapeByte(b) + tail;
      EscapedByteStep(s, b, tail, mtu);
      BodyCompletes(s.(frame := s.frame + [b]), p[1..], rest, mtu);
      assert s.frame + [b] + p[1..] == s.frame + p;
    }
  }

  /** Inside a frame with room left, an escaped byte appends the byte. */
  lemma EscapedByteStep(s: DecoderState, b: uint8, tail: seq<uint8>, mtu: nat)
    requires !s.escape && !s.complete && !s.invalid && |s.frame| + 1 < mtu
    ensures Drain(s, Slip.EscapeByte(b) + tail, mtu) == Drain(s.(frame := s.frame + [b]), tail, mtu)
  {
    if b == END || b == ESC {
      var code := if b == END then ESC_END else ESC_ESC;
      assert (Slip.EscapeByte(b) + tail)[1..] == [code] + tail;
      assert ([code] + tail)[1..] == tail;
      assert ByteStep(s, ESC) == s.(escape := true);
      assert ByteStep(s.(escape := true), code) == s.(frame := s.frame + [b]);
    } else {
      assert (Slip.EscapeByte(b) + tail)[1..] == tail;
    }
  }

  /** Round trip: a ready decoder delivers a non-empty frame shorter than the
    * MTU from its encoding, and leaves the bytes after it unread. This holds
    * whether or not the decoder was discarding an invalid frame. */
  lemma FrameRoundTrip(s: DecoderState, p: seq<uint8>, rest: seq<uint8>, mtu: nat)
    requires Ready(s) && 0 < |p| < mtu
    ensures Poll(s, Frame(p) + rest, mtu)
         == Progress(DecoderState(p, false, true, false, s.errors), rest)
    ensures Reported(Poll(s, Frame(p) + rest, mtu).state) == |p|
  {
    var s1 := s.(invalid := false);
    assert ByteStep(s, END) == s1;
    assert (Frame(p) + rest)[1..] == Slip.Escape(p) + [END] + rest;
    BodyCompletes(s1, p, rest, mtu);
    assert [] + p == p;
  }

  /** Repeated END bytes never make a frame and never count an error. */
  lemma {:induction false} RepeatedEnds(s: DecoderState, n: nat, mtu: nat)
    requires Ready(s) && !s.invalid && 0 < mtu
    ensures Poll(s, seq(n, _ => END), mtu) == Progress(s, [])
    ensures Reported(Poll(s, seq(n, _ => END), mtu).state) == 0
    decreases n
  {
    if n > 0 {
      assert seq(n, _ => END)[1..] == seq(n - 1, _ => END);
      RepeatedEnds(s, n - 1, mtu);
    }
  }

  /** An invalid escape empties the buffer, counts one error and marks the
    * frame invalid. */
  lemma InvalidEscape(s: DecoderState, b: uint8)
    requires !s.escape && b != ESC_END && b != ESC_ESC
    ensures var t := ByteStep(ByteStep(s, ESC), b);
      t.frame == [] && t.invalid && t.errors == CountError(s.errors) && !t.escape
  {
  }

  /** A frame of at least `mtu` plain bytes is never delivered: `available`
    * reports 0 and counts it as one error. */
  lemma {:induction false} OversizedFrameRejected(s: DecoderState, q: seq<uint8>, mtu: nat)
    requires !s.escape && !s.complete && !s.invalid && |s.frame| + |q| >= mtu
    requires forall i :: 0 <= i < |q| ==> q[i] != END && q[i] != ESC
    ensures var r := Poll(s, q, mtu);
      Reported(r.state) == 0 && r.state.errors == CountError(s.errors) && r.state.invalid && r.state.frame == []
    decreases |q|
  {
    if |s.frame| < mtu {
      assert q != [];
      OversizedFrameRejected(s.(frame := s.frame + [q[0]]), q[1..], mtu);
    }
  }

  /** Once a frame is complete, `available` consumes nothing and keeps
    * reporting its length. */
  lemma CompleteConsumesNothing(s: DecoderState, input: seq<uint8>, mtu: nat)
    requires s.complete
    ensures Poll(s, input, mtu) == Progress(s, input)
    ensures Reported(s) == |s.frame|
  {
  }

  /** Input split across two calls of `available` is decoded as if it had
    * arrived at once, provided the first call neither completed a frame nor
    * filled the buffer. */
  lemma {:induction false} SplitInput(s: DecoderState, a: seq<uint8>, b: seq<uint8>, mtu: nat)
    requires var p := Drain(s, a, mtu); !p.state.complete && |p.state.frame| < mtu
    ensures Drain(s, a, mtu).input == []
    ensures Drain(Drain(s, a, mtu).state, b, mtu) == Drain(s, a + b, mtu)
    decreases |a|
  {
    if a == [] {
      assert a + b == b;
    } else {
      assert !s.complete && |s.frame| < mtu;
      assert (a + b)[0] == a[0] && (a + b)[1..] == a[1..] + b;
      SplitInput(ByteStep(s, a[0]), a[1..], b, mtu);
    }
  }

  /** Two frames sent back to back are delivered one after the other, with a
    * `readFrame` (which empties the buffer) in between. */
  lemma BackToBack(s: DecoderState, p1: seq<uint8>, p2: seq<uint8>, mtu: nat)
    requires Ready(s) && 0 < |p1| < mtu && 0 < |p2| < mtu
    ensures var first := Poll(s, Frame(p1) + Frame(p2), mtu);
      first.state.frame == p1 && first.state.complete &&
      var second := Poll(AfterRead(first.state), first.input, mtu);
      second.state.frame == p2 && second.state.complete && second.input == []
  {
    FrameRoundTrip(s, p1, Frame(p2), mtu);
    var first := Poll(s, Frame(p1) + Frame(p2), mtu);
    FrameRoundTrip(AfterRead(first.state), p2, [], mtu);
    assert Frame(p2) + [] == Frame(p2);
  }

  /** The decoder after `readFrame`. */
  function AfterRead(s: DecoderState): DecoderState
  {
    s.(frame := [], complete := false)
  }

  /** A SlipStream over a byte stream: `input` is what the stream has
    * available, `output` what has been written to it. */
  class SlipStream {
    const mtu: nat
    const buffer: array<uint8>
    var index: nat
    var escapeMode: bool
    var messageComplete: bool
    var invalidFrame: bool
    var invalidFrameErrors: uint32
    var input: seq<uint8>
    var output: seq<uint8>

    ghost predicate Valid()
      reads this
    {
      buffer.Length == mtu && index <= mtu
    }

    function State(): DecoderState
      reads this, buffer
      requires Valid()
    {
      DecoderState(buffer[..index], escapeMode, messageComplete, invalidFrame, invalidFrameErrors)
    }

    /** The initial value of `_invalidFrame` is a parameter: the header of
      * this copy of the class is not part of the model, the application's
      * copy starts with `true`, and the library's tests need `false`. */
    constructor(input: seq<uint8>, mtu: nat, startInvalid: bool)
      ensures Valid() && fresh(buffer) && this.mtu == mtu && this.input == input && output == []
      ensures State() == DecoderState([], false, false, startInvalid, 0)
    {
      this.mtu := mtu;
      buffer := new uint8[mtu];
      index := 0;
      escapeMode := false;
      messageComplete := false;
      invalidFrame := startInvalid;
      invalidFrameErrors := 0;
      this.input := input;
      output := [];
    }

    /** Bytes arriving on the stream. */
    method Receive(bytes: seq<uint8>)
      requires Valid()
      modifies this`input
      ensures Valid() && input == old(input) + bytes
    {
      input := input + bytes;
    }

    /** The number of frames dropped so far, modulo 2^32. */
    method InvalidFrameErrors() returns (n: uint32)
      requires Valid()
      ensures n == State().errors
    {
      n := invalidFrameErrors;
    }

    method Available() returns (n: nat)
      requires Valid()
      modifies this, buffer
      ensures Valid()
      ensures Progress(State(), input) == Poll(old(State()), old(input), mtu)
      ensures n == Reported(State())
    {
      ghost var s0 := State();
      ghost var in0 := input;
      while |input| > 0 && index < mtu && !messageComplete
        invariant Valid()
        invariant Drain(State(), input, mtu) == Drain(s0, in0, mtu)
        decreases |input|
      {
        var b := input[0];
        input := input[1..];
        Step(b);
      }
      if !messageComplete && index >= mtu {
        index := 0;
        invalidFrameErrors := CountError(invalidFrameErrors);
        invalidFrame := true;
      }
      n := if messageComplete then index else 0;
    }

    /** One pass of the body of the `available` loop, on a byte taken off
      * the input. */
    method Step(b: uint8)
      requires Valid() && index < mtu
      modifies this, buffer
      ensures Valid() && input == old(input) && output == old(output)
      ensures State() == ByteStep(old(State()), b)
    {
      if escapeMode {
        if b == ESC_END {
          buffer[index] := END;
          index := index + 1;
        } else if b == ESC_ESC {
          buffer[index] := ESC;
          index := index + 1;
        } else {
          index := 0;
          invalidFrameErrors := CountError(invalidFrameErrors);
          invalidFrame := true;
        }
        escapeMode := false;
      } else {
        if b == END {
          if invalidFrame {
            invalidFrame := false;
            index := 0;
          } else if index > 0 {
            messageComplete := true;
          }
        } else if b == ESC {
          escapeMode := true;
        } else {
          buffer[index] := b;
          index := index + 1;
        }
      }
    }

    /** Copies at most `len` bytes of the frame into `ptr` and empties the
      * buffer, complete or not. */
    method ReadFrame(ptr: array<uint8>, len: nat) returns (n: nat)
      requires Valid() && len <= ptr.Length && ptr != buffer
      modifies this, ptr
      ensures Valid() && input == old(input) && output == old(output)
      ensures n == if len < old(index) then len else old(index)
      ensures ptr[..n] == old(buffer[..n]) && ptr[n..] == old(ptr[n..])
      ensures State() == AfterRead(old(State()))
    {
      n := if len > index then index else len;
      var i := 0;
      while i < n
        modifies ptr
        invariant 0 <= i <= n
        invariant ptr[..i] == buffer[..i] && ptr[n..] == old(ptr[n..])
        invariant forall k :: i <= k < n ==> ptr[k] == old(ptr[k])
      {
        ptr[i] := buffer[i];
        i := i + 1;
      }
      messageComplete := false;
      index := 0;
    }

    /** One byte of a frame on the wire: END and ESC escaped, any other
      * byte as it is. */
    method PutEscaped(b: uint8)
      modifies this`output
      ensures output == old(output) + Slip.EscapeByte(b)
    {
      if b == END {
        output := output + [ESC, ESC_END];
      } else if b == ESC {
        output := output + [ESC, ESC_ESC];
      } else {
        output := output + [b];
      }
    }

    /** Writes `ptr[0..len)` as one frame and returns `len`. */
    method WriteFrame(ptr: array<uint8>, len: nat) returns (n: nat)
      requires Valid() && len <= ptr.Length
      modifies this`output
      ensures Valid() && n == len
      ensures output == old(output) + Frame(ptr[..len])
    {
      output := output + [END];
      var i := 0;
      while i < len
        invariant 0 <= i <= len
        invariant output == old(output) + [END] + Slip.Escape(ptr[..i])
      {
        EscapeAppend(ptr[..i], ptr[i]);
        assert ptr[..i + 1] == ptr[..i] + [ptr[i]];
        PutEscaped(ptr[i]);
        i := i + 1;
      }
      assert ptr[..len] == ptr[..i];
      output := output + [END];
      n := len;
    }
  }

  lemma {:induction false} EscapeAppend(p: seq<uint8>, b: uint8)
    ensures Slip.Escape(p + [b]) == Slip.Escape(p) + Slip.EscapeByte(b)
  {
    if p == [] {
      assert p + [b] == [b];
      assert [b][1..] == [];
    } else {
      assert (p + [b])[0] == p[0] && (p + [b])[1..] == p[1..] + [b];
      EscapeAppend(p[1..], b);
    }
  }
}

=== FILE: task_manager.dfy ===
/** RunStat (src/common/os/TaskManager.h): the run count, total, minimum and
  * maximum run times of a task. unsigned int and unsigned long are 32 bits
  * wide on the Teensy target, and both the count and the total wrap. */
module TaskStats {
  import opened Bytes

  /** ULONG_MAX on the 32-bit target. */
  const ULongMax: uint32 := 0xFFFF_FFFF

  function Sum(runs: seq<uint32>): nat
  {
    if runs == [] then 0 else Sum(runs[..|runs| - 1]) + runs[|runs| - 1]
  }

  /** The largest run, 0 before any run. */
  function MaxOf(runs: seq<uint32>): uint32
  {
    if runs == [] then 0
    else
      var m := MaxOf(runs[..|runs| - 1]);
      var t := runs[|runs| - 1];
      if t > m then t else m
  }

  /** The smallest run, ULONG_MAX before any run. */
  function MinOf(runs: seq<uint32>): uint32
  {
    if runs == [] then ULongMax
    else
      var m := MinOf(runs[..|runs| - 1]);
      var t := runs[|runs| - 1];
      if t < m then t else m
  }

  /** MaxOf is the largest run and one of the runs. */
  lemma {:induction false} MaxOfIsMaximum(runs: seq<uint32>)
    ensures forall i :: 0 <= i < |runs| ==> runs[i] <= MaxOf(runs)
    ensures runs != [] ==> MaxOf(runs) in runs
  {
    if runs != [] {
      MaxOfIsMaximum(runs[..|runs| - 1]);
    }
  }

  /** MinOf is the smallest run and one of the runs. */
  lemma {:induction false} MinOfIsMinimum(runs: seq<uint32>)
    ensures forall i :: 0 <= i < |runs| ==> MinOf(runs) <= runs[i]
    ensures runs != [] ==> MinOf(runs) in runs
  {
    if runs != [] {
      MinOfIsMinimum(runs[..|runs| - 1]);
    }
  }

  /** The minimum as recordRun keeps it: the guard `minRunTime == 0 ||`
    * also replaces a minimum of 0, so the run after a zero-length run
    * becomes the minimum whatever its length. */
  function MinAsWritten(runs: seq<uint32>): uint32
  {
    if runs == [] then ULongMax
    else
      var m := MinAsWritten(runs[..|runs| - 1]);
      var t := runs[|runs| - 1];
      if m == 0 || t < m then t else m
  }

  /** Without zero-length runs the guard makes no difference. */
  lemma {:induction false} MinAsWrittenWithoutZeros(runs: seq<uint32>)
    requires forall i :: 0 <= i < |runs| ==> runs[i] != 0
    ensures MinAsWritten(runs) == MinOf(runs)
  {
    if runs != [] {
      MinAsWrittenWithoutZeros(runs[..|runs| - 1]);
    }
  }

  /** A run of 0 then a run of 5: the minimum as written is 5, above the
    * average of 2, while the true minimum is 0. */
  lemma ZeroRunLosesMinimum()
    ensures MinAsWritten([0, 5]) == 5 && Sum([0, 5]) / 2 == 2 && MinAsWritten([0, 5]) > Sum([0, 5]) / 2
    ensures MinOf([0, 5]) == 0
  {
    assert [0, 5][..1] == [0];
    assert [0][..0] == [];
  }

  lemma {:induction false} MulMonotone(a: nat, b: nat, n: nat)
    requires a <= b
    ensures a * n <= b * n
  {
    if n > 0 {
      MulMonotone(a, b, n - 1);
      MulSucc(a, n - 1);
      MulSucc(b, n - 1);
    }
  }

  lemma MulSucc(a: nat, n: nat)
    ensures a * (n + 1) == a * n + a
  {
  }

  /** A lower bound on a quotient: m * n <= s gives m <= s / n. */
  lemma QuotientAbove(s: nat, n: nat, m: nat)
    requires n > 0 && m * n <= s
    ensures m <= s / n
  {
    var q, r := s / n, s % n;
    if q < m {
      MulSucc(n, q);
      MulMonotone(q + 1, m, n);
    }
  }

  /** An upper bound on a quotient: s <= m * n gives s / n <= m. */
  lemma QuotientBelow(s: nat, n: nat, m: nat)
    requires n > 0 && s <= m * n
    ensures s / n <= m
  {
    var q, r := s / n, s % n;
    if q > m {
      MulSucc(n, m);
      MulMonotone(m + 1, q, n);
    }
  }

  /** The sum lies between the run count times the minimum and times the
    * maximum. */
  lemma {:induction false} SumBetween(runs: seq<uint32>)
    ensures MinOf(runs) * |runs| <= Sum(runs) <= MaxOf(runs) * |runs|
  {
    if runs != [] {
      var front, t := runs[..|runs| - 1], runs[|runs| - 1];
      var n, lo, hi := |front|, MinOf(runs), MaxOf(runs);
      SumBetween(front);
      assert Sum(runs) == Sum(front) + t;
      assert lo <= t <= hi by {
        MinOfIsMinimum(runs);
        MaxOfIsMaximum(runs);
      }
      if front != [] {
        MinOfIsMinimum(front);
        MaxOfIsMaximum(front);
        MinOfIsMinimum(runs);
        MaxOfIsMaximum(runs);
        assert lo <= MinOf(front) && MaxOf(front) <= hi;
        MulMonotone(lo, MinOf(front), n);
        MulMonotone(MaxOf(front), hi, n);
      }
      MulSucc(lo, n);
      MulSucc(hi, n);
    }
  }

  /** With at least one run, minimum <= average <= maximum. */
  lemma AverageBetween(runs: seq<uint32>)
    requires runs != []
    ensures MinOf(runs) <= Sum(runs) / |runs| <= MaxOf(runs)
  {
    SumBetween(runs);
    QuotientAbove(Sum(runs), |runs|, MinOf(runs));
    QuotientBelow(Sum(runs), |runs|, MaxOf(runs));
  }

  /** What one more run does to the sum, the minimum and the maximum. */
  lemma OneMoreRun(runs: seq<uint32>, t: uint32)
    ensures Sum(runs + [t]) == Sum(runs) + t
    ensures MinOf(runs + [t]) == if t < MinOf(runs) then t else MinOf(runs)
    ensures MaxOf(runs + [t]) == if t > MaxOf(runs) then t else MaxOf(runs)
  {
    assert (runs + [t])[..|runs|] == runs;
  }

  /** Adding to a 32-bit register that holds a value modulo 2^32. */
  lemma AddWraps(register: nat, a: nat, b: nat)
    requires register == a % 0x1_0000_0000
    ensures (register + b) % 0x1_0000_0000 == (a + b) % 0x1_0000_0000
  {
    var q := a / 0x1_0000_0000;
    assert a + b == q * 0x1_0000_0000 + (register + b);
  }

  class RunStat {
    var runCount: uint32
    var totalRunTime: uint32
    var minRunTime: uint32
    var maxRunTime: uint32
    /** The run times recorded so far. */
    ghost var runs: seq<uint32>

    ghost predicate Valid()
      reads this
    {
      runCount == |runs| % 0x1_0000_0000
      && totalRunTime == Sum(runs) % 0x1_0000_0000
      && minRunTime == MinOf(runs)
      && maxRunTime == MaxOf(runs)
    }

    /** Count 0, total 0, minimum ULONG_MAX, maximum 0. */
    constructor()
      ensures Valid() && runs == []
    {
      runCount, totalRunTime, minRunTime, maxRunTime := 0, 0, ULongMax, 0;
      runs := [];
    }

    /** recordRun: one more run, its time added to the total, the minimum
      * and maximum updated. The minimum takes a smaller run only. */
    method RecordRun(runTime: uint32)
      requires Valid()
      modifies this
      ensures Valid() && runs == old(runs) + [runTime]
    {
      ghost var after := runs + [runTime];
      OneMoreRun(runs, runTime);
      AddWraps(runCount, |runs|, 1);
      AddWraps(totalRunTime, Sum(runs), runTime);
      runCount := (runCount + 1) % 0x1_0000_0000;
      totalRunTime := (totalRunTime + runTime) % 0x1_0000_0000;
      if runTime < minRunTime {
        minRunTime := runTime;
      }
      if runTime > maxRunTime {
        maxRunTime := runTime;
      }
      runs := after;
    }

    function Count(): (n: uint32)
      requires Valid()
      reads this
      ensures n == |runs| % 0x1_0000_0000
    {
      runCount
    }

    function TotalTime(): (t: uint32)
      requires Valid()
      reads this
      ensures t == Sum(runs) % 0x1_0000_0000
    {
      totalRunTime
    }

    function MaxTime(): (t: uint32)
      requires Valid()
      reads this
      ensures forall i :: 0 <= i < |runs| ==> runs[i] <= t
      ensures runs != [] ==> t in runs
    {
      MaxOfIsMaximum(runs);
      maxRunTime
    }

    /** minTime: 0 while the count is 0, the smallest run otherwise. */
    function MinTime(): (t: uint32)
      requires Valid()
      reads this
      ensures |runs| % 0x1_0000_0000 == 0 ==> t == 0
      ensures |runs| % 0x1_0000_0000 != 0 ==> t in runs && forall i :: 0 <= i < |runs| ==> t <= runs[i]
    {
      MinOfIsMinimum(runs);
      if runCount > 0 then minRunTime else 0
    }

    /** avgTime: 0 while the count is 0, the total over the count
      * otherwise (unsigned division). */
    function AvgTime(): (t: uint32)
      requires Valid()
      reads this
      ensures t == if |runs| % 0x1_0000_0000 == 0 then 0 else (Sum(runs) % 0x1_0000_0000) / (|runs| % 0x1_0000_0000)
    {
      if runCount == 0 then 0 else totalRunTime / runCount
    }
  }

  /** As long as neither the count nor the total has wrapped, a RunStat with
    * at least one run has minTime <= avgTime <= maxTime. */
  lemma RunStatBounds(stat: RunStat)
    requires stat.Valid() && 0 < |stat.runs| < 0x1_0000_0000 && Sum(stat.runs) < 0x1_0000_0000
    ensures stat.MinTime() <= stat.AvgTime() <= stat.MaxTime()
  {
    var runs := stat.runs;
    assert |runs| % 0x1_0000_0000 == |runs| && Sum(runs) % 0x1_0000_0000 == Sum(runs);
    assert stat.AvgTime() == Sum(runs) / |runs|;
    AverageBetween(runs);
  }
}

=== FILE: wall_clock.dfy ===
/** WallClock (src/common/time/WallClock.cpp): the last time that was set
  * and the millisecond counter reading at that moment, from which the
  * current time is extrapolated. The millisecond provider is a function
  * pointer in the firmware; here each call that reads it is given the
  * reading it would return. */
module WallClocks {
  import opened Bytes
  import SignalKTime

  /** The milliseconds elapsed between two readings of a 32-bit counter,
    * as now() computes them: UINT32_MAX - last + 1 + now when the counter
    * went past zero, now - last otherwise. */
  function Delta(last: uint32, now: uint32): (d: uint32)
    ensures d == (now - last) % 0x1_0000_0000
  {
    if last > now then 0xFFFF_FFFF - last + 1 + now else now - last
  }

  /** Any elapsed time below 2^32 ms is measured exactly, even when the
    * counter wraps around in between. */
  lemma DeltaMeasuresElapsed(last: uint32, elapsed: uint32)
    ensures Delta(last, (last + elapsed) % 0x1_0000_0000) == elapsed
  {
  }

  class WallClock {
    var timeWasSet: bool
    var lastKnownTime: SignalKTime.SKTime
    var millisecondsOfLastKnownTime: uint32
    var hasProvider: bool

    ghost predicate Valid()
      reads this
    {
      SignalKTime.Valid(lastKnownTime)
    }

    /** No provider, no time set, the epoch as the last known time. */
    constructor()
      ensures Valid() && !timeWasSet && !hasProvider && millisecondsOfLastKnownTime == 0
      ensures lastKnownTime == SignalKTime.Default()
    {
      timeWasSet := false;
      lastKnownTime := SignalKTime.Default();
      millisecondsOfLastKnownTime := 0;
      hasProvider := false;
    }

    /** currentMilliseconds: the provider's reading, or 0 without one. */
    function CurrentMilliseconds(reading: uint32): (ms: uint32)
      reads this
      ensures !hasProvider ==> ms == 0
      ensures hasProvider ==> ms == reading
    {
      if hasProvider then reading else 0
    }

    /** setMillisecondsProvider: the clock starts over from the epoch and
    * forgets that a time was set. */
    method SetMillisecondsProvider(present: bool, reading: uint32)
      modifies this
      ensures Valid() && hasProvider == present && !timeWasSet
      ensures millisecondsOfLastKnownTime == (if present then reading else 0)
      ensures lastKnownTime == SignalKTime.Default()
    {
      hasProvider := present;
      millisecondsOfLastKnownTime := CurrentMilliseconds(reading);
      lastKnownTime := SignalKTime.Default();
      timeWasSet := false;
    }

    /** setTime: remembers the time and the counter reading it goes with. */
    method SetTime(t: SignalKTime.SKTime, reading: uint32)
      requires SignalKTime.Valid(t)
      modifies this
      ensures Valid() && timeWasSet && lastKnownTime == t && hasProvider == old(hasProvider)
      ensures millisecondsOfLastKnownTime == CurrentMilliseconds(reading)
    {
      millisecondsOfLastKnownTime := CurrentMilliseconds(reading);
      lastKnownTime := t;
      timeWasSet := true;
    }

    /** now: the last known time advanced by the milliseconds the counter
    * moved since it was set. */
    method Now(reading: uint32) returns (t: SignalKTime.SKTime)
      requires Valid()
      ensures SignalKTime.Valid(t) && SignalKTime.HasMilliseconds(t)
      ensures SignalKTime.TotalMilliseconds(t)
              == (SignalKTime.TotalMilliseconds(lastKnownTime) + Delta(millisecondsOfLastKnownTime, CurrentMilliseconds(reading)))
                 % SignalKTime.MillisecondsModulus
    {
      var nowMs := CurrentMilliseconds(reading);
      var deltaMs: uint32;
      if millisecondsOfLastKnownTime > nowMs {
        deltaMs := 0xFFFF_FFFF - millisecondsOfLastKnownTime + 1 + nowMs;
      } else {
        deltaMs := nowMs - millisecondsOfLastKnownTime;
      }
      t := SignalKTime.AddMilliseconds(lastKnownTime, deltaMs);
    }

    function IsTimeSet(): (r: bool)
      reads this
      ensures r == timeWasSet
    {
      timeWasSet
    }
  }

  /** Setting a time and reading the clock elapsed ms later gives the time
    * set plus elapsed, whatever the counter read when the time was set. */
  method SetThenNow(clock: WallClock, t: SignalKTime.SKTime, atSet: uint32, elapsed: uint32) returns (r: SignalKTime.SKTime)
    requires SignalKTime.Valid(t) && clock.hasProvider
    modifies clock
    ensures SignalKTime.Valid(r) && SignalKTime.TotalMilliseconds(r) == (SignalKTime.TotalMilliseconds(t) + elapsed) % SignalKTime.MillisecondsModulus
  {
    clock.SetTime(t, atSet);
    DeltaMeasuresElapsed(atSet, elapsed);
    r := clock.Now((atSet + elapsed) % 0x1_0000_0000);
  }
}

=== FILE: wifi_handlers.dfy ===
/** The Wi-Fi module's handler for configuration frames
  * (src/esp/comms/KommandHandlerWiFiConfiguration.cpp) and the frame the
  * main board sends it (WiFiService::sendConfiguration). */
module WiFiConfigHandler {
  import opened Bytes
  import opened Wrappers
  import Ids = KommandIds
  import Kommand
  import opened KommandReader

  /** Size of the frame sendConfiguration builds: FixedSizeKommand<1024>. */
  const ConfigFrameData: nat := 1024

  /** One network of the main board's configuration. */
  datatype WiFiNetworkConfig = WiFiNetworkConfig(enabled: bool, ssid: seq<uint8>, password: seq<uint8>)

  /** The main board's Wi-Fi configuration, as far as it is sent. */
  datatype WiFiConfig = WiFiConfig(accessPoint: WiFiNetworkConfig, client: WiFiNetworkConfig, vesselURN: seq<uint8>)

  /** What the handler passes to its callback; a string is null when the
    * frame held no terminated string at that point. */
  datatype WiFiConfiguration = WiFiConfiguration(
    accessPointEnabled: uint8, accessPointSSID: Option<seq<uint8>>, accessPointPassword: Option<seq<uint8>>,
    clientEnabled: uint8, clientSSID: Option<seq<uint8>>, clientPassword: Option<seq<uint8>>,
    vesselURN: Option<seq<uint8>>)

  function Flag(b: bool): uint8
  {
    if b then 1 else 0
  }

  /** What the handler reads for one network: its flag and two strings. */
  datatype NetworkReading = NetworkReading(enabled: uint8, ssid: Option<seq<uint8>>, password: Option<seq<uint8>>)

  function ReadNetwork(data: seq<uint8>, i: nat): Read<NetworkReading>
  {
    var enabled := ReadU8(data, i);
    var ssid := ReadString(data, enabled.next);
    var password := ReadString(data, ssid.next);
    Read(NetworkReading(enabled.value, ssid.value, password.value), password.next)
  }

  /** The seven reads of handleKommand, in order, from data index `i`. */
  function DecodeFrom(data: seq<uint8>, i: nat): WiFiConfiguration
  {
    var ap := ReadNetwork(data, i);
    var client := ReadNetwork(data, ap.next);
    var urn := ReadString(data, client.next);
    WiFiConfiguration(ap.value.enabled, ap.value.ssid, ap.value.password,
                      client.value.enabled, client.value.ssid, client.value.password, urn.value)
  }

  /** handleKommand: frames with another identifier are not handled; a
    * configuration frame is decoded and delivered to the callback exactly
    * once (`delivered`). */
  method HandleKommand(reader: KommandReader) returns (handled: bool, delivered: Option<WiFiConfiguration>)
    requires reader.Valid()
    modifies reader
    ensures reader.Valid()
    ensures handled <==> Identifier(reader.frame) == Ids.WiFiConfiguration
    ensures handled ==> delivered == Some(DecodeFrom(Data(reader.frame), old(reader.index)))
    ensures !handled ==> delivered == None && reader.index == old(reader.index)
  {
    if reader.GetKommandIdentifier() != Ids.WiFiConfiguration {
      return false, None;
    }
    var apEnabled := reader.Read8();
    var apSSID := reader.ReadNullTerminatedString();
    var apPassword := reader.ReadNullTerminatedString();
    var clientEnabled := reader.Read8();
    var clientSSID := reader.ReadNullTerminatedString();
    var clientPassword := reader.ReadNullTerminatedString();
    var urn := reader.ReadNullTerminatedString();
    delivered := Some(WiFiConfiguration(apEnabled, apSSID, apPassword, clientEnabled, clientSSID, clientPassword, urn));
    handled := true;
  }

  /** Appending one network with the appenders as written. */
  function AppendNetwork(k: seq<uint8>, cap: nat, n: WiFiNetworkConfig): (r: seq<uint8>)
    requires |k| <= cap
    ensures |r| <= cap && k <= r
  {
    var k1 := Kommand.Put(k, cap, [Flag(n.enabled)]);
    var k2 := Kommand.PutString(k1, cap, Some(n.ssid));
    Kommand.PutString(k2, cap, Some(n.password))
  }

  /** The frame of sendConfiguration, built with the appenders as written. */
  function SendConfiguration(c: WiFiConfig): seq<uint8>
  {
    var cap := ConfigFrameData + 2;
    var k := AppendNetwork(AppendNetwork(LE16(Ids.WiFiConfiguration), cap, c.accessPoint), cap, c.client);
    Kommand.PutString(k, cap, Some(c.vesselURN))
  }

  /** What a receiver should get for a configuration. */
  function Expected(c: WiFiConfig): WiFiConfiguration
  {
    WiFiConfiguration(Flag(c.accessPoint.enabled), Some(c.accessPoint.ssid), Some(c.accessPoint.password),
                      Flag(c.client.enabled), Some(c.client.ssid), Some(c.client.password), Some(c.vesselURN))
  }

  /** The main board's default network settings (ssid "KBox", empty
    * password, client disabled with empty strings). */
  function DefaultConfig(urn: seq<uint8>): WiFiConfig
  {
    WiFiConfig(WiFiNetworkConfig(true, [0x4B, 0x42, 0x6F, 0x78], []), WiFiNetworkConfig(false, [], []), urn)
  }

  /** As written, the default configuration does not survive the trip: the
    * empty strings get no terminator, so the Wi-Fi module takes the first
    * byte of the vessel URN for the client flag and finds no URN at all. */
  lemma DefaultConfigIsMisread()
    ensures var c := DefaultConfig([0x75, 0x72, 0x6E]);
      var d := DecodeFrom(Data(SendConfiguration(c)), 0);
      d != Expected(c) && d.clientEnabled == 0x75 && d.vesselURN == None
  {
    var c := DefaultConfig([0x75, 0x72, 0x6E]);
    var data: seq<uint8> := [1, 0x4B, 0x42, 0x6F, 0x78, 0, 0, 0x75, 0x72, 0x6E, 0];
    DefaultConfigFrame();
    IdentifierOf(Ids.WiFiConfiguration, data);
    DefaultConfigReads(data);
  }

  /** The frame the default configuration produces, as written. */
  lemma DefaultConfigFrame()
    ensures SendConfiguration(DefaultConfig([0x75, 0x72, 0x6E]))
            == LE16(Ids.WiFiConfiguration) + [1, 0x4B, 0x42, 0x6F, 0x78, 0, 0, 0x75, 0x72, 0x6E, 0]
  {
    var c := DefaultConfig([0x75, 0x72, 0x6E]);
    var cap := ConfigFrameData + 2;
    var k0 := LE16(Ids.WiFiConfiguration);
    var k1 := k0 + [1];
    var k2 := k1 + [0x4B, 0x42, 0x6F, 0x78] + [NUL];
    Kommand.PutStringCases(k1, cap, Some(c.accessPoint.ssid));
    Kommand.PutStringCases(k2, cap, Some(c.accessPoint.password));
    assert AppendNetwork(k0, cap, c.accessPoint) == k2;
    var k4 := k2 + [0];
    Kommand.PutStringCases(k4, cap, Some(c.client.ssid));
    Kommand.PutStringCases(k4, cap, Some(c.client.password));
    assert AppendNetwork(k2, cap, c.client) == k4;
    Kommand.PutStringCases(k4, cap, Some(c.vesselURN));
    assert k4 + [0x75, 0x72, 0x6E] + [NUL] == k0 + [1, 0x4B, 0x42, 0x6F, 0x78, 0, 0, 0x75, 0x72, 0x6E, 0];
  }

  /** How the Wi-Fi module reads that frame's data. */
  lemma DefaultConfigReads(data: seq<uint8>)
    requires data == [1, 0x4B, 0x42, 0x6F, 0x78, 0, 0, 0x75, 0x72, 0x6E, 0]
    ensures DecodeFrom(data, 0) == WiFiConfiguration(1, Some([0x4B, 0x42, 0x6F, 0x78]), Some([]),
                                                     0x75, Some([0x72, 0x6E]), None, None)
  {
    assert ReadString(data, 1) == Read(Some([0x4B, 0x42, 0x6F, 0x78]), 6) by {
      ReadStringAfter([1], [0x4B, 0x42, 0x6F, 0x78], data[6..]);
      assert [1] + [0x4B, 0x42, 0x6F, 0x78] + [NUL] + data[6..] == data;
    }
    assert ReadString(data, 6) == Read(Some([]), 7);
    assert ReadNetwork(data, 0) == Read(NetworkReading(1, Some([0x4B, 0x42, 0x6F, 0x78]), Some([])), 7);
    assert ReadString(data, 8) == Read(Some([0x72, 0x6E]), 11) by {
      ReadStringAfter(data[..8], [0x72, 0x6E], []);
      assert data[..8] + [0x72, 0x6E] + [NUL] + [] == data;
    }
    assert ReadString(data, 11) == Read(None, 11);
    assert ReadNetwork(data, 7) == Read(NetworkReading(0x75, Some([0x72, 0x6E]), None), 11);
  }

  /** The evidently intended string appender: the terminator is written
    * whenever there is room for it, even for an empty string. */
  function PutTerminated(k: seq<uint8>, capacity: nat, s: seq<uint8>): (r: seq<uint8>)
    requires |k| <= capacity
    ensures |r| <= capacity
    ensures |k| + |s| + 1 <= capacity ==> r == k + s + [NUL]
  {
    var room := capacity - |k| - 1;
    if room < 0 then k
    else
      var len := if |s| > room then room else |s|;
      k + s[..len] + [NUL]
  }

  /** Appending one network with the corrected string appender. */
  function AppendNetworkTerminated(k: seq<uint8>, cap: nat, n: WiFiNetworkConfig): (r: seq<uint8>)
    requires |k| <= cap
    ensures |r| <= cap
  {
    var k1 := Kommand.Put(k, cap, [Flag(n.enabled)]);
    var k2 := PutTerminated(k1, cap, n.ssid);
    PutTerminated(k2, cap, n.password)
  }

  /** sendConfiguration with the corrected string appender. */
  function SendConfigurationTerminated(c: WiFiConfig): seq<uint8>
  {
    var cap := ConfigFrameData + 2;
    var k := AppendNetworkTerminated(AppendNetworkTerminated(LE16(Ids.WiFiConfiguration), cap, c.accessPoint), cap, c.client);
    PutTerminated(k, cap, c.vesselURN)
  }

  /** The bytes one network takes when nothing is truncated. */
  function NetworkLayout(n: WiFiNetworkConfig): seq<uint8>
  {
    [Flag(n.enabled)] + n.ssid + [NUL] + n.password + [NUL]
  }

  /** The bytes of a configuration frame's data when nothing is truncated. */
  function Layout(c: WiFiConfig): seq<uint8>
  {
    NetworkLayout(c.accessPoint) + NetworkLayout(c.client) + c.vesselURN + [NUL]
  }

  /** None of the five strings carries a NUL. */
  predicate NulFree(c: WiFiConfig)
  {
    NoNul(c.accessPoint.ssid) && NoNul(c.accessPoint.password) && NoNul(c.client.ssid)
    && NoNul(c.client.password) && NoNul(c.vesselURN)
  }

  /** The strings carry no NUL and the whole frame fits in 1026 bytes. */
  predicate Sendable(c: WiFiConfig)
  {
    NulFree(c) && 2 + |Layout(c)| <= ConfigFrameData + 2
  }

  lemma NetworkStep(k: seq<uint8>, cap: nat, n: WiFiNetworkConfig)
    requires |k| + |NetworkLayout(n)| <= cap
    ensures AppendNetworkTerminated(k, cap, n) == k + NetworkLayout(n)
  {
    var k1 := k + [Flag(n.enabled)];
    var k2 := k1 + n.ssid + [NUL];
    assert PutTerminated(k1, cap, n.ssid) == k2;
    assert PutTerminated(k2, cap, n.password) == k2 + n.password + [NUL];
  }

  lemma LayoutParts(k: seq<uint8>, c: WiFiConfig)
    ensures k + NetworkLayout(c.accessPoint) + NetworkLayout(c.client) + c.vesselURN + [NUL] == k + Layout(c)
  {
  }

  lemma TerminatedLayoutAfter(k: seq<uint8>, cap: nat, c: WiFiConfig)
    requires |k| + |Layout(c)| <= cap
    ensures PutTerminated(AppendNetworkTerminated(AppendNetworkTerminated(k, cap, c.accessPoint), cap, c.client), cap, c.vesselURN)
            == k + Layout(c)
  {
    var k3 := k + NetworkLayout(c.accessPoint);
    NetworkStep(k, cap, c.accessPoint);
    NetworkStep(k3, cap, c.client);
    LayoutParts(k, c);
  }

  lemma TerminatedLayout(c: WiFiConfig)
    requires 2 + |Layout(c)| <= ConfigFrameData + 2
    ensures SendConfigurationTerminated(c) == LE16(Ids.WiFiConfiguration) + Layout(c)
  {
    TerminatedLayoutAfter(LE16(Ids.WiFiConfiguration), ConfigFrameData + 2, c);
  }

  lemma FlagAt(a: seq<uint8>, n: WiFiNetworkConfig, d: seq<uint8>)
    requires a + NetworkLayout(n) <= d
    ensures ReadU8(d, |a|) == Read(Flag(n.enabled), |a| + 1)
  {
    assert d[|a|] == (a + NetworkLayout(n))[|a|];
  }

  lemma SSIDAt(a: seq<uint8>, n: WiFiNetworkConfig, d: seq<uint8>)
    requires a + NetworkLayout(n) <= d && NoNul(n.ssid)
    ensures ReadString(d, |a| + 1) == Read(Some(n.ssid), |a| + 1 + |n.ssid| + 1)
  {
    var b1 := a + [Flag(n.enabled)];
    assert a + NetworkLayout(n) == b1 + n.ssid + [NUL] + (n.password + [NUL]);
    ReadStringWithin(b1, n.ssid, d);
  }

  lemma PasswordAt(a: seq<uint8>, n: WiFiNetworkConfig, d: seq<uint8>)
    requires a + NetworkLayout(n) <= d && NoNul(n.password)
    ensures ReadString(d, |a| + 1 + |n.ssid| + 1) == Read(Some(n.password), |a| + |NetworkLayout(n)|)
  {
    var b2 := a + [Flag(n.enabled)] + n.ssid + [NUL];
    assert a + NetworkLayout(n) == b2 + n.password + [NUL];
    ReadStringWithin(b2, n.password, d);
  }

  /** A network laid out at index |a| of the data reads back whole. */
  lemma NetworkRead(a: seq<uint8>, n: WiFiNetworkConfig, d: seq<uint8>)
    requires a + NetworkLayout(n) <= d && NoNul(n.ssid) && NoNul(n.password)
    ensures ReadNetwork(d, |a|) == Read(NetworkReading(Flag(n.enabled), Some(n.ssid), Some(n.password)),
                                        |a| + |NetworkLayout(n)|)
  {
    FlagAt(a, n, d);
    SSIDAt(a, n, d);
    PasswordAt(a, n, d);
  }

  lemma AccessPointRead(c: WiFiConfig)
    requires NoNul(c.accessPoint.ssid) && NoNul(c.accessPoint.password)
    ensures ReadNetwork(Layout(c), 0)
            == Read(NetworkReading(Flag(c.accessPoint.enabled), Some(c.accessPoint.ssid), Some(c.accessPoint.password)),
                    |NetworkLayout(c.accessPoint)|)
  {
    assert [] + NetworkLayout(c.accessPoint) <= Layout(c);
    NetworkRead([], c.accessPoint, Layout(c));
  }

  lemma ClientRead(c: WiFiConfig)
    requires NoNul(c.client.ssid) && NoNul(c.client.password)
    ensures ReadNetwork(Layout(c), |NetworkLayout(c.accessPoint)|)
            == Read(NetworkReading(Flag(c.client.enabled), Some(c.client.ssid), Some(c.client.password)),
                    |NetworkLayout(c.accessPoint)| + |NetworkLayout(c.client)|)
  {
    var ap := NetworkLayout(c.accessPoint);
    assert ap + NetworkLayout(c.client) <= Layout(c);
    NetworkRead(ap, c.client, Layout(c));
  }

  lemma URNRead(c: WiFiConfig)
    requires NoNul(c.vesselURN)
    ensures ReadString(Layout(c), |NetworkLayout(c.accessPoint)| + |NetworkLayout(c.client)|)
            == Read(Some(c.vesselURN), |Layout(c)|)
  {
    ReadStringWithin(NetworkLayout(c.accessPoint) + NetworkLayout(c.client), c.vesselURN, Layout(c));
  }

  /** Decoding the layout gives back every field. */
  lemma DecodeLayout(c: WiFiConfig)
    requires NulFree(c)
    ensures DecodeFrom(Layout(c), 0) == Expected(c)
  {
    AccessPointRead(c);
    ClientRead(c);
    URNRead(c);
  }

  /** With the corrected appender, every configuration that fits is received
    * exactly as sent, empty strings included. */
  lemma ConfigRoundTrip(c: WiFiConfig)
    requires Sendable(c)
    ensures Identifier(SendConfigurationTerminated(c)) == Ids.WiFiConfiguration
    ensures DecodeFrom(Data(SendConfigurationTerminated(c)), 0) == Expected(c)
  {
    TerminatedLayout(c);
    IdentifierOf(Ids.WiFiConfiguration, Layout(c));
    DecodeLayout(c);
  }

  /** As written, the trip is exact as long as no string is empty. */
  lemma ConfigRoundTripNonEmpty(c: WiFiConfig)
    requires Sendable(c)
    requires |c.accessPoint.ssid| > 0 && |c.accessPoint.password| > 0 && |c.client.ssid| > 0
    requires |c.client.password| > 0 && |c.vesselURN| > 0
    ensures DecodeFrom(Data(SendConfiguration(c)), 0) == Expected(c)
  {
    assert SendConfiguration(c) == SendConfigurationTerminated(c);
    ConfigRoundTrip(c);
  }
}

/** The main board's handler for log frames coming from the Wi-Fi module
  * (src/host/comms/KommandHandlerWiFiLog.cpp). */
module WiFiLogHandler {
  import opened Bytes
  import opened Wrappers
  import Ids = KommandIds
  import opened KommandReader

  /** KBoxLoggingLevel, in the order of its prefixes "LHD" … "LWE"
    * (src/host/services/SDLoggingService.cpp:268); the header that declares
    * it is not part of this model. */
  datatype Level = Debug | Info | Error | ESPDebug | ESPInfo | ESPError

  /** Messages from the Wi-Fi module are re-labelled as ESP messages; an
    * unknown level becomes ESPDebug. */
  function ESPLevel(raw: uint16): (l: Level)
    ensures l.ESPDebug? || l.ESPInfo? || l.ESPError?
    ensures raw == 1 <==> l.ESPInfo?
    ensures raw == 2 <==> l.ESPError?
  {
    if raw == 1 then ESPInfo
    else if raw == 2 then ESPError
    else ESPDebug
  }

  datatype LogEntry = LogEntry(level: Level, fname: seq<uint8>, lineno: uint16, message: seq<uint8>)

  /** handleKommand: `logged` is the entry passed to the logger, if any. */
  method HandleKommand(reader: KommandReader) returns (handled: bool, logged: Option<LogEntry>)
    requires reader.Valid() && reader.index == 0
    modifies reader
    ensures reader.Valid()
    ensures handled <==> logged.Some?
    ensures handled <==> Identifier(reader.frame) == Ids.Log && |Data(reader.frame)| >= 6
                         && DecodeLog(Data(reader.frame)).Some?
    ensures handled ==> logged == DecodeLog(Data(reader.frame))
  {
    if reader.GetKommandIdentifier() != Ids.Log {
      return false, None;
    }
    if reader.DataSize() < 6 {
      return false, None;
    }
    var level := reader.Read16();
    var lineno := reader.Read16();
    var _ := reader.Read16();
    var fname := reader.ReadNullTerminatedString();
    if fname.None? {
      return false, None;
    }
    var log := reader.ReadNullTerminatedString();
    if log.None? {
      return false, None;
    }
    logged := Some(LogEntry(ESPLevel(level), fname.value, lineno, log.value));
    handled := true;
  }

  /** The reads of a log frame's data (at least six bytes): level, line
    * number, file-name length (read and ignored), file name, message. */
  function DecodeLog(data: seq<uint8>): Option<LogEntry>
    requires |data| >= 6
  {
    var level := ReadU16(data, 0);
    var lineno := ReadU16(data, 2);
    var fname := ReadString(data, 6);
    var msg := ReadString(data, fname.next);
    if fname.value.None? || msg.value.None? then None
    else Some(LogEntry(ESPLevel(level.value), fname.value.value, lineno.value, msg.value.value))
  }

  /** The data of a log frame as the main board's own sender lays it out
    * (USBService::sendLogFrame): level, line, name length, name, NUL,
    * message, NUL. */
  function LogPayload(level: uint16, lineno: uint16, fname: seq<uint8>, message: seq<uint8>): seq<uint8>
    requires |fname| < 0x1_0000
  {
    LE16(level) + LE16(lineno) + LE16(|fname|) + fname + [NUL] + message + [NUL]
  }

  /** A well-formed log frame is logged once, with its file name, line and
    * message, at the ESP counterpart of its level. */
  lemma LogFrameDecodes(level: uint16, lineno: uint16, fname: seq<uint8>, message: seq<uint8>)
    requires |fname| < 0x1_0000 && NoNul(fname) && NoNul(message)
    ensures var data := LogPayload(level, lineno, fname, message);
      |data| >= 6 && DecodeLog(data) == Some(LogEntry(ESPLevel(level), fname, lineno, message))
  {
    var head := LE16(level) + LE16(lineno) + LE16(|fname|);
    var data := LogPayload(level, lineno, fname, message);
    ReadU16After([], level, data[2..]);
    assert [] + LE16(level) + data[2..] == data;
    ReadU16After(LE16(level), lineno, data[4..]);
    assert LE16(level) + LE16(lineno) + data[4..] == data;
    ReadStringAfter(head, fname, message + [NUL]);
    assert head + fname + [NUL] + (message + [NUL]) == data;
    ReadStringAfter(head + fname + [NUL], message, []);
    assert head + fname + [NUL] + message + [NUL] + [] == data;
  }

  /** A frame whose data is cut before the message's terminator is
    * rejected. */
  lemma TruncatedLogRejected(level: uint16, lineno: uint16, fname: seq<uint8>, message: seq<uint8>)
    requires |fname| < 0x1_0000 && NoNul(fname) && NoNul(message)
    ensures var data := LogPayload(level, lineno, fname, message);
      DecodeLog(data[..|data| - 1]) == None
  {
    var data := LogPayload(level, lineno, fname, message);
    var cut := data[..|data| - 1];
    var head := LE16(level) + LE16(lineno) + LE16(|fname|);
    assert cut == head + fname + [NUL] + message;
    ReadStringAfter(head, fname, message);
    var m := |head| + |fname| + 1;
    ReadStringMeaning(cut, m);
    assert forall j :: m <= j < |cut| ==> cut[j] == message[j - m];
  }
}

=== FILE: wrappers.dfy ===
/** Option and Result, used wherever the source signals an error by a
  * null pointer, a `false` return or a raised exception. */
module Wrappers {
  datatype Option<T> = None | Some(value: T)

  datatype Result<T, E> = Ok(value: T) | Err(error: E)
  {
    predicate IsFailure() { Err? }
  }
}
